=== FILE: README.md ===
# repoWatch decision logic in Dafny

repoWatch watches a git repository (and its submodules) and shows what is
changing: files edited right now, files not yet committed, and commits not yet
pushed. The repository holds several prototypes side by side: Textual apps in
Python (`index.py`, `repo_watch.py`, `display/index.py`, the `reference/` and
`old/reference/` trees) and small C analyzers and viewers that talk to each
other through JSON reports (`git-submodules`, `dirty-files`,
`committed-not-pushed`, `git-status`, `file-changes-watcher`, the inotify
daemon, `json-utils`, the three-pane and interactive TUIs, `main.c`).

This project models the pure decision logic of those prototypes, one Dafny
module per source file, and proves what each one promises. The prototypes
disagree with each other, and each module follows its own file:

- **Clustering and naming.** `DisplayClusters` (display/index.py, root-first
  bucketing, chunking, sorting, group and cluster names) and `FileClustering`
  (file_cluster.py, one bucket per immediate parent).
- **Event admission.** `ReferenceWatcher` (ignore rule, sliding one-second
  rate limit, per-key debounce, the polling watcher's modification-time diff),
  `OldWatcher`, `FileFilter`, and the exclude rule and event table of
  `InotifyDaemon`.
- **Animations.** `Animation` (shared frames and sequences), `DisplayAnimation`,
  `ReferenceAnimation`, the active-change expiry of `IndexApp`, and the
  scrolling text of `TuiAnimations`.
- **Git output parsing.** `GitTracker`, `ReferenceGitTracker`, `DirtyFiles`,
  `GitSubmodules`, `CommittedNotPushed` and `GitStatus`. They read porcelain
  status lines, log lines, `.gitmodules` lines and the analyzers' text
  reports.
- **View models and keyed tables.** `RepoWatch`, `OldApp`, `OldWidgets`,
  `IndexApp`, `FileChangesWatcher` and `PaneData`, plus `ReportHandoffs`,
  which composes one tool's report with the next tool's reader.
- **JSON.** `Json` (json-utils.c: the recursive-descent reader, the compact
  writer, object set and array append), `JsonEscape` (an independent decoder
  for the writer's escapes) and `JsonPath` (get-value.c).
- **`${VAR:-default}` expansion.** `ExpandVars` holds the C copies (git-submodules.c, main.c,
  inotify-watcher.c) and the Python copies with their second
  `os.path.expandvars` pass. `MainOrchestrator`, `InotifyWatcher`,
  `OldOrchestrator` use them.
- **Small helpers.** `Styles` (file colours, the djb2 repository colour, the
  adjacent-colour fix), `ColorAssignment`, `TuiUi` (pane widths, text
  fitting), `FileTree`, `InteractiveTui` and `TreeBuild` (tree lines, key
  handling, name truncation).

Shared library modules: `Wrappers` (Option/Result), `Text` (C and Python
string helpers), `Ordering` (Python string and path order, stable sort),
`PyPath` (`PurePosixPath`), `PyDict`, `WatchEvents` and `Glyphs`.

Conventions:

- **Time.** Every clock is an integer. Python float seconds become
  milliseconds; C `time_t` stays whole seconds.
- **Bytes.** A C string is a `seq<char>` holding the bytes before its
  terminator, so one `char` stands for one byte.
- **I/O.** Process, file and OS interactions arrive as parameters: command
  output as lines or `(exit code, output)` pairs, files as parsed trees or
  line sequences, and the environment as a map. Filesystem tests become
  predicates.
- **JSON numbers.** They are kept as their lexeme.

Behaviour of the code worth knowing before reading the model:

- **Animations.** display/index.py stops a finished non-looping animation;
  it does not revert to idle.
- **Clustering.** file_cluster.py groups by the immediate parent directory.
- **Admission order.** The reference watcher checks the rate limit before the
  debounce. An event the debounce then drops has still used up a rate-limit
  slot.
- **Status precedence.** Unstaged-wins holds only in the two porcelain
  parsers. The GitPython status of git_tracker.py concatenates the staged,
  unstaged and untracked lists, so a path can appear twice.
- **Commit files.** The subprocess log of git_tracker.py always leaves the
  files empty.
- **Relative paths.** Paths outside the root are dropped by the old widgets
  and by index.py's change handler. The old widgets keep relative paths
  verbatim.
- **JSON strings.** json-utils writes escapes but reads them back raw.
- **dirty-files input.** Its `main` parses git-submodules' JSON report as a
  text format and so collects no repository.
- **Inactivity quit.** The older app defines an inactivity timer but never
  starts it.

The committed-not-pushed report and its submodule filter are modelled as
written. Each defect under "## Findings" also has a corrected definition with
its intended property proved.

## Model

| member | source | states |
|---|---|---|
| ColorAssignment.ExtractRepoName | three-pane-tui/test_color_assignment.c:6-14 | a name comes back exactly when the item is present and starts with "Repository: ", and the item is that prefix followed by the name |
| ColorAssignment.HeaderRoundTrip | three-pane-tui/test_color_assignment.c:6-14 | reading back a header written for any name gives that name |
| ColorAssignment.AssignColorsLoop | three-pane-tui/test_color_assignment.c:38-56 | the loop over the items produces the colour list of the recursive definition |
| ColorAssignment.ColorsClosedForm | three-pane-tui/test_color_assignment.c:39-56 | the colour of item i depends only on how many headers occur up to and including it: 0 for none, the h-th colour of the 1..8 cycle for h |
| ColorAssignment.ColorsMeaning | three-pane-tui/test_color_assignment.c:44-55 | headers get a colour in 1..8, lines before the first header get 0, and a non-header line has the colour of the line above it |
| ColorAssignment.NeighbourHeadersDiffer | three-pane-tui/test_color_assignment.c:46-47 | two consecutive headers never get the same colour, the wrap from 8 to 1 included |
| ColorAssignment.ViewportEnd | three-pane-tui/test_color_assignment.c:65-67 | the end of the viewport is start plus height clamped to the item count, and never beyond either |
| CommittedNotPushed.IsSubmodulePath | committed-not-pushed/committed-not-pushed.c:48-55 | true exactly when the path equals one of the collected submodule paths |
| CommittedNotPushed.AddedPathIsSubmodule | committed-not-pushed/committed-not-pushed.c:48-63 | after adding a path, a path counts as a submodule exactly when it is the added one or counted before |
| CommittedNotPushed.ExtensionStart | committed-not-pushed/committed-not-pushed.c:113-117 | the extension starts at the last '.', which is not the first byte and has no '.' after it; without one, no byte after the first is a '.' |
| CommittedNotPushed.TruncateAsWritten | committed-not-pushed/committed-not-pushed.c:105-147 | directories and names of at most 32 bytes are copied whole; a long name without an extension becomes its first 24 bytes and "..." in a 25-byte buffer; the extension case computes its room in wrapping size_t arithmetic |
| CommittedNotPushed.NoExtensionOverflows | committed-not-pushed/committed-not-pushed.c:136-143 | for every long name without a '.', 28 bytes are written into the 25-byte buffer |
| CommittedNotPushed.LongExtensionWraps | committed-not-pushed/committed-not-pushed.c:117-135 | for every long name whose extension has 22 bytes or more, the room wraps, the result is 3 bytes longer than the name and the buffer size wraps back to 25 bytes |
| CommittedNotPushed.TruncateFilename | committed-not-pushed/committed-not-pushed.c:105-147 | the intended shortening: the result always fits its buffer, short names and directories are unchanged, a long name keeps a prefix, then "...", then its whole extension, and is 24 bytes when the extension is at most 20 |
| CommittedNotPushed.TruncateKeepsExtension | committed-not-pushed/committed-not-pushed.c:117-135 | the shortened name has the same extension as the name |
| CommittedNotPushed.TextsAgree | committed-not-pushed/committed-not-pushed.c:105-147 | unless the extension is 22 bytes or more, the code as written prints the same text as the intended shortening |
| CommittedNotPushed.CommitHash | committed-not-pushed/committed-not-pushed.c:151-160 | the hash is the longest prefix of the line of at most 8 bytes without a space |
| CommittedNotPushed.HashOfOneline | committed-not-pushed/committed-not-pushed.c:151-160 | for a `--oneline` line "hash message" with a hash of at most 8 bytes, the extracted hash is that hash |
| CommittedNotPushed.CommitFiles | committed-not-pushed/committed-not-pushed.c:177-197 | a name is listed exactly when it is a non-empty output line after the first; when no later line is empty the files are exactly the later lines, in order |
| CommittedNotPushed.CommitFilesSkipBlank | committed-not-pushed/committed-not-pushed.c:177-197 | removing an empty line after the first changes nothing, so the files are the later lines in order with the empty ones left out |
| CommittedNotPushed.Commits | committed-not-pushed/committed-not-pushed.c:252-267 | one commit per log line, in order, each with the files `git show` lists for that line's hash |
| CommittedNotPushed.UnpushedCommits | committed-not-pushed/committed-not-pushed.c:207-270 | no commits when the remote or the branch is empty; otherwise one commit per non-empty line of `git log <remote>/<branch>..HEAD`, in order |
| CommittedNotPushed.FirstRemoteOnly | committed-not-pushed/committed-not-pushed.c:217-221 | only the first line of `git remote` matters |
| CommittedNotPushed.AddEntry | committed-not-pushed/committed-not-pushed.c:294-325 | an entry either changes nothing or appends one repository whose path is not a collected submodule and appends the entry's submodule paths |
| CommittedNotPushed.AddEntries | committed-not-pushed/committed-not-pushed.c:293-326 | the repositories collected so far stay, in order, at the front |
| CommittedNotPushed.ParseReport | committed-not-pushed/committed-not-pushed.c:273-329 | a missing or non-object report, or one without a `repositories` array, gives an empty collection; otherwise the collection is the one the array's items build when added in order |
| CommittedNotPushed.AddWellFormedEntry | committed-not-pushed/committed-not-pushed.c:298-324 | an object with string name and path is skipped when its path is a collected submodule, otherwise it is added and its submodule paths are collected |
| CommittedNotPushed.FilterIsOrderDependent | committed-not-pushed/committed-not-pushed.c:306-324 | a submodule listed after its parent is skipped |
| CommittedNotPushed.SubmoduleFirstIsKept | committed-not-pushed/committed-not-pushed.c:306-324 | a submodule listed before its parent is checked as well |
| CommittedNotPushed.FixedSkipsEverySubmodule | committed-not-pushed/committed-not-pushed.c:306-323 | the intended filter: a repository is checked exactly when some entry names it and no entry anywhere in the report lists its path as a submodule, whatever the order of the entries |
| CommittedNotPushed.Reported | committed-not-pushed/committed-not-pushed.c:349-353 | the report lists exactly the repositories with at least one commit |
| CommittedNotPushed.Summary | committed-not-pushed/committed-not-pushed.c:346-391 | the repository total is the number of repositories listed in the report, the commit total is the sum over them, the first never exceeds the second, and one is zero exactly when the other is |
| CommittedNotPushed.ReportedTotals | committed-not-pushed/committed-not-pushed.c:346-356 | dropping the repositories without commits leaves the commit total unchanged, and there are at most as many reported repositories as commits |
| CommittedNotPushed.ReportFiles | committed-not-pushed/committed-not-pushed.c:369-374 | one entry per file; names of at most 32 bytes are listed unchanged, and a name without an over-long extension is listed as the intended shortening gives it |
| CommittedNotPushed.ShortenAll | committed-not-pushed/committed-not-pushed.c:370-373 | each file is shortened with `truncate_filename` as written |
| DirtyFiles.DirtyFile | dirty-files/dirty-files.c:84-103 | a status line yields a file exactly when it has at least 4 bytes and its two status columns are not both blank; the file is the text from offset 3 up to the first newline |
| DirtyFiles.DirtyFileList | dirty-files/dirty-files.c:72-107 | every listed file comes from one of the output lines, and there are at most as many files as lines |
| DirtyFiles.DirtyFileListAppend | dirty-files/dirty-files.c:84-104 | lines are judged one at a time: the files of two outputs are the files of each, concatenated |
| DirtyFiles.PorcelainRoundTrip | dirty-files/dirty-files.c:84-103 | a porcelain line "XY file" gives back the file unless both status columns are blank |
| DirtyFiles.SectionStep | dirty-files/dirty-files.c:125-156 | a line closes a section and reports a repository exactly when it is at most one byte, matches none of the three markers, and the section had a name, a path and a DIRTY status; a "Repository: " line resets the dirty flag |
| DirtyFiles.UnclosedSectionDropped | dirty-files/dirty-files.c:145-156 | without a blank line nothing is ever collected |
| DirtyFiles.SectionCollectedIffDirty | dirty-files/dirty-files.c:110-160 | a "Repository:/Path:/Status:" text section closed by a blank line is collected exactly when its status is DIRTY, and parsing continues with the rest (git-submodules does not write this format; see Findings) |
| DirtyFiles.ParseSubmodulesReport | dirty-files/dirty-files.c:110-160 | no more repositories than lines, each with a non-empty name and path and no files yet |
| DirtyFiles.ListedRepo | dirty-files/dirty-files.c:192-215 | a listed line yields a repository only when it contains "  - "; the name is the text from offset 4 up to the first '(' and the path runs from there to the first ')' |
| DirtyFiles.ListingLineRoundTrip | dirty-files/dirty-files.c:192-215 | the line "  - name (path)" the monitor prints reads back as that path and the name with its trailing space |
| DirtyFiles.ParseDirtyListing | dirty-files/dirty-files.c:163-224 | in `run_git_submodules_analysis`, which `main` never calls: no more repositories than lines, no name holding `(`, no path holding `)`, and no files yet |
| DirtyFiles.NothingBeforeHeader | dirty-files/dirty-files.c:183-193 | without a "Dirty repositories:" line no repository is collected |
| DirtyFiles.FileListing | dirty-files/dirty-files.c:246-252 | a repository's block lists each file as "  - file", or the single line "  (No dirty files found)" |
| DirtyFiles.ReportLines | dirty-files/dirty-files.c:227-266 | the report ends with "Summary:", the repository count and the total number of files |
| DirtyFiles.TotalMatchesListing | dirty-files/dirty-files.c:240-258 | the file total in the summary equals the number of "  - " lines the report lists |
| DirtyFiles.Analyze | dirty-files/dirty-files.c:296-307 | one entry per dirty repository of a text report in the "Repository:/Path:/Status:" format, in order, each with exactly the dirty files of its own status output |
| DirtyFiles.AnalyzeReport | dirty-files/dirty-files.c:296-307 | with a JSON reader of the report, one entry per dirty repository the reader finds, in order, each with exactly the dirty files of its own status output |
| DisplayAnimation.IdleFrames | display/index.py:105-109 | the i-th idle frame lasts 300 ms and shows the watching text followed by i mod 4 + 1 dots |
| DisplayAnimation.LibraryShape | display/index.py:76-115 | the library holds exactly "file_modified" (5 frames), "file_created" (4 frames) and "idle" (20 frames), and only idle loops |
| DisplayAnimation.Trigger | display/index.py:117-124 | a known change type starts its animation from frame 0 at the current time; an unknown one changes nothing; a well-formed state stays well-formed |
| DisplayAnimation.DeletedChangesNothing | display/index.py:117-124 | a "deleted" change has no animation and leaves the engine untouched |
| DisplayAnimation.StartIdle | display/index.py:126-132 | idle starts from frame 0 only when nothing is playing; a playing engine is left as it is |
| DisplayAnimation.Stop | display/index.py:155-158 | afterwards nothing plays and no animation is set |
| DisplayAnimation.CurrentFrame | display/index.py:134-153 | no frame unless playing; within the frame's duration the same frame is shown with the state unchanged; once it has passed, the clock restarts and the next frame is shown, frame 0 after the last for a loop; a non-looping animation past its last frame stops and shows nothing; the shown frame is always the one the new index points at |
| DisplayAnimation.TriggerThenFirstFrame | display/index.py:117-153 | right after a trigger, within the first frame's duration, the first frame of the triggered animation is shown |
| DisplayAnimation.FinishedThenIdle | display/index.py:126-153 | once a celebration has finished it shows nothing on every later call, and idle may then start |
| DisplayAnimation.SameFramesAsReference | display/index.py:134-153 | on every call both engines show the same frame, and when a frame is shown they move to the same state |
| DisplayClusters.Touch | display/index.py:210 | reading `groups[key]` of a `defaultdict` creates the key with an empty list and changes no list |
| DisplayClusters.GroupName | display/index.py:278-282 | the group name is "Root Directory" exactly for "." (or a parent already called that), and the parent path itself otherwise |
| DisplayClusters.ClusterNameReadBack | display/index.py:284-290 | a cluster name is the folder prefix, the path, then the count in parentheses followed by " files", and the count reads back |
| DisplayClusters.UpdateEffect | display/index.py:213 | appending to an existing key's list adds the file to that list only, and adds exactly one file to the whole table |
| DisplayClusters.AddEffect | display/index.py:213-218 | appending to any key, present or not, extends that key's list by the file and no other list changes |
| DisplayClusters.PlaceFrom | display/index.py:204-219 | placing a path adds its text to the table once when it is placed and not at all otherwise |
| DisplayClusters.PlacedIffSomeDepthFree | display/index.py:204-219 | a path is placed exactly when some depth from the current one up to `max_depth` has a parent whose list is below the cap, or runs out of parents |
| DisplayClusters.SkipFull | display/index.py:209-211 | a full candidate list is skipped, but reading it has created its key |
| DisplayClusters.RootFirst | display/index.py:204-214 | while the "." list is below the cap, every path goes to "." at depth 0 |
| DisplayClusters.DeepEnoughAlwaysPlaced | display/index.py:204-219 | when `max_depth` reaches past a path's parents, the IndexError branch always places it |
| DisplayClusters.PlaceAll | display/index.py:202-219 | the table gains exactly the files that were placed, and no more files than paths |
| DisplayClusters.PlacedAreInputs | display/index.py:202-219 | every placed file is the text of one of the input paths |
| DisplayClusters.SortFiles | display/index.py:224-231 | sorting by name, by modification time or falling back to name on an OSError keeps the same files |
| DisplayClusters.Chunks | display/index.py:264-274 | the chunks concatenate back to the files, each holds between 1 and `max_files_per_cluster` files, all but the last are full, and chunk i is named "(part k)" in order |
| DisplayClusters.CreateClusters | display/index.py:250-276 | at most cap files make one cluster named after the parent; more make two or more "(part n)" clusters that together hold the files in order; a cap of 0 or less raises |
| DisplayClusters.BucketGroup | display/index.py:223-243 | one table entry becomes a group holding exactly its files, and every group is well formed |
| DisplayClusters.BuildGroups | display/index.py:223-243 | the groups together hold exactly the files of the table |
| DisplayClusters.SortKeepsFiles | display/index.py:246 | sorting the groups keeps every file |
| DisplayClusters.VisiblePaths | display/index.py:189-197 | hidden names are dropped unless shown, and every kept path is one of the parsed inputs |
| DisplayClusters.ClusterFiles | display/index.py:175-248 | no input gives no groups; otherwise the groups are ordered by total file count, largest first, each is well formed, and together they hold exactly the placed files |
| DisplayClusters.PlacedFromInputs | display/index.py:188-219 | every clustered file is the text of one of the given paths |
| DisplayClusters.ShallowPathGoesToRoot | display/index.py:204-219 | with a depth of at least 2, a relative path with at most two parts always lands in "." |
| DisplayClusters.ShallowPathsShareRoot | display/index.py:202-219 | a run of such shallow paths all land in ".", in order |
| DisplayClusters.NothingLostWhenDeepEnough | display/index.py:202-219 | when no path has more parts than `max_depth`, every path is placed |
| DisplayClusters.ClusterLinesShape | display/index.py:358-370 | a cluster prints its name line, followed by one line per file when it has at most 10 files |
| DisplayClusters.ClusterFilesForDisplay | display/index.py:335-372 | no groups, and in particular no input, gives "No files to display" |
| DisplayClusters.PathOrder | display/index.py:325 | paths compare part by part, which is a total order |
| DisplayClusters.FlatLines | display/index.py:313-330 | one line per visible path, in sorted order, each the file prefix and the path |
| DisplayClusters.FlatDisplay | display/index.py:293-332 | no input gives "No files to display"; otherwise the lines joined by newlines |
| DisplayClusters.FlatListingOrdered | display/index.py:313-325 | the listed paths are sorted and are a permutation of the visible paths |
| ExpandVars.MatchEnd | git-submodules/git-submodules.c:48-61 | a match of `\$\{([^}]+)\}` ends at the first `}` after at least one other character, and there is none when no such `}` follows |
| ExpandVars.Scan | git-submodules/git-submodules.c:61-92 | the leftmost-match scan yields placeholders whose inner text is non-empty and free of `}` |
| ExpandVars.RenderScan | git-submodules/git-submodules.c:61-95 | the pieces of the scan spell the input back exactly |
| ExpandVars.CValue | git-submodules/git-submodules.c:68-88 | an inner text of 256 or more characters yields nothing; otherwise a plain name yields its value or nothing when unset |
| ExpandVars.CExpand | main.c:31-96 | a text without `${` comes back unchanged by the C expansion that main.c, git-submodules.c and inotify-watcher.c each carry |
| ExpandVars.CDefaultForm | git-submodules/git-submodules.c:39-100 | `${NAME:-default}` becomes the variable's value when set and the default otherwise |
| ExpandVars.CDefaultThen | git-submodules/git-submodules.c:39-100 | the same holds with literal text after the placeholder, which is copied after the value |
| ExpandVars.CPathTemplate | git-submodules/git-submodules.c:39-100 | a configuration path `${NAME:-default}/rest` expands to the chosen directory followed by the rest |
| ExpandVars.CUnsetVanishes | git-submodules/git-submodules.c:84-90 | `${NAME}` with NAME unset expands to the empty text |
| ExpandVars.CLongPlaceholderDeleted | git-submodules/git-submodules.c:70-92 | an inner text too long for `var_expr[256]` is dropped from the output |
| ExpandVars.PyValue | core/orchestrator.py:44-50 | a plain name yields its value, and an unset one keeps the whole `${NAME}` text |
| ExpandVars.PyFirstPassUnsetIdentity | core/orchestrator.py:44-53 | with no variables set and no defaults, the first pass changes nothing |
| ExpandVars.PyDefaultForm | core/orchestrator.py:44-53 | `${NAME:-default}` becomes the value when set and the default otherwise |
| ExpandVars.PyUnsetKeptLiteral | core/orchestrator.py:49-50 | `${NAME}` with NAME unset is left in place |
| ExpandVars.PyFirstPass | core/orchestrator.py:44-53 | a text without `${` comes through the `re.sub` pass unchanged |
| ExpandVars.PyFirstPassThen | core/orchestrator.py:44-53 | a leading `${inner}` becomes `replace_var`'s value for it and the rest is substituted on its own |
| ExpandVars.WordRun | core/orchestrator.py:56 | the variable name after `$` is the longest run of word characters |
| ExpandVars.PosixExpand | core/orchestrator.py:56 | a text without `$` comes back unchanged |
| ExpandVars.PosixExpandName | core/orchestrator.py:56 | `$NAME` followed by a non-word character becomes the value when NAME is set and stays as written when it is not; the rest is expanded on its own, so inserted values are not scanned again |
| ExpandVars.PosixExpandBraced | core/orchestrator.py:56 | `${NAME}` becomes the value when NAME is set and stays as written when it is not; the rest is expanded on its own |
| ExpandVars.PosixExpandEmptyEnv | core/orchestrator.py:56 | `os.path.expandvars` with no variables set changes nothing |
| ExpandVars.PyExpand | core/orchestrator.py:39-58 | a text without `${` is expanded by the `os.path.expandvars` pass alone, and comes back unchanged when it holds no `$` either |
| ExpandVars.PyExpandPlaceholder | core/orchestrator.py:39-58 | a leading placeholder becomes its value, and that value is scanned again for `$NAME` together with the rest |
| ExpandVars.PyExpandSetOrKept | core/orchestrator.py:39-58 | `${NAME}` with NAME set becomes the value with its own `$` references expanded; with NAME unset it stays as written |
| FileChangesWatcher.FindPath | file-changes-watcher/file-changes-watcher.c:166-172 | finds the first entry whose full path equals the key, and finds none exactly when no entry has that path |
| FileChangesWatcher.AddFileChange | file-changes-watcher/file-changes-watcher.c:156-188 | a known `repository/path` only has its last-updated time reset to now; a new one is appended with both times set to now; either way the path set gains exactly that path |
| FileChangesWatcher.AddKeepsPathsUnique | file-changes-watcher/file-changes-watcher.c:156-188 | adding a change never creates a second entry for the same path |
| FileChangesWatcher.AddAll | file-changes-watcher/file-changes-watcher.c:352-371 | adding every dirty file keeps each old entry's path, repository and first-detected time, and the path set grows by exactly the dirty paths |
| FileChangesWatcher.AddAllRefreshes | file-changes-watcher/file-changes-watcher.c:352-371 | paths stay unique, every dirty path is stamped now, and entries not in the report are untouched |
| FileChangesWatcher.Keep | file-changes-watcher/file-changes-watcher.c:225-249 | the kept entries are exactly the old entries whose path is still current |
| FileChangesWatcher.KeepUnique | file-changes-watcher/file-changes-watcher.c:225-249 | compaction keeps paths unique |
| FileChangesWatcher.RepoPairs | file-changes-watcher/file-changes-watcher.c:201-219 | every collected pair carries the repository's string `name` |
| FileChangesWatcher.DirtyPaths | file-changes-watcher/file-changes-watcher.c:196-222 | the current paths are exactly `name/file` for each string file of each well-formed repository |
| FileChangesWatcher.RemoveStale | file-changes-watcher/file-changes-watcher.c:191-257 | no report leaves the table alone; a report keeps exactly the entries whose path is current, and a report that is not an object keeps none |
| FileChangesWatcher.ProcessReport | file-changes-watcher/file-changes-watcher.c:337-377 | a missing or non-object report changes nothing; otherwise every remaining entry is a current dirty path |
| FileChangesWatcher.ProcessTracksDirty | file-changes-watcher/file-changes-watcher.c:337-377 | after processing, the tracked paths are exactly the dirty paths, a file that stays dirty keeps its first-detected time and repository, and every entry is unique and stamped now |
| FileChangesWatcher.LoadEntry | file-changes-watcher/file-changes-watcher.c:275-298 | an entry loads exactly when it is an object with string `path` and `repository` and numeric stamps; it keeps those strings and converts the stamps |
| FileChangesWatcher.LoadEntries | file-changes-watcher/file-changes-watcher.c:274-299 | exactly the well-formed items are loaded: every entry comes from an item, every well-formed item yields an entry, and there are no more entries than items |
| FileChangesWatcher.LoadEntriesAll | file-changes-watcher/file-changes-watcher.c:274-299 | when every item is well formed, one entry is loaded per item and entry i is item i loaded |
| FileChangesWatcher.LoadEntriesAppend | file-changes-watcher/file-changes-watcher.c:274-299 | loading a split array loads each part in turn, so entries keep array order and a malformed item drops only itself |
| FileChangesWatcher.LoadExisting | file-changes-watcher/file-changes-watcher.c:260-303 | returns 0 and appends the loaded entries exactly when the saved report has a `files` array, and -1 with the table unchanged otherwise |
| FileChangesWatcher.FileObjects | file-changes-watcher/file-changes-watcher.c:317-328 | one saved object per change, in order |
| FileChangesWatcher.SaveReport | file-changes-watcher/file-changes-watcher.c:307-334 | the saved report is an object with distinct keys |
| FileChangesWatcher.LoadFileObject | file-changes-watcher/file-changes-watcher.c:282-325 | a saved change object loads back as the same change |
| FileChangesWatcher.SaveLoadRoundTrip | file-changes-watcher/file-changes-watcher.c:260-334 | at the level of the JSON tree, loading what was saved gives back status 0 and the same changes in order; the text in between is not covered, and a path with a quote, backslash or control byte comes back with its escapes raw (see Findings) |
| FileChangesWatcher.Run | file-changes-watcher/file-changes-watcher.c:379-413 | one run over a non-object or missing report tracks nothing; otherwise the tracked paths are exactly the dirty paths |
| FileChangesWatcher.AddRepository | file-changes-watcher/file-changes-watcher.c:105-126 | a repository is appended, with no tracked files and watch descriptor -1, only when path and name are given and storage succeeds |
| FileChangesWatcher.IsFileTracked | file-changes-watcher/file-changes-watcher.c:144-153 | a null repository or file is never tracked |
| FileChangesWatcher.AddTrackedFile | file-changes-watcher/file-changes-watcher.c:129-141 | appends the file to the tracked list and changes nothing else |
| FileChangesWatcher.TrackedAfterAdd | file-changes-watcher/file-changes-watcher.c:129-153 | after adding a file, a name is tracked exactly when it is that file or was tracked before |
| FileClustering.NewCluster | file_cluster.py:15-24 | a new cluster's count is recomputed from its files, whatever count was passed |
| FileClustering.NewGroup | file_cluster.py:27-36 | a new group's total is recomputed as the sum of its clusters' counts |
| FileClustering.Admit | file_cluster.py:58-81 | an admitted path resolves to an existing regular file inside the root and is kept relative to it |
| FileClustering.AddFile | file_cluster.py:70-78 | appending a file to the `defaultdict` keeps the directory order and adds its parent only when it is new |
| FileClustering.AddFileGrouped | file_cluster.py:70-78 | after adding a file every bucket holds only files of its own directory |
| FileClustering.AddFileRels | file_cluster.py:70-78 | adding a file adds exactly that file to the buckets |
| FileClustering.CollectDistinct | file_cluster.py:70-78 | the buckets never repeat a directory |
| FileClustering.CollectRels | file_cluster.py:70-78 | the buckets hold exactly the admitted files, counted with multiplicity |
| FileClustering.DisplayName | file_cluster.py:98-111 | the root shows as empty text, a shallow directory as itself, and a deeper one as its first `max_depth` parts followed by `/...` |
| FileClustering.MakeCluster | file_cluster.py:84-92 | a cluster holds its bucket's files sorted, with the matching count and path |
| FileClustering.SumOfClusters | file_cluster.py:83-93 | the clusters' counts add up to the number of admitted files |
| FileClustering.SumCountsSorted | file_cluster.py:121 | sorting the clusters keeps the total |
| FileClustering.GroupClusters | file_cluster.py:113-134 | no clusters give no groups; otherwise one unnamed group holding a permutation of the clusters, ordered by count with the largest first, with the right total |
| FileClustering.ClusterFiles | file_cluster.py:45-96 | no paths give no groups; otherwise at most one group, absent exactly when no path is admitted, whose total is the number of admitted files |
| FileClustering.EveryAdmittedFileClustered | file_cluster.py:45-96 | the files in the clusters are exactly the admitted files, as a multiset |
| FileClustering.FilesUnderTheirParent | file_cluster.py:70-92 | every clustered file is an admitted path, and its cluster is that path's parent directory |
| FileClustering.FileLines | file_cluster.py:185-202 | a cluster within the limit lists every file with `├──`; a longer one lists the first `max_files_show` files and an "... and N more files" line |
| FileClustering.FormatCluster | file_cluster.py:204-209 | the text starts with the file count, preceded by `name/...` when the cluster has a display name; with one-line names, read back line by line it is that header and then the file lines (a single empty line when there are none) |
| FileClustering.FormatGroup | file_cluster.py:211-231 | a group prints its clusters in order, separated by one blank line |
| FileClustering.SeparatedJoin | file_cluster.py:221-229 | putting an empty line between clusters and joining with newlines separates them by blank lines |
| FileClustering.ClusterFilesForDisplay | file_cluster.py:233-250 | the text is "No files to display" exactly when no path is admitted; otherwise the displays of the first group's clusters, separated by blank lines |
| FileClustering.ClusterCommits | file_cluster.py:136-153 | a commit appears exactly when one of its files is admitted, and then its entry is the single group its files make, counting all its admitted files |
| FileClustering.DirectoryStats | file_cluster.py:155-172 | no admitted file gives empty statistics; otherwise the keys are exactly the cluster directories, each holding the count of the last cluster with that directory |
| FileClustering.StatsOf | file_cluster.py:167-170 | the keys are exactly the cluster directories, and each holds the count of the last cluster with that directory, as the loop leaves it |
| FileFilter.IsValidFileEventIff | file_filter.py:43-65 | an event passes exactly when it is not a directory, its path does not end in `.git`, no offset of the path starts one of `.tmp`, `.swp`, `.swo`, `.bak`, and no character of it is `~` |
| FileFilter.NoTempFragment | file_filter.py:58-62 | a path without the letters of those fragments never matches one |
| FileFilter.Dispatch | file_filter.py:23-41 | the callback fires exactly for valid events, with the event's kind and its source path, or its destination for a move |
| FileTree.Full | file-tree/file-tree.c:137-174 | with no height limit the walk prints exactly one line per node of the tree |
| FileTree.Lines | file-tree/file-tree.c:139-160 | cutting at n keeps the first n lines, or all of them when there are fewer |
| FileTree.Shared | file-tree/file-tree.c:137-174 | the walk that shares one row counter never prints more lines than there is room for |
| FileTree.SharedIsCut | file-tree/file-tree.c:137-174 | the shared-counter walk prints exactly the first lines of the unlimited walk, as many as fit above `max_height - 1` |
| FileTree.SharedKidsIsCut | file-tree/file-tree.c:159-173 | the same holds for the loop over a node's children |
| FileTree.AppendLines | file-tree/file-tree.c:159-173 | cutting a concatenation cuts the first part and gives the rest of the room to the second |
| FileTree.PrintTree | file-tree/file-tree.c:137-174 | the printed lines are the tree's full listing cut to the rows left below `max_height - 1` |
| FileTree.LineShapes | file-tree/file-tree.c:141-153 | a line is the prefix, a branch or last-branch marker below the root, the name and a `/` for directories |
| FileTree.PrefixShapes | file-tree/file-tree.c:163-167 | below the root a child's prefix grows by the space marker after a last child and by the vertical marker otherwise |
| FileTree.DisplayRepoName | file-tree/file-tree.c:177-187 | a name other than "root" is kept; "root" becomes the path's last component when it is non-empty |
| FileTree.DisplayNameIsComponent | file-tree/file-tree.c:177-187 | for a path with a slash, the name shown for "root" has no slash |
| GitStatus.LoadConfig | git-status/git-status.c:19-35 | the repository path comes from `REPO_WATCH_REPO_PATH` or defaults to "."; the cache file and flags are the fixed defaults |
| GitStatus.ReportText | git-status/git-status.c:113-133 | the report starts with its "Git Status Report" title and ends with the current status when there is one, and with the "Clean (no changes)" line otherwise |
| GitStatus.StatusChanged | git-status/git-status.c:106-110 | the status changed exactly when the current and cached texts differ, counting a missing text |
| GitStatus.Changed | git-status/git-status.c:163-170 | without caching every run counts as changed; with caching, only a status different from the cache does |
| GitStatus.CleanReportIffEmpty | git-status/git-status.c:126-130 | the report says "Clean (no changes)" exactly when the status is empty |
| GitStatus.StatusAtEnd | git-status/git-status.c:126-127 | a non-empty status is written at the end of the report |
| GitStatus.Summary | git-status/git-status.c:181-188 | a summary is printed exactly when the status changed or every run is reported |
| GitStatus.Run | git-status/git-status.c:135-190 | with caching the cache afterwards holds the current status; without it the cache is untouched |
| GitStatus.SecondRunQuiet | git-status/git-status.c:163-188 | running twice on the same status prints nothing the second time |
| GitStatus.ChangePrinted | git-status/git-status.c:163-188 | a status different from the cache is always printed |
| GitSubmodules.DefaultCachePath | git-submodules/git-submodules.c:127-177 | the default cache path is `$XDG_CACHE_HOME`, or `~/.cache` when unset, followed by `/repowatch/git-submodules.cache` |
| GitSubmodules.BoolSetting | git-submodules/git-submodules.c:147-168 | a flag differs from its default only when the configuration holds that boolean at the key |
| GitSubmodules.LoadConfig | git-submodules/git-submodules.c:107-185 | a missing or non-object `index.json` gives the hard-coded defaults; caching is off only when `config.cache_status` is `false` |
| GitSubmodules.SettingPath | git-submodules/git-submodules.c:115-131 | a dotted setting path looks up the section and then the key |
| GitSubmodules.RepoPathSetting | git-submodules/git-submodules.c:115-120 | the repository path is `paths.repo_path` when it is a string, and the fixed default otherwise |
| GitSubmodules.CacheSetting | git-submodules/git-submodules.c:122-129 | the cache path is `paths.status_cache` expanded when it is a string, and the expanded default template otherwise |
| GitSubmodules.DepthSetting | git-submodules/git-submodules.c:131-137 | the depth limit is `config.max_depth` when it is a number, and 3 otherwise |
| GitSubmodules.NoSectionsMeansDefaults | git-submodules/git-submodules.c:107-185 | an object without `paths` and `config` configures the same as no file at all |
| GitSubmodules.CaptureStart | git-submodules/git-submodules.c:284-289 | the capture starts right after the first `path = ` that has at least one character after it, and there is none when no such occurrence exists |
| GitSubmodules.TrimCapture | git-submodules/git-submodules.c:315-319 | trimming drops only trailing newlines, returns, spaces and tabs, and never the first character |
| GitSubmodules.GitmodulePath | git-submodules/git-submodules.c:311-320 | a line yields a non-empty path exactly when it matches `path = (.+)`, and the path is a prefix of the capture |
| GitSubmodules.ReadGitmodules | git-submodules/git-submodules.c:267-331 | a missing file gives no paths; otherwise one non-empty path per matching line |
| GitSubmodules.PathLineRoundTrip | git-submodules/git-submodules.c:284-320 | a `path = p` line written for a path without trailing blanks reads back as p |
| GitSubmodules.PathLinesRoundTrip | git-submodules/git-submodules.c:267-331 | a `.gitmodules` made of such lines reads back as the same paths in order |
| GitSubmodules.Collect | git-submodules/git-submodules.c:334-375 | something is recorded exactly when the depth is within the limit and the path is a repository, and the first record is that repository's status, clean when the status is empty |
| GitSubmodules.CollectRecorded | git-submodules/git-submodules.c:334-375 | every record is a repository with its own status and the check time |
| GitSubmodules.CollectUnder | git-submodules/git-submodules.c:334-375 | every record after the first lies below the starting repository |
| GitSubmodules.CollectSubsUnder | git-submodules/git-submodules.c:356-371 | every submodule record lies below the parent, named after the last component of its path |
| GitSubmodules.NothingBelowLimit | git-submodules/git-submodules.c:336 | beyond the depth limit nothing is collected |
| GitSubmodules.AtDepthLimit | git-submodules/git-submodules.c:334-375 | a repository at the limit is recorded alone, without its submodules |
| GitSubmodules.SkipsNonRepositories | git-submodules/git-submodules.c:339 | submodule paths that are not repositories add nothing |
| GitSubmodules.CountsAddUp | git-submodules/git-submodules.c:406-414 | the clean and dirty counts add up to the number of records |
| GitSubmodules.RepoObjectFields | git-submodules/git-submodules.c:402-419 | each repository object carries its name, path, `CLEAN` or `DIRTY`, its changes, and no `submodules` key |
| GitSubmodules.ReportEntries | git-submodules/git-submodules.c:378-425 | the report's `repositories` array holds one object per record, in order |
| GitSubmodules.ReportTotal | git-submodules/git-submodules.c:389 | `total_repositories_checked` is the sum of the clean and dirty counts |
| GitSubmodules.ReportSummary | git-submodules/git-submodules.c:428-433 | the summary counts are the clean and the dirty records |
| GitSubmodules.DirtyLines | git-submodules/git-submodules.c:503-510 | one listing line per dirty repository |
| GitSubmodules.Closing | git-submodules/git-submodules.c:496-520 | the dirty listing appears only when something is dirty, and the output ends with the completion line |
| GitSubmodules.Report | git-submodules/git-submodules.c:378-444 | the report written is a JSON object with distinct keys |
| GitSubmodules.Run | git-submodules/git-submodules.c:459-522 | the run writes a JSON object with distinct keys, and prints exactly the monitor output for the configuration and the records the walk from the configured path collects |
| GitSubmodules.MonitorOutputShape | git-submodules/git-submodules.c:459-522 | the printed output opens with "Git Submodules Monitor starting...", ends with the completion line, and has at least eight lines |
| GitTracker.NormalizeStatus | git_tracker.py:176-187 | a known one-letter code maps to its name, anything else is lowered |
| GitTracker.StatusSymbol | git_tracker.py:29-40 | a known status shows its symbol, any other shows its first letter upper-cased, and an empty status has none because indexing fails |
| GitTracker.SymbolOfNormalized | git_tracker.py:29-40 | a known code or upper-case letter comes back as itself after naming it and taking its symbol |
| GitTracker.ParsePorcelainStatus | git_tracker.py:189-205 | the unstaged column wins when it is not blank, then the staged column; two blanks give "unknown"; a code shorter than two characters fails |
| GitTracker.StatusLine | git_tracker.py:158-170 | a porcelain line yields the status of its first two characters and the stripped rest as the path |
| GitTracker.StatusLinesSpec | git_tracker.py:157-170 | the lines parse exactly when each has two characters, into one entry per line |
| GitTracker.SubprocessStatus | git_tracker.py:139-174 | a failed or missing `git status` gives no files; otherwise one entry per non-blank output line |
| GitTracker.PorcelainRoundTrip | git_tracker.py:139-174 | one porcelain line written for a path reads back as that path with the status of its code |
| GitTracker.NameStatusLine | git_tracker.py:100-107 | a `--name-status` line unpacks exactly when it holds a tab |
| GitTracker.NameStatusLineParts | git_tracker.py:100-107 | the code is the text before the first tab, the path everything after it, and the status is the code's name |
| GitTracker.NameStatusLinesSpec | git_tracker.py:99-107 | the output parses exactly when every non-blank line holds a tab, into one entry per line |
| GitTracker.NameStatusOutput | git_tracker.py:97-107 | empty output gives no entries, and every entry carries the given staged flag |
| GitTracker.Untracked | git_tracker.py:122-130 | each untracked path becomes an unstaged "untracked" entry |
| GitTracker.GitPythonStatus | git_tracker.py:94-137 | when both diffs parse, the status is the staged entries, then the unstaged ones, then the untracked ones |
| GitTracker.BothChangedListedTwice | git_tracker.py:94-134 | a file modified both in the index and in the work tree is listed twice, staged and unstaged |
| GitTracker.GetStatus | git_tracker.py:82-137 | GitPython's answer when it parses, the subprocess answer when GitPython is absent or its diff output does not parse |
| GitTracker.IsClean | git_tracker.py:351-359 | the repository is clean exactly when the status list is empty |
| GitTracker.FailedRunLooksClean | git_tracker.py:151-174 | a failed or missing `git status` makes the repository look clean |
| GitTracker.ShortSha | git_tracker.py:51-54 | the short form is the first 8 characters, or the whole of a shorter sha |
| GitTracker.Summary | git_tracker.py:56-59 | the summary is the longest prefix of the message before its first newline |
| GitTracker.LogLine | git_tracker.py:281-297 | a log line yields a commit exactly when it splits into four fields; sha, subject and author hold no `|`, the time falls back to now, and the file list is empty |
| GitTracker.LogLines | git_tracker.py:279-297 | at most one commit per line, none with files; one line gives its commit when it reads as one and nothing otherwise |
| GitTracker.LogLinesAppend | git_tracker.py:279-297 | the commits of two runs of lines are those of the first followed by those of the second, so the result keeps line order |
| GitTracker.LogLinesRoundTrip | git_tracker.py:266-297 | the `%H|%s|%an|%ai` lines printed for a run of commits without `|` in their fields read back as those commits, in order, each date parsed or now when it does not parse |
| GitTracker.SubprocessCommits | git_tracker.py:258-303 | a failed or missing `git log` gives no commits; otherwise the commits of its non-blank output lines, none with files |
| GitTracker.LogLineRoundTrip | git_tracker.py:266-297 | a line in the `%H|%s|%an|%ai` format reads back as that commit |
| GitTracker.ShowFiles | git_tracker.py:335-341 | a failed or missing `git show` gives no files; otherwise one name per non-blank output line, in order, each that line stripped, none empty |
| GitTracker.ShowFilesRoundTrip | git_tracker.py:335-341 | file names without newlines or surrounding blanks, listed one per line, come back as they are, in order |
| GitTracker.StripAllAt | git_tracker.py:341 | each stripped line is the stripped input and is non-empty |
| GitTracker.BranchName | git_tracker.py:361-387 | "unknown" when git cannot run, "HEAD" on a non-zero exit, and the stripped output otherwise |
| IndexApp.OnFileChange | index.py:142-151 | a path inside the repository is stamped now under its relative path and leaves every other entry alone; a path outside changes nothing |
| IndexApp.Live | index.py:159-163 | an entry is live exactly when at most one second has passed since its stamp |
| IndexApp.ExpiredAt | index.py:159-163 | the expired entries are exactly those stamped more than one second ago |
| IndexApp.Tick | index.py:153-173 | one pass removes exactly the expired entries, advances the frame only while something is active, and redraws exactly when something is active or something expired |
| IndexApp.KeysStayUnique | index.py:142-173 | recording a change and a pass of the loop keep one entry per path |
| IndexApp.ShownForOneSecond | index.py:142-173 | a changed file stays in the pane at a later pass exactly when at most one second has passed |
| IndexApp.EmptyIsQuiet | index.py:166-171 | with nothing active a pass changes nothing and does not redraw |
| IndexApp.LastExpiryRedraws | index.py:166-171 | the pass that expires the last entries redraws once, leaving the pane empty |
| IndexApp.Spinner | index.py:95-179 | the spinner shows frame `frame_index % 10` of the ten frames |
| IndexApp.ActiveLines | index.py:180 | one line per active file, the spinner then the path |
| IndexApp.ActivePane | index.py:175-184 | the pane shows the idle text exactly when nothing is active; otherwise, with one-line paths, read back line by line it is "Active changes:" and then one line per active path, in order, the current spinner glyph before each |
| IndexApp.UncommittedFiles | index.py:186-194 | the uncommitted files are the union of staged, unstaged and untracked files, and nothing when a query fails |
| IndexApp.FilesOf | index.py:203-206 | a file is listed exactly when one of the first n commits touched it |
| IndexApp.RecentCommitFiles | index.py:196-211 | the committed files are those touched by one of the first ten commits, and nothing when the query fails |
| IndexApp.OnlyTenCommitsCount | index.py:197-200 | a file touched only by the eleventh commit is not listed |
| IndexApp.StatusBar | index.py:235-238 | the status bar starts with the session minutes, truncated toward zero |
| IndexApp.StatusBarReadBack | index.py:235-238 | split on `|`, the status bar gives exactly three fields: the truncated session minutes, the uncommitted count and the committed count, and each count parses back to itself |
| IndexApp.MainChecks | index.py:284-306 | the app starts exactly when the dependencies are in place and the repository and its `.git` exist |
| InotifyDaemon.ShouldExcludePath | inotify-watcher/inotify-daemon.c:38-52 | a path containing `/.git/` or one of `.tmp`, `.swp`, `.o`, `~`, `.cache` is excluded; the `/.git` ending test looks only at the first `/.git` |
| InotifyDaemon.ShouldExcludePathFixed | inotify-watcher/inotify-daemon.c:41-44 | every path ending in `/.git` is excluded as well |
| InotifyDaemon.FixOnlyAddsGitEndings | inotify-watcher/inotify-daemon.c:41-44 | the corrected test excludes everything the original does, and in addition only paths ending in `/.git` whose first `/.git` comes earlier |
| InotifyDaemon.GithubGitSlipsThrough | inotify-watcher/inotify-daemon.c:42 | `r/.github/.git` is not excluded as written and is excluded by the corrected test |
| InotifyDaemon.RepositoryName | inotify-watcher/inotify-daemon.c:132-140 | the name is the slash-free tail of the path, the whole path when it has no slash |
| InotifyDaemon.RepositoryNameSplits | inotify-watcher/inotify-daemon.c:132-140 | `parent/name` yields name |
| InotifyDaemon.FindEvent | inotify-watcher/inotify-daemon.c:258-268 | finds the first event with the same path and repository, or reports that none has them |
| InotifyDaemon.FindOrCreateEvent | inotify-watcher/inotify-daemon.c:251-286 | a known file keeps its first-detected time and gets the new type and time in place; an unknown one is appended with all times now; no other event changes |
| InotifyDaemon.FindOrCreateKeepsKeysUnique | inotify-watcher/inotify-daemon.c:251-286 | the table keeps one event per path and repository |
| InotifyDaemon.KnownFileUpdatedInPlace | inotify-watcher/inotify-daemon.c:258-268 | an event for a file already in the table updates that entry |
| InotifyDaemon.WatchOf | inotify-watcher/inotify-daemon.c:289-310 | the first watch with the descriptor, or none exactly when no watch has it |
| InotifyDaemon.PathFromWd | inotify-watcher/inotify-daemon.c:289-299 | a path is found exactly when some watch has the descriptor, and it is the path of such a watch |
| InotifyDaemon.RepositoryFromWd | inotify-watcher/inotify-daemon.c:301-311 | a repository is found exactly when some watch has the descriptor, and it is the repository of such a watch |
| InotifyDaemon.LookupsAgree | inotify-watcher/inotify-daemon.c:289-310 | the path and repository lookups succeed together, on the same watch, and a later watch with the same descriptor does not change them |
| InotifyDaemon.EventTypeName | inotify-watcher/inotify-daemon.c:334-339 | each name is returned exactly when its bit is set and none of the bits tested before it is: modify, then create, delete, moved-from, moved-to; `UNKNOWN` exactly when none is |
| InotifyDaemon.HandleEvent | inotify-watcher/inotify-daemon.c:392-424 | only regular files change the table, by recording `watch/name`; a created directory under a known watch is watched next and the table is left alone |
| InotifyWatcher.LoadConfig | inotify-watcher/inotify-watcher.c:186-211 | a missing or non-object `index.json` fails; otherwise the report paths are taken as written and the pid file is expanded |
| InotifyWatcher.Resolve | inotify-watcher/inotify-watcher.c:238-261 | missing settings take the defaults, and the pid path is expanded once more |
| InotifyWatcher.SecondExpansionHarmless | inotify-watcher/inotify-watcher.c:255-261 | the second expansion changes nothing when the first left no `${` |
| InotifyWatcher.DefaultPidPath | inotify-watcher/inotify-watcher.c:238-252 | without settings the pid file is `$XDG_CACHE_HOME`, or `~/.cache`, followed by `/repowatch/inotify-daemon.pid`, next to the default report paths |
| InotifyWatcher.PingDaemon | inotify-watcher/inotify-watcher.c:174-183 | the ping succeeds with 0 exactly when the pid is positive and the signal was delivered, and is -1 otherwise |
| InteractiveTui.ExtractFilename | interactive-dirty-files-tui/interactive-dirty-files-tui.c:435-438 | the file name is the slash-free tail after the last slash, or the whole path without one |
| InteractiveTui.ExtractJoined | interactive-dirty-files-tui/interactive-dirty-files-tui.c:435-438 | `dir/name` yields name |
| InteractiveTui.TruncateName | interactive-dirty-files-tui/interactive-dirty-files-tui.c:453-468 | a name within the width, or any name when the width is negative, is kept; a longer one keeps `max_width - 3` characters, at least 1, then `...` |
| InteractiveTui.TruncateIdempotent | interactive-dirty-files-tui/interactive-dirty-files-tui.c:453-468 | with a width of at least 4 the result fits and truncating it again changes nothing |
| InteractiveTui.TruncateKeepsStart | interactive-dirty-files-tui/interactive-dirty-files-tui.c:453-468 | a truncated name is a prefix of the original followed by `...` |
| InteractiveTui.HandleKey | interactive-dirty-files-tui/interactive-dirty-files-tui.c:700-716 | q, Q and Escape stop the loop, r and R reload, and space and only space toggles the view |
| InteractiveTui.ToggleTwice | interactive-dirty-files-tui/interactive-dirty-files-tui.c:712-714 | pressing space twice returns to the same view |
| InteractiveTui.PrintAsWritten | interactive-dirty-files-tui/interactive-dirty-files-tui.c:163-200 | the walk as written prints nothing exactly when its row is past the limit, and otherwise starts with the node's own line |
| InteractiveTui.AsWrittenWhole | interactive-dirty-files-tui/interactive-dirty-files-tui.c:163-200 | when the whole tree fits below the limit, the walk as written prints the full listing |
| InteractiveTui.PrintTreeRows | interactive-dirty-files-tui/interactive-dirty-files-tui.c:163-200 | the corrected walk prints the first lines of the full listing, never more than the rows left |
| TreeBuild.PathTokens | interactive-dirty-files-tui/interactive-dirty-files-tui.c:100-104 | `strtok` on `/` yields the non-empty slash-free segments |
| TreeBuild.TokensOfJoin | interactive-dirty-files-tui/interactive-dirty-files-tui.c:100-104 | segments joined with slashes tokenise back to the same segments |
| TreeBuild.FindChild | interactive-dirty-files-tui/interactive-dirty-files-tui.c:108-114 | finds the first child with the name, or none exactly when no child has it |
| TreeBuild.AddPath | interactive-dirty-files-tui/interactive-dirty-files-tui.c:92-160 | the intended walk keeps the node's name and kind and adds at most one child at each level |
| TreeBuild.AddPathReaches | interactive-dirty-files-tui/interactive-dirty-files-tui.c:92-160 | after the intended walk, every segment of the path is in the tree, ending in the file, unless a file blocks the way |
| TreeBuild.AddPathKeeps | interactive-dirty-files-tui/interactive-dirty-files-tui.c:92-160 | the intended walk keeps every path the tree already held |
| TreeBuild.BuildKeepsFile | interactive-dirty-files-tui/interactive-dirty-files-tui.c:92-160 | the intended build of `dir/file` holds `dir/file` |
| TreeBuild.BuildTree | interactive-dirty-files-tui/interactive-dirty-files-tui.c:92-160 | the built tree is a directory named "/" |
| TreeBuild.AddAll | interactive-dirty-files-tui/interactive-dirty-files-tui.c:92-160 | adding the files in turn keeps the node's name and kind |
| TreeBuild.AddAllKeeps | interactive-dirty-files-tui/interactive-dirty-files-tui.c:92-160 | adding more files keeps every path the tree already held |
| TreeBuild.BuildTreeReaches | interactive-dirty-files-tui/interactive-dirty-files-tui.c:92-160 | every file of the list can be followed in the finished tree, unless a file stood on its way when it was added |
| TreeBuild.BuildTreeAsWritten | interactive-dirty-files-tui/interactive-dirty-files-tui.c:92-160 | when the build as written is defined, it is a directory named "/" |
| TreeBuild.AddAllAsWritten | interactive-dirty-files-tui/interactive-dirty-files-tui.c:92-160 | when adding the files as written is defined, it keeps the node's name and kind |
| TreeBuild.AddPathAsWritten | interactive-dirty-files-tui/interactive-dirty-files-tui.c:92-160 | the walk as written keeps the node's name and kind when it is defined |
| TreeBuild.AsWrittenOnKnownDirs | interactive-dirty-files-tui/interactive-dirty-files-tui.c:106-150 | when every directory on the way already exists, the walk as written equals the intended walk |
| TreeBuild.AsWrittenDropsFile | interactive-dirty-files-tui/interactive-dirty-files-tui.c:117-152 | the build as written of a single `dir/file` creates the directory and loses the file |
| TreeBuild.AsWrittenUndefined | interactive-dirty-files-tui/interactive-dirty-files-tui.c:125-152 | the build as written of a new `a/b/c` continues from a freed buffer, which the model leaves undefined |
| Json.SkipWs | json-utils/json-utils.c:6-9 | skipping whitespace stops at the first character that is not C whitespace |
| Json.SkipNumber | json-utils/json-utils.c:62-74 | a number that starts with a digit or `-` always consumes at least that character |
| Json.ScanString | json-utils/json-utils.c:115-137 | a string scan stops at the first quote not preceded by a backslash: the raw text it returns is a run of plain bytes other than quote and NUL and of backslash pairs, and the raw text plus that quote plus the rest is the input |
| Json.ParseString | json-utils/json-utils.c:115-137 | a string is read only from an opening quote, and the input is that quote, the raw text, the closing quote and the rest |
| Json.ParseValue | json-utils/json-utils.c:18-112 | a parsed value always consumes input; `{` yields an object and `[` an array |
| Json.ParseDocument | json-utils/json-utils.c:291-323 | a document is an object or an array, and anything that starts otherwise is rejected |
| Json.EscapeChar | json-utils/json-utils.c:484-503 | a printable ASCII character other than `"` and `\` is written as itself |
| Json.EscapeString | json-utils/json-utils.c:471-508 | a string of plain characters is written unchanged between the quotes |
| Json.EscapeKey | json-utils/json-utils.c:571-579 | a key without `"` or `\` is written unchanged; keys only get those two characters escaped |
| Json.ArrayAdd | json-utils/json-utils.c:750-765 | adding fails with -1 and no change unless the target is an array and the value exists; otherwise the value is appended |
| Json.ObjectSet | json-utils/json-utils.c:769-800 | setting fails with -1 and no change unless the target is an object and key and value exist; otherwise the key then holds the value, an existing key is replaced in place, and no other key changes |
| Json.ObjectSetKeepsKeysUnique | json-utils/json-utils.c:769-800 | setting never duplicates a key |
| Json.QuotedRead | json-utils/json-utils.c:115-137 | a key written between quotes reads back as the same key |
| Json.ValueRoundTrip | json-utils/json-utils.c:18-289 | every clean value (no numbers, strings without quote, backslash or control bytes) the writer prints parses back as the same value, leaving the following text; other strings come back with their escapes raw (see Findings) |
| Json.DocumentRoundTrip | json-utils/json-utils.c:291-323 | a printed clean object or array parses back as the same document; strings that need escapes do not (see Findings) |
| Json.TrailingCommaAccepted | json-utils/json-utils.c:180-189 | a comma before `]` is accepted, so `[1,]` parses as a one-element array |
| Json.NumberAt | json-utils/json-utils.c:62-74 | a run of digits parses as one number and stops at the first other character |
| Json.LoneMinus | json-utils/json-utils.c:62-64 | a `-` without digits still parses as a number |
| Json.BarePoint | json-utils/json-utils.c:66-69 | digits followed by a point and no fraction parse as a number |
| Json.LeadingZeros | json-utils/json-utils.c:62-74 | leading zeros are accepted |
| Json.EscapesKeptRaw | json-utils/json-utils.c:115-137 | an escape sequence is skipped over and kept as written, not decoded |
| Json.StringifyOneLine | json-utils/json-utils.c:463-635 | the writer prints a tree whose keys hold no newline on one line: string values have their newlines escaped |
| Json.StringifyDelimited | json-utils/json-utils.c:463-635 | the writer puts a string between quotes, an array between brackets and an object between braces |
| Json.StringReadRaw | json-utils/json-utils.c:115-137 | any string the writer prints reads back as the escaped text, not the original |
| Json.HighByteReadRaw | json-utils/json-utils.c:484-503 | the one-byte string 0xE9 is written as `"\u00e9"` and read back as the six characters `\u00e9` |
| Json.DuplicateKeysKept | json-utils/json-utils.c:200-289 | an object with a repeated key parses with both entries |
| JsonEscape.HexRoundTrip | json-utils/json-utils.c:497 | a hexadecimal digit the writer prints reads back as its value |
| JsonEscape.EscapeCharRoundTrip | json-utils/json-utils.c:484-503 | every byte the string writer escapes decodes back to itself under the escapes of RFC 8259 section 7 |
| JsonEscape.EscapeStringRoundTrip | json-utils/json-utils.c:471-508 | a printed string of bytes decodes back to itself |
| JsonEscape.StringRoundTrip | json-utils/json-utils.c:471-508 | a reader that decodes the escapes gets back every string of bytes the writer prints, and the text after it |
| JsonEscape.EscapeKeyRoundTrip | json-utils/json-utils.c:571-579 | a printed key without control characters decodes back to itself |
| JsonPath.Tokens | json-utils/get-value.c:12-30 | `strtok` on `.` yields the non-empty dot-free segments |
| JsonPath.DotSeparates | json-utils/get-value.c:12-30 | the segments of `x.y` are those of x followed by those of y |
| JsonPath.TokensOfJoin | json-utils/get-value.c:12-30 | segments joined with dots tokenise back to the same segments |
| JsonPath.Lookup | json-utils/get-value.c:15-31 | no segments give the value itself; a non-object or a missing first key gives nothing |
| JsonPath.LookupAppend | json-utils/get-value.c:15-31 | looking up a + b is looking up a and then b from where a ended |
| JsonPath.GetNestedValue | json-utils/get-value.c:6-34 | a missing or non-object root gives nothing, a path with no segments gives the root, and any result comes from an object root |
| JsonPath.EmptySegmentsVanish | json-utils/get-value.c:12-30 | doubled, leading and trailing dots do not change the lookup |
| JsonPath.EmptyPathGivesRoot | json-utils/get-value.c:6-34 | the paths "" and "." give the root object |
| JsonPath.PathComposes | json-utils/get-value.c:6-34 | looking up `x.y` is looking up x and then y in the object found, and nothing when that is not an object |
| JsonPath.ArraysNeverIndexed | json-utils/get-value.c:15 | a path that continues into an array finds nothing |
| JsonPath.IndexedPathNeverResolves | json-utils/get-value.c:15 | `key.0.field` through an array finds nothing |
| JsonPath.SingleKeyIsFirstMatch | json-utils/get-value.c:17-24 | a one-segment path finds the first entry with that key |
| JsonPath.MemberIsPath | json-utils/get-value.c:6-34 | a one-segment path is a member lookup |
| JsonPath.Member2IsPath | json-utils/get-value.c:6-34 | a two-segment path is a member lookup inside a member |
| JsonPath.SetThenGet | json-utils/json-utils.c:769-800 | what `json_object_set` stores under a key is what the path of that key finds |
| MainOrchestrator.LoadConfig | main.c:99-123 | loading fails exactly when `index.json` cannot be opened; otherwise the numeric settings are the fixed defaults 3600, 20, 10, 2, 120 and 30 |
| MainOrchestrator.ConfigPaths | main.c:111-113 | the repository path is `$REPO_WATCH_REPO_PATH` or "."; the config and cache directories are the XDG variables or `~/.config` and `~/.cache`, each followed by `/repowatch` |
| MainOrchestrator.RepoPath | main.c:111 | `${REPO_WATCH_REPO_PATH:-.}` expands to the variable or "." |
| MainOrchestrator.ConfigDir | main.c:112 | the config directory template expands to the variable or `~/.config`, then `/repowatch` |
| MainOrchestrator.CacheDir | main.c:113 | the cache directory template expands to the variable or `~/.cache`, then `/repowatch` |
| MainOrchestrator.ChildCommand | main.c:170-199 | a child runs as `name/name` when that is executable, else as `name/index`, and is skipped exactly when neither is |
| MainOrchestrator.ExecuteChildren | main.c:157-202 | the five children are tried in order, each by the same rule |
| MainOrchestrator.CommandsInsideChild | main.c:174-187 | every command run lies inside its child's directory |
| MainOrchestrator.KeysRead | main.c:205-234 | the loop stops at the first q, Q, Escape or Ctrl+C and reads every key up to it, and runs on when none comes |
| OldApp.UpdateGitStatus | old/reference/core/app.py:197-230 | nothing changes before the widgets exist or when the status query raises; a failing commit query leaves the committed pane and status bar as they were; otherwise the panes show the paths and the status bar the counts |
| OldApp.SameRefreshAsRepoWatch | old/reference/core/app.py:197-230 | when both queries succeed, the panes show exactly what the newer app shows |
| OldApp.ErrorsStaySilent | old/reference/core/app.py:228-230 | an error never reaches the status bar |
| OldApp.AfterAction | old/reference/core/app.py:251-290 | only the help and settings actions move the last activity time to now |
| OldApp.ActivityPostponesQuit | old/reference/core/app.py:54-62 | for the inactivity loop, which the app defines but never starts: after a help or settings action, no check within five minutes quits, and any later one does |
| OldApp.FocusIsNotActivity | old/reference/core/app.py:29-52 | moving the focus does not count as activity |
| OldApp.QuitTime | old/reference/core/app.py:54-62 | the never-started inactivity loop, once started, would quit at the first minutely check past the timeout and not at the check before |
| OldApp.QuitWithinAMinute | old/reference/core/app.py:54-62 | the never-started inactivity loop, once started, would quit after the timeout has run out, and at most one minute later |
| OldOrchestrator.ResolvePaths | old/reference/index.py:38-44 | every configured path keeps its key and has its value expanded |
| OldOrchestrator.ResolvedLookup | old/reference/index.py:38-44 | a key resolves exactly when it is configured, to its expanded value |
| OldOrchestrator.ExecuteChild | old/reference/index.py:99-133 | a child fails exactly when its `index.py` is missing, its `main` returns `False`, or it raises while errors stop the run |
| OldOrchestrator.Visit | old/reference/index.py:147-164 | no more children are run than are listed |
| OldOrchestrator.Execute | old/reference/index.py:135-170 | missing dependencies fail the run before any child |
| OldOrchestrator.ContinuingRunsAll | old/reference/index.py:147-164 | with `continue_on_error`, the run succeeds and runs every existing child in order |
| OldOrchestrator.StoppingNeedsAll | old/reference/index.py:147-164 | without it, the run succeeds exactly when every child exists and succeeds |
| OldOrchestrator.StoppingRunsPrefix | old/reference/index.py:147-164 | without it, the children run are a prefix of the list |
| OldWatcher.ShouldIgnoreIff | old/reference/file_watcher.py:44-61 | a path is ignored exactly when its base name is one of the fixed names or it contains a custom pattern |
| OldWatcher.IsDuplicate | old/reference/file_watcher.py:63-70 | an event within 100 ms of the path's last one is a duplicate and leaves the record alone; otherwise the record moves to now |
| OldWatcher.HandleEvent | old/reference/file_watcher.py:72-88 | the callback fires exactly for paths neither ignored nor duplicate, with the event's type, path, kind and time |
| OldWatcher.OnEvent | old/reference/file_watcher.py:90-107 | directory modifications are dropped; everything else goes through the common handler with its type name |
| OldWatcher.DuplicateAcrossTypes | old/reference/file_watcher.py:63-88 | a create 50 ms after a modify of the same path is dropped |
| OldWatcher.Start | old/reference/file_watcher.py:126-149 | without watchdog start fails; a running watcher reports success; otherwise it succeeds exactly when the observer starts |
| OldWatcher.SimulateFileChange | old/reference/file_watcher.py:190-199 | a simulated change is a file event of the given type, `modified` by default, on the path joined to the watched directory |
| OldWatcher.CreateFileWatcher | old/reference/file_watcher.py:202-220 | the real watcher is chosen exactly when watchdog is available |
| OldWidgets.Normalize | old/reference/core/widgets.py:129-143 | a relative path is kept; an absolute one is kept, made relative, exactly when it lies under the root |
| OldWidgets.RelativeFiles | old/reference/core/widgets.py:127-143 | at most one entry per input, and all relative inputs come back unchanged |
| OldWidgets.RelativeFilesMembers | old/reference/core/widgets.py:127-143 | a name is listed exactly when some input normalises to it |
| OldWidgets.InsideRootBecomesRelative | old/reference/core/widgets.py:132-135 | an absolute path under the root becomes its path relative to the root |
| OldWidgets.FileNames | old/reference/core/widgets.py:162-164 | up to three names are joined in full; with more, the title starts with the first three |
| OldWidgets.TitleCountsEveryFile | old/reference/core/widgets.py:162-164 | with more than three files the "(+N more)" count is the number of files not named |
| OldWidgets.PaneTitle | old/reference/core/widgets.py:114-170 | no files leave the title alone; otherwise it starts with the title and the number of files kept |
| OldWidgets.RepoInfo | old/reference/core/widgets.py:49-58 | the repository label is the branch in square brackets |
| PaneData.IsSubmodule | three-pane-tui/data/data.c:4-12 | a file is a submodule exactly when both the name and the list are present and the name equals one of the listed names |
| PaneData.RepoSummary | three-pane-tui/data/data.c:36-64 | a non-object entry is skipped; an entry missing its name or status reads "Unknown repo"; otherwise the line starts with "name [status]" |
| PaneData.SummaryOf | three-pane-tui/data/data.c:46-59 | with non-empty changes the line is "name [status]: " followed by the changes up to the first newline; with empty changes it is "name [status]" |
| PaneData.SummaryShowsFirstLine | three-pane-tui/data/data.c:48-55 | only the first line of a multi-line changes field reaches the pane |
| PaneData.SummaryOfClean | three-pane-tui/data/data.c:56-59 | an empty changes field gives just "name [status]" |
| PaneData.Summaries | three-pane-tui/data/data.c:31-65 | one slot per repository, slot i summarising entry i |
| PaneData.LoadGitSubmodulesData | three-pane-tui/data/data.c:15-69 | the load fails exactly when the report is unreadable or has no "repositories" array; on success there is one slot per entry, filled exactly for object entries |
| PaneData.NonRootNamesSpec | three-pane-tui/data/data.c:81-101 | the submodule filter list holds exactly the names other than "root" that some repository entry carries |
| PaneData.SubmoduleNames | three-pane-tui/data/data.c:73-103 | there is a filter list exactly when the submodules report has a "repositories" array, and it never contains "root" |
| PaneData.FileLines | three-pane-tui/data/data.c:201-211 | one "    ├── " line per string file of the commit that is not a listed submodule, each naming a file of the commit |
| PaneData.CommitLine | three-pane-tui/data/data.c:188-199 | a commit line starts with "└── "; info of at most 60 characters is shown whole, longer info is cut to its first 60 characters followed by "..." |
| PaneData.CommitItemsWithinCount | three-pane-tui/data/data.c:126-212 | the lines written for a repository's commits never exceed the counted slots, and fill them exactly when every object commit has a string commit_info |
| PaneData.Header | three-pane-tui/data/data.c:162-178 | the header is "Repository: " followed by the text after the last '/' of the path, or the repository name when there is no path or no '/' |
| PaneData.FillWithinCount | three-pane-tui/data/data.c:120-212 | the items written never exceed the counted total, and fill it exactly when every counted repository has a string name and every commit a string commit_info |
| PaneData.Slots | three-pane-tui/data/data.c:147-148 | the pane has as many slots as counted: the written lines first, the rest left empty |
| PaneData.LoadCommittedNotPushedData | three-pane-tui/data/data.c:72-227 | the load fails exactly when the report is unreadable or lacks "repositories"; otherwise the pane has the counted number of slots and its leading slots are the generated lines in order |
| PaneData.DirtyLine | three-pane-tui/data/data.c:276-282 | a dirty line is "name: file" when the repository has a string name and the bare file otherwise |
| PaneData.RepoDirtyLines | three-pane-tui/data/data.c:273-286 | a repository contributes at most one line per dirty-file entry |
| PaneData.DirtyItems | three-pane-tui/data/data.c:262-287 | the lines never exceed the counted number of dirty files |
| PaneData.DirtyCountGrows | three-pane-tui/data/data.c:245-255 | the count over a prefix of the repositories never exceeds the full count, so the file_index bound in the loop never cuts a line off |
| PaneData.FillRepo | three-pane-tui/data/data.c:273-286 | the loop over one repository's files appends exactly that repository's dirty lines |
| PaneData.FillDirty | three-pane-tui/data/data.c:246-287 | the two loops produce exactly the dirty lines of every repository, within the counted total |
| PaneData.LoadDirtyFilesData | three-pane-tui/data/data.c:230-291 | the load fails exactly when the report is unreadable or lacks "repositories"; otherwise there is one slot per counted dirty file and the leading slots hold the lines in order |
| ReferenceAnimation.Frames | reference/animations.py:47-53 | each frame text of an animation is paired with the animation's common duration, in order |
| ReferenceAnimation.Library | reference/animations.py:41-96 | every animation of the built-in library has at least one frame, so indexing frame 0 after play never fails |
| ReferenceAnimation.OnlyIdleLoops | reference/animations.py:44-96 | the library holds exactly file_modified, file_created, commit, directory_change and idle, and only idle loops |
| ReferenceAnimation.Play | reference/animations.py:98-104 | a known name restarts that animation at frame 0 with the clock reset and playing on; an unknown name changes nothing |
| ReferenceAnimation.Stop | reference/animations.py:106-110 | stopping clears the animation and the frame index and leaves the frame clock alone |
| ReferenceAnimation.CurrentFrame | reference/animations.py:112-132 | nothing plays gives no frame and no change; before the frame's duration has passed the same frame is shown again; once it has passed, the clock restarts and the next frame is shown, frame 0 after the last for a loop; a non-looping animation past its last frame is stopped and cleared |
| ReferenceAnimation.AnimationFor | reference/animations.py:136-143 | exactly the change types modified, created and deleted have an animation, and it is in the library |
| ReferenceAnimation.TriggerFileChange | reference/animations.py:134-143 | modified and deleted play file_modified, created plays file_created, any other type changes nothing |
| ReferenceAnimation.TriggerCommit | reference/animations.py:145-147 | a commit always restarts the commit animation |
| ReferenceAnimation.TriggerDirectoryChange | reference/animations.py:149-151 | a directory change always restarts the directory_change animation |
| ReferenceAnimation.StartIdle | reference/animations.py:153-155 | idle starts at once, interrupting whatever was playing |
| ReferenceAnimation.Run | reference/animations.py:157-163 | polling the engine repeatedly keeps it well formed |
| ReferenceAnimation.ProgressStep | reference/animations.py:112-132 | one poll keeps a non-looping animation on schedule, or stopped no earlier than its total duration after it began |
| ReferenceAnimation.NeverFinishesEarly | reference/animations.py:112-163 | however it is polled, a non-looping animation stops only once the sum of its frame durations has passed since it was played |
| ReferenceAnimation.PlayStartsProgress | reference/animations.py:98-104 | playing a non-looping animation puts it on schedule from the moment it is played |
| ReferenceAnimation.LoopCycles | reference/animations.py:112-132 | a looping animation polled each time at least its longest frame duration after the last poll keeps playing and, after k polls, shows frame (index + k) mod n |
| Animation.TotalMsStep | reference/animations.py:112-132 | the running duration of the first i + 1 frames is that of the first i plus frame i's duration |
| ReferenceGitTracker.RunGitCommand | reference/git_tracker/index.py:75-90 | a finished run passes its output and exit code through; a timeout and a missing git binary give empty output, their fixed message and code -1 |
| ReferenceGitTracker.PorcelainToStatus | reference/git_tracker/index.py:186-198 | the eight porcelain letters map to their status names, every other character to "unknown" |
| ReferenceGitTracker.UnknownOnlyForUnknown | reference/git_tracker/index.py:186-198 | "unknown" comes back exactly for characters outside the mapping |
| ReferenceGitTracker.StatusLine | reference/git_tracker/index.py:159-182 | a line shorter than two characters raises; a non-blank worktree column gives an unstaged entry, else a non-blank index column a staged one, else the line is skipped; the path is everything from column 3 |
| ReferenceGitTracker.StatusLinesSpec | reference/git_tracker/index.py:125-184 | parsing fails exactly when some line is too short, and otherwise yields exactly the entries its lines give |
| ReferenceGitTracker.StatusLines | reference/git_tracker/index.py:159-184 | no more entries than lines; one line gives exactly the entries of that line, and a line that raises fails the whole parse |
| ReferenceGitTracker.StatusLinesAppend | reference/git_tracker/index.py:159-184 | the parse of two runs of lines is the parse of the first followed by that of the second, and fails exactly when either fails |
| ReferenceGitTracker.SubprocessStatus | reference/git_tracker/index.py:152-157 | a failed `git status` gives an empty list; otherwise the entries of its non-blank output lines, failing when one of them is too short |
| ReferenceGitTracker.FailedRunsGiveNothing | reference/git_tracker/index.py:87-157 | a timed-out or missing git gives an empty status |
| ReferenceGitTracker.GetStatus | reference/git_tracker/index.py:106-115 | without GitPython, or when its call fails, the subprocess path decides; otherwise GitPython's porcelain text is parsed the same way |
| ReferenceGitTracker.BranchName | reference/git_tracker/index.py:92-104 | GitPython's active branch wins when available; otherwise the stripped output of `git branch --show-current`, or "unknown" when it fails |
| ReferenceGitTracker.MaxCommits | reference/git_tracker/index.py:202 | a non-zero limit wins, then the configured history size, then 100 (a limit of 0 counts as absent, as Python's `or` does) |
| ReferenceGitTracker.Convert | reference/git_tracker/index.py:236-242 | the short sha is the first 7 characters of the full sha (all of a shorter one); the message is the stripped message up to its first newline; author, time and files are kept |
| ReferenceGitTracker.GitPythonCommits | reference/git_tracker/index.py:213-244 | at most one commit per commit read; one listed commit gives its conversion exactly when it passes the `since` filter |
| ReferenceGitTracker.GitPythonCommitsAppend | reference/git_tracker/index.py:213-244 | the commits of two runs of the listing are those of the first followed by those of the second, so the result keeps listing order |
| ReferenceGitTracker.GitPythonCommitsMembers | reference/git_tracker/index.py:213-244 | a commit is returned exactly when it is the conversion of a listed commit no older than `since` (every commit without a `since`) |
| ReferenceGitTracker.CommitInfo | reference/git_tracker/index.py:310-330 | a failed `git show` or output without `|` gives nothing; otherwise the author is the stripped output up to the first `|` and the time is the parse of the date after it, with the blank before its zone offset closed up; a date that does not parse gives nothing |
| ReferenceGitTracker.FileRunLines | reference/git_tracker/index.py:280-284 | every line inside the file run is a file line, and the run stops at the first line that is blank or starts with a space |
| ReferenceGitTracker.StripAllAt | reference/git_tracker/index.py:281-283 | each collected file name is its line stripped |
| ReferenceGitTracker.MakeCommit | reference/git_tracker/index.py:286-304 | the commit keeps the parsed sha, message and files; with commit info the author and time are the ones it gives, without it the author is "unknown" and the time is now |
| ReferenceGitTracker.CollectFiles | reference/git_tracker/index.py:277-284 | the inner loop stops after exactly the file run and collects its stripped lines |
| ReferenceGitTracker.ParseLine | reference/git_tracker/index.py:265-306 | one pass of the outer loop advances, emits at most one commit, and preserves what the rest of the log parses to |
| ReferenceGitTracker.ReadCommit | reference/git_tracker/index.py:271-304 | a header line "sha message" emits exactly one commit and preserves what the rest of the log parses to |
| ReferenceGitTracker.HeaderAt | reference/git_tracker/index.py:271-304 | a header line followed by its file run parses to one commit with those files, then the rest of the log |
| ReferenceGitTracker.ParseLog | reference/git_tracker/index.py:261-308 | the loop computes the functional parse of the log lines |
| ReferenceGitTracker.SubprocessCommits | reference/git_tracker/index.py:246-308 | a failed `git log` gives no commits; otherwise the commits are the parse of its output split on newlines |
| ReferenceGitTracker.LogRoundTrip | reference/git_tracker/index.py:253-308 | a `git log --oneline --name-only` text built from commits with clean shas, subjects and file names parses back to exactly those commits |
| ReferenceGitTracker.LogStep | reference/git_tracker/index.py:265-306 | the first commit of such a log parses to its own sha, subject and files, before the rest |
| ReferenceGitTracker.HeaderParts | reference/git_tracker/index.py:266-275 | a clean header line splits back into its sha and subject |
| ReferenceGitTracker.FilesStopAtBlank | reference/git_tracker/index.py:280 | the blank line that separates commits ends the file run |
| ReferenceWatcher.BaseName | reference/watcher/index.py:84 | the basename is the part of the path after its last '/', a slash-free suffix of it |
| ReferenceWatcher.ShouldIgnoreIff | reference/watcher/index.py:59-88 | a path is ignored exactly when it contains a configured directory fragment, ends with a configured file pattern, contains a custom pattern, or its basename is one of the nine fixed names |
| ReferenceWatcher.RecentSpec | reference/watcher/index.py:94-96 | the pruned list holds each recorded time later than one second before now exactly as often as the input does, and no other time; a time is kept if and only if it was recorded and lies inside the window |
| ReferenceWatcher.CheckRateLimit | reference/watcher/index.py:90-104 | an event is admitted exactly when fewer than the maximum remain in the last second, and only then is its time recorded; the window never grows past the maximum |
| ReferenceWatcher.Debounce | reference/watcher/index.py:106-115 | an event key passes exactly when the debounce delay has elapsed since its last pass (time 0 when never seen), and only a pass records the new time |
| ReferenceWatcher.AdmittedAfterRecorded | reference/watcher/index.py:106-115 | in any run of events, an admitted event is at least the delay after the time recorded for its key at the start |
| ReferenceWatcher.DebouncedApart | reference/watcher/index.py:106-115 | two admitted events with the same key are at least the debounce delay apart |
| ReferenceWatcher.NewHandler | reference/watcher/index.py:41-57 | a new handler debounces for 500 ms and admits 10 events per second unless configured, with no history |
| ReferenceWatcher.CreateEvent | reference/watcher/index.py:117-134 | the event keeps watchdog's type, source path and directory flag, stamped with the current time |
| ReferenceWatcher.OnAnyEvent | reference/watcher/index.py:136-156 | an ignored path changes nothing; an event reaches the callback exactly when it is not ignored, the rate limit admits it and the debounce lets it through; a rate-admitted event is recorded even when debounced |
| ReferenceWatcher.DebouncedEventUsesSlot | reference/watcher/index.py:136-156 | the same event twice at one instant passes once yet uses two rate-limit slots |
| ReferenceWatcher.RefusedByDebounce | reference/watcher/index.py:142-149 | a debounced event leaves the debounce table alone but keeps its rate-limit timestamp |
| ReferenceWatcher.SecondDebounced | reference/watcher/index.py:146-149 | right after an admitted event, the same event is debounced |
| ReferenceWatcher.RecentKeepsWindow | reference/watcher/index.py:94-96 | pruning keeps a list whose times all lie within the window |
| ReferenceWatcher.ShouldIgnoreFile | reference/watcher/index.py:217-246 | the polling watcher ignores no file the handler would keep, and every file under an ignored directory fragment |
| ReferenceWatcher.Paths | reference/watcher/index.py:250-262 | the current set is exactly the walked paths |
| ReferenceWatcher.Times | reference/watcher/index.py:251-266 | the new times cover every walked file whose mtime could be read, and only walked paths |
| ReferenceWatcher.TimesSpec | reference/watcher/index.py:251-266 | a path has a time exactly when some walked file with that path had a readable mtime, and its time is one of those mtimes; files whose mtime could not be read get none |
| ReferenceWatcher.InitialState | reference/watcher/index.py:196-215 | the initial known set is exactly the walked files with a readable mtime, and it is the key set of the times |
| ReferenceWatcher.Changes | reference/watcher/index.py:257-289 | at most one event per walked file, each a "created" or "modified" file event stamped now (which files, see the four lemmas below) |
| ReferenceWatcher.ChangeSound | reference/watcher/index.py:268-286 | every event names a walked file whose mtime was read and that is new or has a later mtime, and the event is "created" exactly when the file had no time before |
| ReferenceWatcher.ChangeComplete | reference/watcher/index.py:268-286 | every walked file whose mtime was read and that is new or has a later mtime has an event, "created" exactly when it had no time before |
| ReferenceWatcher.ChangeReportedIff | reference/watcher/index.py:268-286 | when the walk visits each path once, a walked file has an event exactly when it is new or its mtime grew, and its event is "created" exactly when it is new |
| ReferenceWatcher.ChangesInWalkOrder | reference/watcher/index.py:268-286 | events come in walk order: an earlier event names a file walked before the file of a later event |
| ReferenceWatcher.CheckForChanges | reference/watcher/index.py:248-304 | the deleted set is exactly the known paths no longer walked, and the state becomes the new times and paths |
| ReferenceWatcher.TimesOfDistinct | reference/watcher/index.py:264-266 | with distinct paths, each file's recorded time is its own mtime |
| ReferenceWatcher.NoChangesAgainstItself | reference/watcher/index.py:268-286 | a walk compared with its own times reports no change |
| ReferenceWatcher.UnchangedTreeIsQuiet | reference/watcher/index.py:196-304 | polling an unchanged tree right after the initial scan reports nothing created, modified or deleted |
| ReferenceWatcher.CreateFileWatcher | reference/watcher/index.py:335-391 | watchdog is used exactly when it is available, polling was not asked for and its observer starts; polling otherwise |
| ReferenceWatcher.StartPolling | reference/watcher/index.py:306-309 | the polling watcher always starts and leaves its state unchanged |
| ReferenceWatcher.StartWatchdog | reference/watcher/index.py:335-356 | the watchdog watcher starts exactly when watchdog is installed and its observer starts |
| RepoWatch.OnFileChange | repo_watch.py:247-256 | every event schedules a refresh; exactly modifications and creations animate, each with its own change type |
| RepoWatch.StatusPaths | repo_watch.py:275 | the uncommitted pane lists the status paths in order, one per status entry |
| RepoWatch.CommittedPaths | repo_watch.py:279-285 | the committed pane holds exactly the files of the first ten commits since the session began, each once |
| RepoWatch.StatusText | repo_watch.py:289-293 | the bar reads "Repository clean" exactly when both counts are zero, and otherwise starts with the uncommitted count |
| RepoWatch.StatusTextRoundTrip | repo_watch.py:289-293 | both counts read back exactly from the status text, and the clean message carries no counts |
| RepoWatch.UpdateGitStatus | repo_watch.py:267-296 | nothing happens until the tracker and both panes exist; a failing status query fills no pane and shows "Error: " and its message; a failing commit query keeps the uncommitted pane and shows its error; otherwise both panes and the count text are set |
| RepoWatch.CleanIffNothingChanged | repo_watch.py:279-293 | after successful queries the bar says "Repository clean" exactly when git reports no changed file and the first ten commits touch none |
| RepoWatch.Clock | repo_watch.py:64-66 | the elapsed seconds split into hours, minutes below 60 and seconds below 60 that add back up to the total |
| RepoWatch.SessionInfo | repo_watch.py:62-72 | the label ends in "m" exactly from one full hour on, and is then the whole hours and the remaining minutes of the elapsed seconds; before that it is the whole minutes and the remaining seconds |
| RepoWatch.RepoInfo | repo_watch.py:54-60 | the repository label is the folder icon, the last component of the repository path, and the branch in square brackets |
| RepoWatch.PaneLabel | repo_watch.py:90-103 | "No files" exactly for an empty list; otherwise the title followed by the number of files in parentheses |
| ReportHandoffs.LeftPaneLine | three-pane-tui/data/data.c:36-64 | a git-submodules report entry shows in the left pane as its name and status word, and for a dirty repository the first line of its `git status` output |
| ReportHandoffs.EntriesKept | committed-not-pushed/committed-not-pushed.c:293-326 | with no submodule path collected, every report entry is added as (path, name), in order |
| ReportHandoffs.CollectsEveryRepository | committed-not-pushed/committed-not-pushed.c:306-323 | git-submodules' report has no "submodules" key, so the analyzer collects every repository of it, submodules included |
| ReportHandoffs.ListedBack | dirty-files/dirty-files.c:192-213 | in `run_git_submodules_analysis`, which `main` never calls: the analyzer lists one repository per dirty repository of the monitor |
| ReportHandoffs.OutputSkipsPreamble | dirty-files/dirty-files.c:180-189 | in `run_git_submodules_analysis`, which `main` never calls: the seven lines the monitor prints before its listing never look like the "Dirty repositories:" heading, so the reader skips them |
| ReportHandoffs.ListingLineBack | dirty-files/dirty-files.c:192-213 | in `run_git_submodules_analysis`, which `main` never calls: a "  - name (path)" line reads back as that path and the name with its trailing blank |
| ReportHandoffs.ListingBack | dirty-files/dirty-files.c:179-219 | in `run_git_submodules_analysis`, which `main` never calls: after the heading, the monitor's listing reads back as exactly its dirty repositories, in order |
| ReportHandoffs.DirtyClosing | dirty-files/dirty-files.c:179-219 | in `run_git_submodules_analysis`, which `main` never calls: with a dirty repository, the lines from the heading on read back as exactly the dirty repositories |
| ReportHandoffs.CleanListingEmpty | dirty-files/dirty-files.c:179-219 | in `run_git_submodules_analysis`, which `main` never calls: when every repository is clean the monitor prints no heading and the analyzer finds nothing |
| ReportHandoffs.ReportLineKeys | git-submodules/git-submodules.c:380-439 | no key of the report, at any depth, holds a newline, so the report is written on one line |
| ReportHandoffs.JsonReportCollectsNothing | dirty-files/dirty-files.c:110-160 | the report git-submodules writes is one line of JSON, and the text parser dirty-files `main` reads it with collects nothing from it, however many repositories are dirty |
| ReportHandoffs.JsonReaderFindsDirty | git-submodules/git-submodules.c:380-439 | a JSON reader of the report finds exactly the dirty repositories, in collection order, with their names and paths |
| Styles.FirstMatch | three-pane-tui/styles/styles.c:15-19 | no colour exactly when no entry has the key; otherwise the colour of the first entry with it |
| Styles.Extension | three-pane-tui/styles/styles.c:22 | a name has an extension exactly when it contains '.', and it is the suffix from the last '.' |
| Styles.FileColor | three-pane-tui/styles/styles.c:4-33 | a path ending in '/' gets the directory colour; otherwise the name after the last '/' gets the colour of the first special file with that name, else the colour of the first extension entry matching its extension, else the default colour |
| Styles.SpecialBeforeExtension | three-pane-tui/styles/styles.c:10-19 | a name gets the colour of its first entry among the special files, whatever its extension and whatever the extension list says |
| Styles.DefaultFileColor | three-pane-tui/styles/styles.c:4-33 | a name that is no special file and has no configured extension (or none at all) gets the default colour |
| Styles.ExtensionColor | three-pane-tui/styles/styles.c:21-29 | a file that is not special gets the colour of the first configured extension equal to its last-dot suffix |
| Styles.RepoColorIndex | three-pane-tui/styles/styles.c:36-49 | the colour index is always 1 to 8, and 7 for a NULL name |
| Styles.Djb2Mod8 | three-pane-tui/styles/styles.c:40-48 | modulo 8 the hash is 5 plus the sum of the name's signed byte values, so the index depends only on that sum |
| Styles.RepoColorBySum | three-pane-tui/styles/styles.c:36-49 | a name's colour index is (5 + byte sum) mod 8, plus 1 |
| Styles.RepoColorIndexLoop | three-pane-tui/styles/styles.c:40-48 | the byte loop computes the hash the functional definition gives |
| Styles.ColorIndexToAnsi | three-pane-tui/styles/styles.c:52-59 | indices 1 to 8 map to the eight palette codes, anything else to 37 |
| Styles.PaletteDistinct | three-pane-tui/styles/styles.c:54 | different indices in 1 to 8 give different ANSI codes |
| Styles.RepoColor | three-pane-tui/styles/styles.c:75-78 | a repository colour is always a palette code, and white exactly when the index is 7 |
| Styles.Bump | three-pane-tui/styles/styles.c:69 | the wrapped increment always changes the colour and keeps 1 to 8 in range |
| Styles.AdjustColors | three-pane-tui/styles/styles.c:63-72 | the first colour stays, no two neighbours are equal afterwards, and each entry is either kept or bumped once |
| Styles.AdjustInRange | three-pane-tui/styles/styles.c:63-72 | colours in 1 to 8 stay in 1 to 8 |
| Styles.AdjustNoTouchingIdentity | three-pane-tui/styles/styles.c:63-72 | a list with no equal neighbours is left unchanged |
| Styles.AdjustColorsLoop | three-pane-tui/styles/styles.c:63-72 | the in-place loop, reading the already adjusted left neighbour, computes the functional pass |
| TuiAnimations.CreateAnimationState | three-pane-tui/animations/animations.c:5-25 | no state exactly for a NULL path; otherwise the state keeps path, type and width, starts now, ends 30 seconds later and has not scrolled |
| TuiAnimations.UpdateAnimationState | three-pane-tui/animations/animations.c:28-40 | a NULL state stays NULL; otherwise the width is always replaced, the scroll advances by one only for the left-right scroll, and nothing else changes |
| TuiAnimations.IsExpired | three-pane-tui/animations/animations.c:88-91 | a NULL state counts as expired; otherwise it is expired exactly from its end time on |
| TuiAnimations.UpdatesKeepEnd | three-pane-tui/animations/animations.c:28-40 | any number of updates keeps a state present and its end time unchanged |
| TuiAnimations.ExpiresAfterDuration | three-pane-tui/animations/animations.c:5-91 | however often it is updated, an animation created at t0 is expired exactly from t0 + 30 on |
| TuiAnimations.CellsExact | three-pane-tui/animations/animations.c:67-84 | with the display width equal to the byte length, column c shows path[c - start] when that is in range and a space otherwise |
| TuiAnimations.DisplayStartInRange | three-pane-tui/animations/animations.c:53-62 | the start column lies in [-text_width, available), so the off-screen early return never fires |
| TuiAnimations.RenderScroll | three-pane-tui/animations/animations.c:43-85 | nothing is drawn exactly when the pane leaves no inner width |
| TuiAnimations.RenderFillsPane | three-pane-tui/animations/animations.c:67-84 | with the display width equal to the byte length the row fills exactly the pane's inner width |
| TuiAnimations.ScrollLoops | three-pane-tui/animations/animations.c:53-57 | one whole cycle of available + text_width steps later the row is the same again |
| TuiUi.Layout | three-pane-tui/ui/ui.c:109-144 | with pane_width = width/3 the panes start at columns 1, pane_width+1 and 2·pane_width+1, with widths pane_width−1, pane_width−1 and pane_width + width mod 3 − 1 |
| TuiUi.LayoutTiles | three-pane-tui/ui/ui.c:109-144 | each pane ends one column before the next begins, leaving the column for the border, and the last pane ends at the screen's last column |
| TuiUi.VisibleItems | three-pane-tui/ui/ui.c:14-16 | the pane shows a prefix of its items: none for a height of zero or less, else at most `height` of them |
| TuiUi.Precision | three-pane-tui/ui/ui.c:39-55 | "%.*s" with a negative precision prints the whole string, otherwise at most that many bytes |
| TuiUi.FitText | three-pane-tui/ui/ui.c:22-80 | text no longer than width − 2 bytes (or any text when that margin is negative) is printed unchanged |
| TuiUi.PlainFits | three-pane-tui/ui/ui.c:66-76 | a long text without "├── " becomes "..." and its last width − 5 bytes, exactly width − 2 bytes in all |
| TuiUi.TreeFits | three-pane-tui/ui/ui.c:29-57 | a long tree entry with room for its name keeps the bytes up to the marker start plus 4 and stays within width − 2 bytes |
| TuiUi.TreeNarrow | three-pane-tui/ui/ui.c:41-61 | when the kept prefix leaves no room for a name, the entry is cut to width − 5 bytes and "...", exactly width − 2 bytes |
| TuiUi.TreeCutSplitsCharacter | three-pane-tui/ui/ui.c:33 | counting "├── " as 4 bytes keeps only the first byte of the second box character, followed by the "..." |
| TuiUi.FitTextFixed | three-pane-tui/ui/ui.c:22-80 | the corrected truncation prints short text unchanged, like the original |
| TuiUi.FixedTreeKeepsMarker | three-pane-tui/ui/ui.c:29-57 | skipping the marker's 10 UTF-8 bytes, a long tree entry keeps the whole prefix and marker, then "...", then a tail of the name, exactly width − 2 bytes in all |

## Left out

- **Process, file and OS I/O.** Running git and the analyzers (`popen`,
  `subprocess`), reading and writing reports, config and PID files
  (`json_parse_file`, `json_write_file`, `load_*`, `save_*`, `generate_*`),
  directory walks, `stat`, `realpath`, inotify and watchdog observers, forking,
  signals and child exit codes. Their results are parameters, and what the
  programs would write is returned as a value.
- **Terminal and Textual UI.** Widget composition and queries, termios, ANSI
  escapes and the `draw_*` bodies are left out. The TUIs' main programs and
  the theme and CSS generators are left out too. Only the text the panes
  show is modelled.
- **Concurrency and scheduling.** The asyncio loops, sleeps and
  `sig_atomic_t` flags are left out. Each loop body is a single transition.
- **Floating point.** Left out: `atof`, `"%.17g"` and Python float timestamps.
  JSON numbers are lexemes. A conversion to an integer is a caller-supplied
  function.
- **Time.** Every clock is an integer: milliseconds for Python floats, whole
  seconds for C `time_t`.
- **Clock reads.** One `now` stands for several clock reads:
  - git-submodules.c reads `time(NULL)` once per repository
    (git-submodules.c:216) and again for the report timestamp
    (git-submodules.c:389). `GitSubmodules.Collect` and `GitSubmodules.Report`
    take one value.
  - reference/watcher/index.py reads `time.time()` separately in the rate
    limit, the debounce and the event it builds (index.py:92,108,133).
    `ReferenceWatcher.OnAnyEvent` takes one value.
- **Bytes.** A `char` stands for one byte of a C string, and no string
  contains NUL.
- **Bounded buffers.** Fixed-size C buffers are modelled as whole strings.
  The truncation these buffers would cause is not modelled:
  - the `snprintf` command lines `cmd[1024]` and `cmd[2048]`
    (git-status.c:38, dirty-files.c:73, git-submodules.c:223,
    committed-not-pushed.c:163,208);
  - `config_path[1024]` and `child_cmd[1024]` (main.c:100,171), and
    `full_path[2048]` (file-changes-watcher.c:160,214);
  - the `fgets` line limits `buffer[1024]`, `line[1024]` and `line[2048]`,
    which split longer output lines in two;
  - `submodule_name[256]` (git-submodules.c:355), `remote_name[256]` and
    `branch_name[256]` (committed-not-pushed.c:217,234);
  - the 512- and 1024-byte line buffers of three-pane-tui/data/data.c;
  - the `PATH_MAX` buffers `cmd`, `cwd`, `component_path`, `default_pid` and
    `daemon_path` (inotify-watcher.c:115,218,226,250,276);
  - `submodule_full_path[2048]` (git-submodules.c:354), which holds
    `repo_path/submodule_path`.
- ExpandVars.CExpand: the output goes to `malloc(strlen * 2 + 1)`
  (git-submodules.c:51, main.c:43, inotify-watcher.c:27). An expansion longer
  than that overflows the buffer. The model returns the whole expansion and
  does not record the overflow.
- Json.EscapeChar: each `\u00XX` escape takes 6 bytes of the writer's
  `len * 2 + 3` buffer (json-utils.c:484-503). A string with many control or
  high bytes therefore overruns it. The model returns the whole escaped text.
- DirtyFiles.ListedRepo: when ')' comes before '(' in a "  - " line, the
  source computes a negative length and writes before its buffer
  (dirty-files.c:208). The model returns None for that line, so the
  repository is not collected.
- Text.Lower: ASCII-only, where git_tracker.py calls Python's Unicode
  `str.lower()`. Non-ASCII status codes never occur in porcelain output.
- Text.AsciiUpper: ASCII-only, where git_tracker.py's `status_symbol` calls
  Unicode `str.upper()`.
- TuiAnimations.UpdateAnimationState: `scroll_position` is a C `int` that could overflow
  after 2^31 updates. The model counts with a `nat`.
- **build_file_tree.** It is modelled as written and as intended
  (`TreeBuild`). Two segments lose the file, and three or more are undefined
  behaviour, which is `None`. Nothing beyond that is modelled.
- **Stubs, CLI wrappers and symbols the sources use but never show.**
  - `json_get_children`, `index_json_load`, `index_json_get_children`,
    `index_json_update_children`, `json_get_child_config` and
    `json_update_children` (json-utils.c:395-461,656-670);
  - `json_free` and the `json_create_*` constructors, beyond the datatype
    itself;
  - json-utils/set-value.c, read-report.c, get-children.c and test-parse.c,
    which are not part of this model;
  - `json_process_dirty_files_to_tree` and `get_string_display_width`.
- **Styles and demo data.** `load_styles` (styles.c:81-) reads the colour
  scheme files, and `load_hardcoded_data` (data.c:294-) is demo data.
- **Launchers and tests.** core/index.py, reference/core/index.py, the `run.py`
  launchers and the test scripts are left out.
- **claude_history_analyzer.py.** An offline summariser built on subprocess,
  file and LLM API calls.
- **get_random_celebration.** It picks a message with `random.choice`
  (reference/animations.py:169-181), and no modelled decision depends on it.
- **PollingFileWatcher.is_active.** The attribute set in `__init__` shadows
  the method (reference/watcher/index.py:186,315). Only the flag is modelled.
- **Internals.** GitPython's own behaviour (`Repo`, `diff`, `iter_commits`,
  `untracked_files`) is left out, and only what the prototypes do with the
  answers is modelled.
- **PollingFileWatcher deletions.** Their order follows a Python set
  difference, so the model returns them as a set.
- OldApp.QuitTime: `check_inactivity_timeout` (old/reference/core/app.py:54-62)
  is never started, because `on_idle` (app.py:245-249) starts only the session
  timer and the git check. The app as written never quits on its own.
  `OldApp.QuitTime`, `OldApp.ActivityPostponesQuit` and
  `OldApp.QuitWithinAMinute` state what the loop would do once started.
- Json.ValueRoundTrip: stated for clean values only. Strings that need
  escapes are written escaped and read back raw (see Findings).
- Json.DocumentRoundTrip: stated for clean documents only, for the same
  reason.
- FileChangesWatcher.SaveLoadRoundTrip: stated on the JSON tree, not on the
  text written to disk. A path with a quote, backslash, control byte or byte
  from 0x80 up would come back with its escapes raw.
- **Debug output.** `print` and `fprintf(stderr)` are left out, and so are
  log lines that change nothing.

## Findings

| source | as written | input that shows it | evidently intended | confidence | as-written member | corrected member |
|---|---|---|---|---|---|---|
| committed-not-pushed/committed-not-pushed.c:117-143 | a long name without an extension gets its first 24 bytes plus "..." and NUL (28 bytes) written into `malloc(25)`; an extension of 22 bytes or more makes the `size_t` room `21 - ext_len` wrap, so the whole name is copied into a buffer whose size wraps back to 25 | a 33-byte name with no '.' (33 × 'a'); "a." followed by 40 × 'b' | the shortened name fits its buffer: at most 24 bytes when the extension leaves room, else the first byte, "..." and the extension | not executed | CommittedNotPushed.NoExtensionOverflows, CommittedNotPushed.LongExtensionWraps | CommittedNotPushed.TruncateFilename |
| inotify-watcher/inotify-daemon.c:38-44 | a path is excluded as a `.git` directory only when its FIRST "/.git" is its last five bytes | "r/.github/.git" | every path ending in "/.git" is excluded | not executed | InotifyDaemon.GithubGitSlipsThrough | InotifyDaemon.FixOnlyAddsGitEndings |
| three-pane-tui/ui/ui.c:29-61 | a long tree entry keeps the bytes up to the "├── " marker's start plus 4, counting the marker as 4 bytes where UTF-8 spends 10, so "├" is kept whole and the cut falls inside the first "─": its lead byte is followed by "." | an entry "x├── " followed by a name too long for the pane | the whole marker is kept before "..." and the name's tail | not executed | TuiUi.TreeCutSplitsCharacter | TuiUi.FixedTreeKeepsMarker |
| interactive-dirty-files-tui/interactive-dirty-files-tui.c:163-200 | `current_row` is passed by value, so each child is checked against its parent's row plus one and the lines its older siblings printed are not counted | a directory with three files and room for two rows prints four lines | the row counter is shared (as file-tree.c does through a pointer), so the listing stops at the row limit | not executed | InteractiveTui.AsWrittenOverflows | InteractiveTui.PrintTreeRows |
| committed-not-pushed/committed-not-pushed.c:306-323 | a report repository is skipped only if an EARLIER entry listed it as a submodule, so the filter depends on the report's order | a submodule listed before its parent is checked as a repository of its own | every repository that any entry lists as a submodule is skipped, whatever the order | not executed | CommittedNotPushed.SubmoduleFirstIsKept | CommittedNotPushed.FixedSkipsEverySubmodule |
| interactive-dirty-files-tui/interactive-dirty-files-tui.c:92-160 | after creating a directory, `build_file_tree` reads one segment ahead and never puts it back; the next `strtok` call continues from a freed buffer | "d/f" builds an empty directory "d" and loses "f"; "d/e/f" is undefined behaviour | each path's segments become a chain of nodes ending in its file | not executed | TreeBuild.AsWrittenDropsFile, TreeBuild.AsWrittenUndefined | TreeBuild.BuildKeepsFile |
| json-utils/json-utils.c:115-137 | the writer escapes quotes, backslashes, control bytes and bytes from 0x80 up (json-utils.c:471-508), but `parse_string` copies the text between the quotes as it stands, so every escape comes back raw | the one-byte string 0xE9 is written as `"\u00e9"` and read back as the six characters `\u00e9` | reading what the writer wrote gives back the same string | not executed | Json.StringReadRaw, Json.HighByteReadRaw | JsonEscape.StringRoundTrip |
| dirty-files/dirty-files.c:297 | `main` reads git-submodules.report with `parse_git_submodules_report` (dirty-files.c:110-160), a parser for "Repository:/Path:/Status:" text sections, but git-submodules writes that file as one line of JSON (git-submodules.c:439); `run_git_submodules_analysis`, the reader of the monitor's printed listing, is never called | any report git-submodules writes, for example one whose only repository is DIRTY: nothing is collected | the dirty repositories named in the report are collected and their dirty files listed | not executed | ReportHandoffs.JsonReportCollectsNothing | ReportHandoffs.JsonReaderFindsDirty, DirtyFiles.AnalyzeReport |

The submodule filter row has a consequence for the reports the tools
exchange. git-submodules writes its report without a "submodules" key
(`ReportHandoffs.CollectsEveryRepository`), so committed-not-pushed checks
every repository on that report, and the corrected filter would too.

The JSON row is about text. The model's other JSON round trips
(`Json.ValueRoundTrip`, `FileChangesWatcher.SaveLoadRoundTrip`) are stated for
clean values or on the parsed tree, so they hold with either reader.

=== FILE: animation.dfy ===
/** The frame-sequence animations both Python animation engines play. The
    engines differ (see `DisplayAnimation` and `ReferenceAnimation`); the
    frames, the sequences and the engine state they keep are shared. Times are
    integer milliseconds: a Python float in seconds becomes `seconds * 1000`. */
module Animation {
  import opened Wrappers

  /** `AnimationFrame(content, duration)`. */
  datatype Frame = Frame(content: string, durationMs: nat)

  /** `Animation(name, frames, loop)`. */
  datatype Sequence = Sequence(name: string, frames: seq<Frame>, loop: bool)

  /** The mutable fields of an `AnimationEngine` besides its fixed library:
      `current_animation`, `current_frame_index`, `last_frame_time`, `is_playing`. */
  datatype Engine = Engine(current: Option<Sequence>, index: int, last: int, playing: bool)

  /** The state `__init__` leaves. */
  const Fresh: Engine := Engine(None, 0, 0, false)

  /** Every sequence of a library has a frame to show. */
  predicate WellFormed(lib: map<string, Sequence>) {
    forall k :: k in lib ==> |lib[k].frames| > 0
  }

  /** Whenever a playing engine has an animation, its frame index is in range,
      so `frames[current_frame_index]` cannot raise. */
  predicate Ready(e: Engine) {
    e.playing && e.current.Some? ==> 0 <= e.index < |e.current.value.frames|
  }

  /** The summed durations of `frames`. */
  function TotalMs(frames: seq<Frame>): nat {
    if |frames| == 0 then 0 else TotalMs(frames[..|frames| - 1]) + frames[|frames| - 1].durationMs
  }

  /** One more frame adds its duration. */
  lemma TotalMsStep(frames: seq<Frame>, i: nat)
    requires i < |frames|
    ensures TotalMs(frames[..i + 1]) == TotalMs(frames[..i]) + frames[i].durationMs
  {
    assert frames[..i + 1][..i] == frames[..i];
  }

  /** The longest frame duration of `frames` (0 for none). */
  function MaxMs(frames: seq<Frame>): (m: nat)
    ensures forall i :: 0 <= i < |frames| ==> frames[i].durationMs <= m
    ensures |frames| > 0 ==> exists i :: 0 <= i < |frames| && frames[i].durationMs == m
  {
    if |frames| == 0 then 0
    else
      var t := MaxMs(frames[1..]);
      assert forall i :: 1 <= i < |frames| ==> frames[i] == frames[1..][i - 1];
      if frames[0].durationMs > t then frames[0].durationMs else t
  }

  /** A playing engine is on schedule for a start time `t0` when its last
      advance happened no earlier than the durations of the frames already
      shown, counted from `t0`. */
  ghost predicate OnSchedule(e: Engine, t0: int) {
    e.playing && e.current.Some? && 0 <= e.index <= |e.current.value.frames|
    ==> e.last >= t0 + TotalMs(e.current.value.frames[..e.index])
  }
}

=== FILE: color_assignment.dfy ===
/** three-pane-tui/test_color_assignment.c: how the repository pane gives
    each line a colour. A "Repository: " header takes the next colour of a
    cycle 1..8 and every other line takes the colour of the header above
    it (0 before any header). The viewport shows a clamped range of lines. */
module ColorAssignment {
  import opened Wrappers
  import opened Text

  const HeaderPrefix := "Repository: "

  /** `extract_repo_name_from_header`: the text after the prefix, for an
      item (None for NULL) that starts with it. */
  function ExtractRepoName(item: Option<string>): (r: Option<string>)
    ensures r.Some? <==> item.Some? && IsPrefix(HeaderPrefix, item.value)
    ensures r.Some? ==> item.value == HeaderPrefix + r.value
  {
    if item.Some? && IsPrefix(HeaderPrefix, item.value) then
      assert item.value == HeaderPrefix + item.value[|HeaderPrefix|..];
      Some(item.value[|HeaderPrefix|..])
    else None
  }

  /** Writing a header for a name and reading it back gives the name. */
  lemma HeaderRoundTrip(name: string)
    ensures ExtractRepoName(Some(HeaderPrefix + name)) == Some(name)
  {
    assert (HeaderPrefix + name)[..|HeaderPrefix|] == HeaderPrefix;
    assert (HeaderPrefix + name)[|HeaderPrefix|..] == name;
  }

  predicate IsHeader(item: string) {
    ExtractRepoName(Some(item)).Some?
  }

  /** The counter after one more header: `++`, with 9 wrapping to 1. */
  function NextColor(counter: int): (r: int)
    ensures 0 <= counter <= 8 ==> 1 <= r <= 8
  {
    if counter + 1 > 8 then 1 else counter + 1
  }

  /** The colours of `items` with the counter at `counter`, as the loop
      assigns them. */
  function ColorsFrom(counter: int, items: seq<string>): (r: seq<int>)
    ensures |r| == |items|
    decreases |items|
  {
    if |items| == 0 then []
    else if IsHeader(items[0]) then
      var c := NextColor(counter);
      [c] + ColorsFrom(c, items[1..])
    else [counter] + ColorsFrom(counter, items[1..])
  }

  /** The colour assignment of `main`, starting from 0. */
  function AssignColors(items: seq<string>): (r: seq<int>)
    ensures |r| == |items|
  {
    ColorsFrom(0, items)
  }

  /** How many headers `items` holds. */
  function HeaderCount(items: seq<string>): nat {
    if |items| == 0 then 0 else (if IsHeader(items[|items| - 1]) then 1 else 0) + HeaderCount(items[..|items| - 1])
  }

  /** The counter after `h` headers. */
  function CycleColor(h: nat): (c: int)
    ensures h == 0 ==> c == 0
    ensures h > 0 ==> 1 <= c <= 8
  {
    if h == 0 then 0 else (h - 1) % 8 + 1
  }

  lemma CycleStep(h: nat)
    ensures CycleColor(h + 1) == NextColor(CycleColor(h))
  {
  }

  /** The loop of `main` over the items. */
  method AssignColorsLoop(items: seq<string>) returns (colors: seq<int>)
    ensures colors == AssignColors(items)
  {
    colors := [];
    var current := 0;
    var i := 0;
    while i < |items|
      invariant 0 <= i <= |items| && |colors| == i
      invariant colors + ColorsFrom(current, items[i..]) == AssignColors(items)
    {
      assert items[i..][0] == items[i] && items[i..][1..] == items[i + 1..];
      if IsHeader(items[i]) {
        current := NextColor(current);
      }
      assert colors + ([current] + ColorsFrom(current, items[i + 1..]))
             == (colors + [current]) + ColorsFrom(current, items[i + 1..]);
      colors := colors + [current];
      i := i + 1;
    }
    assert items[i..] == [];
  }

  /** The colour of each line is fixed by how many headers there are up to
      and including it: none gives 0, `h` gives the `h`-th colour of the
      cycle. */
  lemma ColorsClosedForm(items: seq<string>)
    ensures forall i :: 0 <= i < |items| ==> AssignColors(items)[i] == CycleColor(HeaderCount(items[..i + 1]))
  {
    ColorsFromClosed([], items);
    assert CycleColor(HeaderCount([])) == 0;
    forall i | 0 <= i < |items|
      ensures AssignColors(items)[i] == CycleColor(HeaderCount(items[..i + 1]))
    {
      assert [] + items[..i + 1] == items[..i + 1];
    }
  }

  lemma {:induction false} ColorsFromClosed(pre: seq<string>, rest: seq<string>)
    ensures forall k :: 0 <= k < |rest| ==>
              ColorsFrom(CycleColor(HeaderCount(pre)), rest)[k] == CycleColor(HeaderCount(pre + rest[..k + 1]))
    decreases |rest|
  {
    if |rest| > 0 {
      var next := pre + [rest[0]];
      assert next[..|next| - 1] == pre && next[|next| - 1] == rest[0];
      assert HeaderCount(next) == (if IsHeader(rest[0]) then 1 else 0) + HeaderCount(pre);
      assert pre + rest[..1] == next;
      var c, c2 := CycleColor(HeaderCount(pre)), CycleColor(HeaderCount(next));
      if IsHeader(rest[0]) {
        CycleStep(HeaderCount(pre));
      }
      assert ColorsFrom(c, rest) == [c2] + ColorsFrom(c2, rest[1..]);
      ColorsFromClosed(next, rest[1..]);
      forall k | 1 <= k < |rest|
        ensures ColorsFrom(c, rest)[k] == CycleColor(HeaderCount(pre + rest[..k + 1]))
      {
        assert rest[..k + 1] == [rest[0]] + rest[1..][..k];
        assert pre + rest[..k + 1] == next + rest[1..][..k - 1 + 1];
      }
    }
  }

  /** Every header gets a colour in 1..8, a line before the first header
      gets 0, and a line below a header shares its colour. */
  lemma ColorsMeaning(items: seq<string>)
    ensures forall i :: 0 <= i < |items| && IsHeader(items[i]) ==> 1 <= AssignColors(items)[i] <= 8
    ensures forall i :: 0 <= i < |items| && HeaderCount(items[..i + 1]) == 0 ==> AssignColors(items)[i] == 0
    ensures forall i :: 1 <= i < |items| && !IsHeader(items[i]) ==> AssignColors(items)[i] == AssignColors(items)[i - 1]
  {
    ColorsClosedForm(items);
    forall i | 0 <= i < |items|
      ensures HeaderCount(items[..i + 1]) == (if IsHeader(items[i]) then 1 else 0) + HeaderCount(items[..i])
    {
      assert items[..i + 1][..i] == items[..i];
    }
  }

  /** Consecutive headers never share a colour. */
  lemma NeighbourHeadersDiffer(h: nat)
    requires h > 0
    ensures CycleColor(h) != CycleColor(h + 1)
  {
  }

  /** The last item the viewport shows, plus one: clamped to the count. */
  function ViewportEnd(start: nat, height: nat, count: nat): (e: nat)
    ensures e <= count && e <= start + height
    ensures e == count || e == start + height
  {
    if start + height > count then count else start + height
  }
}

=== FILE: committed_not_pushed.dfy ===
/** committed-not-pushed/committed-not-pushed.c: which repositories of the
    git-submodules report are checked, which of their commits count as not
    pushed and with which files, how long file names are shortened for the
    report, and the report's totals. Command output arrives as lines
    without their newline; the git commands themselves are oracles. */
module CommittedNotPushed {
  import opened Wrappers
  import opened Text
  import opened PyDict
  import opened Json
  import opened JsonPath

  /** `is_submodule_path`: exact membership. */
  function IsSubmodulePath(submodules: seq<string>, path: string): (r: bool)
    ensures r <==> exists i :: 0 <= i < |submodules| && submodules[i] == path
  {
    path in submodules
  }

  /** `add_submodule_path`: appends, duplicates included. */
  function AddSubmodulePath(submodules: seq<string>, path: string): (r: seq<string>)
    ensures |r| == |submodules| + 1 && r[..|submodules|] == submodules && r[|submodules|] == path
  {
    submodules + [path]
  }

  /** After adding a path it is a submodule path, and so is every path that
      was one before. */
  lemma AddedPathIsSubmodule(submodules: seq<string>, path: string, other: string)
    ensures IsSubmodulePath(AddSubmodulePath(submodules, path), other)
            <==> other == path || IsSubmodulePath(submodules, other)
  {
    var r := AddSubmodulePath(submodules, path);
    if IsSubmodulePath(submodules, other) {
      var i :| 0 <= i < |submodules| && submodules[i] == other;
      assert r[i] == other;
    }
    if IsSubmodulePath(r, other) && other != path {
      var i :| 0 <= i < |r| && r[i] == other;
      assert i < |submodules|;
    }
  }

  /** 2^64: `size_t` arithmetic wraps modulo this. */
  const SizeModulus: int := 0x1_0000_0000_0000_0000

  /** Where `truncate_filename` takes the extension from: the last '.',
      unless that is the very first byte. */
  function ExtensionStart(name: string): (r: Option<nat>)
    ensures r.Some? ==> 0 < r.value < |name| && name[r.value] == '.' && '.' !in name[r.value + 1..]
    ensures r.None? ==> |name| == 0 || '.' !in name[1..]
  {
    match LastIndexOf(name, '.')
    case None => None
    case Some(k) =>
      if k == 0 then
        assert name[1..] == name[k + 1..];
        None
      else Some(k)
  }

  /** A shortened name and the size of the buffer it is written into,
      terminator included. */
  datatype Truncation = Truncation(text: string, buffer: int)

  predicate Fits(t: Truncation) {
    |t.text| + 1 <= t.buffer
  }

  /** `truncate_filename` as written: directories and names of at most 32
      bytes are copied; a name without an extension becomes its first 24
      bytes and "..." in a 25-byte buffer; otherwise the room left for the
      name is `24 - 3 - ext_len` in `size_t`, which wraps for an extension
      of 22 bytes or more. */
  function TruncateAsWritten(name: string, isFile: bool): (r: Truncation)
    ensures !isFile || |name| <= 32 ==> r == Truncation(name, |name| + 1)
    ensures isFile && |name| > 32 && ExtensionStart(name).None? ==> r == Truncation(name[..24] + "...", 25)
  {
    if !isFile || |name| <= 32 then Truncation(name, |name| + 1)
    else
      match ExtensionStart(name)
      case None => Truncation(name[..24] + "...", 25)
      case Some(k) =>
        var extLen := |name| - k;
        var room := (21 - extLen) % SizeModulus;
        var available := if room < 1 then 1 else room;
        var copy := if available < k then available else k;
        Truncation(name[..copy] + "..." + name[k..], (available + 3 + extLen + 1) % SizeModulus)
  }

  /** A long name without an extension gets 28 bytes written into a
      25-byte buffer. */
  lemma NoExtensionOverflows(name: string)
    requires |name| > 32 && '.' !in name
    ensures |TruncateAsWritten(name, true).text| + 1 == 28
    ensures !Fits(TruncateAsWritten(name, true))
  {
    assert ExtensionStart(name).None?;
  }

  /** With an extension of 22 bytes or more the room wraps to nearly 2^64:
      the whole name is copied, the result is longer than the input, and
      the buffer size wraps back to 25 bytes. */
  lemma LongExtensionWraps(name: string)
    requires |name| > 32 && |name| < SizeModulus
    requires ExtensionStart(name).Some? && |name| - ExtensionStart(name).value >= 22
    ensures TruncateAsWritten(name, true).buffer == 25
    ensures |TruncateAsWritten(name, true).text| == |name| + 3
    ensures !Fits(TruncateAsWritten(name, true))
  {
    var k := ExtensionStart(name).value;
    var extLen := |name| - k;
    WrapsOnce(21 - extLen);
    WrapsOnce(21 - extLen + SizeModulus + 3 + extLen + 1 - SizeModulus);
  }

  /** A value at most one modulus below zero wraps to itself plus the
      modulus. */
  lemma WrapsOnce(a: int)
    requires -SizeModulus <= a < SizeModulus
    ensures a % SizeModulus == if a < 0 then a + SizeModulus else a
  {
  }

  /** The shortening the comments describe, in exact arithmetic: at most 24
      bytes when the extension leaves room, first byte, "..." and the
      extension when it does not, and a buffer sized for what is written. */
  function TruncateFilename(name: string, isFile: bool): (r: Truncation)
    ensures Fits(r)
    ensures !isFile || |name| <= 32 ==> r.text == name
    ensures isFile && |name| > 32 ==> |r.text| < |name| || ExtensionStart(name).Some?
    ensures isFile && |name| > 32 && ExtensionStart(name).Some? && |name| - ExtensionStart(name).value <= 20 ==>
              |r.text| == 24
    ensures isFile && |name| > 32 && ExtensionStart(name).Some? ==>
              var extLen := |name| - ExtensionStart(name).value;
              var cut := |r.text| - 3 - extLen;
              0 < cut && IsPrefix(r.text[..cut], name) && r.text[cut..cut + 3] == "..."
              && IsSuffix(name[ExtensionStart(name).value..], r.text)
  {
    if !isFile || |name| <= 32 then Truncation(name, |name| + 1)
    else
      match ExtensionStart(name)
      case None => Truncation(name[..24] + "...", 28)
      case Some(k) =>
        var extLen := |name| - k;
        var available := if 21 - extLen < 1 then 1 else 21 - extLen;
        var text := name[..available] + "..." + name[k..];
        assert text[|text| - extLen..] == name[k..];
        assert text[..available] == name[..available] && text[available..available + 3] == "...";
        Truncation(text, available + 3 + extLen + 1)
  }

  /** The extension of a shortened name is the extension of the name. */
  lemma TruncateKeepsExtension(name: string)
    requires |name| > 32 && ExtensionStart(name).Some?
    ensures var k := ExtensionStart(name).value;
            var t := TruncateFilename(name, true).text;
            ExtensionStart(t).Some? && t[ExtensionStart(t).value..] == name[k..]
  {
    var k := ExtensionStart(name).value;
    var t := TruncateFilename(name, true).text;
    var extLen := |name| - k;
    var j := |t| - extLen;
    assert t[j..] == name[k..];
    assert t[j] == '.' && t[j + 1..] == name[k + 1..];
    LastDot(t, j);
  }

  lemma LastDot(s: string, j: nat)
    requires 0 < j < |s| && s[j] == '.' && '.' !in s[j + 1..]
    ensures ExtensionStart(s) == Some(j)
  {
  }

  /** The abbreviated hash `get_commit_files` asks git about: at most 8
      bytes, up to the first space. */
  function CommitHash(line: string): (r: string)
    ensures |r| <= 8 && IsPrefix(r, line) && ' ' !in r
    ensures |r| < 8 ==> |r| == |line| || line[|r|] == ' '
  {
    HashTake(line, 8)
  }

  function HashTake(line: string, n: nat): (r: string)
    ensures |r| <= n && IsPrefix(r, line) && ' ' !in r
    ensures |r| < n ==> |r| == |line| || line[|r|] == ' '
  {
    if n == 0 || |line| == 0 || line[0] == ' ' then ""
    else
      var rest := HashTake(line[1..], n - 1);
      assert ([line[0]] + rest)[1..] == rest;
      [line[0]] + rest
  }

  /** The hash of a `git log --oneline` line is the abbreviated hash it
      starts with. */
  lemma {:induction false} HashOfOneline(hash: string, message: string)
    requires |hash| <= 8 && ' ' !in hash
    ensures CommitHash(hash + " " + message) == hash
  {
    HashTakeExact(hash, " " + message, 8);
    assert hash + " " + message == hash + (" " + message);
  }

  lemma {:induction false} HashTakeExact(hash: string, rest: string, n: nat)
    requires |hash| <= n && ' ' !in hash && |rest| > 0 && rest[0] == ' '
    ensures HashTake(hash + rest, n) == hash
  {
    var s := hash + rest;
    if |hash| > 0 {
      assert s[0] == hash[0] && s[1..] == hash[1..] + rest;
      HashTakeExact(hash[1..], rest, n - 1);
      assert [hash[0]] + hash[1..] == hash;
    } else {
      assert s[0] == ' ';
    }
  }

  /** The files `get_commit_files` keeps of `git show --name-only` output:
      the first line is skipped, then every non-empty line in order. */
  function CommitFiles(show: seq<string>): (r: seq<string>)
    ensures forall f :: f in r <==> f != "" && exists i :: 1 <= i < |show| && show[i] == f
    ensures |show| > 0 && (forall i :: 1 <= i < |show| ==> show[i] != "") ==> r == show[1..]
  {
    if |show| == 0 then []
    else
      var r := NonEmpty(show[1..]);
      assert forall f :: f in show[1..] <==> exists i :: 1 <= i < |show| && show[i] == f by {
        forall f ensures f in show[1..] <==> exists i :: 1 <= i < |show| && show[i] == f {
          if f in show[1..] {
            var j :| 0 <= j < |show[1..]| && show[1..][j] == f;
            assert show[j + 1] == f;
          }
          if exists i :: 1 <= i < |show| && show[i] == f {
            var i :| 1 <= i < |show| && show[i] == f;
            assert show[1..][i - 1] == f;
          }
        }
      }
      assert (forall i :: 1 <= i < |show| ==> show[i] != "") ==> r == show[1..] by {
        if forall i :: 1 <= i < |show| ==> show[i] != "" {
          assert forall i :: 0 <= i < |show[1..]| ==> show[1..][i] == show[i + 1];
          NonEmptyAll(show[1..]);
        }
      }
      r
  }

  /** Dropping an empty line after the first changes nothing: together with
      the contract above, the files are the later lines in their order with
      the empty ones left out. */
  lemma CommitFilesSkipBlank(show: seq<string>, k: nat)
    requires 1 <= k < |show| && show[k] == ""
    ensures CommitFiles(show) == CommitFiles(show[..k] + show[k + 1..])
  {
    var t := show[..k] + show[k + 1..];
    var a, b := show[1..k], show[k + 1..];
    assert show[1..] == a + [""] + b;
    assert t[1..] == a + b;
    assert CommitFiles(show) == NonEmpty(a + [""] + b);
    assert CommitFiles(t) == NonEmpty(a + b);
    DropBlank(a, b);
  }

  lemma DropBlank(a: seq<string>, b: seq<string>)
    ensures NonEmpty(a + [""] + b) == NonEmpty(a + b)
  {
    NonEmptyAppend(a + [""], b);
    NonEmptyAppend(a, [""]);
    NonEmptyAppend(a, b);
    assert NonEmpty([""]) == [];
  }

  /** A commit of `git log --oneline` output and its files. */
  datatype UnpushedCommit = UnpushedCommit(info: string, files: seq<string>)

  /** The first line a command printed, or "" when it printed nothing. */
  function FirstLine(out: seq<string>): string {
    if |out| == 0 then "" else out[0]
  }

  function Commits(lines: seq<string>, show: string -> seq<string>): (r: seq<UnpushedCommit>)
    ensures |r| == |lines|
    ensures forall i :: 0 <= i < |lines| ==> r[i] == UnpushedCommit(lines[i], CommitFiles(show(CommitHash(lines[i]))))
  {
    if |lines| == 0 then []
    else [UnpushedCommit(lines[0], CommitFiles(show(CommitHash(lines[0]))))] + Commits(lines[1..], show)
  }

  /** `get_unpushed_commits`: nothing without a remote or a current
      branch; otherwise one commit per non-empty line of `git log --oneline
      <remote>/<branch>..HEAD`, with the files `git show` lists for its
      hash. `log` maps the revision range to the log's lines, `show` a hash
      to the show output's lines. */
  function UnpushedCommits(remoteOut: seq<string>, branchOut: seq<string>,
                           log: string -> seq<string>, show: string -> seq<string>): (r: seq<UnpushedCommit>)
    ensures FirstLine(remoteOut) == "" || FirstLine(branchOut) == "" ==> r == []
    ensures FirstLine(remoteOut) != "" && FirstLine(branchOut) != "" ==>
              var lines := NonEmpty(log(FirstLine(remoteOut) + "/" + FirstLine(branchOut) + "..HEAD"));
              |r| == |lines| && forall i :: 0 <= i < |r| ==> r[i].info == lines[i] && r[i].info != ""
  {
    var remote := FirstLine(remoteOut);
    var branch := FirstLine(branchOut);
    if remote == "" || branch == "" then []
    else Commits(NonEmpty(log(remote + "/" + branch + "..HEAD")), show)
  }

  /** Only the first remote is compared against. */
  lemma FirstRemoteOnly(remote: string, others: seq<string>, branchOut: seq<string>,
                        log: string -> seq<string>, show: string -> seq<string>)
    ensures UnpushedCommits([remote] + others, branchOut, log, show) == UnpushedCommits([remote], branchOut, log, show)
  {
  }

  /** What the collection gathers from the git-submodules report: the
      repositories to check as (path, name), and the submodule paths to
      skip. */
  datatype Collection = Collection(repos: seq<(string, string)>, submodules: seq<string>)

  /** The string items of a repository entry's "submodules" array. */
  function SubmodulesOf(entry: Value): seq<string> {
    match Member(entry, "submodules")
    case Some(JArray(items)) => StringItems(items)
    case _ => []
  }

  /** One entry of `parse_git_submodules_report`'s loop: an object with a
      string "name" and "path" is skipped when its path is already a
      collected submodule path, and otherwise added along with its
      submodule paths. */
  function AddEntry(c: Collection, entry: Value): (r: Collection)
    ensures r.repos == c.repos || (|r.repos| == |c.repos| + 1 && r.repos[..|c.repos|] == c.repos
                                   && r.repos[|c.repos|].0 !in c.submodules)
    ensures r.repos == c.repos ==> r == c
    ensures r.repos != c.repos ==> r.submodules == c.submodules + SubmodulesOf(entry)
  {
    if !entry.JObject? then c
    else
      match (Member(entry, "name"), Member(entry, "path"))
      case (Some(JString(name)), Some(JString(path))) =>
        if IsSubmodulePath(c.submodules, path) then c
        else Collection(c.repos + [(path, name)], c.submodules + SubmodulesOf(entry))
      case _ => c
  }

  function AddEntries(c: Collection, entries: seq<Value>): (r: Collection)
    ensures |c.repos| <= |r.repos| && r.repos[..|c.repos|] == c.repos
    decreases |entries|
  {
    if |entries| == 0 then c
    else
      var r := AddEntries(AddEntry(c, entries[0]), entries[1..]);
      r
  }

  /** Whether the report holds a "repositories" array. */
  predicate RepositoriesArray(report: Value) {
    Member(report, "repositories").Some? && Member(report, "repositories").value.JArray?
  }

  /** `parse_git_submodules_report` over the parsed report: nothing unless
      it is an object with a "repositories" array. */
  function ParseReport(report: Option<Value>): (r: Collection)
    ensures report.None? ==> r == Collection([], [])
    ensures report.Some? && !report.value.JObject? ==> r == Collection([], [])
    ensures report.Some? && !RepositoriesArray(report.value) ==> r == Collection([], [])
    ensures report.Some? && RepositoriesArray(report.value) ==>
              r == AddEntries(Collection([], []), Member(report.value, "repositories").value.items)
  {
    if report.None? then Collection([], [])
    else
      match Member(report.value, "repositories")
      case Some(JArray(entries)) => AddEntries(Collection([], []), entries)
      case _ => Collection([], [])
  }

  /** A report entry for a repository. */
  function Entry(name: string, path: string, submodules: seq<string>): Value {
    JObject([("name", JString(name)), ("path", JString(path)), ("submodules", JArray(Strings(submodules)))])
  }

  function Strings(ss: seq<string>): (r: seq<Value>)
    ensures StringItems(r) == ss
  {
    if |ss| == 0 then []
    else
      var r := [JString(ss[0])] + Strings(ss[1..]);
      assert r[1..] == Strings(ss[1..]);
      r
  }

  lemma EntryFields(name: string, path: string, submodules: seq<string>)
    ensures Member(Entry(name, path, submodules), "name") == Some(JString(name))
    ensures Member(Entry(name, path, submodules), "path") == Some(JString(path))
    ensures SubmodulesOf(Entry(name, path, submodules)) == submodules
  {
    var v := Entry(name, path, submodules);
    GetFirst(v.entries, 0, "name");
    GetFirst(v.entries, 1, "path");
    GetFirst(v.entries, 2, "submodules");
  }

  /** What an entry does to the collection. */
  lemma AddWellFormedEntry(c: Collection, name: string, path: string, submodules: seq<string>)
    ensures AddEntry(c, Entry(name, path, submodules))
            == if path in c.submodules then c
               else Collection(c.repos + [(path, name)], c.submodules + submodules)
  {
    EntryFields(name, path, submodules);
  }

  /** Filtering depends on the report's order: a submodule listed after
      its parent is skipped. */
  lemma FilterIsOrderDependent(parent: string, parentPath: string, sub: string, subPath: string)
    ensures AddEntries(Collection([], []), [Entry(parent, parentPath, [subPath]), Entry(sub, subPath, [])]).repos
            == [(parentPath, parent)]
  {
    var p := Entry(parent, parentPath, [subPath]);
    var s := Entry(sub, subPath, []);
    AddWellFormedEntry(Collection([], []), parent, parentPath, [subPath]);
    var c := Collection([(parentPath, parent)], [subPath]);
    AddWellFormedEntry(c, sub, subPath, []);
    AddTwo(Collection([], []), p, s);
  }

  /** Listed before its parent, the submodule is checked as well. */
  lemma SubmoduleFirstIsKept(parent: string, parentPath: string, sub: string, subPath: string)
    requires parentPath != subPath
    ensures AddEntries(Collection([], []), [Entry(sub, subPath, []), Entry(parent, parentPath, [subPath])]).repos
            == [(subPath, sub), (parentPath, parent)]
  {
    var p := Entry(parent, parentPath, [subPath]);
    var s := Entry(sub, subPath, []);
    var empty: seq<string> := [];
    var c := AddEntry(Collection([], []), s);
    assert c == Collection([(subPath, sub)], empty) by {
      AddWellFormedEntry(Collection([], []), sub, subPath, []);
    }
    assert AddEntry(c, p).repos == [(subPath, sub), (parentPath, parent)] by {
      AddWellFormedEntry(c, parent, parentPath, [subPath]);
    }
    AddTwo(Collection([], []), s, p);
  }

  lemma AddTwo(c: Collection, a: Value, b: Value)
    ensures AddEntries(c, [a, b]) == AddEntry(AddEntry(c, a), b)
  {
    assert [a, b][1..] == [b];
    assert AddEntries(c, [a, b]) == AddEntries(AddEntry(c, a), [b]);
    assert [b][1..] == [];
    assert AddEntries(AddEntry(c, a), [b]) == AddEntries(AddEntry(AddEntry(c, a), b), []);
  }

  // ---------------------------------------------------------------------
  // The filter as intended: skip every path some entry lists as a
  // submodule, wherever in the report that entry stands.

  /** Every submodule path the report's entries list, in entry order. */
  function AllSubmodules(entries: seq<Value>): seq<string>
    decreases |entries|
  {
    if |entries| == 0 then [] else SubmodulesOf(entries[0]) + AllSubmodules(entries[1..])
  }

  /** A path in the concatenation comes from some entry. */
  lemma {:induction false} FromAllSubmodules(entries: seq<Value>, p: string)
    requires p in AllSubmodules(entries)
    ensures exists i :: 0 <= i < |entries| && p in SubmodulesOf(entries[i])
    decreases |entries|
  {
    var head := SubmodulesOf(entries[0]);
    assert AllSubmodules(entries) == head + AllSubmodules(entries[1..]);
    if p in head {
      assert p in SubmodulesOf(entries[0]);
    } else {
      FromAllSubmodules(entries[1..], p);
      var j :| 0 <= j < |entries[1..]| && p in SubmodulesOf(entries[1..][j]);
      assert entries[1..][j] == entries[j + 1];
    }
  }

  /** Every path an entry lists is in the concatenation. */
  lemma {:induction false} IntoAllSubmodules(entries: seq<Value>, i: nat, p: string)
    requires i < |entries| && p in SubmodulesOf(entries[i])
    ensures p in AllSubmodules(entries)
    decreases i
  {
    var head := SubmodulesOf(entries[0]);
    assert AllSubmodules(entries) == head + AllSubmodules(entries[1..]);
    if i > 0 {
      assert entries[1..][i - 1] == entries[i];
      IntoAllSubmodules(entries[1..], i - 1, p);
    }
  }

  lemma AllSubmodulesSpec(entries: seq<Value>)
    ensures forall p :: p in AllSubmodules(entries)
                        <==> exists i :: 0 <= i < |entries| && p in SubmodulesOf(entries[i])
  {
    forall p | p in AllSubmodules(entries)
      ensures exists i :: 0 <= i < |entries| && p in SubmodulesOf(entries[i])
    {
      FromAllSubmodules(entries, p);
    }
    forall p, i | 0 <= i < |entries| && p in SubmodulesOf(entries[i])
      ensures p in AllSubmodules(entries)
    {
      IntoAllSubmodules(entries, i, p);
    }
  }

  /** The (path, name) an entry names: an object with a string "name" and
      "path". */
  function Named(entry: Value): Option<(string, string)> {
    if !entry.JObject? then None
    else
      match (Member(entry, "name"), Member(entry, "path"))
      case (Some(JString(name)), Some(JString(path))) => Some((path, name))
      case _ => None
  }

  /** The named entries whose path is not in `subs`, in order. */
  function KeepUnlisted(entries: seq<Value>, subs: seq<string>): seq<(string, string)>
    decreases |entries|
  {
    if |entries| == 0 then []
    else
      (match Named(entries[0])
       case Some(x) => if x.0 in subs then [] else [x]
       case None => [])
      + KeepUnlisted(entries[1..], subs)
  }

  lemma {:induction false} KeepUnlistedSpec(entries: seq<Value>, subs: seq<string>)
    ensures forall x :: x in KeepUnlisted(entries, subs)
                        <==> x.0 !in subs && exists i :: 0 <= i < |entries| && Named(entries[i]) == Some(x)
    decreases |entries|
  {
    if |entries| > 0 {
      KeepUnlistedSpec(entries[1..], subs);
      forall x: (string, string) | x in KeepUnlisted(entries, subs)
        ensures x.0 !in subs && exists i :: 0 <= i < |entries| && Named(entries[i]) == Some(x)
      {
        if Named(entries[0]) != Some(x) || x.0 in subs {
          assert x in KeepUnlisted(entries[1..], subs);
          var j :| 0 <= j < |entries[1..]| && Named(entries[1..][j]) == Some(x);
          assert entries[1..][j] == entries[j + 1];
        }
      }
      forall x: (string, string), i | x.0 !in subs && 0 <= i < |entries| && Named(entries[i]) == Some(x)
        ensures x in KeepUnlisted(entries, subs)
      {
        if i > 0 {
          assert entries[1..][i - 1] == entries[i];
          assert x in KeepUnlisted(entries[1..], subs);
        }
      }
    }
  }

  /** The collection `parse_git_submodules_report` evidently means to make:
      the repositories of the report, less every path any entry lists as a
      submodule. */
  function ParseReportFixed(report: Option<Value>): seq<(string, string)>
  {
    if report.None? then []
    else
      match Member(report.value, "repositories")
      case Some(JArray(entries)) => KeepUnlisted(entries, AllSubmodules(entries))
      case _ => []
  }

  /** A repository is checked exactly when some entry names it and no entry
      of the report lists its path as a submodule, so the order of the
      entries no longer matters. */
  lemma FixedSkipsEverySubmodule(entries: seq<Value>, x: (string, string))
    ensures x in ParseReportFixed(Some(JObject([("repositories", JArray(entries))])))
            <==> (exists i :: 0 <= i < |entries| && Named(entries[i]) == Some(x))
                 && forall i :: 0 <= i < |entries| ==> x.0 !in SubmodulesOf(entries[i])
  {
    var report := JObject([("repositories", JArray(entries))]);
    GetFirst(report.entries, 0, "repositories");
    AllSubmodulesSpec(entries);
    KeepUnlistedSpec(entries, AllSubmodules(entries));
  }

  /** A repository with what `get_unpushed_commits` found in it. */
  datatype RepoCommits = RepoCommits(path: string, name: string, commits: seq<UnpushedCommit>)

  /** The repositories `generate_report` lists: those with a commit, in
      order. */
  function Reported(repos: seq<RepoCommits>): (r: seq<RepoCommits>)
    ensures forall x :: x in r <==> x in repos && |x.commits| > 0
    ensures |r| <= |repos|
  {
    if |repos| == 0 then []
    else
      var rest := Reported(repos[1..]);
      assert forall x :: x in repos <==> x == repos[0] || x in repos[1..] by {
        assert repos == [repos[0]] + repos[1..];
      }
      if |repos[0].commits| > 0 then [repos[0]] + rest else rest
  }

  function TotalCommits(repos: seq<RepoCommits>): nat {
    if |repos| == 0 then 0 else |repos[0].commits| + TotalCommits(repos[1..])
  }

  /** The summary: how many repositories are listed and how many commits
      they hold between them. */
  function Summary(repos: seq<RepoCommits>): (r: (nat, nat))
    ensures r.0 <= r.1
    ensures r.0 == 0 <==> r.1 == 0
    ensures r.1 == TotalCommits(repos)
    ensures r.0 == |Reported(repos)|
  {
    var listed := Reported(repos);
    ReportedTotals(repos);
    (|listed|, TotalCommits(listed))
  }

  /** Leaving out repositories without commits loses no commit, and every
      listed repository holds at least one. */
  lemma {:induction false} ReportedTotals(repos: seq<RepoCommits>)
    ensures TotalCommits(Reported(repos)) == TotalCommits(repos)
    ensures |Reported(repos)| <= TotalCommits(repos)
    ensures |Reported(repos)| == 0 <==> TotalCommits(repos) == 0
  {
    if |repos| > 0 {
      ReportedTotals(repos[1..]);
      if |repos[0].commits| > 0 {
        assert ([repos[0]] + Reported(repos[1..]))[1..] == Reported(repos[1..]);
      }
    }
  }

  /** The file names a commit is listed with in the report, each shortened
      as a file. */
  function ReportFiles(c: UnpushedCommit): (r: seq<string>)
    ensures |r| == |c.files|
    ensures forall i :: 0 <= i < |r| ==> |c.files[i]| <= 32 ==> r[i] == c.files[i]
    ensures forall i :: 0 <= i < |r| ==> ShortExtension(c.files[i]) ==> r[i] == TruncateFilename(c.files[i], true).text
  {
    ShortenedAgree(c.files);
    ShortenAll(c.files)
  }

  /** Every file name as `truncate_filename` writes it. */
  function ShortenAll(files: seq<string>): (r: seq<string>)
    ensures |r| == |files| && forall i :: 0 <= i < |r| ==> r[i] == TruncateAsWritten(files[i], true).text
  {
    if |files| == 0 then [] else [TruncateAsWritten(files[0], true).text] + ShortenAll(files[1..])
  }

  /** No extension, or one of at most 21 bytes: the room does not wrap. */
  predicate ShortExtension(name: string) {
    ExtensionStart(name).None? || |name| - ExtensionStart(name).value <= 21
  }

  /** Unless the room wraps, the code as written prints what the corrected
      shortening prints. */
  lemma TextsAgree(name: string)
    requires ShortExtension(name)
    ensures TruncateAsWritten(name, true).text == TruncateFilename(name, true).text
  {
    if |name| > 32 && ExtensionStart(name).Some? {
      var k := ExtensionStart(name).value;
      WrapsOnce(21 - (|name| - k));
    }
  }

  lemma ShortenedAgree(files: seq<string>)
    ensures forall i :: 0 <= i < |files| && ShortExtension(files[i]) ==>
              TruncateAsWritten(files[i], true).text == TruncateFilename(files[i], true).text
  {
    forall i | 0 <= i < |files| && ShortExtension(files[i]) {
      TextsAgree(files[i]);
    }
  }
}

=== FILE: dirty_files.dfy ===
/** dirty-files/dirty-files.c: which repositories the dirty-files analyzer
    looks at and which of their files it calls dirty. Input arrives as the
    lines `fgets` returns, each with its trailing newline when it had
    one. */
module DirtyFiles {
  import opened Wrappers
  import opened Text
  import opened Json
  import opened JsonPath

  /** A repository of the collection: where it is, what it is called and
      its dirty files in output order. */
  datatype DirtyRepo = DirtyRepo(path: string, name: string, files: seq<string>)

  /** One line of `git status --porcelain` in `get_dirty_files`: lines
      shorter than four bytes are passed over; a line whose two status
      columns are not both blank names a dirty file, from offset 3 up to the
      newline. */
  function DirtyFile(line: string): (r: Option<string>)
    ensures r.Some? <==> |line| >= 4 && (line[0] != ' ' || line[1] != ' ')
    ensures r.Some? ==> IsPrefix(r.value, line[3..]) && '\n' !in r.value
  {
    if |line| < 4 then None
    else if line[0] != ' ' || line[1] != ' ' then Some(UpTo(line[3..], '\n'))
    else None
  }

  /** `get_dirty_files`: the dirty names in output order. */
  function DirtyFileList(output: seq<string>): (r: seq<string>)
    ensures |r| <= |output|
    ensures forall f :: f in r ==> exists i :: 0 <= i < |output| && DirtyFile(output[i]) == Some(f)
  {
    if |output| == 0 then []
    else
      var rest := DirtyFileList(output[1..]);
      assert forall f :: f in rest ==> exists i :: 0 <= i < |output| && DirtyFile(output[i]) == Some(f) by {
        forall f | f in rest ensures exists i :: 0 <= i < |output| && DirtyFile(output[i]) == Some(f) {
          var i :| 0 <= i < |output[1..]| && DirtyFile(output[1..][i]) == Some(f);
          assert output[i + 1] == output[1..][i];
        }
      }
      match DirtyFile(output[0])
      case Some(f) => [f] + rest
      case None => rest
  }

  /** Output order is kept: the list of two outputs is the two lists. */
  lemma {:induction false} DirtyFileListAppend(a: seq<string>, b: seq<string>)
    ensures DirtyFileList(a + b) == DirtyFileList(a) + DirtyFileList(b)
  {
    if |a| > 0 {
      assert (a + b)[0] == a[0] && (a + b)[1..] == a[1..] + b;
      DirtyFileListStep(a + b);
      DirtyFileListStep(a);
      DirtyFileListAppend(a[1..], b);
      var h := HeadFiles(a[0]);
      assert h + (DirtyFileList(a[1..]) + DirtyFileList(b)) == h + DirtyFileList(a[1..]) + DirtyFileList(b);
    } else {
      assert a + b == b;
    }
  }

  /** The names one output line contributes. */
  function HeadFiles(line: string): (r: seq<string>)
    ensures |r| <= 1
  {
    match DirtyFile(line)
    case Some(f) => [f]
    case None => []
  }

  lemma DirtyFileListStep(output: seq<string>)
    requires |output| > 0
    ensures DirtyFileList(output) == HeadFiles(output[0]) + DirtyFileList(output[1..])
  {
    if DirtyFile(output[0]).None? {
      assert [] + DirtyFileList(output[1..]) == DirtyFileList(output[1..]);
    }
  }

  /** The porcelain line for a file with status columns `x` and `y`. */
  function PorcelainLine(x: char, y: char, file: string): string {
    [x, y, ' '] + file + "\n"
  }

  /** A porcelain line gives back its file exactly when one of its status
      columns is set. */
  lemma PorcelainRoundTrip(x: char, y: char, file: string)
    requires '\n' !in file
    ensures DirtyFile(PorcelainLine(x, y, file)) == if x != ' ' || y != ' ' then Some(file) else None
  {
    var line := PorcelainLine(x, y, file);
    assert line[3..] == file + "\n";
    UpToFirst(file, '\n', "");
    assert file + "\n" == file + ['\n'] + "";
  }

  /** Where a section of the git-submodules text report stands:
      the repository name and path read so far ("" when unset) and whether
      it was marked dirty. */
  datatype Section = Section(name: string, path: string, dirty: bool)

  const NoSection := Section("", "", false)

  /** A line of `parse_git_submodules_report`. The field lines are found
      anywhere in the line but read from a fixed offset from its start. A
      line of at most one byte ends a section that has both fields, which is
      collected when it is dirty; otherwise it changes nothing. */
  function SectionStep(s: Section, line: string): (r: (Section, Option<DirtyRepo>))
    ensures r.1.Some? <==> !Contains(line, "Repository: ") && !Contains(line, "Path: ")
                           && !Contains(line, "Status: DIRTY") && |line| <= 1
                           && s.name != "" && s.path != "" && s.dirty
    ensures r.1.Some? ==> r.1.value == DirtyRepo(s.path, s.name, [])
    ensures Contains(line, "Repository: ") ==> !r.0.dirty
  {
    if Contains(line, "Repository: ") then (Section(UpTo(Drop(line, 12), '\n'), s.path, false), None)
    else if Contains(line, "Path: ") then (s.(path := UpTo(Drop(line, 6), '\n')), None)
    else if Contains(line, "Status: DIRTY") then (s.(dirty := true), None)
    else if |line| <= 1 && s.name != "" && s.path != "" then
      (NoSection, if s.dirty then Some(DirtyRepo(s.path, s.name, [])) else None)
    else (s, None)
  }

  /** The repositories collected from `lines`, starting in section `s`. */
  function Sections(s: Section, lines: seq<string>): (r: seq<DirtyRepo>)
    ensures |r| <= |lines|
    ensures forall i :: 0 <= i < |r| ==> r[i].name != "" && r[i].path != "" && r[i].files == []
    decreases |lines|
  {
    if |lines| == 0 then []
    else
      var (next, found) := SectionStep(s, lines[0]);
      (if found.Some? then [found.value] else []) + Sections(next, lines[1..])
  }

  /** `parse_git_submodules_report` over the report's lines. */
  function ParseSubmodulesReport(lines: seq<string>): (r: seq<DirtyRepo>)
    ensures |r| <= |lines|
    ensures forall i :: 0 <= i < |r| ==> r[i].name != "" && r[i].path != "" && r[i].files == []
  {
    Sections(NoSection, lines)
  }

  /** A section the report does not close with a short line is never
      collected: lines longer than one byte collect nothing. */
  lemma {:induction false} UnclosedSectionDropped(s: Section, lines: seq<string>)
    requires forall i :: 0 <= i < |lines| ==> |lines[i]| > 1
    ensures Sections(s, lines) == []
    decreases |lines|
  {
    if |lines| > 0 {
      UnclosedSectionDropped(SectionStep(s, lines[0]).0, lines[1..]);
    }
  }

  /** The lines of one section with status line `status`. */
  function SectionText(name: string, path: string, status: string): seq<string> {
    ["Repository: " + name + "\n", "Path: " + path + "\n", status, "\n"]
  }

  lemma NameLine(name: string)
    requires '\n' !in name
    ensures SectionStep(NoSection, "Repository: " + name + "\n") == (Section(name, "", false), None)
  {
    var line := "Repository: " + name + "\n";
    assert OccursAt(line, "Repository: ", 0);
    OccursContains(line, "Repository: ", 0);
    assert Drop(line, 12) == name + ['\n'] + "";
    UpToFirst(name, '\n', "");
  }

  lemma PathLine(s: Section, path: string)
    requires '\n' !in path && !Contains("Path: " + path + "\n", "Repository: ")
    ensures SectionStep(s, "Path: " + path + "\n") == (s.(path := path), None)
  {
    var line := "Path: " + path + "\n";
    assert OccursAt(line, "Path: ", 0);
    OccursContains(line, "Path: ", 0);
    assert Drop(line, 6) == path + ['\n'] + "";
    UpToFirst(path, '\n', "");
  }

  lemma DirtyLine(s: Section)
    ensures SectionStep(s, "Status: DIRTY\n") == (s.(dirty := true), None)
  {
    StatusLineFields("Status: DIRTY\n");
    assert OccursAt("Status: DIRTY\n", "Status: DIRTY", 0);
    OccursContains("Status: DIRTY\n", "Status: DIRTY", 0);
  }

  lemma CleanLine(s: Section)
    ensures SectionStep(s, "Status: CLEAN\n") == (s, None)
  {
    StatusLineFields("Status: CLEAN\n");
    CleanNotDirty();
  }

  /** A status line names neither a repository nor a path. */
  lemma StatusLineFields(line: string)
    requires line == "Status: DIRTY\n" || line == "Status: CLEAN\n"
    ensures !Contains(line, "Repository: ") && !Contains(line, "Path: ")
  {
    MissingChar(line, "Repository: ", 'p');
    MissingChar(line, "Path: ", 'h');
  }

  lemma CleanNotDirty()
    ensures !Contains("Status: CLEAN\n", "Status: DIRTY")
  {
    MissingChar("Status: CLEAN\n", "Status: DIRTY", 'D');
  }

  lemma BlankLine(s: Section)
    requires s.name != "" && s.path != ""
    ensures SectionStep(s, "\n") == (NoSection, if s.dirty then Some(DirtyRepo(s.path, s.name, [])) else None)
  {
    MissingChar("\n", "Repository: ", 'R');
    MissingChar("\n", "Path: ", 'P');
    MissingChar("\n", "Status: DIRTY", 'S');
  }

  /** How `Sections` takes its first line. */
  lemma SectionsStep(s: Section, lines: seq<string>, next: Section, found: Option<DirtyRepo>)
    requires |lines| > 0 && SectionStep(s, lines[0]) == (next, found)
    ensures Sections(s, lines) == (if found.Some? then [found.value] else []) + Sections(next, lines[1..])
  {
  }

  /** A closed section is collected exactly when its status line says
      DIRTY, and the parser is back at the start afterwards. */
  lemma SectionCollectedIffDirty(name: string, path: string, dirty: bool, rest: seq<string>)
    requires name != "" && path != "" && '\n' !in name && '\n' !in path
    requires !Contains("Path: " + path + "\n", "Repository: ")
    ensures Sections(NoSection, SectionText(name, path, if dirty then "Status: DIRTY\n" else "Status: CLEAN\n") + rest)
            == (if dirty then [DirtyRepo(path, name, [])] else []) + Sections(NoSection, rest)
  {
    var status := if dirty then "Status: DIRTY\n" else "Status: CLEAN\n";
    var l0 := SectionText(name, path, status) + rest;
    var l1 := l0[1..];
    var l2 := l1[1..];
    var l3 := l2[1..];
    assert l3[1..] == rest;
    var s1 := Section(name, "", false);
    var s2 := Section(name, path, false);
    var s3 := Section(name, path, dirty);
    NameLine(name);
    SectionsStep(NoSection, l0, s1, None);
    PathLine(s1, path);
    SectionsStep(s1, l1, s2, None);
    if dirty { DirtyLine(s2); } else { CleanLine(s2); }
    SectionsStep(s2, l2, s3, None);
    BlankLine(s3);
    SectionsStep(s3, l3, NoSection, if dirty then Some(DirtyRepo(path, name, [])) else None);
  }

  /** A line of `run_git_submodules_analysis` after the "Dirty
      repositories:" header: with "  - " anywhere in it, the text from offset
      4 is split at its first '(' into the name (trailing space kept) and at
      its first ')' into the path. When the ')' comes before the '(' the
      source writes before its buffer; the model collects nothing then. */
  function ListedRepo(line: string): (r: Option<DirtyRepo>)
    ensures r.Some? ==> Contains(line, "  - ") && '(' !in r.value.name && ')' !in r.value.path
    ensures r.Some? ==> IsPrefix(r.value.name + "(" + r.value.path + ")", Drop(line, 4))
  {
    if !Contains(line, "  - ") then None
    else
      var info := Drop(line, 4);
      match (IndexOf(info, '('), IndexOf(info, ')'))
      case (Some(open), Some(close)) =>
        if close < open then None
        else
          assert info[..close + 1] == info[..open] + "(" + info[open + 1..close] + ")";
          assert ')' !in info[open + 1..close] by {
            assert info[open + 1..close] == info[..close][open + 1..];
          }
          Some(DirtyRepo(info[open + 1..close], info[..open], []))
      case _ => None
  }

  /** Whether the header has been seen, and what was collected. */
  function ListingFrom(seen: bool, lines: seq<string>): (r: seq<DirtyRepo>)
    ensures |r| <= |lines|
    ensures forall i :: 0 <= i < |r| ==> '(' !in r[i].name && ')' !in r[i].path && r[i].files == []
    decreases |lines|
  {
    if |lines| == 0 then []
    else if Contains(lines[0], "Dirty repositories:") then ListingFrom(true, lines[1..])
    else
      var here := if seen then ListedRepo(lines[0]) else None;
      (if here.Some? then [here.value] else []) + ListingFrom(seen, lines[1..])
  }

  /** `run_git_submodules_analysis` over the git-submodules program's
      output lines. */
  function ParseDirtyListing(lines: seq<string>): (r: seq<DirtyRepo>)
    ensures |r| <= |lines|
    ensures forall i :: 0 <= i < |r| ==> '(' !in r[i].name && ')' !in r[i].path && r[i].files == []
  {
    ListingFrom(false, lines)
  }

  /** A listing line as the git-submodules program prints it reads back
      as its path and its name with the space before the parenthesis. */
  lemma ListingLineRoundTrip(name: string, path: string)
    requires '(' !in name && ')' !in name && ')' !in path
    ensures ListedRepo("  - " + name + " (" + path + ")\n") == Some(DirtyRepo(path, name + " ", []))
  {
    var line := "  - " + name + " (" + path + ")\n";
    assert OccursAt(line, "  - ", 0);
    OccursContains(line, "  - ", 0);
    var info := Drop(line, 4);
    assert info == (name + " ") + "(" + path + ")\n";
    assert info[|name| + 1] == '(' && info[..|name| + 1] == name + " ";
    IndexOfFirst(info, '(', |name| + 1);
    var close := |name| + 2 + |path|;
    assert info[close] == ')' && info[..close] == name + " (" + path;
    IndexOfFirst(info, ')', close);
    assert info[|name| + 2..close] == path;
  }

  /** Nothing before the header is collected. */
  lemma {:induction false} NothingBeforeHeader(lines: seq<string>)
    requires forall i :: 0 <= i < |lines| ==> !Contains(lines[i], "Dirty repositories:")
    ensures ParseDirtyListing(lines) == []
  {
    if |lines| > 0 {
      NothingBeforeHeader(lines[1..]);
    }
  }

  /** The report's grand total: the sum of the repositories' file counts. */
  function TotalFiles(repos: seq<DirtyRepo>): nat {
    if |repos| == 0 then 0 else |repos[0].files| + TotalFiles(repos[1..])
  }

  /** The listing of one repository's files in the report. */
  function FileListing(files: seq<string>): (r: seq<string>)
    ensures |files| > 0 ==> |r| == |files| && forall i :: 0 <= i < |r| ==> r[i] == "  - " + files[i]
    ensures |files| == 0 ==> r == ["  (No dirty files found)"]
  {
    if |files| == 0 then ["  (No dirty files found)"] else Listed(files)
  }

  function Listed(files: seq<string>): (r: seq<string>)
    ensures |r| == |files| && forall i :: 0 <= i < |r| ==> r[i] == "  - " + files[i]
  {
    if |files| == 0 then [] else ["  - " + files[0]] + Listed(files[1..])
  }

  /** One repository's block of the report. */
  function Block(r: DirtyRepo): seq<string> {
    ["Repository: " + r.name, "Path: " + r.path, "Dirty Files (" + NatToString(|r.files|) + "):"]
    + FileListing(r.files) + [""]
  }

  function Blocks(repos: seq<DirtyRepo>): seq<string> {
    if |repos| == 0 then [] else Block(repos[0]) + Blocks(repos[1..])
  }

  /** `generate_report`'s lines (without their newlines) for a report
      written at `timestamp`. */
  function ReportLines(repos: seq<DirtyRepo>, timestamp: int): (r: seq<string>)
    ensures |r| >= 8
    ensures r[|r| - 3] == "Summary:"
    ensures r[|r| - 2] == "Total dirty repositories: " + NatToString(|repos|)
    ensures r[|r| - 1] == "Total dirty files: " + NatToString(TotalFiles(repos))
  {
    ["Dirty Files Analysis Report", "===========================", "Generated by dirty-files analyzer",
     "Timestamp: " + IntToString(timestamp), ""]
    + Blocks(repos)
    + ["Summary:", "Total dirty repositories: " + NatToString(|repos|),
       "Total dirty files: " + NatToString(TotalFiles(repos))]
  }

  /** Lines naming a file: those that start with "  - ". */
  function ListedCount(lines: seq<string>): nat {
    if |lines| == 0 then 0 else (if IsPrefix("  - ", lines[0]) then 1 else 0) + ListedCount(lines[1..])
  }

  lemma {:induction false} ListedCountAppend(a: seq<string>, b: seq<string>)
    ensures ListedCount(a + b) == ListedCount(a) + ListedCount(b)
  {
    if |a| > 0 {
      assert (a + b)[0] == a[0] && (a + b)[1..] == a[1..] + b;
      ListedCountAppend(a[1..], b);
    } else {
      assert a + b == b;
    }
  }

  lemma {:induction false} ListedAllCount(files: seq<string>)
    ensures ListedCount(Listed(files)) == |files|
  {
    if |files| > 0 {
      var r := Listed(files);
      assert r[0] == "  - " + files[0] && r[1..] == Listed(files[1..]);
      ListedAllCount(files[1..]);
    }
  }

  lemma NotListed(s: string, k: nat)
    requires k < 4 && k < |s| && s[k] != "  - "[k]
    ensures !IsPrefix("  - ", s)
  {
    if |s| >= 4 {
      assert s[..4][k] == s[k];
    }
  }

  lemma {:induction false} NoneListed(lines: seq<string>)
    requires forall i :: 0 <= i < |lines| ==> !IsPrefix("  - ", lines[i])
    ensures ListedCount(lines) == 0
  {
    if |lines| > 0 {
      NoneListed(lines[1..]);
    }
  }

  lemma BlockCount(r: DirtyRepo)
    ensures ListedCount(Block(r)) == |r.files|
  {
    var head := ["Repository: " + r.name, "Path: " + r.path, "Dirty Files (" + NatToString(|r.files|) + "):"];
    NotListed(head[0], 0);
    NotListed(head[1], 0);
    NotListed(head[2], 0);
    NoneListed(head);
    assert ListedCount([""]) == 0;
    if |r.files| > 0 {
      ListedAllCount(r.files);
    } else {
      NotListed("  (No dirty files found)", 2);
    }
    ListedCountAppend(head, FileListing(r.files));
    ListedCountAppend(head + FileListing(r.files), [""]);
  }

  /** The report's total counts the file lines it lists: an empty
      repository's "(No dirty files found)" is not one of them. */
  lemma {:induction false} TotalMatchesListing(repos: seq<DirtyRepo>)
    ensures ListedCount(Blocks(repos)) == TotalFiles(repos)
  {
    if |repos| > 0 {
      BlockCount(repos[0]);
      TotalMatchesListing(repos[1..]);
      ListedCountAppend(Block(repos[0]), Blocks(repos[1..]));
    }
  }

  /** The analyzer end to end: the dirty repositories of the report, each
      with the dirty files its status output lists. `status` maps a
      repository path to its porcelain output. */
  function Analyze(reportLines: seq<string>, status: string -> seq<string>): (r: seq<DirtyRepo>)
    ensures |r| == |ParseSubmodulesReport(reportLines)|
    ensures forall i :: 0 <= i < |r| ==>
              r[i].path == ParseSubmodulesReport(reportLines)[i].path
              && r[i].name == ParseSubmodulesReport(reportLines)[i].name
              && r[i].files == DirtyFileList(status(r[i].path))
  {
    WithFiles(ParseSubmodulesReport(reportLines), status)
  }

  function WithFiles(repos: seq<DirtyRepo>, status: string -> seq<string>): (r: seq<DirtyRepo>)
    ensures |r| == |repos|
    ensures forall i :: 0 <= i < |r| ==>
              r[i] == DirtyRepo(repos[i].path, repos[i].name, DirtyFileList(status(repos[i].path)))
  {
    if |repos| == 0 then []
    else [repos[0].(files := DirtyFileList(status(repos[0].path)))] + WithFiles(repos[1..], status)
  }

  // ---------------------------------------------------------------------
  // Reading the JSON report

  /** The text of a string member, when there is one. */
  function TextMember(item: Value, key: string): Option<string> {
    match Member(item, key)
    case Some(JString(t)) => Some(t)
    case _ => None
  }

  /** The repository a JSON report entry names when its "status" is
      "DIRTY": its "path" and "name", no files yet. */
  function DirtyEntry(item: Value): (r: Option<DirtyRepo>)
    ensures r.Some? <==> TextMember(item, "status") == Some("DIRTY")
                         && TextMember(item, "name").Some? && TextMember(item, "path").Some?
    ensures r.Some? ==> r.value == DirtyRepo(TextMember(item, "path").value, TextMember(item, "name").value, [])
  {
    if TextMember(item, "status") != Some("DIRTY") then None
    else
      var name :- TextMember(item, "name");
      var path :- TextMember(item, "path");
      Some(DirtyRepo(path, name, []))
  }

  /** What one entry adds: its repository when it is dirty, else nothing. */
  function EntryRepos(item: Value): seq<DirtyRepo> {
    match DirtyEntry(item) case Some(x) => [x] case None => []
  }

  /** An entry with string name, path and status adds its repository
      exactly when the status is "DIRTY". */
  lemma EntryReposOf(item: Value, name: string, path: string, st: string)
    requires Member(item, "name") == Some(JString(name)) && Member(item, "path") == Some(JString(path))
    requires Member(item, "status") == Some(JString(st))
    ensures EntryRepos(item) == if st == "DIRTY" then [DirtyRepo(path, name, [])] else []
  {
    assert TextMember(item, "status") == Some(st);
    assert TextMember(item, "name") == Some(name) && TextMember(item, "path") == Some(path);
  }

  function DirtyEntries(items: seq<Value>): (r: seq<DirtyRepo>)
    ensures |r| <= |items|
    ensures |items| == 1 ==> r == EntryRepos(items[0])
    ensures forall i :: 0 <= i < |r| ==> r[i].files == []
  {
    if |items| == 0 then []
    else EntryRepos(items[0]) + DirtyEntries(items[1..])
  }

  /** Entries are read one at a time, in array order. */
  lemma DirtyEntriesCons(x: Value, xs: seq<Value>)
    ensures DirtyEntries([x] + xs) == EntryRepos(x) + DirtyEntries(xs)
  {
    assert ([x] + xs)[1..] == xs;
  }

  /** The reader `main` evidently needs for git-submodules.report: the dirty
      entries of its "repositories" array, in order; nothing when the file
      does not parse or has no such array. */
  function DirtyFromReport(report: Option<Value>): (r: seq<DirtyRepo>)
    ensures report.None? ==> r == []
    ensures report.Some? && !(Member(report.value, "repositories").Some? && Member(report.value, "repositories").value.JArray?)
            ==> r == []
    ensures report.Some? && Member(report.value, "repositories").Some? && Member(report.value, "repositories").value.JArray?
            ==> |r| <= |Member(report.value, "repositories").value.items|
    ensures forall i :: 0 <= i < |r| ==> r[i].files == []
  {
    if report.None? then []
    else
      match Member(report.value, "repositories")
      case Some(JArray(items)) => DirtyEntries(items)
      case _ => []
  }

  /** The analyzer with the JSON reader in place of the text parser. */
  function AnalyzeReport(report: Option<Value>, status: string -> seq<string>): (r: seq<DirtyRepo>)
    ensures |r| == |DirtyFromReport(report)|
    ensures forall i :: 0 <= i < |r| ==>
              r[i] == DirtyRepo(DirtyFromReport(report)[i].path, DirtyFromReport(report)[i].name,
                                DirtyFileList(status(DirtyFromReport(report)[i].path)))
  {
    WithFiles(DirtyFromReport(report), status)
  }
}

=== FILE: display_animation.dfy ===
/** `AnimationEngine` of display/index.py: a celebration plays once and then
    simply stops (it does not fall back to idle), and idle starts only when
    nothing plays. */
module DisplayAnimation {
  import opened Wrappers
  import opened Text
  import opened Animation
  import ReferenceAnimation

  /** The idle frames: "💤 Watching for changes" with one to four dots, 300 ms each. */
  function IdleFrames(n: nat): (r: seq<Frame>)
    ensures |r| == n
    ensures forall i :: 0 <= i < n ==> r[i].durationMs == 300
    ensures forall i :: 0 <= i < n ==> r[i].content == "💤 Watching for changes" + Repeat('.', i % 4 + 1)
  {
    if n == 0 then [] else IdleFrames(n - 1) + [Frame("💤 Watching for changes" + Repeat('.', (n - 1) % 4 + 1), 300)]
  }

  function Celebration(name: string, heads: seq<string>): (r: Sequence)
    ensures |r.frames| == |heads| && !r.loop
  {
    Sequence(name, seq(|heads|, i requires 0 <= i < |heads| => Frame(heads[i], 500)), false)
  }

  /** The library `_load_animations` builds. */
  function Library(): (lib: map<string, Sequence>)
    ensures WellFormed(lib)
  {
    var modified := "🎉 FILE CHANGED!\n   (∩｀-´)⊃━☆ﾟ.*･｡\n";
    var modifiedBody := modified + "\n   ✨ File modified!";
    var created := "🆕 NEW FILE!\n   (ﾉ◕ヮ◕)ﾉ*:･ﾟ✧\n";
    var createdBody := created + "\n   🌟 File created!";
    map[
      "file_modified" := Celebration("file_modified", [
        modified, modifiedBody, modifiedBody + "\n      \\(*^^)/*",
        modifiedBody + "\n      \\(*^^)/*\n         ★", modifiedBody + "\n      \\(*^^)/*\n         ★ ★"]),
      "file_created" := Celebration("file_created", [
        created, createdBody, createdBody + "\n      \\(°o°)/", createdBody + "\n      \\(°o°)/\n         ⚡"]),
      "idle" := Sequence("idle", IdleFrames(20), true)
    ]
  }

  /** Only the idle animation loops; the celebrations have 5 and 4 frames. */
  lemma LibraryShape()
    ensures Library().Keys == {"file_modified", "file_created", "idle"}
    ensures forall k :: k in Library() ==> (Library()[k].loop <==> k == "idle")
    ensures |Library()["file_modified"].frames| == 5 && |Library()["file_created"].frames| == 4
    ensures |Library()["idle"].frames| == 20
  {
  }

  /** `trigger_file_change`: only an existing "file_<type>" animation starts,
      from its first frame; any other type changes nothing. */
  function Trigger(lib: map<string, Sequence>, e: Engine, changeType: string, now: int): (r: Engine)
    requires WellFormed(lib)
    ensures Ready(e) ==> Ready(r)
    ensures "file_" + changeType in lib ==>
              r.playing && r.current == Some(lib["file_" + changeType]) && r.index == 0 && r.last == now
    ensures "file_" + changeType !in lib ==> r == e
  {
    var name := "file_" + changeType;
    if name in lib then Engine(Some(lib[name]), 0, now, true) else e
  }

  /** "deleted" has no "file_deleted" animation, so deletions animate nothing. */
  lemma DeletedChangesNothing(e: Engine, now: int)
    ensures Trigger(Library(), e, "deleted", now) == e
  {
    assert "file_" + "deleted" == "file_deleted";
  }

  /** `start_idle_animation`: a playing animation is never interrupted. */
  function StartIdle(lib: map<string, Sequence>, e: Engine, now: int): (r: Engine)
    requires WellFormed(lib)
    ensures Ready(e) ==> Ready(r)
    ensures e.playing ==> r == e
    ensures !e.playing ==>
              r.playing && r.index == 0 && r.last == now
              && r.current == (if "idle" in lib then Some(lib["idle"]) else None)
  {
    if e.playing then e
    else Engine(if "idle" in lib then Some(lib["idle"]) else None, 0, now, true)
  }

  /** `stop_animation`: the frame index is left as it was. */
  function Stop(e: Engine): (r: Engine)
    ensures !r.playing && r.current.None? && r.index == e.index
  {
    e.(playing := false, current := None)
  }

  /** `get_current_frame` at time `now`: the engine after the call and the
      frame shown. */
  function CurrentFrame(e: Engine, now: int): (r: (Engine, Option<string>))
    requires Ready(e)
    ensures Ready(r.0)
    ensures r.0.current == e.current
    ensures !e.playing || e.current.None? ==> r == (e, None)
    ensures r.0.index == e.index || r.0.index == e.index + 1 || r.0.index == 0
    ensures e.playing && e.current.Some? && now - e.last < e.current.value.frames[e.index].durationMs
            ==> r.0 == e && r.1 == Some(e.current.value.frames[e.index].content)
    ensures r.1.Some? ==> r.0.playing && r.0.current.Some?
                          && r.1.value == r.0.current.value.frames[r.0.index].content
    ensures e.playing && e.current.Some? && r.1.None? ==>
              !r.0.playing && !e.current.value.loop && e.index == |e.current.value.frames| - 1
              && r.0.last == now
    ensures e.playing && e.current.Some? && now - e.last >= e.current.value.frames[e.index].durationMs ==>
              var frames := e.current.value.frames;
              r.0.last == now
              && (e.index + 1 < |frames| ==>
                    r.0.playing && r.0.index == e.index + 1 && r.1 == Some(frames[e.index + 1].content))
              && (e.index + 1 == |frames| && e.current.value.loop ==>
                    r.0.playing && r.0.index == 0 && r.1 == Some(frames[0].content))
              && (e.index + 1 == |frames| && !e.current.value.loop ==> r.1.None? && !r.0.playing)
  {
    if e.current.None? || !e.playing then (e, None)
    else
      var a := e.current.value;
      if now - e.last >= a.frames[e.index].durationMs then
        var i := e.index + 1;
        if i >= |a.frames| then
          if a.loop then (e.(index := 0, last := now), Some(a.frames[0].content))
          else (e.(index := i, last := now, playing := false), None)
        else (e.(index := i, last := now), Some(a.frames[i].content))
      else (e, Some(a.frames[e.index].content))
  }

  /** Both engines step a playing animation alike and show the same frame
      on every call; they differ only in the state a finished celebration
      leaves (stopped here, stopped and cleared in reference/animations.py). */
  lemma SameFramesAsReference(e: Engine, now: int)
    requires Ready(e)
    ensures CurrentFrame(e, now).1 == ReferenceAnimation.CurrentFrame(e, now).1
    ensures CurrentFrame(e, now).1.Some? ==> CurrentFrame(e, now).0 == ReferenceAnimation.CurrentFrame(e, now).0
  {
  }

  /** A triggered celebration shows its first frame until that frame's time is up. */
  lemma TriggerThenFirstFrame(lib: map<string, Sequence>, e: Engine, changeType: string, now: int, later: int)
    requires WellFormed(lib) && "file_" + changeType in lib
    requires now <= later < now + lib["file_" + changeType].frames[0].durationMs
    ensures CurrentFrame(Trigger(lib, e, changeType, now), later).1
            == Some(lib["file_" + changeType].frames[0].content)
  {
  }

  /** A finished celebration leaves the engine stopped, not idle: the next
      `start_idle_animation` is what brings idle back. */
  lemma FinishedThenIdle(e: Engine, now: int, later: int)
    requires Ready(e) && e.playing && e.current.Some?
    requires CurrentFrame(e, now).1.None?
    ensures CurrentFrame(CurrentFrame(e, now).0, later) == (CurrentFrame(e, now).0, None)
    ensures StartIdle(Library(), CurrentFrame(e, now).0, later).current == Some(Library()["idle"])
  {
  }
}

=== FILE: display_clusters.dfy ===
/** The clustering half of `display/index.py`: `FileClusterer.cluster_files`
    with `_create_clusters`, `_format_group_name` and `_format_cluster_name`,
    and the two text renderers `cluster_files_for_display` and
    `display_all_files_flat`. Paths are `PurePosixPath` values; the file
    modification times the "modified" sort asks the filesystem for are an
    argument (`None` where `os.path.getmtime` raises). Display formats are
    the defaults the code falls back to. */
module DisplayClusters {
  import opened Wrappers
  import opened Text
  import opened Ordering
  import opened PyPath

  /** A run of files shown together; `count` is recomputed from `files`. */
  datatype FileCluster = FileCluster(path: string, files: seq<string>, count: nat, displayName: string)

  /** The clusters of one bucket; `totalFiles` is recomputed from them. */
  datatype ClusterGroup = ClusterGroup(parentPath: string, clusters: seq<FileCluster>,
                                       totalFiles: nat, displayName: string)

  /** The `clustering_settings` the clusterer reads. */
  datatype ClusterConfig = ClusterConfig(maxDepth: int, cap: int, showHidden: bool, sortBy: string)

  /** The values used when the settings are absent. */
  function DefaultConfig(): ClusterConfig {
    ClusterConfig(3, 10, false, "name")
  }

  /** `FileCluster(...)`: `__post_init__` overwrites the count it was given. */
  function NewCluster(path: string, files: seq<string>, displayName: string): FileCluster {
    FileCluster(path, files, |files|, displayName)
  }

  function SumCounts(cs: seq<FileCluster>): nat {
    if |cs| == 0 then 0 else cs[0].count + SumCounts(cs[1..])
  }

  /** `ClusterGroup(...)`: `__post_init__` overwrites the total it was given. */
  function NewGroup(parentPath: string, clusters: seq<FileCluster>, displayName: string): ClusterGroup {
    ClusterGroup(parentPath, clusters, SumCounts(clusters), displayName)
  }

  /** `_format_group_name`. */
  function GroupName(parentPath: string): (r: string)
    ensures r == "Root Directory" <==> parentPath == "." || parentPath == "Root Directory"
    ensures parentPath != "." ==> r == parentPath
  {
    if parentPath == "." then "Root Directory" else parentPath
  }

  /** `_format_cluster_name` with the default prefix and count format. */
  function ClusterName(path: string, count: nat): string {
    "📁 " + path + " (" + NatToString(count) + " files)"
  }

  /** A cluster name reads back as its path, between the folder prefix and
      " (", and its count, between " (" and " files)". */
  lemma ClusterNameReadBack(path: string, count: nat)
    ensures var r := ClusterName(path, count);
            var p := "📁 " + path + " (";
            |r| >= |p| + 7 && r[..|p|] == p && r[|r| - 7..] == " files)"
            && ParseNat(r[|p|..|r| - 7]) == Some(count)
  {
    var r := ClusterName(path, count);
    var p := "📁 " + path + " (";
    var digits := NatToString(count);
    assert r == p + digits + " files)";
    assert r[..|p|] == p && r[|p|..|r| - 7] == digits && r[|r| - 7..] == " files)";
    NatToStringRoundTrip(count);
  }

  /** The path of the `k`-th chunk (counting from 1) of an overfull bucket. */
  function PartName(parentPath: string, k: nat): string {
    parentPath + " (part " + NatToString(k) + ")"
  }

  // ---------------------------------------------------------------------
  // Buckets: the `defaultdict(list)` keyed by parent string, in insertion order

  datatype Bucket = Bucket(key: string, files: seq<string>)

  predicate Has(gs: seq<Bucket>, k: string) {
    exists i :: 0 <= i < |gs| && gs[i].key == k
  }

  /** `groups[k]`: the list under `k`, empty when the key is new. */
  function Lookup(gs: seq<Bucket>, k: string): seq<string> {
    if |gs| == 0 then []
    else if gs[0].key == k then gs[0].files
    else Lookup(gs[1..], k)
  }

  /** Reading `groups[k]` creates the key, at the end, with an empty list. */
  function Touch(gs: seq<Bucket>, k: string): (r: seq<Bucket>)
    ensures Has(r, k)
    ensures forall j :: Lookup(r, j) == Lookup(gs, j)
    ensures Flatten(r) == Flatten(gs)
  {
    if Has(gs, k) then gs
    else
      assert (gs + [Bucket(k, [])])[|gs|].key == k;
      LookupAppendEmpty(gs, k);
      FlattenAppend(gs, [Bucket(k, [])]);
      gs + [Bucket(k, [])]
  }

  /** `groups[k].append(x)` on a key that exists. */
  function Update(gs: seq<Bucket>, k: string, x: string): (r: seq<Bucket>)
    ensures |r| == |gs|
    ensures forall i :: 0 <= i < |gs| ==> r[i].key == gs[i].key
  {
    if |gs| == 0 then []
    else if gs[0].key == k then [Bucket(k, gs[0].files + [x])] + gs[1..]
    else [gs[0]] + Update(gs[1..], k, x)
  }

  /** `groups[k].append(x)`. */
  function Add(gs: seq<Bucket>, k: string, x: string): seq<Bucket> {
    Update(Touch(gs, k), k, x)
  }

  /** All files in all buckets, bucket by bucket. */
  function Flatten(gs: seq<Bucket>): seq<string> {
    if |gs| == 0 then [] else gs[0].files + Flatten(gs[1..])
  }

  lemma {:induction false} FlattenAppend(a: seq<Bucket>, b: seq<Bucket>)
    ensures Flatten(a + b) == Flatten(a) + Flatten(b)
  {
    if |a| == 0 {
      assert a + b == b;
    } else {
      assert (a + b)[1..] == a[1..] + b;
      FlattenAppend(a[1..], b);
    }
  }

  lemma {:induction false} LookupAppendEmpty(gs: seq<Bucket>, k: string)
    ensures forall j :: Lookup(gs + [Bucket(k, [])], j) == Lookup(gs, j)
  {
    if |gs| == 0 {
    } else {
      assert (gs + [Bucket(k, [])])[1..] == gs[1..] + [Bucket(k, [])];
      LookupAppendEmpty(gs[1..], k);
    }
  }

  /** Appending to an existing bucket adds one file there and nowhere else. */
  lemma UpdateEffect(gs: seq<Bucket>, k: string, x: string)
    requires Has(gs, k)
    ensures Lookup(Update(gs, k, x), k) == Lookup(gs, k) + [x]
    ensures forall j :: j != k ==> Lookup(Update(gs, k, x), j) == Lookup(gs, j)
    ensures multiset(Flatten(Update(gs, k, x))) == multiset(Flatten(gs)) + multiset{x}
  {
    UpdateLookup(gs, k, x);
    UpdateFlatten(gs, k, x);
  }

  lemma {:induction false} UpdateLookup(gs: seq<Bucket>, k: string, x: string)
    requires Has(gs, k)
    ensures Lookup(Update(gs, k, x), k) == Lookup(gs, k) + [x]
    ensures forall j :: j != k ==> Lookup(Update(gs, k, x), j) == Lookup(gs, j)
  {
    if gs[0].key != k {
      var i :| 0 <= i < |gs| && gs[i].key == k;
      assert gs[1..][i - 1].key == k;
      UpdateLookup(gs[1..], k, x);
    }
  }

  lemma {:induction false} UpdateFlatten(gs: seq<Bucket>, k: string, x: string)
    requires Has(gs, k)
    ensures multiset(Flatten(Update(gs, k, x))) == multiset(Flatten(gs)) + multiset{x}
  {
    var r := Update(gs, k, x);
    if gs[0].key == k {
      assert r[0] == Bucket(k, gs[0].files + [x]) && r[1..] == gs[1..];
      assert Flatten(r) == (gs[0].files + [x]) + Flatten(gs[1..]);
    } else {
      var i :| 0 <= i < |gs| && gs[i].key == k;
      assert gs[1..][i - 1].key == k;
      UpdateFlatten(gs[1..], k, x);
      assert r[0] == gs[0] && r[1..] == Update(gs[1..], k, x);
      assert Flatten(r) == gs[0].files + Flatten(r[1..]);
    }
  }

  /** `groups[k].append(x)`, with `k` created on demand. */
  lemma AddEffect(gs: seq<Bucket>, k: string, x: string)
    ensures Lookup(Add(gs, k, x), k) == Lookup(gs, k) + [x]
    ensures forall j :: j != k ==> Lookup(Add(gs, k, x), j) == Lookup(gs, j)
    ensures multiset(Flatten(Add(gs, k, x))) == multiset(Flatten(gs)) + multiset{x}
  {
    UpdateEffect(Touch(gs, k), k, x);
  }

  // ---------------------------------------------------------------------
  // Bucket choice

  /** The bucket tried at `depth`: "." first, then `str(path.parents[depth])`;
      `None` where `parents[depth]` raises `IndexError`. */
  function Candidate(p: Path, depth: nat): Option<string> {
    if depth == 0 then Some(".")
    else match Parents(p, depth)
      case Some(q) => Some(Str(q))
      case None => None
  }

  /** Depth `depth` accepts the file: it has a bucket below the cap, or it
      raises `IndexError` and the file goes to "." regardless. */
  predicate Free(gs: seq<Bucket>, p: Path, cap: int, depth: nat) {
    match Candidate(p, depth)
    case None => true
    case Some(k) => |Lookup(gs, k)| < cap
  }

  /** The loop over `range(max_depth + 1)` from `depth` on, for one path:
      the new buckets and whether the path was placed. */
  function PlaceFrom(gs: seq<Bucket>, p: Path, cfg: ClusterConfig, depth: nat): (r: (seq<Bucket>, bool))
    ensures multiset(Flatten(r.0)) == multiset(Flatten(gs)) + (if r.1 then multiset{Str(p)} else multiset{})
    decreases cfg.maxDepth + 1 - depth
  {
    if depth > cfg.maxDepth then (gs, false)
    else match Candidate(p, depth)
      case None =>
        AddEffect(gs, ".", Str(p));
        (Add(gs, ".", Str(p)), true)
      case Some(k) =>
        var t := Touch(gs, k);
        if |Lookup(t, k)| >= cfg.cap then PlaceFrom(t, p, cfg, depth + 1)
        else
          UpdateEffect(t, k, Str(p));
          (Update(t, k, Str(p)), true)
  }

  lemma FreeTouch(gs: seq<Bucket>, k: string, p: Path, cap: int, e: nat)
    ensures Free(Touch(gs, k), p, cap, e) == Free(gs, p, cap, e)
  {
  }

  /** The search places the path exactly when some remaining depth accepts
      it; the buckets created on the way hold nothing and change no count. */
  lemma {:induction false} PlacedIffSomeDepthFree(gs: seq<Bucket>, p: Path, cfg: ClusterConfig, depth: nat)
    ensures PlaceFrom(gs, p, cfg, depth).1 <==> exists e: nat :: depth <= e <= cfg.maxDepth && Free(gs, p, cfg.cap, e)
    decreases cfg.maxDepth + 1 - depth
  {
    if depth > cfg.maxDepth {
      assert !PlaceFrom(gs, p, cfg, depth).1;
      if e: nat :| depth <= e <= cfg.maxDepth && Free(gs, p, cfg.cap, e) {
        assert false;
      }
    } else if Free(gs, p, cfg.cap, depth) {
      PlacedWhenFree(gs, p, cfg, depth);
      assert depth <= depth <= cfg.maxDepth && Free(gs, p, cfg.cap, depth);
    } else {
      var k := Candidate(p, depth).value;
      var t := Touch(gs, k);
      SkipFull(gs, p, cfg, depth);
      PlacedIffSomeDepthFree(t, p, cfg, depth + 1);
      if PlaceFrom(gs, p, cfg, depth).1 {
        var e: nat :| depth + 1 <= e <= cfg.maxDepth && Free(t, p, cfg.cap, e);
        FreeTouch(gs, k, p, cfg.cap, e);
      }
      if e: nat :| depth <= e <= cfg.maxDepth && Free(gs, p, cfg.cap, e) {
        FreeTouch(gs, k, p, cfg.cap, e);
        assert e != depth;
        assert depth + 1 <= e <= cfg.maxDepth && Free(t, p, cfg.cap, e);
        assert PlaceFrom(t, p, cfg, depth + 1).1;
      }
    }
  }

  lemma PlacedWhenFree(gs: seq<Bucket>, p: Path, cfg: ClusterConfig, depth: nat)
    requires depth <= cfg.maxDepth && Free(gs, p, cfg.cap, depth)
    ensures PlaceFrom(gs, p, cfg, depth).1
  {
  }

  lemma SkipFull(gs: seq<Bucket>, p: Path, cfg: ClusterConfig, depth: nat)
    requires depth <= cfg.maxDepth && !Free(gs, p, cfg.cap, depth)
    ensures Candidate(p, depth).Some?
    ensures PlaceFrom(gs, p, cfg, depth) == PlaceFrom(Touch(gs, Candidate(p, depth).value), p, cfg, depth + 1)
  {
  }

  /** One path of the `for path in paths` loop. */
  function Place(gs: seq<Bucket>, p: Path, cfg: ClusterConfig): (seq<Bucket>, bool) {
    PlaceFrom(gs, p, cfg, 0)
  }

  /** Root first: while "." has room every path lands there, whatever its
      directory. */
  lemma RootFirst(gs: seq<Bucket>, p: Path, cfg: ClusterConfig)
    requires cfg.maxDepth >= 0 && |Lookup(gs, ".")| < cfg.cap
    ensures Place(gs, p, cfg).1
    ensures Lookup(Place(gs, p, cfg).0, ".") == Lookup(gs, ".") + [Str(p)]
  {
    UpdateEffect(Touch(gs, "."), ".", Str(p));
  }

  /** A path is dropped only when `max_depth` stops the search before
      `parents` runs out: with `max_depth` at least the number of
      components (and at least 1), `IndexError` always places it. */
  lemma DeepEnoughAlwaysPlaced(gs: seq<Bucket>, p: Path, cfg: ClusterConfig)
    requires cfg.maxDepth >= |p.parts| && cfg.maxDepth >= 1
    ensures Place(gs, p, cfg).1
  {
    PlacedIffSomeDepthFree(gs, p, cfg, 0);
    var e: nat := if |p.parts| == 0 then 1 else |p.parts|;
    assert Candidate(p, e).None?;
    assert Free(gs, p, cfg.cap, e);
  }

  /** The whole `for path in paths` loop: the buckets, and the strings placed. */
  function PlaceAll(gs: seq<Bucket>, ps: seq<Path>, cfg: ClusterConfig): (r: (seq<Bucket>, seq<string>))
    ensures multiset(Flatten(r.0)) == multiset(Flatten(gs)) + multiset(r.1)
    ensures |r.1| <= |ps|
    decreases |ps|
  {
    if |ps| == 0 then (gs, [])
    else
      var step := Place(gs, ps[0], cfg);
      var rest := PlaceAll(step.0, ps[1..], cfg);
      (rest.0, (if step.1 then [Str(ps[0])] else []) + rest.1)
  }

  /** Only input paths are placed. */
  lemma {:induction false} PlacedAreInputs(gs: seq<Bucket>, ps: seq<Path>, cfg: ClusterConfig)
    ensures forall x :: x in PlaceAll(gs, ps, cfg).1 ==> x in Strs(ps)
    decreases |ps|
  {
    if |ps| > 0 {
      var step := Place(gs, ps[0], cfg);
      PlacedAreInputs(step.0, ps[1..], cfg);
      assert Strs(ps) == [Str(ps[0])] + Strs(ps[1..]);
    }
  }

  // ---------------------------------------------------------------------
  // Sorting and chunking one bucket

  /** The `sort_by` step: by name, by modification time newest first (by
      name when any time is unavailable), or left as appended. */
  function SortFiles(files: seq<string>, sortBy: string, mtime: string -> Option<int>): (r: seq<string>)
    ensures multiset(r) == multiset(files)
    ensures |r| == |files|
  {
    if sortBy == "name" then SortStrings(files)
    else if sortBy == "modified" then
      if forall i :: 0 <= i < |files| ==> mtime(files[i]).Some? then
        SortByKeyDesc(files, f => mtime(f).GetOr(0))
      else SortStrings(files)
    else files
  }

  function ConcatFiles(cs: seq<FileCluster>): seq<string> {
    if |cs| == 0 then [] else cs[0].files + ConcatFiles(cs[1..])
  }

  /** The chunks of `files[i:i + cap]`, numbered from `part`. */
  function Chunks(parentPath: string, files: seq<string>, cap: nat, part: nat): (r: seq<FileCluster>)
    requires cap > 0
    ensures ConcatFiles(r) == files
    ensures SumCounts(r) == |files|
    ensures forall i :: 0 <= i < |r| ==> 0 < |r[i].files| <= cap && r[i].count == |r[i].files|
    ensures forall i :: 0 <= i < |r| - 1 ==> |r[i].files| == cap
    ensures forall i :: 0 <= i < |r| ==> r[i].path == PartName(parentPath, part + i)
    decreases |files|
  {
    if |files| == 0 then []
    else
      var n := if cap < |files| then cap else |files|;
      var chunk := files[..n];
      var name := PartName(parentPath, part);
      var rest := Chunks(parentPath, files[n..], cap, part + 1);
      ChunksStep(parentPath, files, cap, part, n, rest);
      [NewCluster(name, chunk, ClusterName(name, |chunk|))] + rest
  }

  /** The first chunk of `files` followed by the chunks of the rest. */
  lemma ChunksStep(parentPath: string, files: seq<string>, cap: nat, part: nat, n: nat, rest: seq<FileCluster>)
    requires 0 < n <= cap && n <= |files| && (n == cap || n == |files|)
    requires ConcatFiles(rest) == files[n..] && SumCounts(rest) == |files| - n
    requires forall i :: 0 <= i < |rest| ==> 0 < |rest[i].files| <= cap && rest[i].count == |rest[i].files|
    requires forall i :: 0 <= i < |rest| - 1 ==> |rest[i].files| == cap
    requires forall i :: 0 <= i < |rest| ==> rest[i].path == PartName(parentPath, part + 1 + i)
    requires n < |files| ==> |rest| > 0
    ensures var name := PartName(parentPath, part);
            var r := [NewCluster(name, files[..n], ClusterName(name, n))] + rest;
            ConcatFiles(r) == files && SumCounts(r) == |files|
            && (forall i :: 0 <= i < |r| ==> 0 < |r[i].files| <= cap && r[i].count == |r[i].files|)
            && (forall i :: 0 <= i < |r| - 1 ==> |r[i].files| == cap)
            && (forall i :: 0 <= i < |r| ==> r[i].path == PartName(parentPath, part + i))
  {
    var name := PartName(parentPath, part);
    var r := [NewCluster(name, files[..n], ClusterName(name, n))] + rest;
    assert r[1..] == rest;
    assert files == files[..n] + files[n..];
    forall i | 1 <= i < |r|
      ensures r[i] == rest[i - 1]
    {
    }
  }

  /** `_create_clusters`: one cluster when the bucket fits, otherwise chunks
      of `cap` files named "<parent> (part k)". `range(0, n, 0)` raises
      `ValueError`; a negative step gives no chunks at all. */
  function CreateClusters(parentPath: string, files: seq<string>, cap: int): (r: Result<seq<FileCluster>, string>)
    ensures |files| <= cap ==> r == Ok([FileCluster(parentPath, files, |files|, ClusterName(parentPath, |files|))])
    ensures cap > 0 ==> r.Ok? && ConcatFiles(r.value) == files && SumCounts(r.value) == |files|
    ensures cap > 0 ==> forall i :: 0 <= i < |r.value| ==> |r.value[i].files| <= cap && r.value[i].count == |r.value[i].files|
    ensures cap > 0 && |files| > cap ==>
              |r.value| >= 2 && forall i :: 0 <= i < |r.value| ==> r.value[i].path == PartName(parentPath, i + 1)
    ensures cap == 0 && |files| > 0 ==> r.Err?
    ensures cap < 0 ==> r == Ok([])
  {
    if |files| <= cap then Ok([NewCluster(parentPath, files, ClusterName(parentPath, |files|))])
    else if cap == 0 then Err("range() arg 3 must not be zero")
    else if cap < 0 then Ok([])
    else
      var r := Chunks(parentPath, files, cap, 1);
      assert |r| >= 2;
      Ok(r)
  }

  /** One bucket's group: none when `_create_clusters` gives no clusters. */
  function BucketGroup(b: Bucket, cfg: ClusterConfig, mtime: string -> Option<int>): (r: Result<seq<ClusterGroup>, string>)
    ensures cfg.cap > 0 ==> r.Ok? && multiset(AllFiles(r.value)) == multiset(b.files)
    ensures r.Ok? ==> forall i :: 0 <= i < |r.value| ==> GroupWellFormed(r.value[i])
  {
    var files := SortFiles(b.files, cfg.sortBy, mtime);
    match CreateClusters(b.key, files, cfg.cap)
    case Err(e) => Err(e)
    case Ok(clusters) =>
      if |clusters| > 0 then
        var g := NewGroup(b.key, clusters, GroupName(b.key));
        BucketGroupOf(b, files, cfg.cap, clusters);
        Ok([g])
      else Ok([])
  }

  /** The group made of a bucket's clusters is well formed and holds the
      bucket's files. */
  lemma BucketGroupOf(b: Bucket, files: seq<string>, cap: int, clusters: seq<FileCluster>)
    requires multiset(files) == multiset(b.files)
    requires CreateClusters(b.key, files, cap) == Ok(clusters)
    ensures var g := NewGroup(b.key, clusters, GroupName(b.key));
            GroupWellFormed(g) && (cap > 0 ==> multiset(AllFiles([g])) == multiset(b.files))
  {
    var g := NewGroup(b.key, clusters, GroupName(b.key));
    assert AllFiles([g]) == ConcatFiles(clusters) + AllFiles([]);
  }

  /** The `for parent_path, files in groups.items()` loop, before the final sort. */
  function BuildGroups(gs: seq<Bucket>, cfg: ClusterConfig, mtime: string -> Option<int>): (r: Result<seq<ClusterGroup>, string>)
    ensures cfg.cap > 0 ==> r.Ok? && multiset(AllFiles(r.value)) == multiset(Flatten(gs))
    ensures r.Ok? ==> forall i :: 0 <= i < |r.value| ==> GroupWellFormed(r.value[i])
  {
    if |gs| == 0 then Ok([])
    else match BucketGroup(gs[0], cfg, mtime)
      case Err(e) => Err(e)
      case Ok(here) =>
        match BuildGroups(gs[1..], cfg, mtime)
        case Err(e) => Err(e)
        case Ok(rest) =>
          GroupsStep(gs, cfg.cap, here, rest);
          Ok(here + rest)
  }

  /** The groups of one bucket followed by those of the rest keep the
      files and the well-formedness of both. */
  lemma GroupsStep(gs: seq<Bucket>, cap: int, here: seq<ClusterGroup>, rest: seq<ClusterGroup>)
    requires |gs| > 0
    requires cap > 0 ==> multiset(AllFiles(here)) == multiset(gs[0].files)
    requires cap > 0 ==> multiset(AllFiles(rest)) == multiset(Flatten(gs[1..]))
    requires forall i :: 0 <= i < |here| ==> GroupWellFormed(here[i])
    requires forall i :: 0 <= i < |rest| ==> GroupWellFormed(rest[i])
    ensures cap > 0 ==> multiset(AllFiles(here + rest)) == multiset(Flatten(gs))
    ensures forall i :: 0 <= i < |here + rest| ==> GroupWellFormed((here + rest)[i])
  {
    AllFilesAppend(here, rest);
    assert Flatten(gs) == gs[0].files + Flatten(gs[1..]);
    forall i | 0 <= i < |here + rest|
      ensures GroupWellFormed((here + rest)[i])
    {
      if i >= |here| { assert (here + rest)[i] == rest[i - |here|]; }
    }
  }

  /** The counts a cluster group carries agree with its contents. */
  ghost predicate GroupWellFormed(g: ClusterGroup) {
    g.totalFiles == SumCounts(g.clusters)
    && (forall j :: 0 <= j < |g.clusters| ==> g.clusters[j].count == |g.clusters[j].files|)
    && g.displayName == GroupName(g.parentPath)
  }

  function AllFiles(groups: seq<ClusterGroup>): seq<string> {
    if |groups| == 0 then [] else ConcatFiles(groups[0].clusters) + AllFiles(groups[1..])
  }

  lemma {:induction false} AllFilesAppend(a: seq<ClusterGroup>, b: seq<ClusterGroup>)
    ensures AllFiles(a + b) == AllFiles(a) + AllFiles(b)
  {
    if |a| == 0 {
      assert a + b == b;
    } else {
      assert (a + b)[1..] == a[1..] + b;
      AllFilesAppend(a[1..], b);
    }
  }

  /** Groups larger first, as `cluster_groups.sort(key=total_files, reverse=True)`. */
  function ByTotalDesc(): (le: (ClusterGroup, ClusterGroup) -> bool)
    ensures Total(le)
    ensures forall a, b :: le(a, b) == (a.totalFiles >= b.totalFiles)
  {
    KeyDesc((g: ClusterGroup) => g.totalFiles as int)
  }

  lemma {:induction false} InsertKeepsFiles(x: ClusterGroup, s: seq<ClusterGroup>, le: (ClusterGroup, ClusterGroup) -> bool)
    requires Total(le)
    ensures multiset(AllFiles(Insert(x, s, le))) == multiset(ConcatFiles(x.clusters)) + multiset(AllFiles(s))
  {
    if |s| == 0 || le(x, s[0]) {
      assert Insert(x, s, le) == [x] + s;
      assert ([x] + s)[1..] == s;
    } else {
      var r := Insert(x, s, le);
      assert r[1..] == Insert(x, s[1..], le);
      InsertKeepsFiles(x, s[1..], le);
    }
  }

  /** Reordering the groups keeps every file. */
  lemma {:induction false} SortKeepsFiles(s: seq<ClusterGroup>, le: (ClusterGroup, ClusterGroup) -> bool)
    requires Total(le)
    ensures multiset(AllFiles(Sort(s, le))) == multiset(AllFiles(s))
  {
    if |s| > 0 {
      SortKeepsFiles(s[1..], le);
      InsertKeepsFiles(s[0], Sort(s[1..], le), le);
    }
  }

  // ---------------------------------------------------------------------
  // cluster_files

  /** `path.name.startswith('.')`. */
  predicate IsHidden(p: Path) {
    |Name(p)| > 0 && Name(p)[0] == '.'
  }

  /** `Path(s)` of every input string. */
  function ParseAll(filePaths: seq<string>): (r: seq<Path>)
    ensures |r| == |filePaths| && forall i :: 0 <= i < |r| ==> r[i] == Parse(filePaths[i])
  {
    seq(|filePaths|, i requires 0 <= i < |filePaths| => Parse(filePaths[i]))
  }

  /** The input paths kept: parsed, hidden names dropped unless shown. */
  function VisiblePaths(filePaths: seq<string>, showHidden: bool): (r: seq<Path>)
    ensures |r| <= |filePaths|
    ensures forall i :: 0 <= i < |r| ==> showHidden || !IsHidden(r[i])
    ensures forall p :: p in r ==> p in ParseAll(filePaths)
  {
    if |filePaths| == 0 then []
    else
      var p := Parse(filePaths[0]);
      var rest := VisiblePaths(filePaths[1..], showHidden);
      assert ParseAll(filePaths) == [p] + ParseAll(filePaths[1..]);
      if !showHidden && IsHidden(p) then rest else [p] + rest
  }

  /** Every group of a well-formed list stays well formed when reordered. */
  lemma SortedGroupsWellFormed(built: seq<ClusterGroup>, le: (ClusterGroup, ClusterGroup) -> bool)
    requires Total(le)
    requires forall i :: 0 <= i < |built| ==> GroupWellFormed(built[i])
    ensures forall i :: 0 <= i < |Sort(built, le)| ==> GroupWellFormed(Sort(built, le)[i])
  {
    var sorted := Sort(built, le);
    forall i | 0 <= i < |sorted|
      ensures GroupWellFormed(sorted[i])
    {
      assert sorted[i] in multiset(built);
    }
  }

  /** `FileClusterer.cluster_files`. */
  function ClusterFiles(filePaths: seq<string>, cfg: ClusterConfig, mtime: string -> Option<int>)
    : (r: Result<seq<ClusterGroup>, string>)
    ensures |filePaths| == 0 ==> r == Ok([])
    ensures cfg.cap > 0 ==> r.Ok?
    ensures r.Ok? ==> forall i :: 0 < i < |r.value| ==> r.value[i - 1].totalFiles >= r.value[i].totalFiles
    ensures r.Ok? ==> forall i :: 0 <= i < |r.value| ==> GroupWellFormed(r.value[i])
    ensures r.Ok? && cfg.cap > 0 && |filePaths| > 0 ==>
              multiset(AllFiles(r.value)) == multiset(Placed(filePaths, cfg))
  {
    if |filePaths| == 0 then Ok([])
    else
      var placement := PlaceAll([], VisiblePaths(filePaths, cfg.showHidden), cfg);
      match BuildGroups(placement.0, cfg, mtime)
      case Err(e) => Err(e)
      case Ok(built) =>
        var le := ByTotalDesc();
        SortKeepsFiles(built, le);
        SortedGroupsWellFormed(built, le);
        Ok(Sort(built, le))
  }

  /** The file strings `cluster_files` places, in input order. */
  function Placed(filePaths: seq<string>, cfg: ClusterConfig): seq<string> {
    PlaceAll([], VisiblePaths(filePaths, cfg.showHidden), cfg).1
  }

  /** Every placed string is the normalised form of an input path. */
  lemma PlacedFromInputs(filePaths: seq<string>, cfg: ClusterConfig)
    ensures forall x :: x in Placed(filePaths, cfg) ==> x in Strs(ParseAll(filePaths))
  {
    var ps := VisiblePaths(filePaths, cfg.showHidden);
    PlacedAreInputs([], ps, cfg);
    forall x | x in Placed(filePaths, cfg)
      ensures x in Strs(ParseAll(filePaths))
    {
      StrOfInput(ParseAll(filePaths), ps, x);
    }
  }

  lemma StrOfInput(all: seq<Path>, ps: seq<Path>, x: string)
    requires forall p :: p in ps ==> p in all
    requires x in Strs(ps)
    ensures x in Strs(all)
  {
    var k :| 0 <= k < |ps| && x == Str(ps[k]);
    assert ps[k] in all;
    var j :| 0 <= j < |all| && ps[k] == all[j];
    assert Strs(all)[j] == x;
  }

  /** A relative path with at most one directory has only "." among its
      candidates before `parents` runs out, so it lands in "." however full
      that bucket already is. */
  lemma ShallowPathGoesToRoot(xs: seq<string>, p: Path, cfg: ClusterConfig)
    requires p.anchor == "" && |p.parts| <= 2 && cfg.maxDepth >= 2
    ensures Place([Bucket(".", xs)], p, cfg).0 == [Bucket(".", xs + [Str(p)])]
  {
    var gs := [Bucket(".", xs)];
    assert Has(gs, ".") by { assert gs[0].key == "."; }
    assert Update(gs, ".", Str(p)) == [Bucket(".", xs + [Str(p)])];
    if |xs| >= cfg.cap {
      assert Place(gs, p, cfg) == PlaceFrom(gs, p, cfg, 1);
      if |p.parts| == 2 {
        assert Parents(p, 1) == Some(Path("", []));
        assert Candidate(p, 1) == Some(".");
        assert PlaceFrom(gs, p, cfg, 1) == PlaceFrom(gs, p, cfg, 2);
        assert Candidate(p, 2).None?;
      } else {
        assert Candidate(p, 1).None?;
      }
    }
  }

  /** Placing into no buckets is placing into an empty "." bucket: depth 0
      creates it first. */
  lemma PlaceIntoNothing(p: Path, cfg: ClusterConfig)
    requires cfg.maxDepth >= 0
    ensures Place([], p, cfg) == Place([Bucket(".", [])], p, cfg)
  {
    var gs := [Bucket(".", [])];
    assert Has(gs, ".") by { assert gs[0].key == "."; }
    assert Touch([], ".") == gs;
  }

  /** Relative paths with at most one directory all end up in the "."
      bucket, in input order. With a cap of 2, "a/b.py", "a/c.py", "a/d.py"
      and "x.py" therefore share the "." bucket, which is then split into
      ". (part 1)" and ". (part 2)". */
  lemma {:induction false} ShallowPathsShareRoot(xs: seq<string>, ps: seq<Path>, cfg: ClusterConfig)
    requires forall i :: 0 <= i < |ps| ==> ps[i].anchor == "" && |ps[i].parts| <= 2
    requires cfg.maxDepth >= 2
    ensures PlaceAll([Bucket(".", xs)], ps, cfg) == ([Bucket(".", xs + Strs(ps))], Strs(ps))
    decreases |ps|
  {
    if |ps| > 0 {
      var gs := [Bucket(".", xs)];
      ShallowPathGoesToRoot(xs, ps[0], cfg);
      DeepEnoughAlwaysPlaced(gs, ps[0], cfg);
      var g1 := [Bucket(".", xs + [Str(ps[0])])];
      assert Place(gs, ps[0], cfg) == (g1, true);
      var rest := PlaceAll(g1, ps[1..], cfg);
      assert PlaceAll(gs, ps, cfg) == (rest.0, [Str(ps[0])] + rest.1);
      ShallowPathsShareRoot(xs + [Str(ps[0])], ps[1..], cfg);
      ConcatAssoc(xs, [Str(ps[0])], Strs(ps[1..]));
    } else {
      assert Strs(ps) == [];
      assert xs + Strs(ps) == xs;
    }
  }

  /** With a positive cap and `max_depth` reaching past every path's
      components, no visible path is lost. */
  lemma {:induction false} NothingLostWhenDeepEnough(gs: seq<Bucket>, ps: seq<Path>, cfg: ClusterConfig)
    requires cfg.maxDepth >= 1
    requires forall i :: 0 <= i < |ps| ==> |ps[i].parts| <= cfg.maxDepth
    ensures |PlaceAll(gs, ps, cfg).1| == |ps|
    decreases |ps|
  {
    if |ps| > 0 {
      DeepEnoughAlwaysPlaced(gs, ps[0], cfg);
      NothingLostWhenDeepEnough(Place(gs, ps[0], cfg).0, ps[1..], cfg);
    }
  }

  // ---------------------------------------------------------------------
  // Text renderers

  /** The lines `cluster_files_for_display` writes for one cluster. The inner
      "more files" line sits under `count <= 10` and so is never written. */
  function ClusterLines(c: FileCluster): seq<string> {
    ["  " + c.displayName]
    + (if c.count <= 10 then
         FileLines(if |c.files| > 10 then c.files[..10] else c.files)
         + (if c.count > 10 then ["    ... and " + IntToString(c.count - 10) + " more files"] else [])
       else [])
  }

  function FileLines(files: seq<string>): (r: seq<string>)
    ensures |r| == |files|
    ensures forall i :: 0 <= i < |files| ==> r[i] == "    📄 " + files[i]
  {
    if |files| == 0 then [] else ["    📄 " + files[0]] + FileLines(files[1..])
  }

  /** A cluster shows its header and then every file when it has at most 10,
      and only its header otherwise; the "and N more" line never appears. */
  lemma ClusterLinesShape(c: FileCluster)
    requires c.count == |c.files|
    ensures |ClusterLines(c)| == 1 + (if c.count <= 10 then c.count else 0)
    ensures c.count <= 10 ==> forall i :: 0 <= i < c.count ==> ClusterLines(c)[i + 1] == "    📄 " + c.files[i]
  {
  }

  function GroupLines(g: ClusterGroup): seq<string> {
    ["[" + g.displayName + "] (" + NatToString(g.totalFiles) + " files)"] + ClustersLines(g.clusters)
  }

  function ClustersLines(cs: seq<FileCluster>): seq<string> {
    if |cs| == 0 then [] else ClusterLines(cs[0]) + ClustersLines(cs[1..])
  }

  function GroupsLines(groups: seq<ClusterGroup>): seq<string> {
    if |groups| == 0 then [] else GroupLines(groups[0]) + GroupsLines(groups[1..])
  }

  /** `cluster_files_for_display` (display/index.py): the `ValueError` of a
      zero cap propagates. */
  function ClusterFilesForDisplay(filePaths: seq<string>, cfg: ClusterConfig, mtime: string -> Option<int>)
    : (r: Result<string, string>)
    ensures cfg.cap > 0 ==> r.Ok?
    ensures ClusterFiles(filePaths, cfg, mtime) == Ok([]) ==> r == Ok("No files to display")
    ensures |filePaths| == 0 ==> r == Ok("No files to display")
  {
    var groups :- ClusterFiles(filePaths, cfg, mtime);
    if |groups| == 0 then Ok("No files to display")
    else Ok(Join(GroupsLines(groups), "\n"))
  }

  /** The order `paths.sort()` uses: the components of `str(path)` split at '/'. */
  function PathOrder(): (le: (Path, Path) -> bool)
    ensures Total(le)
    ensures forall a, b :: le(a, b) == PartsLe(Split(Str(a), '/'), Split(Str(b), '/'))
  {
    forall a: Path, b: Path
      ensures PartsLe(Split(Str(a), '/'), Split(Str(b), '/')) || PartsLe(Split(Str(b), '/'), Split(Str(a), '/'))
    {
      PartsLeTotal(Split(Str(a), '/'), Split(Str(b), '/'));
    }
    (a: Path, b: Path) => PartsLe(Split(Str(a), '/'), Split(Str(b), '/'))
  }

  /** The lines of `display_all_files_flat`: one per visible path, in path order. */
  function FlatLines(filePaths: seq<string>, showHidden: bool): (r: seq<string>)
    ensures var ps := Sort(VisiblePaths(filePaths, showHidden), PathOrder());
            |r| == |ps| && forall i :: 0 <= i < |ps| ==> r[i] == "📄 " + Str(ps[i])
  {
    var ps := Sort(VisiblePaths(filePaths, showHidden), PathOrder());
    seq(|ps|, i requires 0 <= i < |ps| => "📄 " + Str(ps[i]))
  }

  /** `display_all_files_flat`; `showHidden` is the `show_hidden_files` entry
      of `display_formats`, not of the clustering settings. */
  function FlatDisplay(filePaths: seq<string>, showHidden: bool): (r: string)
    ensures |filePaths| == 0 ==> r == "No files to display"
    ensures |filePaths| > 0 ==> r == Join(FlatLines(filePaths, showHidden), "\n")
  {
    if |filePaths| == 0 then "No files to display"
    else Join(FlatLines(filePaths, showHidden), "\n")
  }

  /** The flat listing is in path order and lists exactly the visible paths. */
  lemma FlatListingOrdered(filePaths: seq<string>, showHidden: bool)
    ensures var ps := Sort(VisiblePaths(filePaths, showHidden), PathOrder());
            Sorted(ps, PathOrder()) && multiset(ps) == multiset(VisiblePaths(filePaths, showHidden))
  {
  }
}

=== FILE: expand_vars.dfy ===
/** `${VAR:-default}` expansion, as the C tools (`expandvars` in
    git-submodules.c, main.c and inotify-watcher.c) and the Python
    orchestrators (`_expandvars`) implement it, plus the `os.path.expandvars`
    pass the Python copies run afterwards. The environment is a map from
    names to values; `getenv` and `os.environ.get` are lookups in it.

    Both languages scan with the regular expression `\$\{([^}]+)\}`: at each
    position a match needs "${", then a non-empty run of non-'}' characters,
    then '}'. Since the run cannot contain '}', the match ends at the first
    '}' and is the same under POSIX leftmost-longest and Python leftmost-first
    matching. Text where no match starts is copied one character at a time. */
module ExpandVars {
  import opened Wrappers
  import opened Text

  /** One piece of the scanned input: a character outside any placeholder, or
      the inner text of a `${...}` placeholder. */
  datatype Piece = Lit(c: char) | Placeholder(inner: string)

  /** The index of the closing '}' when a placeholder starts at `s[0]`. */
  function MatchEnd(s: string): (r: Option<nat>)
    ensures r.Some? ==> 3 <= r.value < |s| && s[0] == '$' && s[1] == '{' && s[r.value] == '}'
                        && '}' !in s[2..r.value]
    ensures r.None? && |s| >= 2 && s[0] == '$' && s[1] == '{' ==>
              '}' !in s[2..] || s[2] == '}'
  {
    if |s| >= 3 && s[0] == '$' && s[1] == '{' then
      match IndexOf(s[2..], '}')
      case Some(k) =>
        if k > 0 then
          assert s[2..][..k] == s[2..k + 2];
          Some(k + 2)
        else None
      case None => None
    else None
  }

  /** The regex scan: placeholders where they match, characters elsewhere. */
  function Scan(s: string): (r: seq<Piece>)
    ensures forall i :: 0 <= i < |r| && r[i].Placeholder? ==>
              r[i].inner != "" && '}' !in r[i].inner
    decreases |s|
  {
    if |s| == 0 then []
    else match MatchEnd(s)
      case Some(e) => [Placeholder(s[2..e])] + Scan(s[e + 1..])
      case None => [Lit(s[0])] + Scan(s[1..])
  }

  /** The source text of one piece. */
  function PieceText(p: Piece): string {
    match p
    case Lit(c) => [c]
    case Placeholder(inner) => "${" + inner + "}"
  }

  /** Writes the pieces back as text, placeholders in their `${...}` form. */
  function Render(ps: seq<Piece>): string {
    if |ps| == 0 then "" else PieceText(ps[0]) + Render(ps[1..])
  }

  lemma {:induction false} RenderAppend(a: seq<Piece>, b: seq<Piece>)
    ensures Render(a + b) == Render(a) + Render(b)
  {
    if |a| > 0 {
      assert (a + b)[0] == a[0];
      assert (a + b)[1..] == a[1..] + b;
      RenderAppend(a[1..], b);
      assert Render(a) == PieceText(a[0]) + Render(a[1..]);
      assert Render(a + b) == PieceText(a[0]) + (Render(a[1..]) + Render(b));
    } else {
      assert a + b == b;
    }
  }

  /** The scan loses nothing: rendering the pieces gives the input back. */
  lemma {:induction false} RenderScan(s: string)
    ensures Render(Scan(s)) == s
    decreases |s|
  {
    if |s| > 0 {
      var m := MatchEnd(s);
      if m.Some? {
        var e := m.value;
        RenderScan(s[e + 1..]);
        RenderCons(Placeholder(s[2..e]), Scan(s[e + 1..]));
        PlaceholderText(s, e);
      } else {
        RenderScan(s[1..]);
        RenderCons(Lit(s[0]), Scan(s[1..]));
        assert [s[0]] + s[1..] == s;
      }
    }
  }

  lemma RenderCons(p: Piece, ps: seq<Piece>)
    ensures Render([p] + ps) == PieceText(p) + Render(ps)
  {
    assert ([p] + ps)[1..] == ps;
  }

  lemma PlaceholderText(s: string, e: nat)
    requires 3 <= e < |s| && s[0] == '$' && s[1] == '{' && s[e] == '}'
    ensures PieceText(Placeholder(s[2..e])) + s[e + 1..] == s
  {
    assert s == s[..2] + s[2..e] + [s[e]] + s[e + 1..];
  }

  /** Without "${" in the text every piece is a plain character. */
  lemma {:induction false} ScanLiteral(s: string)
    requires !Contains(s, "${")
    ensures |Scan(s)| == |s|
    ensures forall i :: 0 <= i < |s| ==> Scan(s)[i] == Lit(s[i])
    decreases |s|
  {
    if |s| > 0 {
      if MatchEnd(s).Some? {
        OccursContains(s, "${", 0);
        assert false;
      }
      assert !Contains(s[1..], "${") by {
        if Contains(s[1..], "${") {
          var k := Find(s[1..], "${").value;
          assert s[k + 1..k + 3] == s[1..][k..k + 2];
          OccursContains(s, "${", k + 1);
        }
      }
      ScanLiteral(s[1..]);
    }
  }

  // ---------------------------------------------------------------------
  // The C copies

  /** What the C code substitutes for one placeholder's inner text. */
  function CValue(inner: string, env: map<string, string>): (v: string)
    ensures |inner| >= 256 ==> v == ""
    ensures |inner| < 256 && !Contains(inner, ":-") ==>
              v == (if inner in env then env[inner] else "")
  {
    if |inner| >= 256 then ""
    else match Find(inner, ":-")
      case Some(k) =>
        var name := inner[..k];
        if name in env then env[name] else inner[k + 2..]
      case None =>
        if inner in env then env[inner] else ""
  }

  function CExpandPieces(ps: seq<Piece>, env: map<string, string>): string {
    if |ps| == 0 then ""
    else
      (match ps[0]
       case Lit(c) => [c]
       case Placeholder(inner) => CValue(inner, env))
      + CExpandPieces(ps[1..], env)
  }

  /** `expandvars(input)` of the C tools, buffer size aside. */
  function CExpand(s: string, env: map<string, string>): (r: string)
    ensures !Contains(s, "${") ==> r == s
  {
    PlainScanExpands(s, env);
    CExpandPieces(Scan(s), env)
  }

  lemma PlainScanExpands(s: string, env: map<string, string>)
    ensures !Contains(s, "${") ==> CExpandPieces(Scan(s), env) == s
  {
    if !Contains(s, "${") {
      ScanLiteral(s);
      CExpandLiterals(s, env, Scan(s));
    }
  }

  lemma {:induction false} CExpandLiterals(s: string, env: map<string, string>, ps: seq<Piece>)
    requires |ps| == |s| && forall i :: 0 <= i < |ps| ==> ps[i] == Lit(s[i])
    ensures CExpandPieces(ps, env) == s
    decreases |s|
  {
    if |s| > 0 {
      CExpandLiterals(s[1..], env, ps[1..]);
      assert s == [s[0]] + s[1..];
    }
  }

  /** `${N:-D}`: the split is at the first ":-"; a set variable wins even when
      its value is empty, otherwise the default. */
  lemma CDefaultForm(name: string, default: string, env: map<string, string>)
    requires !Contains(name, ":-") && '}' !in name && '}' !in default
    requires |name| + 2 + |default| < 256
    ensures CExpand("${" + name + ":-" + default + "}", env)
            == (if name in env then env[name] else default)
  {
    var inner := name + ":-" + default;
    assert "${" + name + ":-" + default + "}" == "${" + inner + "}";
    PlaceholderAlone(inner);
    FirstSeparator(name, default);
    assert CExpandPieces([Placeholder(inner)], env) == CValue(inner, env) + CExpandPieces([], env);
  }

  /** A placeholder on its own scans to itself. */
  lemma PlaceholderAlone(inner: string)
    requires inner != "" && '}' !in inner
    ensures Scan("${" + inner + "}") == [Placeholder(inner)]
  {
    var s := "${" + inner + "}";
    assert s[2..] == inner + "}";
    IndexOfFirst(s[2..], '}', |inner|);
    assert s[2..][..|inner|] == inner;
    assert MatchEnd(s) == Some(|inner| + 2);
    assert s[2..|inner| + 2] == inner;
    assert s[|inner| + 3..] == "";
  }

  /** `name + ":-" + default` splits back at the ":-" after `name` when
      `name` holds none. */
  lemma FirstSeparator(name: string, default: string)
    requires !Contains(name, ":-")
    ensures Find(name + ":-" + default, ":-") == Some(|name|)
    ensures (name + ":-" + default)[..|name|] == name
    ensures (name + ":-" + default)[|name| + 2..] == default
  {
    var s := name + ":-" + default;
    assert s[|name|..|name| + 2] == ":-";
    assert OccursAt(s, ":-", |name|);
    forall j: nat | j < |name|
      ensures !OccursAt(s, ":-", j)
    {
      NoEarlierSeparator(name, default, j);
    }
    var r := Find(s, ":-");
    assert r.Some? && r.value <= |name|;
    assert !(r.value < |name|);
  }

  lemma NoEarlierSeparator(name: string, default: string, j: nat)
    requires !Contains(name, ":-") && j < |name|
    ensures !OccursAt(name + ":-" + default, ":-", j)
  {
    var s := name + ":-" + default;
    if j + 2 <= |name| {
      assert s[j..j + 2] == name[j..j + 2];
      if OccursAt(s, ":-", j) {
        OccursContains(name, ":-", j);
      }
    } else {
      assert s[j + 1] == ':';
      assert s[j..j + 2][1] == s[j + 1];
    }
  }

  /** A placeholder at the front scans on its own, whatever follows it. */
  lemma PlaceholderThen(inner: string, rest: string)
    requires inner != "" && '}' !in inner
    ensures Scan("${" + inner + "}" + rest) == [Placeholder(inner)] + Scan(rest)
  {
    var s := "${" + inner + "}" + rest;
    assert s[2..] == inner + "}" + rest;
    IndexOfFirst(s[2..], '}', |inner|);
    assert s[2..][..|inner|] == inner;
    assert MatchEnd(s) == Some(|inner| + 2);
    assert s[2..|inner| + 2] == inner;
    assert s[|inner| + 3..] == rest;
  }

  /** A path template `${N:-D}` followed by plain text: the variable's value
      (or the default) and then the text unchanged. This is how the C tools
      build their default cache and pid paths; a "~" in the default is never
      expanded. */
  lemma CDefaultThen(name: string, default: string, rest: string, env: map<string, string>)
    requires !Contains(name, ":-") && '}' !in name && '}' !in default
    requires |name| + 2 + |default| < 256
    requires !Contains(rest, "${")
    ensures CExpand("${" + name + ":-" + default + "}" + rest, env)
            == (if name in env then env[name] else default) + rest
  {
    var inner := name + ":-" + default;
    assert "${" + name + ":-" + default + "}" + rest == "${" + inner + "}" + rest;
    PlaceholderThen(inner, rest);
    FirstSeparator(name, default);
    assert CExpandPieces([Placeholder(inner)] + Scan(rest), env)
           == CValue(inner, env) + CExpandPieces(Scan(rest), env);
    ScanLiteral(rest);
    CExpandLiterals(rest, env, Scan(rest));
  }

  /** `CDefaultThen` with its conditions checked character by character,
      the cheap form for literal templates. */
  lemma CPathTemplate(name: string, default: string, rest: string, env: map<string, string>)
    requires ':' !in name && '}' !in name && '}' !in default && '$' !in rest
    requires |name| + 2 + |default| < 256
    ensures CExpand("${" + name + ":-" + default + "}" + rest, env)
            == (if name in env then env[name] else default) + rest
  {
    MissingChar(name, ":-", ':');
    MissingChar(rest, "${", '$');
    CDefaultThen(name, default, rest, env);
  }

  /** `${N}` with `N` unset vanishes in C. */
  lemma CUnsetVanishes(name: string, env: map<string, string>)
    requires name != "" && '}' !in name && !Contains(name, ":-") && |name| < 256
    requires name !in env
    ensures CExpand("${" + name + "}", env) == ""
  {
    PlaceholderAlone(name);
    assert CExpandPieces([Placeholder(name)], env) == CValue(name, env) + CExpandPieces([], env);
  }

  /** An inner text of 256 bytes or more does not fit `var_expr[256]` and the
      whole placeholder is deleted. */
  lemma CLongPlaceholderDeleted(inner: string, env: map<string, string>)
    requires inner != "" && '}' !in inner && |inner| >= 256
    ensures CExpand("${" + inner + "}", env) == ""
  {
    PlaceholderAlone(inner);
    assert CExpandPieces([Placeholder(inner)], env) == CValue(inner, env) + CExpandPieces([], env);
  }

  /** Unlike section 2.6.2 of POSIX.1-2017, where `${N:-D}` also substitutes
      the default for a set but empty `N`, the C code keeps the empty value. */
  lemma CEmptyValueKept()
    ensures CExpand("${N:-d}", map["N" := ""]) == ""
  {
    CDefaultForm("N", "d", map["N" := ""]);
    assert "${" + "N" + ":-" + "d" + "}" == "${N:-d}";
  }

  // ---------------------------------------------------------------------
  // The Python copies

  /** What `replace_var` returns for one match: an unset `${N}` stays literal. */
  function PyValue(inner: string, env: map<string, string>): (v: string)
    ensures !Contains(inner, ":-") ==>
              v == (if inner in env then env[inner] else "${" + inner + "}")
  {
    match Find(inner, ":-")
    case Some(k) =>
      var name := inner[..k];
      if name in env then env[name] else inner[k + 2..]
    case None =>
      if inner in env then env[inner] else "${" + inner + "}"
  }

  function PyFirstPassPieces(ps: seq<Piece>, env: map<string, string>): string {
    if |ps| == 0 then ""
    else
      (match ps[0]
       case Lit(c) => [c]
       case Placeholder(inner) => PyValue(inner, env))
      + PyFirstPassPieces(ps[1..], env)
  }

  /** The `re.sub` pass of `_expandvars`: text without a `${` comes through
      unchanged. */
  function PyFirstPass(s: string, env: map<string, string>): (r: string)
    ensures !Contains(s, "${") ==> r == s
  {
    if !Contains(s, "${") then
      ScanLiteral(s);
      PyFirstPassLiterals(s, env, Scan(s));
      PyFirstPassPieces(Scan(s), env)
    else PyFirstPassPieces(Scan(s), env)
  }

  /** A leading placeholder is replaced by `replace_var`'s value for it and the
      rest of the text is handled on its own. */
  lemma PyFirstPassThen(inner: string, rest: string, env: map<string, string>)
    requires inner != "" && '}' !in inner
    ensures PyFirstPass("${" + inner + "}" + rest, env) == PyValue(inner, env) + PyFirstPass(rest, env)
  {
    PlaceholderThen(inner, rest);
    var ps := [Placeholder(inner)] + Scan(rest);
    assert ps[1..] == Scan(rest);
  }

  /** With no variable set and no ":-" default anywhere, the `re.sub` pass
      changes nothing: every placeholder is put back as it was. */
  lemma {:induction false} PyFirstPassKeepsUnset(ps: seq<Piece>)
    requires forall i :: 0 <= i < |ps| ==> ps[i].Placeholder? ==> !Contains(ps[i].inner, ":-")
    ensures PyFirstPassPieces(ps, map[]) == Render(ps)
  {
    if |ps| > 0 {
      PyFirstPassKeepsUnset(ps[1..]);
    }
  }

  /** The same text comes back from the `re.sub` pass when nothing is set. */
  lemma PyFirstPassUnsetIdentity(s: string)
    requires forall i :: 0 <= i < |Scan(s)| ==> Scan(s)[i].Placeholder? ==> !Contains(Scan(s)[i].inner, ":-")
    ensures PyFirstPass(s, map[]) == s
  {
    PyFirstPassKeepsUnset(Scan(s));
    RenderScan(s);
  }

  /** `${N:-D}` in the Python copies: the environment value when `N` is set,
      even to "", otherwise `D`. */
  lemma PyDefaultForm(name: string, default: string, env: map<string, string>)
    requires !Contains(name, ":-") && '}' !in name && '}' !in default
    ensures PyFirstPass("${" + name + ":-" + default + "}", env)
            == (if name in env then env[name] else default)
  {
    var inner := name + ":-" + default;
    assert "${" + name + ":-" + default + "}" == "${" + inner + "}";
    PlaceholderAlone(inner);
    FirstSeparator(name, default);
    assert PyFirstPassPieces([Placeholder(inner)], env) == PyValue(inner, env) + PyFirstPassPieces([], env);
  }

  /** `${N}` with `N` unset is left as the literal text. */
  lemma PyUnsetKeptLiteral(name: string, env: map<string, string>)
    requires name != "" && '}' !in name && !Contains(name, ":-")
    requires name !in env
    ensures PyFirstPass("${" + name + "}", env) == "${" + name + "}"
  {
    PlaceholderAlone(name);
    assert PyFirstPassPieces([Placeholder(name)], env) == PyValue(name, env) + PyFirstPassPieces([], env);
  }

  /** ASCII `\w`: the characters `re.ASCII` counts as word characters. */
  predicate IsWordChar(c: char) {
    ('a' <= c <= 'z') || ('A' <= c <= 'Z') || ('0' <= c <= '9') || c == '_'
  }

  /** Length of the run of word characters at the start of `s`. */
  function WordRun(s: string): (n: nat)
    ensures n <= |s|
    ensures forall i :: 0 <= i < n ==> IsWordChar(s[i])
    ensures n < |s| ==> !IsWordChar(s[n])
  {
    if |s| > 0 && IsWordChar(s[0]) then 1 + WordRun(s[1..]) else 0
  }

  /** A match of `\$(\w+|\{[^}]*\})` at `s[0]`: its length and the variable
      name with the braces stripped. */
  function DollarMatch(s: string): (r: Option<(nat, string)>)
    ensures r.Some? ==> 2 <= r.value.0 <= |s| && s[0] == '$'
  {
    if |s| >= 2 && s[0] == '$' then
      if IsWordChar(s[1]) then
        var n := WordRun(s[1..]);
        Some((n + 1, s[1..n + 1]))
      else if s[1] == '{' then
        match IndexOf(s[2..], '}')
        case Some(k) => Some((k + 3, s[2..k + 2]))
        case None => None
      else None
    else None
  }

  /** `posixpath.expandvars`: known names are replaced, unknown ones kept, and
      the inserted values are not scanned again. */
  function PosixExpand(s: string, env: map<string, string>): (r: string)
    ensures '$' !in s ==> r == s
    decreases |s|
  {
    if |s| == 0 then ""
    else match DollarMatch(s)
      case Some((n, name)) =>
        (if name in env then env[name] else s[..n]) + PosixExpand(s[n..], env)
      case None =>
        assert s == [s[0]] + s[1..];
        [s[0]] + PosixExpand(s[1..], env)
  }

  /** `$NAME` followed by a non-word character: the value when `NAME` is
      set, else the text is kept; the rest is expanded on its own. */
  lemma PosixExpandName(name: string, rest: string, env: map<string, string>)
    requires name != "" && forall i :: 0 <= i < |name| ==> IsWordChar(name[i])
    requires rest == "" || !IsWordChar(rest[0])
    ensures PosixExpand("$" + name + rest, env)
            == (if name in env then env[name] else "$" + name) + PosixExpand(rest, env)
  {
    var s := "$" + name + rest;
    var t := s[1..];
    assert t == name + rest;
    WordRunOf(name, rest);
    var n := WordRun(t);
    assert IsWordChar(s[1]);
    assert DollarMatch(s) == Some((n + 1, name));
    assert s[..n + 1] == "$" + name;
    assert s[n + 1..] == rest;
  }

  /** The word run of a name stops where the name does. */
  lemma {:induction false} WordRunOf(name: string, rest: string)
    requires forall i :: 0 <= i < |name| ==> IsWordChar(name[i])
    requires rest == "" || !IsWordChar(rest[0])
    ensures WordRun(name + rest) == |name|
    decreases |name|
  {
    if |name| > 0 {
      WordRunOf(name[1..], rest);
      assert (name + rest)[1..] == name[1..] + rest;
    } else {
      assert name + rest == rest;
    }
  }

  /** `${NAME}` in the second pass: the value when `NAME` is set, else the
      text is kept; the rest is expanded on its own. */
  lemma PosixExpandBraced(name: string, rest: string, env: map<string, string>)
    requires '}' !in name
    ensures PosixExpand("${" + name + "}" + rest, env)
            == (if name in env then env[name] else "${" + name + "}") + PosixExpand(rest, env)
  {
    var s := "${" + name + "}" + rest;
    var t := s[2..];
    assert t == name + "}" + rest;
    assert t[..|name|] == name;
    IndexOfFirst(t, '}', |name|);
    assert s[0] == '$' && s[1] == '{' && !IsWordChar(s[1]);
    assert s[2..|name| + 2] == name;
    assert DollarMatch(s) == Some((|name| + 3, name));
    assert s[..|name| + 3] == "${" + name + "}";
    assert s[|name| + 3..] == rest;
  }

  /** With an empty environment the second pass is the identity. */
  lemma {:induction false} PosixExpandEmptyEnv(s: string)
    ensures PosixExpand(s, map[]) == s
    decreases |s|
  {
    if |s| > 0 {
      match DollarMatch(s)
      case Some((n, name)) =>
        PosixExpandEmptyEnv(s[n..]);
        assert s == s[..n] + s[n..];
      case None =>
        PosixExpandEmptyEnv(s[1..]);
        assert s == [s[0]] + s[1..];
    }
  }

  /** `_expandvars` of `core/orchestrator.py`, `reference/core/orchestrator.py`
      and `old/reference/index.py`: the `re.sub` pass, then `os.path.expandvars`. */
  function PyExpand(s: string, env: map<string, string>): (r: string)
    ensures !Contains(s, "${") ==> r == PosixExpand(s, env)
    ensures !Contains(s, "${") && '$' !in s ==> r == s
  {
    PosixExpand(PyFirstPass(s, env), env)
  }

  /** A leading placeholder becomes `replace_var`'s value, and that value is
      then scanned again for `$NAME` together with the rest. */
  lemma PyExpandPlaceholder(inner: string, rest: string, env: map<string, string>)
    requires inner != "" && '}' !in inner && !Contains(rest, "${")
    ensures PyExpand("${" + inner + "}" + rest, env) == PosixExpand(PyValue(inner, env) + rest, env)
  {
    PyFirstPassThen(inner, rest, env);
  }

  /** `${N}` with `N` set becomes its value; with `N` unset the first pass
      keeps the text and the second pass looks `N` up once more. */
  lemma PyExpandSetOrKept(name: string, env: map<string, string>)
    requires name != "" && '}' !in name && !Contains(name, ":-")
    ensures name in env ==> PyExpand("${" + name + "}", env) == PosixExpand(env[name], env)
    ensures name !in env ==> PyExpand("${" + name + "}", env) == "${" + name + "}"
  {
    PyExpandPlaceholder(name, "", env);
    assert "${" + name + "}" + "" == "${" + name + "}";
    assert PyValue(name, env) + "" == PyValue(name, env);
    if name !in env {
      PosixExpandBraced(name, "", env);
      assert "${" + name + "}" + "" == "${" + name + "}";
    }
  }

  lemma {:induction false} PyFirstPassLiterals(s: string, env: map<string, string>, ps: seq<Piece>)
    requires |ps| == |s| && forall i :: 0 <= i < |ps| ==> ps[i] == Lit(s[i])
    ensures PyFirstPassPieces(ps, env) == s
    decreases |s|
  {
    if |s| > 0 {
      PyFirstPassLiterals(s[1..], env, ps[1..]);
      assert s == [s[0]] + s[1..];
    }
  }

  /** The second pass also expands a `$NAME` that the first pass produced. */
  lemma PyRescansFirstPassOutput()
    ensures PyExpand("${A}", map["A" := "$B", "B" := "x"]) == "x"
  {
    var env := map["A" := "$B", "B" := "x"];
    PlaceholderAlone("A");
    assert "${" + "A" + "}" == "${A}";
    assert !Contains("A", ":-");
    assert PyFirstPass("${A}", env) == "$B";
    assert WordRun("B") == 1;
    assert DollarMatch("$B") == Some((2, "B"));
  }

  /** The C copies substitute once: the same input keeps the `$B`. */
  lemma CDoesNotRescan()
    ensures CExpand("${A}", map["A" := "$B", "B" := "x"]) == "$B"
  {
    PlaceholderAlone("A");
    assert "${" + "A" + "}" == "${A}";
    assert !Contains("A", ":-");
  }
}

=== FILE: file_changes_watcher.dfy ===
/** file-changes-watcher/file-changes-watcher.c: a table of changed files
    keyed by "<repository>/<path>", filled from the dirty-files report and
    pruned to what that report still lists, plus the per-repository list of
    tracked files. The reports arrive as parsed JSON trees; stamps are whole
    seconds. */
module FileChangesWatcher {
  import opened Wrappers
  import opened Text
  import opened PyDict
  import opened Json
  import opened JsonPath

  /** `file_change_t`. */
  datatype Change = Change(path: string, repository: string, firstDetected: int, lastUpdated: int)

  function PathSet(t: seq<Change>): set<string> {
    set c | c in t :: c.path
  }

  /** No path is tracked twice. */
  predicate UniquePaths(t: seq<Change>) {
    forall i, j :: 0 <= i < j < |t| ==> t[i].path != t[j].path
  }

  /** The table key `snprintf("%s/%s", repository, path)`. */
  function FullPath(repository: string, path: string): string {
    repository + "/" + path
  }

  /** The first entry with the given path. */
  function FindPath(t: seq<Change>, key: string): (r: Option<nat>)
    ensures r.Some? ==> r.value < |t| && t[r.value].path == key
                        && forall j :: 0 <= j < r.value ==> t[j].path != key
    ensures r.None? <==> key !in PathSet(t)
  {
    if |t| == 0 then None
    else if t[0].path == key then Some(0)
    else
      match FindPath(t[1..], key)
      case None =>
        assert forall c :: c in t ==> c == t[0] || c in t[1..];
        None
      case Some(k) =>
        assert t[1..][k] in t;
        Some(k + 1)
  }

  /** `add_file_change`: an entry already keyed by "<repository>/<path>"
      only has its last update moved to now; otherwise a new entry is
      appended, first detected and last updated now. */
  function AddFileChange(t: seq<Change>, path: string, repository: string, now: int): (r: seq<Change>)
    ensures FullPath(repository, path) in PathSet(t) ==>
              |r| == |t|
              && forall i :: 0 <= i < |t| ==>
                   r[i] == t[i] || (t[i].path == FullPath(repository, path) && r[i] == t[i].(lastUpdated := now))
    ensures FullPath(repository, path) !in PathSet(t) ==>
              r == t + [Change(FullPath(repository, path), repository, now, now)]
    ensures PathSet(r) == PathSet(t) + {FullPath(repository, path)}
    ensures exists i :: 0 <= i < |r| && r[i].path == FullPath(repository, path) && r[i].lastUpdated == now
  {
    var key := FullPath(repository, path);
    match FindPath(t, key)
    case Some(i) =>
      var r := t[i := t[i].(lastUpdated := now)];
      assert PathSet(r) == PathSet(t) by {
        forall p | p in PathSet(t) ensures p in PathSet(r) {
          var c :| c in t && c.path == p;
          var j :| 0 <= j < |t| && t[j] == c;
          assert r[j].path == p;
        }
        forall p | p in PathSet(r) ensures p in PathSet(t) {
          var c :| c in r && c.path == p;
          var j :| 0 <= j < |r| && r[j] == c;
          assert t[j].path == p;
        }
      }
      r
    case None =>
      var r := t + [Change(key, repository, now, now)];
      assert PathSet(r) == PathSet(t) + {key} by {
        assert r[|t|].path == key;
        forall p | p in PathSet(r) ensures p in PathSet(t) + {key} {
          var c :| c in r && c.path == p;
          var j :| 0 <= j < |r| && r[j] == c;
          if j < |t| {
            assert t[j].path == p;
          }
        }
      }
      assert r[|t|].path == key;
      r
  }

  /** Adding a change never makes a path repeat. */
  lemma AddKeepsPathsUnique(t: seq<Change>, path: string, repository: string, now: int)
    requires UniquePaths(t)
    ensures UniquePaths(AddFileChange(t, path, repository, now))
  {
    var key := FullPath(repository, path);
    var r := AddFileChange(t, path, repository, now);
    if key !in PathSet(t) {
      forall i | 0 <= i < |t| ensures r[i].path != r[|t|].path {
        assert t[i] in t;
      }
    }
  }

  /** Each (repository name, file) pair in turn through `add_file_change`. */
  function AddAll(t: seq<Change>, pairs: seq<(string, string)>, now: int): (r: seq<Change>)
    ensures |r| >= |t|
    ensures forall i :: 0 <= i < |t| ==>
              r[i].path == t[i].path && r[i].repository == t[i].repository
              && r[i].firstDetected == t[i].firstDetected
    ensures PathSet(r) == PathSet(t) + PairPathSet(pairs)
    decreases |pairs|
  {
    if |pairs| == 0 then t
    else
      var t' := AddFileChange(t, pairs[0].1, pairs[0].0, now);
      PairPathSetCons(pairs);
      AddAll(t', pairs[1..], now)
  }

  /** The keys the pairs make, in order. */
  function PairPaths(pairs: seq<(string, string)>): (r: seq<string>)
    ensures |r| == |pairs| && forall i :: 0 <= i < |pairs| ==> r[i] == FullPath(pairs[i].0, pairs[i].1)
  {
    if |pairs| == 0 then [] else [FullPath(pairs[0].0, pairs[0].1)] + PairPaths(pairs[1..])
  }

  function PairPathSet(pairs: seq<(string, string)>): set<string> {
    set p | p in pairs :: FullPath(p.0, p.1)
  }

  lemma PairPathSetCons(pairs: seq<(string, string)>)
    requires |pairs| > 0
    ensures PairPathSet(pairs) == {FullPath(pairs[0].0, pairs[0].1)} + PairPathSet(pairs[1..])
  {
    assert forall p :: p in pairs <==> p == pairs[0] || p in pairs[1..] by {
      assert pairs == [pairs[0]] + pairs[1..];
    }
  }

  /** With distinct paths, every entry `AddAll` leaves keyed by one of the
      pairs was stamped now, and the rest are untouched. */
  lemma {:induction false} AddAllRefreshes(t: seq<Change>, pairs: seq<(string, string)>, now: int)
    requires UniquePaths(t)
    ensures UniquePaths(AddAll(t, pairs, now))
    ensures forall c :: c in AddAll(t, pairs, now) && c.path in PairPathSet(pairs) ==> c.lastUpdated == now
    ensures forall i :: 0 <= i < |t| && t[i].path !in PairPathSet(pairs) ==> AddAll(t, pairs, now)[i] == t[i]
    decreases |pairs|
  {
    if |pairs| > 0 {
      var key := FullPath(pairs[0].0, pairs[0].1);
      var t' := AddFileChange(t, pairs[0].1, pairs[0].0, now);
      AddKeepsPathsUnique(t, pairs[0].1, pairs[0].0, now);
      AddAllRefreshes(t', pairs[1..], now);
      PairPathSetCons(pairs);
      var r := AddAll(t', pairs[1..], now);
      assert r == AddAll(t, pairs, now);
      forall c | c in r && c.path in PairPathSet(pairs)
        ensures c.lastUpdated == now
      {
        if c.path !in PairPathSet(pairs[1..]) {
          assert c.path == key;
          var j :| 0 <= j < |r| && r[j] == c;
          var i :| 0 <= i < |t'| && t'[i].path == key && t'[i].lastUpdated == now;
          assert r[i] == t'[i];
          assert i == j;
        }
      }
      forall i | 0 <= i < |t| && t[i].path !in PairPathSet(pairs)
        ensures r[i] == t[i]
      {
        assert t'[i] == t[i];
      }
    }
  }

  /** The entries whose path is still listed, in their order. */
  function Keep(t: seq<Change>, current: seq<string>): (r: seq<Change>)
    ensures forall c :: c in r <==> c in t && c.path in current
    ensures |r| <= |t|
  {
    if |t| == 0 then []
    else
      var rest := Keep(t[1..], current);
      assert forall c :: c in t <==> c == t[0] || c in t[1..] by {
        assert t == [t[0]] + t[1..];
      }
      if t[0].path in current then [t[0]] + rest else rest
  }

  /** Keeping works piece by piece, so survivors keep their relative
      order. */
  lemma {:induction false} KeepAppend(a: seq<Change>, b: seq<Change>, current: seq<string>)
    ensures Keep(a + b, current) == Keep(a, current) + Keep(b, current)
  {
    if |a| == 0 {
      assert a + b == b;
    } else {
      assert (a + b)[0] == a[0] && (a + b)[1..] == a[1..] + b;
      KeepAppend(a[1..], b, current);
    }
  }

  lemma {:induction false} KeepUnique(t: seq<Change>, current: seq<string>)
    requires UniquePaths(t)
    ensures UniquePaths(Keep(t, current))
  {
    if |t| > 0 {
      KeepUnique(t[1..], current);
      var rest := Keep(t[1..], current);
      forall i | 0 <= i < |rest| ensures rest[i].path != t[0].path {
        var j :| 0 <= j < |t[1..]| && t[1..][j] == rest[i];
        assert t[j + 1] == rest[i];
      }
    }
  }

  function WithName(name: string, files: seq<string>): (r: seq<(string, string)>)
    ensures |r| == |files| && forall i :: 0 <= i < |files| ==> r[i] == (name, files[i])
  {
    if |files| == 0 then [] else [(name, files[0])] + WithName(name, files[1..])
  }

  /** The (name, file) pairs one repository entry contributes: it must be
      an object with a string "name" and an array "dirty_files", whose string
      items are the files. */
  function RepoPairs(repo: Value): (r: seq<(string, string)>)
    ensures forall p :: p in r ==> Member(repo, "name") == Some(JString(p.0))
  {
    if !repo.JObject? then []
    else
      match (Member(repo, "name"), Member(repo, "dirty_files"))
      case (Some(JString(name)), Some(JArray(files))) => WithName(name, StringItems(files))
      case _ => []
  }

  function ReposPairs(repos: seq<Value>): seq<(string, string)> {
    if |repos| == 0 then [] else RepoPairs(repos[0]) + ReposPairs(repos[1..])
  }

  /** All pairs of the report's "repositories" array, or none when it has
      no such array. */
  function DirtyPairs(report: Value): seq<(string, string)> {
    match Member(report, "repositories")
    case Some(JArray(repos)) => ReposPairs(repos)
    case _ => []
  }

  /** The "<name>/<file>" paths the report lists. */
  function DirtyPaths(report: Value): (r: seq<string>)
    ensures forall p :: p in r <==> p in PairPathSet(DirtyPairs(report))
  {
    var pairs := DirtyPairs(report);
    var r := PairPaths(pairs);
    assert forall p :: p in r ==> p in PairPathSet(pairs) by {
      forall p | p in r ensures p in PairPathSet(pairs) {
        var i :| 0 <= i < |r| && r[i] == p;
        assert pairs[i] in pairs;
      }
    }
    assert forall p :: p in PairPathSet(pairs) ==> p in r by {
      forall p | p in PairPathSet(pairs) ensures p in r {
        var q :| q in pairs && FullPath(q.0, q.1) == p;
        var i :| 0 <= i < |pairs| && pairs[i] == q;
        assert r[i] == p;
      }
    }
    r
  }

  /** `remove_stale_changes`: without a report nothing happens; otherwise
      exactly the entries whose path the report lists stay, in order. A
      report that is not an object lists nothing, so it empties the
      table. */
  function RemoveStale(t: seq<Change>, report: Option<Value>): (r: seq<Change>)
    ensures report.None? ==> r == t
    ensures report.Some? ==> forall c :: c in r <==> c in t && c.path in DirtyPaths(report.value)
    ensures report.Some? && !report.value.JObject? ==> r == []
  {
    match report
    case None => t
    case Some(v) =>
      if !v.JObject? then
        assert DirtyPaths(v) == [];
        assert Keep(t, []) == [] by {
          if |Keep(t, [])| > 0 {
            assert Keep(t, [])[0] in Keep(t, []);
          }
        }
        Keep(t, DirtyPaths(v))
      else Keep(t, DirtyPaths(v))
  }

  /** `process_dirty_files_report` after the first-run load: a report that
      is not an object changes nothing; otherwise every listed file is
      added or refreshed and every unlisted one dropped. */
  function ProcessReport(t: seq<Change>, report: Option<Value>, now: int): (r: seq<Change>)
    ensures report.None? || !report.value.JObject? ==> r == t
    ensures report.Some? && report.value.JObject? ==>
              forall c :: c in r ==> c.path in DirtyPaths(report.value)
  {
    if report.None? || !report.value.JObject? then t
    else RemoveStale(AddAll(t, DirtyPairs(report.value), now), report)
  }

  /** After a report, the tracked paths are exactly the report's, an entry
      that stays keeps the stamp of its first detection, and with distinct
      paths to start from every entry is distinct and stamped now. */
  lemma ProcessTracksDirty(t: seq<Change>, report: Value, now: int)
    requires report.JObject?
    ensures PathSet(ProcessReport(t, Some(report), now)) == set p | p in DirtyPaths(report)
    ensures forall i :: 0 <= i < |t| && t[i].path in DirtyPaths(report) ==>
              exists c :: c in ProcessReport(t, Some(report), now) && c.path == t[i].path
                          && c.firstDetected == t[i].firstDetected && c.repository == t[i].repository
    ensures UniquePaths(t) ==>
              UniquePaths(ProcessReport(t, Some(report), now))
              && forall c :: c in ProcessReport(t, Some(report), now) ==> c.lastUpdated == now
  {
    var pairs := DirtyPairs(report);
    var a := AddAll(t, pairs, now);
    var d := DirtyPaths(report);
    var r := ProcessReport(t, Some(report), now);
    assert r == Keep(a, d);
    forall p | p in d ensures p in PathSet(r) {
      assert p in PathSet(a);
      var c :| c in a && c.path == p;
      assert c in r;
    }
    forall i | 0 <= i < |t| && t[i].path in d
      ensures exists c :: c in r && c.path == t[i].path
                          && c.firstDetected == t[i].firstDetected && c.repository == t[i].repository
    {
      assert a[i] in a;
      assert a[i] in r;
    }
    if UniquePaths(t) {
      AddAllRefreshes(t, pairs, now);
      KeepUnique(a, d);
    }
  }

  /** A field of an object read with `get_nested_value`, when it is a
      string. */
  function StringField(item: Value, key: string): Option<string> {
    match Member(item, key)
    case Some(JString(s)) => Some(s)
    case _ => None
  }

  /** The lexeme of a numeric field. */
  function NumberField(item: Value, key: string): Option<string> {
    match Member(item, key)
    case Some(JNumber(n)) => Some(n)
    case _ => None
  }

  /** One entry of the saved report's "files" array, when it has string
      "path" and "repository" and numeric stamps; `toTime` is the
      `(time_t)` conversion of a number. */
  function LoadEntry(item: Value, toTime: string -> int): (r: Option<Change>)
    ensures r.Some? <==> item.JObject? && StringField(item, "path").Some? && StringField(item, "repository").Some?
                         && NumberField(item, "first_detected").Some? && NumberField(item, "last_updated").Some?
    ensures r.Some? ==> r.value.path == StringField(item, "path").value
                        && r.value.repository == StringField(item, "repository").value
                        && r.value.firstDetected == toTime(NumberField(item, "first_detected").value)
                        && r.value.lastUpdated == toTime(NumberField(item, "last_updated").value)
  {
    if !item.JObject? then None
    else
      var p :- StringField(item, "path");
      var repo :- StringField(item, "repository");
      var first :- NumberField(item, "first_detected");
      var last :- NumberField(item, "last_updated");
      Some(Change(p, repo, toTime(first), toTime(last)))
  }

  /** The well-formed entries of the array, in array order. */
  function LoadEntries(items: seq<Value>, toTime: string -> int): (r: seq<Change>)
    ensures |r| <= |items|
    ensures forall c :: c in r ==> exists v :: v in items && LoadEntry(v, toTime) == Some(c)
    ensures forall v :: v in items && LoadEntry(v, toTime).Some? ==> LoadEntry(v, toTime).value in r
  {
    if |items| == 0 then []
    else
      var rest := LoadEntries(items[1..], toTime);
      assert forall v :: v in items <==> v == items[0] || v in items[1..];
      match LoadEntry(items[0], toTime)
      case None => rest
      case Some(c) => [c] + rest
  }

  /** When every item is well formed, entry i is item i loaded. */
  lemma {:induction false} LoadEntriesAll(items: seq<Value>, toTime: string -> int)
    requires forall i :: 0 <= i < |items| ==> LoadEntry(items[i], toTime).Some?
    ensures |LoadEntries(items, toTime)| == |items|
    ensures forall i :: 0 <= i < |items| ==> LoadEntries(items, toTime)[i] == LoadEntry(items[i], toTime).value
  {
    if |items| > 0 {
      assert forall i :: 0 <= i < |items[1..]| ==> items[1..][i] == items[i + 1];
      LoadEntriesAll(items[1..], toTime);
      var r := LoadEntries(items, toTime);
      var rest := LoadEntries(items[1..], toTime);
      assert r == [LoadEntry(items[0], toTime).value] + rest;
      forall i | 0 <= i < |items|
        ensures r[i] == LoadEntry(items[i], toTime).value
      {
        if i > 0 { assert r[i] == rest[i - 1]; }
      }
    }
  }

  /** Loading a split array loads each part in turn: entries keep their
      relative order and a malformed entry only drops itself. */
  lemma {:induction false} LoadEntriesAppend(a: seq<Value>, b: seq<Value>, toTime: string -> int)
    ensures LoadEntries(a + b, toTime) == LoadEntries(a, toTime) + LoadEntries(b, toTime)
  {
    if |a| == 0 {
      assert a + b == b;
    } else {
      assert (a + b)[0] == a[0] && (a + b)[1..] == a[1..] + b;
      LoadEntriesAppend(a[1..], b, toTime);
    }
  }

  /** `load_existing_changes`: -1 and nothing added unless the saved report
      is an object with a "files" array; otherwise 0, with its well-formed
      entries appended in order and the malformed ones skipped. */
  function LoadExisting(t: seq<Change>, saved: Option<Value>, toTime: string -> int): (r: (int, seq<Change>))
    ensures r.0 == -1 || r.0 == 0
    ensures r.0 == -1 ==> r.1 == t
    ensures r.0 == 0 <==> saved.Some? && Member(saved.value, "files").Some? && Member(saved.value, "files").value.JArray?
    ensures r.0 == 0 ==> r.1 == t + LoadEntries(Member(saved.value, "files").value.items, toTime)
  {
    if saved.None? then (-1, t)
    else
      match Member(saved.value, "files")
      case Some(JArray(items)) => (0, t + LoadEntries(items, toTime))
      case _ => (-1, t)
  }

  /** `json_create_number((double)x)` of a stamp, as "%.17g" writes it
      (whole numbers below 2^53 print in full). */
  function Stamp(x: int): Value {
    JNumber(IntToString(x))
  }

  function FileObject(c: Change): Value {
    JObject([("path", JString(c.path)), ("repository", JString(c.repository)),
             ("first_detected", Stamp(c.firstDetected)), ("last_updated", Stamp(c.lastUpdated))])
  }

  function FileObjects(t: seq<Change>): (r: seq<Value>)
    ensures |r| == |t| && forall i :: 0 <= i < |t| ==> r[i] == FileObject(t[i])
  {
    if |t| == 0 then [] else [FileObject(t[0])] + FileObjects(t[1..])
  }

  /** The tree `save_file_changes` writes. */
  function SaveReport(t: seq<Change>, now: int): (r: Value)
    ensures r.JObject? && UniqueKeys(r.entries)
  {
    JObject([("report_type", JString("file_changes_tracking")),
             ("generated_by", JString("file-changes-watcher")),
             ("timestamp", Stamp(now)),
             ("files", JArray(FileObjects(t)))])
  }

  /** `toTime` reads back every stamp of the table. */
  predicate StampsReadBack(t: seq<Change>, toTime: string -> int) {
    forall i :: 0 <= i < |t| ==>
      toTime(IntToString(t[i].firstDetected)) == t[i].firstDetected
      && toTime(IntToString(t[i].lastUpdated)) == t[i].lastUpdated
  }

  /** A key names the first entry holding it. */
  lemma FieldAt(v: Value, i: nat, key: string)
    requires v.JObject? && i < |v.entries| && v.entries[i].0 == key
    requires forall j :: 0 <= j < i ==> v.entries[j].0 != key
    ensures Member(v, key) == Some(v.entries[i].1)
  {
    GetFirst(v.entries, i, key);
  }

  lemma LoadFileObject(c: Change, toTime: string -> int)
    requires toTime(IntToString(c.firstDetected)) == c.firstDetected
    requires toTime(IntToString(c.lastUpdated)) == c.lastUpdated
    ensures LoadEntry(FileObject(c), toTime) == Some(c)
  {
    FileObjectNames(c);
    FileObjectStamps(c);
  }

  lemma FileObjectNames(c: Change)
    ensures StringField(FileObject(c), "path") == Some(c.path)
    ensures StringField(FileObject(c), "repository") == Some(c.repository)
  {
    var v := FileObject(c);
    FieldAt(v, 0, "path");
    FieldAt(v, 1, "repository");
  }

  lemma FileObjectStamps(c: Change)
    ensures NumberField(FileObject(c), "first_detected") == Some(IntToString(c.firstDetected))
    ensures NumberField(FileObject(c), "last_updated") == Some(IntToString(c.lastUpdated))
  {
    var v := FileObject(c);
    FieldAt(v, 2, "first_detected");
    FieldAt(v, 3, "last_updated");
  }

  lemma {:induction false} LoadFileObjects(t: seq<Change>, toTime: string -> int)
    requires StampsReadBack(t, toTime)
    ensures LoadEntries(FileObjects(t), toTime) == t
  {
    if |t| > 0 {
      var vs := FileObjects(t);
      LoadFileObject(t[0], toTime);
      assert LoadEntry(vs[0], toTime) == Some(t[0]);
      assert vs[1..] == FileObjects(t[1..]);
      assert StampsReadBack(t[1..], toTime) by {
        forall i | 0 <= i < |t[1..]| ensures t[1..][i] == t[i + 1] { }
      }
      LoadFileObjects(t[1..], toTime);
      assert LoadEntries(vs, toTime) == [t[0]] + LoadEntries(vs[1..], toTime);
    }
  }

  /** What `save_file_changes` writes, `load_existing_changes` reads back
      entry for entry into an empty table. */
  lemma SaveLoadRoundTrip(t: seq<Change>, now: int, toTime: string -> int)
    requires StampsReadBack(t, toTime)
    ensures LoadExisting([], Some(SaveReport(t, now)), toTime) == (0, t)
  {
    var v := SaveReport(t, now);
    FieldAt(v, 3, "files");
    assert Member(v, "files") == Some(JArray(FileObjects(t)));
    LoadFileObjects(t, toTime);
    var empty: seq<Change> := [];
    assert LoadExisting(empty, Some(v), toTime) == (0, empty + LoadEntries(FileObjects(t), toTime));
    assert empty + t == t;
  }

  /** `main`'s one pass: an unreadable dirty report leaves the table empty
      and skips the load; otherwise the saved changes are loaded first and
      the report processed over them. */
  function Run(report: Option<Value>, saved: Option<Value>, toTime: string -> int, now: int): (r: seq<Change>)
    ensures report.None? || !report.value.JObject? ==> r == []
    ensures report.Some? && report.value.JObject? ==> PathSet(r) == set p | p in DirtyPaths(report.value)
  {
    if report.None? || !report.value.JObject? then []
    else
      var loaded := LoadExisting([], saved, toTime).1;
      ProcessTracksDirty(loaded, report.value, now);
      ProcessReport(loaded, report, now)
  }

  /** `repository_t`: its path, name, tracked files and watch descriptor. */
  datatype Repository = Repository(path: string, name: string, tracked: seq<string>, watchFd: int)

  /** `add_repository`: `stored` says whether the copies and the tracked
      list were allocated; only then does the new entry count. */
  function AddRepository(repos: seq<Repository>, path: Option<string>, name: Option<string>, stored: bool): (r: seq<Repository>)
    ensures |r| == |repos| + (if path.Some? && name.Some? && stored then 1 else 0)
    ensures r[..|repos|] == repos
    ensures |r| > |repos| ==>
              r[|repos|].path == path.value && r[|repos|].name == name.value
              && r[|repos|].tracked == [] && r[|repos|].watchFd == -1
  {
    if path.None? || name.None? || !stored then repos
    else repos + [Repository(path.value, name.value, [], -1)]
  }

  /** `is_file_tracked`: exact membership; a missing repository or path is
      never tracked. */
  function IsFileTracked(repo: Option<Repository>, file: Option<string>): (r: bool)
    ensures r ==> repo.Some? && file.Some?
  {
    match (repo, file)
    case (Some(rp), Some(f)) => f in rp.tracked
    case _ => false
  }

  /** `add_tracked_file`: appends, even a path already listed. */
  function AddTrackedFile(repo: Repository, file: Option<string>): (r: Repository)
    ensures r.path == repo.path && r.name == repo.name && r.watchFd == repo.watchFd
    ensures |r.tracked| == |repo.tracked| + (if file.Some? then 1 else 0)
    ensures r.tracked[..|repo.tracked|] == repo.tracked
  {
    match file
    case None => repo
    case Some(f) => repo.(tracked := repo.tracked + [f])
  }

  /** After adding a file, exactly it and the files tracked before are
      tracked. */
  lemma TrackedAfterAdd(repo: Repository, file: string, other: string)
    ensures IsFileTracked(Some(AddTrackedFile(repo, Some(file))), Some(other))
            <==> other == file || IsFileTracked(Some(repo), Some(other))
  {
    var r := AddTrackedFile(repo, Some(file));
    assert r.tracked == repo.tracked + [file];
  }
}

=== FILE: file_cluster.dfy ===
/** file_cluster.py: `FileClusterer` buckets the repository files by their
    immediate parent directory, sorts each bucket, and puts every cluster into
    a single unnamed group ordered by cluster size. Resolving a path and asking
    whether it is an existing regular file touch the filesystem; both are
    parameters (`resolve`, `isFile`), and `root` is the already resolved
    repository root. */
module FileClustering {
  import opened Wrappers
  import opened Text
  import opened Ordering
  import opened PyPath

  datatype FileCluster = FileCluster(path: string, files: seq<string>, count: nat, displayName: string)

  datatype ClusterGroup = ClusterGroup(parentPath: string, clusters: seq<FileCluster>, totalFiles: nat, displayName: string)

  /** The `FileCluster` constructor: `__post_init__` replaces whatever count
      was passed with the number of files. */
  function NewCluster(path: string, files: seq<string>, count: int, displayName: string): (c: FileCluster)
    ensures c.count == |c.files| && c.files == files
    ensures c.path == path && c.displayName == displayName
  {
    FileCluster(path, files, |files|, displayName)
  }

  function SumCounts(cs: seq<FileCluster>): nat {
    if |cs| == 0 then 0 else cs[0].count + SumCounts(cs[1..])
  }

  /** The `ClusterGroup` constructor: `__post_init__` recomputes the total. */
  function NewGroup(parentPath: string, clusters: seq<FileCluster>, totalFiles: int, displayName: string): (g: ClusterGroup)
    ensures g.totalFiles == SumCounts(g.clusters) && g.clusters == clusters
    ensures g.parentPath == parentPath && g.displayName == displayName
  {
    ClusterGroup(parentPath, clusters, SumCounts(clusters), displayName)
  }

  // ---------------------------------------------------------------------
  // Admission and bucketing

  /** The repository-relative path `cluster_files` keeps for `s`, or None when
      resolving fails, the target is not an existing file, or it lies outside
      the root. A relative `s` is taken relative to the root first. */
  function Admit(root: Path, resolve: Path -> Option<Path>, isFile: Path -> bool, s: string): (r: Option<Path>)
    ensures r.Some? ==> r.value.anchor == ""
    ensures r.Some? ==> exists q :: resolve(JoinPath(root, Parse(s))) == Some(q) && isFile(q)
                                    && RelativeTo(q, root) == r
  {
    var q := JoinPath(root, Parse(s));
    match resolve(q)
    case None => None
    case Some(full) => if isFile(full) then RelativeTo(full, root) else None
  }

  /** The admitted relative paths, in input order. */
  function Admitted(root: Path, resolve: Path -> Option<Path>, isFile: Path -> bool, paths: seq<string>): (r: seq<Path>)
    ensures |r| <= |paths|
  {
    if |paths| == 0 then []
    else
      (match Admit(root, resolve, isFile, paths[0]) case None => [] case Some(rel) => [rel])
      + Admitted(root, resolve, isFile, paths[1..])
  }

  /** One entry of `dir_to_files`, holding the relative paths (not yet printed). */
  datatype DirBucket = DirBucket(dir: Path, rels: seq<Path>)

  function Dirs(bs: seq<DirBucket>): (r: seq<Path>)
    ensures |r| == |bs| && forall i :: 0 <= i < |bs| ==> r[i] == bs[i].dir
  {
    if |bs| == 0 then [] else [bs[0].dir] + Dirs(bs[1..])
  }

  predicate Distinct(ds: seq<Path>) {
    forall i, j :: 0 <= i < j < |ds| ==> ds[i] != ds[j]
  }

  /** Every path sits in the bucket of its parent. */
  predicate Grouped(bs: seq<DirBucket>) {
    forall i, k :: 0 <= i < |bs| && 0 <= k < |bs[i].rels| ==> Parent(bs[i].rels[k]) == bs[i].dir
  }

  function AllRels(bs: seq<DirBucket>): seq<Path> {
    if |bs| == 0 then [] else bs[0].rels + AllRels(bs[1..])
  }

  /** `dir_to_files[parent].append(...)`: the bucket of the parent grows, or a
      new bucket is added last (dict insertion order). The root's files sit
      under `Path('')`, which pathlib treats as `Path('.')`. */
  function AddFile(bs: seq<DirBucket>, rel: Path): (r: seq<DirBucket>)
    ensures Parent(rel) in Dirs(bs) ==> Dirs(r) == Dirs(bs)
    ensures Parent(rel) !in Dirs(bs) ==> Dirs(r) == Dirs(bs) + [Parent(rel)]
  {
    if |bs| == 0 then [DirBucket(Parent(rel), [rel])]
    else if bs[0].dir == Parent(rel) then [DirBucket(bs[0].dir, bs[0].rels + [rel])] + bs[1..]
    else
      assert Dirs(bs) == [bs[0].dir] + Dirs(bs[1..]);
      [bs[0]] + AddFile(bs[1..], rel)
  }

  lemma {:induction false} AddFileGrouped(bs: seq<DirBucket>, rel: Path)
    requires Grouped(bs)
    ensures Grouped(AddFile(bs, rel))
  {
    if |bs| > 0 && bs[0].dir != Parent(rel) {
      AddFileGrouped(bs[1..], rel);
    }
  }

  lemma {:induction false} AddFileRels(bs: seq<DirBucket>, rel: Path)
    ensures multiset(AllRels(AddFile(bs, rel))) == multiset(AllRels(bs)) + multiset{rel}
  {
    if |bs| == 0 {
      assert AllRels([DirBucket(Parent(rel), [rel])]) == [rel] + AllRels([]);
    } else if bs[0].dir == Parent(rel) {
      var r := AddFile(bs, rel);
      assert r[1..] == bs[1..];
      assert AllRels(r) == (bs[0].rels + [rel]) + AllRels(bs[1..]);
    } else {
      AddFileRels(bs[1..], rel);
      var r := AddFile(bs, rel);
      assert r == [bs[0]] + AddFile(bs[1..], rel);
      assert r[1..] == AddFile(bs[1..], rel);
      assert AllRels(r) == bs[0].rels + AllRels(AddFile(bs[1..], rel));
    }
  }

  lemma AddFileDistinct(bs: seq<DirBucket>, rel: Path)
    requires Distinct(Dirs(bs))
    ensures Distinct(Dirs(AddFile(bs, rel)))
  {
  }

  /** The whole `for path in resolved_paths` loop, from some buckets. */
  function Collect(bs: seq<DirBucket>, rels: seq<Path>): seq<DirBucket>
    decreases |rels|
  {
    if |rels| == 0 then bs else Collect(AddFile(bs, rels[0]), rels[1..])
  }

  /** The loop never makes two buckets for one directory. */
  lemma {:induction false} CollectDistinct(bs: seq<DirBucket>, rels: seq<Path>)
    requires Distinct(Dirs(bs))
    ensures Distinct(Dirs(Collect(bs, rels)))
    decreases |rels|
  {
    if |rels| > 0 {
      AddFileDistinct(bs, rels[0]);
      CollectDistinct(AddFile(bs, rels[0]), rels[1..]);
    }
  }

  /** Every path collected sits in the bucket of its parent. */
  lemma {:induction false} CollectGrouped(bs: seq<DirBucket>, rels: seq<Path>)
    requires Grouped(bs)
    ensures Grouped(Collect(bs, rels))
    decreases |rels|
  {
    if |rels| > 0 {
      AddFileGrouped(bs, rels[0]);
      CollectGrouped(AddFile(bs, rels[0]), rels[1..]);
    }
  }

  /** The buckets hold exactly the paths they started with and the paths
      added, as many times each. */
  lemma {:induction false} CollectRels(bs: seq<DirBucket>, rels: seq<Path>)
    ensures multiset(AllRels(Collect(bs, rels))) == multiset(AllRels(bs)) + multiset(rels)
    decreases |rels|
  {
    if |rels| > 0 {
      var next := AddFile(bs, rels[0]);
      AddFileRels(bs, rels[0]);
      CollectRels(next, rels[1..]);
      CollectStep(bs, rels);
      MultisetCons(rels);
    }
  }

  lemma CollectStep(bs: seq<DirBucket>, rels: seq<Path>)
    requires |rels| > 0
    ensures Collect(bs, rels) == Collect(AddFile(bs, rels[0]), rels[1..])
  {
  }

  lemma MultisetCons<T>(s: seq<T>)
    requires |s| > 0
    ensures multiset(s) == multiset{s[0]} + multiset(s[1..])
  {
    assert s == [s[0]] + s[1..];
  }

  // ---------------------------------------------------------------------
  // Clusters and the single group

  /** `dir_path.parts`: the anchor, when there is one, comes first. */
  function PartsOf(p: Path): seq<string> {
    (if p.anchor == "" then [] else [p.anchor]) + p.parts
  }

  /** Python `xs[:k]` for any integer `k`. */
  function SliceTo(xs: seq<string>, k: int): (r: seq<string>)
    ensures |r| <= |xs| && r == xs[..|r|]
    ensures 0 <= k <= |xs| ==> |r| == k
  {
    if k >= |xs| then xs
    else if k >= 0 then xs[..k]
    else if |xs| + k >= 0 then xs[..|xs| + k]
    else []
  }

  /** `_get_display_name`. */
  function DisplayName(dir: Path, maxDepth: int): (r: string)
    ensures Str(dir) == "" || Str(dir) == "." ==> r == ""
    ensures Str(dir) != "" && Str(dir) != "." && |PartsOf(dir)| <= maxDepth ==> r == Str(dir)
    ensures Str(dir) != "" && Str(dir) != "." && |PartsOf(dir)| > maxDepth >= 0 ==>
              r == Join(PartsOf(dir)[..maxDepth], "/") + "/..."
  {
    var s := Str(dir);
    if s == "" || s == "." then ""
    else if |PartsOf(dir)| <= maxDepth then s
    else Join(SliceTo(PartsOf(dir), maxDepth), "/") + "/..."
  }

  /** A directory deeper than `max_depth` shows its first `max_depth`
      components and "/...": "a/b/c/d" shows as "a/b/c/...". */
  lemma DeepDirectoryName()
    ensures DisplayName(Path("", ["a", "b", "c", "d"]), 3) == "a/b/c/..."
    ensures DisplayName(Path("", ["a", "b", "c"]), 3) == "a/b/c"
    ensures DisplayName(Path("", []), 3) == ""
  {
    assert ["a", "b", "c", "d"][..3] == ["a", "b", "c"];
  }

  function MakeCluster(b: DirBucket, maxDepth: int): (c: FileCluster)
    ensures c.path == Str(b.dir) && c.count == |c.files| == |b.rels|
    ensures multiset(c.files) == multiset(Strs(b.rels))
    ensures Sorted(c.files, StrOrder())
  {
    var sorted := SortStrings(Strs(b.rels));
    assert |sorted| == |multiset(sorted)| == |multiset(Strs(b.rels))| == |b.rels|;
    NewCluster(Str(b.dir), sorted, |b.rels|, DisplayName(b.dir, maxDepth))
  }

  function MakeClusters(bs: seq<DirBucket>, maxDepth: int): (r: seq<FileCluster>)
    ensures |r| == |bs| && forall i :: 0 <= i < |bs| ==> r[i] == MakeCluster(bs[i], maxDepth)
  {
    if |bs| == 0 then [] else [MakeCluster(bs[0], maxDepth)] + MakeClusters(bs[1..], maxDepth)
  }

  lemma {:induction false} SumOfClusters(bs: seq<DirBucket>, maxDepth: int)
    ensures SumCounts(MakeClusters(bs, maxDepth)) == |AllRels(bs)|
  {
    if |bs| > 0 {
      SumOfClusters(bs[1..], maxDepth);
      assert MakeClusters(bs, maxDepth)[1..] == MakeClusters(bs[1..], maxDepth);
    }
  }

  function ByCount(c: FileCluster): int {
    c.count
  }

  lemma {:induction false} SumCountsInsert(x: FileCluster, cs: seq<FileCluster>)
    ensures SumCounts(Insert(x, cs, KeyDesc(ByCount))) == x.count + SumCounts(cs)
  {
    var le := KeyDesc(ByCount);
    if |cs| > 0 && !le(x, cs[0]) {
      SumCountsInsert(x, cs[1..]);
      assert Insert(x, cs, le)[1..] == Insert(x, cs[1..], le);
    }
  }

  /** Sorting clusters keeps their total. */
  lemma {:induction false} SumCountsSorted(cs: seq<FileCluster>)
    ensures SumCounts(Sort(cs, KeyDesc(ByCount))) == SumCounts(cs)
  {
    if |cs| > 0 {
      SumCountsSorted(cs[1..]);
      SumCountsInsert(cs[0], Sort(cs[1..], KeyDesc(ByCount)));
    }
  }

  /** `_group_clusters`: nothing for no clusters, else one group with an
      empty parent path and name holding every cluster, largest first. */
  function GroupClusters(cs: seq<FileCluster>): (r: seq<ClusterGroup>)
    ensures |cs| == 0 <==> r == []
    ensures |cs| > 0 ==> |r| == 1 && r[0].parentPath == "" && r[0].displayName == ""
                         && multiset(r[0].clusters) == multiset(cs)
                         && Sorted(r[0].clusters, KeyDesc(ByCount))
                         && r[0].totalFiles == SumCounts(cs)
  {
    if |cs| == 0 then []
    else
      var sorted := SortByKeyDesc(cs, ByCount);
      SumCountsSorted(cs);
      [NewGroup("", sorted, SumCounts(sorted), "")]
  }

  /** `FileClusterer(root, max_depth).cluster_files(file_paths)`. */
  function ClusterFiles(root: Path, maxDepth: int, resolve: Path -> Option<Path>, isFile: Path -> bool,
                        paths: seq<string>): (r: seq<ClusterGroup>)
    ensures |paths| == 0 ==> r == []
    ensures |r| <= 1
    ensures r == [] <==> |Admitted(root, resolve, isFile, paths)| == 0
    ensures |r| == 1 ==> r[0].parentPath == "" && r[0].displayName == ""
                         && r[0].totalFiles == |Admitted(root, resolve, isFile, paths)|
                         && Sorted(r[0].clusters, KeyDesc(ByCount))
  {
    if |paths| == 0 then []
    else
      var rels := Admitted(root, resolve, isFile, paths);
      var bs := Collect([], rels);
      CollectRels([], rels);
      SumOfClusters(bs, maxDepth);
      assert |AllRels(bs)| == |multiset(AllRels(bs))| == |multiset(rels)| == |rels|;
      GroupClusters(MakeClusters(bs, maxDepth))
  }

  /** The files of all clusters, cluster after cluster. */
  function AllFiles(cs: seq<FileCluster>): seq<string> {
    if |cs| == 0 then [] else cs[0].files + AllFiles(cs[1..])
  }

  /** No admitted file is lost or doubled: the clusters hold every admitted
      path, printed relative to the root, exactly as often as it was
      admitted (`FilesUnderTheirParent` is the other direction, file by
      file). */
  lemma EveryAdmittedFileClustered(root: Path, maxDepth: int, resolve: Path -> Option<Path>, isFile: Path -> bool,
                                   paths: seq<string>)
    ensures var r := ClusterFiles(root, maxDepth, resolve, isFile, paths);
            |r| == 1 ==> multiset(AllFiles(r[0].clusters)) == multiset(Strs(Admitted(root, resolve, isFile, paths)))
  {
    if |paths| > 0 {
      var rels := Admitted(root, resolve, isFile, paths);
      var bs := Collect([], rels);
      var cs := MakeClusters(bs, maxDepth);
      CollectRels([], rels);
      StrsPermutation(AllRels(bs), rels);
      ClusterFilesOfBuckets(bs, maxDepth);
      AllFilesSorted(cs);
    }
  }

  /** Relative paths that are a permutation of each other print as a
      permutation of each other. */
  lemma StrsPermutation(a: seq<Path>, b: seq<Path>)
    requires multiset(a) == multiset(b)
    ensures multiset(Strs(a)) == multiset(Strs(b))
  {
    StrsIsMap(a);
    StrsIsMap(b);
    MapPermutation(Str, a, b);
  }

  /** `f` applied to every element, in order. */
  function Map<T, U>(f: T -> U, s: seq<T>): (r: seq<U>)
    ensures |r| == |s|
  {
    if |s| == 0 then [] else [f(s[0])] + Map(f, s[1..])
  }

  lemma {:induction false} StrsIsMap(s: seq<Path>)
    ensures Strs(s) == Map(Str, s)
  {
    if |s| > 0 {
      StrsIsMap(s[1..]);
    }
  }

  lemma {:induction false} MapAppend<T, U>(f: T -> U, a: seq<T>, b: seq<T>)
    ensures Map(f, a + b) == Map(f, a) + Map(f, b)
  {
    if |a| > 0 {
      MapAppend(f, a[1..], b);
      assert (a + b)[1..] == a[1..] + b;
    } else {
      assert a + b == b;
    }
  }

  /** Mapping a permutation gives a permutation. */
  lemma {:induction false} MapPermutation<T, U>(f: T -> U, a: seq<T>, b: seq<T>)
    requires multiset(a) == multiset(b)
    ensures multiset(Map(f, a)) == multiset(Map(f, b))
    decreases |a|
  {
    if |a| == 0 {
      assert |b| == |multiset(b)| == 0;
    } else {
      var x := a[0];
      assert x in multiset(b);
      var j :| 0 <= j < |b| && b[j] == x;
      var rest := b[..j] + b[j + 1..];
      RemoveAtMultiset(b, j);
      MultisetCons(a);
      MultisetCancel(multiset(a[1..]), multiset(rest), x);
      MapPermutation(f, a[1..], rest);
      MapRemoveAt(f, b, j);
      MultisetCons(Map(f, a));
    }
  }

  lemma RemoveAtMultiset<T>(b: seq<T>, j: nat)
    requires j < |b|
    ensures multiset(b) == multiset(b[..j] + b[j + 1..]) + multiset{b[j]}
  {
    assert b == b[..j] + [b[j]] + b[j + 1..];
  }

  /** Taking an element out before mapping takes its image out after. */
  lemma MapRemoveAt<T, U>(f: T -> U, b: seq<T>, j: nat)
    requires j < |b|
    ensures multiset(Map(f, b)) == multiset(Map(f, b[..j] + b[j + 1..])) + multiset{f(b[j])}
  {
    var p, y, q := b[..j], b[j], b[j + 1..];
    MapSplit(f, b, j);
    MapAppend(f, p, q);
    MultisetOfThree(Map(f, p), f(y), Map(f, q));
  }

  lemma MapSplit<T, U>(f: T -> U, b: seq<T>, j: nat)
    requires j < |b|
    ensures Map(f, b) == Map(f, b[..j]) + [f(b[j])] + Map(f, b[j + 1..])
  {
    SplitAt(b, j);
    MapAround(f, b[..j], b[j], b[j + 1..]);
  }

  lemma SplitAt<T>(b: seq<T>, j: nat)
    requires j < |b|
    ensures b == b[..j] + [b[j]] + b[j + 1..]
  {
  }

  lemma MapAround<T, U>(f: T -> U, p: seq<T>, y: T, q: seq<T>)
    ensures Map(f, p + [y] + q) == Map(f, p) + [f(y)] + Map(f, q)
  {
    MapAppend(f, p + [y], q);
    MapAppend(f, p, [y]);
    MapSingle(f, y);
  }

  lemma MapSingle<T, U>(f: T -> U, y: T)
    ensures Map(f, [y]) == [f(y)]
  {
    assert [y][1..] == [];
  }

  lemma MultisetOfThree<U>(p: seq<U>, y: U, q: seq<U>)
    ensures multiset(p + [y] + q) == multiset(p + q) + multiset{y}
  {
  }

  lemma MultisetCancel<T>(a: multiset<T>, b: multiset<T>, x: T)
    requires a + multiset{x} == b + multiset{x}
    ensures a == b
  {
    assert forall y :: a[y] == (a + multiset{x})[y] - (if y == x then 1 else 0);
    assert forall y :: b[y] == (b + multiset{x})[y] - (if y == x then 1 else 0);
  }

  lemma StrsAppend(a: seq<Path>, b: seq<Path>)
    ensures Strs(a + b) == Strs(a) + Strs(b)
  {
  }

  /** The clusters made from the buckets hold the buckets' paths, printed. */
  lemma {:induction false} ClusterFilesOfBuckets(bs: seq<DirBucket>, maxDepth: int)
    ensures multiset(AllFiles(MakeClusters(bs, maxDepth))) == multiset(Strs(AllRels(bs)))
  {
    if |bs| > 0 {
      ClusterFilesOfBuckets(bs[1..], maxDepth);
      assert MakeClusters(bs, maxDepth) == [MakeCluster(bs[0], maxDepth)] + MakeClusters(bs[1..], maxDepth);
      assert ([MakeCluster(bs[0], maxDepth)] + MakeClusters(bs[1..], maxDepth))[1..] == MakeClusters(bs[1..], maxDepth);
      StrsAppend(bs[0].rels, AllRels(bs[1..]));
    }
  }

  lemma {:induction false} AllFilesInsert(x: FileCluster, cs: seq<FileCluster>)
    ensures multiset(AllFiles(Insert(x, cs, KeyDesc(ByCount)))) == multiset(x.files) + multiset(AllFiles(cs))
  {
    var le := KeyDesc(ByCount);
    if |cs| > 0 && !le(x, cs[0]) {
      AllFilesInsert(x, cs[1..]);
      InsertBehind(x, cs, le);
      assert ([cs[0]] + Insert(x, cs[1..], le))[1..] == Insert(x, cs[1..], le);
    } else {
      InsertInFront(x, cs, le);
      assert ([x] + cs)[1..] == cs;
    }
  }

  /** Sorting clusters keeps their files. */
  lemma {:induction false} AllFilesSorted(cs: seq<FileCluster>)
    ensures multiset(AllFiles(Sort(cs, KeyDesc(ByCount)))) == multiset(AllFiles(cs))
  {
    if |cs| > 0 {
      AllFilesSorted(cs[1..]);
      AllFilesInsert(cs[0], Sort(cs[1..], KeyDesc(ByCount)));
    }
  }

  lemma {:induction false} AllRelsMember(bs: seq<DirBucket>, i: nat, k: nat)
    requires i < |bs| && k < |bs[i].rels|
    ensures bs[i].rels[k] in AllRels(bs)
  {
    if i > 0 {
      AllRelsMember(bs[1..], i - 1, k);
    }
  }

  /** Every clustered file is an admitted path printed relative to the root,
      and it sits in the cluster of its immediate parent directory. */
  lemma FilesUnderTheirParent(root: Path, maxDepth: int, resolve: Path -> Option<Path>, isFile: Path -> bool,
                              paths: seq<string>, c: FileCluster, f: string)
    requires |ClusterFiles(root, maxDepth, resolve, isFile, paths)| == 1
    requires c in ClusterFiles(root, maxDepth, resolve, isFile, paths)[0].clusters
    requires f in c.files
    ensures exists rel :: rel in Admitted(root, resolve, isFile, paths) && f == Str(rel) && c.path == Str(Parent(rel))
  {
    var rels := Admitted(root, resolve, isFile, paths);
    assert |paths| > 0;
    var bs := Collect([], rels);
    var cs := MakeClusters(bs, maxDepth);
    assert ClusterFiles(root, maxDepth, resolve, isFile, paths) == GroupClusters(cs);
    ClusterFromBucket(cs, c);
    var i :| 0 <= i < |cs| && cs[i] == c;
    var b := bs[i];
    assert f in MakeCluster(b, maxDepth).files;
    FileInBucket(b, maxDepth, f);
    var k :| 0 <= k < |b.rels| && Str(b.rels[k]) == f;
    BucketMember(rels, i, k);
  }

  /** A path in a bucket of `Collect` is one of the collected paths, under
      the bucket's directory. */
  lemma BucketMember(rels: seq<Path>, i: nat, k: nat)
    requires i < |Collect([], rels)| && k < |Collect([], rels)[i].rels|
    ensures var bs := Collect([], rels);
            Parent(bs[i].rels[k]) == bs[i].dir && bs[i].rels[k] in rels
  {
    var bs := Collect([], rels);
    var rel := bs[i].rels[k];
    assert Parent(rel) == bs[i].dir by {
      CollectGrouped([], rels);
    }
    assert rel in rels by {
      CollectRels([], rels);
      AllRelsMember(bs, i, k);
      assert multiset(AllRels(bs)) == multiset(rels);
      assert rel in multiset(AllRels(bs));
    }
  }

  lemma ClusterFromBucket(cs: seq<FileCluster>, c: FileCluster)
    requires |cs| > 0 && c in GroupClusters(cs)[0].clusters
    ensures c in cs
  {
    assert c in multiset(GroupClusters(cs)[0].clusters);
    assert c in multiset(cs);
  }

  lemma FileInBucket(b: DirBucket, maxDepth: int, f: string)
    requires f in MakeCluster(b, maxDepth).files
    ensures exists k :: 0 <= k < |b.rels| && Str(b.rels[k]) == f
  {
    assert f in multiset(MakeCluster(b, maxDepth).files);
    assert f in multiset(Strs(b.rels));
    var k :| 0 <= k < |b.rels| && Strs(b.rels)[k] == f;
  }

  // ---------------------------------------------------------------------
  // Text rendering

  /** One line per file; the file at index `maxShow - 1` gets the closing branch. */
  function MarkedLines(files: seq<string>, maxShow: nat): (r: seq<string>)
    ensures |r| == |files|
    ensures forall i :: 0 <= i < |r| ==> r[i] == (if i < maxShow - 1 then "  ├──" else "  └─") + " " + files[i]
  {
    seq(|files|, i requires 0 <= i < |files| => (if i < maxShow - 1 then "  ├──" else "  └─") + " " + files[i])
  }

  /** The file lines of `format_cluster_display`. */
  function FileLines(c: FileCluster, maxShow: nat): (r: seq<string>)
    ensures c.count <= maxShow ==> |r| == |c.files| && forall i :: 0 <= i < |r| ==> r[i] == "  ├── " + c.files[i]
    ensures c.count > maxShow && c.count == |c.files| ==>
              |r| == maxShow + 1
              && (forall i :: 0 <= i < maxShow - 1 ==> r[i] == "  ├── " + c.files[i])
              && (maxShow > 0 ==> r[maxShow - 1] == "  └─ " + c.files[maxShow - 1])
              && r[maxShow] == "  └─ ... and " + IntToString(c.count - maxShow) + " more files"
  {
    if c.count <= maxShow then MarkedLines(c.files, |c.files| + 1)
    else
      MarkedLines(if maxShow < |c.files| then c.files[..maxShow] else c.files, maxShow)
      + (if c.count - maxShow > 0 then ["  └─ ... and " + IntToString(c.count - maxShow) + " more files"] else [])
  }

  /** The first line of `format_cluster_display`: the count alone for the
      root, else the directory's display name before it. */
  function HeaderLine(c: FileCluster): string {
    if c.displayName == "" then "(" + NatToString(c.count) + " files)"
    else c.displayName + "/... (" + NatToString(c.count) + " files)"
  }

  /** No name in the cluster spans lines. */
  predicate OneLineNames(c: FileCluster) {
    '\n' !in c.displayName && forall i :: 0 <= i < |c.files| ==> '\n' !in c.files[i]
  }

  /** `format_cluster_display(cluster, max_files_show)`: read back line by
      line, the display is the header and then the file lines (a single empty
      line when there are none). */
  function FormatCluster(c: FileCluster, maxShow: nat): (r: string)
    ensures c.displayName == "" ==> IsPrefix("(" + NatToString(c.count) + " files)\n", r)
    ensures c.displayName != "" ==> IsPrefix(c.displayName + "/... (" + NatToString(c.count) + " files)\n", r)
    ensures OneLineNames(c) ==>
              Split(r, '\n') == [HeaderLine(c)] + (if FileLines(c, maxShow) == [] then [""] else FileLines(c, maxShow))
  {
    var body := Join(FileLines(c, maxShow), "\n");
    FormatClusterLines(c, maxShow);
    HeaderLine(c) + "\n" + body
  }

  lemma FormatClusterLines(c: FileCluster, maxShow: nat)
    ensures var lines := FileLines(c, maxShow);
            OneLineNames(c) ==>
            Split(HeaderLine(c) + "\n" + Join(lines, "\n"), '\n') == [HeaderLine(c)] + (if lines == [] then [""] else lines)
  {
    if !OneLineNames(c) { return; }
    var lines := FileLines(c, maxShow);
    var h := HeaderLine(c);
    FileLinesOneLine(c, maxShow);
    assert '\n' !in NatToString(c.count);
    assert '\n' !in h;
    var parts := [h] + (if lines == [] then [""] else lines);
    if lines == [] {
      assert Join(parts, "\n") == h + "\n" + "";
    } else {
      JoinCons(h, lines, "\n");
    }
    assert forall i :: 0 <= i < |parts| ==> '\n' !in parts[i];
    SplitJoin(parts, '\n');
  }

  /** No file line spans lines. */
  lemma FileLinesOneLine(c: FileCluster, maxShow: nat)
    requires OneLineNames(c)
    ensures forall i :: 0 <= i < |FileLines(c, maxShow)| ==> '\n' !in FileLines(c, maxShow)[i]
  {
    var shown := if c.count <= maxShow then c.files else if maxShow < |c.files| then c.files[..maxShow] else c.files;
    assert forall i :: 0 <= i < |shown| ==> '\n' !in shown[i];
    var marked := MarkedLines(shown, if c.count <= maxShow then |c.files| + 1 else maxShow);
    assert forall i :: 0 <= i < |marked| ==> '\n' !in marked[i];
    if c.count > maxShow && c.count - maxShow > 0 {
      assert '\n' !in NatToString(c.count - maxShow);
      assert '\n' !in "  └─ ... and " + IntToString(c.count - maxShow) + " more files";
    }
  }

  /** The displays with an empty entry between neighbours, as `format_group_display` collects them. */
  function Separated(ds: seq<string>): (r: seq<string>)
    ensures |ds| > 0 ==> |r| == 2 * |ds| - 1
    ensures |ds| == 0 ==> r == []
  {
    if |ds| <= 1 then ds else [ds[0], ""] + Separated(ds[1..])
  }

  function Displays(cs: seq<FileCluster>): (r: seq<string>)
    ensures |r| == |cs| && forall i :: 0 <= i < |cs| ==> r[i] == FormatCluster(cs[i], 5)
  {
    if |cs| == 0 then [] else [FormatCluster(cs[0], 5)] + Displays(cs[1..])
  }

  /** `format_group_display`. */
  function FormatGroup(g: ClusterGroup): (r: string)
    ensures r == Join(Displays(g.clusters), "\n\n")
  {
    SeparatedJoin(Displays(g.clusters));
    Join(Separated(Displays(g.clusters)), "\n")
  }

  /** Clusters are separated by exactly one blank line. */
  lemma {:induction false} SeparatedJoin(ds: seq<string>)
    ensures Join(Separated(ds), "\n") == Join(ds, "\n\n")
  {
    if |ds| > 1 {
      SeparatedJoin(ds[1..]);
      var rest := Separated(ds[1..]);
      assert |rest| >= 1;
      assert Separated(ds) == [ds[0], ""] + rest;
      assert Join([ds[0], ""] + rest, "\n") == ds[0] + "\n" + Join([""] + rest, "\n");
      assert Join([""] + rest, "\n") == "" + "\n" + Join(rest, "\n") by {
        assert ([""] + rest)[1..] == rest;
      }
    }
  }

  /** The module-level `cluster_files_for_display` (default `max_depth` 3):
      only the first group is ever shown. */
  function ClusterFilesForDisplay(paths: seq<string>, root: Path, resolve: Path -> Option<Path>, isFile: Path -> bool)
    : (r: string)
    ensures |Admitted(root, resolve, isFile, paths)| == 0 <==> r == "No files to display"
    ensures |Admitted(root, resolve, isFile, paths)| > 0 ==>
              r == Join(Displays(ClusterFiles(root, 3, resolve, isFile, paths)[0].clusters), "\n\n")
  {
    var groups := ClusterFiles(root, 3, resolve, isFile, paths);
    if |groups| == 0 then "No files to display"
    else
      var r := FormatGroup(groups[0]);
      SeparatedJoin(Displays(groups[0].clusters));
      assert r != "No files to display" by { NotTheEmptyMessage(groups[0]); }
      r
  }

  /** A formatted group never reads as the empty message. */
  lemma NotTheEmptyMessage(g: ClusterGroup)
    requires |g.clusters| > 0
    ensures FormatGroup(g) != "No files to display"
  {
    GroupStartsWithCluster(g);
    ClusterNotMessage(g.clusters[0], FormatGroup(g));
  }

  /** A formatted group starts with its first cluster. */
  lemma GroupStartsWithCluster(g: ClusterGroup)
    requires |g.clusters| > 0
    ensures IsPrefix(FormatCluster(g.clusters[0], 5), FormatGroup(g))
  {
    var ds := Displays(g.clusters);
    SeparatedJoin(ds);
    JoinHead(Separated(ds), "\n");
    assert Separated(ds)[0] == FormatCluster(g.clusters[0], 5);
  }

  /** Text that starts with a formatted cluster is not the empty message:
      it starts with '(' or has ".../" where the message has letters. */
  lemma ClusterNotMessage(c: FileCluster, text: string)
    requires IsPrefix(FormatCluster(c, 5), text)
    ensures text != "No files to display"
  {
    var first := FormatCluster(c, 5);
    if c.displayName == "" {
      assert text[0] == first[0] == '(';
    } else {
      var n := c.displayName;
      assert first[|n| + 3] == '.';
      assert text[|n| + 3] == '.';
    }
  }

  /** `cluster_commits`: the group of every commit whose files leave one. */
  function ClusterCommits(root: Path, maxDepth: int, resolve: Path -> Option<Path>, isFile: Path -> bool,
                          commitFiles: map<string, seq<string>>): (r: map<string, ClusterGroup>)
    ensures r.Keys <= commitFiles.Keys
    ensures forall sha :: sha in commitFiles ==>
              (sha in r <==> |Admitted(root, resolve, isFile, commitFiles[sha])| > 0)
    ensures forall sha :: sha in r ==>
              ClusterFiles(root, maxDepth, resolve, isFile, commitFiles[sha]) == [r[sha]]
              && r[sha].totalFiles == |Admitted(root, resolve, isFile, commitFiles[sha])|
  {
    map sha | sha in commitFiles && |ClusterFiles(root, maxDepth, resolve, isFile, commitFiles[sha])| > 0
      :: ClusterFiles(root, maxDepth, resolve, isFile, commitFiles[sha])[0]
  }

  /** `get_directory_stats`: each cluster path mapped to its file count. */
  function DirectoryStats(root: Path, maxDepth: int, resolve: Path -> Option<Path>, isFile: Path -> bool,
                          paths: seq<string>): (r: map<string, nat>)
    ensures |Admitted(root, resolve, isFile, paths)| == 0 ==> r == map[]
    ensures |Admitted(root, resolve, isFile, paths)| > 0 ==>
              var cs := ClusterFiles(root, maxDepth, resolve, isFile, paths)[0].clusters;
              r.Keys == (set c | c in cs :: c.path)
              && forall i :: LastOfPath(cs, i) ==> r[cs[i].path] == cs[i].count
  {
    var groups := ClusterFiles(root, maxDepth, resolve, isFile, paths);
    if |groups| == 0 then map[] else StatsOf(groups[0].clusters)
  }

  /** `cs[i]` is the last cluster with its path, so its count is the one the
      dictionary keeps. */
  predicate LastOfPath(cs: seq<FileCluster>, i: int) {
    0 <= i < |cs| && forall j :: i < j < |cs| ==> cs[j].path != cs[i].path
  }

  /** The loop `stats[cluster.path] = cluster.count`: every cluster path is a
      key, holding the count of the last cluster with that path. */
  function StatsOf(cs: seq<FileCluster>): (r: map<string, nat>)
    ensures r.Keys == set c | c in cs :: c.path
    ensures forall c :: c in cs ==> c.path in r
    ensures forall i :: LastOfPath(cs, i) ==> r[cs[i].path] == cs[i].count
  {
    if |cs| == 0 then map[]
    else
      var last := cs[|cs| - 1];
      var init := cs[..|cs| - 1];
      var rest := StatsOf(init);
      var r := rest[last.path := last.count];
      assert r.Keys == set c | c in cs :: c.path by {
        assert forall c :: c in cs <==> c in init || c == last;
      }
      assert forall i :: LastOfPath(cs, i) ==> r[cs[i].path] == cs[i].count by {
        forall i | LastOfPath(cs, i)
          ensures r[cs[i].path] == cs[i].count
        {
          if i < |cs| - 1 {
            assert LastOfPath(init, i) && init[i] == cs[i];
          }
        }
      }
      r
  }
}

=== FILE: file_filter.dfy ===
/** file_filter.py: the `FileChangeHandler` the main app installs passes a
    (type, path) pair to its callback for every event that is not a directory,
    does not end in ".git", and has none of the temporary-file fragments
    anywhere in its source path. */
module FileFilter {
  import opened Wrappers
  import opened Text
  import opened WatchEvents

  const TempFragments: seq<string> := [".tmp", ".swp", ".swo", "~", ".bak"]

  /** `_is_valid_file_event`. */
  predicate IsValidFileEvent(e: FsEvent) {
    !e.isDirectory && !IsSuffix(".git", e.srcPath) && !AnyContains(TempFragments, e.srcPath)
  }

  /** `frag` appears somewhere in `p`, stated by position. */
  ghost predicate Occurs(p: string, frag: string) {
    exists i: nat :: OccursAt(p, frag, i)
  }

  /** An event passes exactly when it is not a directory, its path does
      not end in ".git", and none of the five fragments appears in it. */
  lemma IsValidFileEventIff(e: FsEvent)
    ensures var p := e.srcPath;
            IsValidFileEvent(e) <==>
              !e.isDirectory && !(|p| >= 4 && p[|p| - 4..] == ".git")
              && !Occurs(p, ".tmp") && !Occurs(p, ".swp") && !Occurs(p, ".swo")
              && '~' !in p && !Occurs(p, ".bak")
  {
    var p := e.srcPath;
    AnyContainsIff(TempFragments, p);
    assert forall i :: 0 <= i < |TempFragments| ==> (Contains(p, TempFragments[i]) <==> Occurs(p, TempFragments[i])) by {
      forall i | 0 <= i < |TempFragments| {
        ContainsIffOccurs(p, TempFragments[i]);
      }
    }
    assert Occurs(p, "~") <==> '~' in p by {
      if Occurs(p, "~") {
        var i: nat :| OccursAt(p, "~", i);
        assert p[i] == p[i..i + 1][0];
      }
      if '~' in p {
        var i :| 0 <= i < |p| && p[i] == '~';
        assert OccursAt(p, "~", i);
      }
    }
    assert TempFragments[0] == ".tmp" && TempFragments[1] == ".swp" && TempFragments[2] == ".swo";
    assert TempFragments[3] == "~" && TempFragments[4] == ".bak";
  }

  lemma ContainsIffOccurs(p: string, frag: string)
    ensures Contains(p, frag) <==> Occurs(p, frag)
  {
    if Contains(p, frag) {
      assert OccursAt(p, frag, Find(p, frag).value);
    }
    if Occurs(p, frag) {
      var i: nat :| OccursAt(p, frag, i);
      OccursContains(p, frag, i);
    }
  }

  /** The fragments match anywhere, so "notes~draft.md" is dropped. */
  lemma TildeAnywhereRejects()
    ensures !IsValidFileEvent(FsEvent("modified", "notes~draft.md", "", false))
  {
    OccursContains("notes~draft.md", "~", 5);
    assert AnyContains(TempFragments[3..], "notes~draft.md");
  }

  /** ".git" counts only at the very end, so ".gitignore" passes. */
  lemma GitignorePasses()
    ensures IsValidFileEvent(FsEvent("modified", ".gitignore", "", false))
  {
    NoTempFragment(".gitignore");
    assert !IsSuffix(".git", ".gitignore");
  }

  /** A path lacking 'p', 'w', '~' and 'b' holds none of the fragments. */
  lemma NoTempFragment(s: string)
    requires 'p' !in s && 'w' !in s && '~' !in s && 'b' !in s
    ensures !AnyContains(TempFragments, s)
  {
    MissingChar(s, ".tmp", 'p');
    MissingChar(s, ".swp", 'w');
    MissingChar(s, ".swo", 'w');
    MissingChar(s, "~", '~');
    MissingChar(s, ".bak", 'b');
    AnyContainsIff(TempFragments, s);
  }

  datatype Kind = Created | Modified | Deleted | Moved

  /** The `on_*` handlers: the pair handed to the callback, if any. A move is
      filtered on its source path but reports its destination. */
  function Dispatch(k: Kind, e: FsEvent): (r: Option<(string, string)>)
    ensures r.Some? <==> IsValidFileEvent(e)
    ensures r.Some? && k == Moved ==> r.value == ("moved", e.destPath)
    ensures r.Some? && k != Moved ==> r.value.1 == e.srcPath
    ensures r.Some? ==> r.value.0 == (match k case Created => "created" case Modified => "modified"
                                             case Deleted => "deleted" case Moved => "moved")
  {
    if !IsValidFileEvent(e) then None
    else
      match k
      case Modified => Some(("modified", e.srcPath))
      case Created => Some(("created", e.srcPath))
      case Deleted => Some(("deleted", e.srcPath))
      case Moved => Some(("moved", e.destPath))
  }
}

=== FILE: file_tree.dfy ===
/** file-tree/file-tree.c: the lines `print_tree_node` prints for a file
    tree and the repository name shown above it. The row counter is shared
    through a pointer, so the whole listing stops at the row limit. The
    listing is written once over a line format and a child-prefix rule, so
    that the other tree printer of the project can be compared with it. */
module FileTree {
  import opened Text

  /** `file_tree_node_t`: a name, the children in order and whether the
      node is a file. */
  datatype TreeNode = TreeNode(name: string, children: seq<TreeNode>, isFile: bool)

  /** How one node is printed from its depth, whether it is the last child
      and the prefix it inherits. */
  type LineFormat = (TreeNode, nat, bool, string) -> string

  /** The prefix a node hands to its children, from its own prefix, depth
      and whether it is the last child. */
  type PrefixRule = (string, nat, bool) -> string

  /** The number of nodes in the tree: the lines of an unbounded listing. */
  function Size(node: TreeNode): nat
    decreases node, |node.children| + 1
  {
    1 + SizeKids(node, 0)
  }

  function SizeKids(parent: TreeNode, i: nat): nat
    decreases parent, |parent.children| - i
  {
    if i >= |parent.children| then 0 else Size(parent.children[i]) + SizeKids(parent, i + 1)
  }

  /** The reference listing with no row limit: the node's line, then each
      child's listing in order (a pre-order walk). */
  function Full(line: LineFormat, extend: PrefixRule, node: TreeNode, depth: nat, isLast: bool,
                prefix: string): (r: seq<string>)
    ensures |r| == Size(node)
    decreases node, |node.children| + 1
  {
    [line(node, depth, isLast, prefix)] + FullKids(line, extend, node, 0, depth, isLast, prefix)
  }

  /** The listings of the children of `parent` from the `i`-th on. */
  function FullKids(line: LineFormat, extend: PrefixRule, parent: TreeNode, i: nat, depth: nat,
                    isLast: bool, prefix: string): (r: seq<string>)
    ensures |r| == SizeKids(parent, i)
    decreases parent, |parent.children| - i
  {
    if i >= |parent.children| then []
    else
      Full(line, extend, parent.children[i], depth + 1, i == |parent.children| - 1, extend(prefix, depth, isLast))
      + FullKids(line, extend, parent, i + 1, depth, isLast, prefix)
  }

  /** Rows left before the limit. */
  function Room(row: int, limit: int): nat {
    if row >= limit then 0 else limit - row
  }

  /** The first `n` lines of a listing. */
  function Lines(s: seq<string>, n: nat): (r: seq<string>)
    ensures |r| == if n < |s| then n else |s|
    ensures r == s[..|r|]
  {
    if n < |s| then s[..n] else s
  }

  /** `print_tree_node` with the row counter shared by every call: nothing
      once the counter reaches `limit`, else the node's line and then its
      children, each starting at the row the previous one left. */
  function Shared(line: LineFormat, extend: PrefixRule, node: TreeNode, depth: nat, isLast: bool,
                  prefix: string, row: int, limit: int): (r: seq<string>)
    ensures |r| <= Room(row, limit)
    decreases node, |node.children| + 1
  {
    if row >= limit then []
    else [line(node, depth, isLast, prefix)] + SharedKids(line, extend, node, 0, depth, isLast, prefix, row + 1, limit)
  }

  /** The children loop of `print_tree_node`, from the `i`-th child at
      counter `row`. */
  function SharedKids(line: LineFormat, extend: PrefixRule, parent: TreeNode, i: nat, depth: nat,
                      isLast: bool, prefix: string, row: int, limit: int): (r: seq<string>)
    ensures |r| <= Room(row, limit)
    decreases parent, |parent.children| - i
  {
    if i >= |parent.children| || row >= limit then []
    else
      var first := Shared(line, extend, parent.children[i], depth + 1, i == |parent.children| - 1,
                          extend(prefix, depth, isLast), row, limit);
      first + SharedKids(line, extend, parent, i + 1, depth, isLast, prefix, row + |first|, limit)
  }

  /** Cutting the pre-order listing at the row limit is all the shared
      counter does: the printed lines are exactly the first `limit - row`
      lines of the unbounded listing. */
  lemma {:induction false} SharedIsCut(line: LineFormat, extend: PrefixRule, node: TreeNode, depth: nat,
                                       isLast: bool, prefix: string, row: int, limit: int)
    ensures Shared(line, extend, node, depth, isLast, prefix, row, limit)
            == Lines(Full(line, extend, node, depth, isLast, prefix), Room(row, limit))
    decreases node, |node.children| + 1
  {
    if row < limit {
      SharedKidsIsCut(line, extend, node, 0, depth, isLast, prefix, row + 1, limit);
      var full := Full(line, extend, node, depth, isLast, prefix);
      var kids := FullKids(line, extend, node, 0, depth, isLast, prefix);
      assert full == [full[0]] + kids;
      ConsLines(full[0], kids, Room(row, limit));
    }
  }

  lemma {:induction false} SharedKidsIsCut(line: LineFormat, extend: PrefixRule, parent: TreeNode, i: nat,
                                           depth: nat, isLast: bool, prefix: string, row: int, limit: int)
    ensures SharedKids(line, extend, parent, i, depth, isLast, prefix, row, limit)
            == Lines(FullKids(line, extend, parent, i, depth, isLast, prefix), Room(row, limit))
    decreases parent, |parent.children| - i
  {
    if i < |parent.children| && row < limit {
      var child := parent.children[i];
      var last := i == |parent.children| - 1;
      var childPrefix := extend(prefix, depth, isLast);
      SharedIsCut(line, extend, child, depth + 1, last, childPrefix, row, limit);
      var first := Shared(line, extend, child, depth + 1, last, childPrefix, row, limit);
      SharedKidsIsCut(line, extend, parent, i + 1, depth, isLast, prefix, row + |first|, limit);
      AppendLines(Full(line, extend, child, depth + 1, last, childPrefix),
                  FullKids(line, extend, parent, i + 1, depth, isLast, prefix), Room(row, limit));
    }
  }

  lemma ConsLines(x: string, s: seq<string>, n: nat)
    requires n > 0
    ensures Lines([x] + s, n) == [x] + Lines(s, n - 1)
  {
  }

  /** Cutting a concatenation: the cut of the first part, then what room is
      left for the second. */
  lemma AppendLines(a: seq<string>, b: seq<string>, n: nat)
    ensures Lines(a + b, n) == Lines(a, n) + Lines(b, if |Lines(a, n)| >= n then 0 else n - |Lines(a, n)|)
  {
    if n < |a| {
      assert (a + b)[..n] == a[..n];
    } else if n < |a| + |b| {
      assert (a + b)[..n] == a + b[..n - |a|];
    }
  }

  /** `config->tree_symbols`: the branch, the last branch, the vertical
      continuation and the blank continuation. */
  datatype TreeSymbols = TreeSymbols(branch: string, lastBranch: string, vertical: string, space: string)

  /** The symbols `load_file_tree_config` installs. */
  const DefaultSymbols := TreeSymbols("├── ", "└── ", "│   ", "    ")

  /** One printed line of file-tree.c: the inherited prefix, the (last)
      branch below the top level, the name and "/" for a directory. */
  function TreeLine(sym: TreeSymbols): LineFormat {
    (node: TreeNode, depth: nat, isLast: bool, prefix: string) =>
      prefix + (if depth > 0 then (if isLast then sym.lastBranch else sym.branch) else "")
      + node.name + (if node.isFile then "" else "/")
  }

  /** The child prefix of file-tree.c: extended by the blank or the vertical
      continuation below the top level only. */
  function TreePrefix(sym: TreeSymbols): PrefixRule {
    (prefix: string, depth: nat, isLast: bool) =>
      prefix + (if depth > 0 then (if isLast then sym.space else sym.vertical) else "")
  }

  /** `print_tree_node` of file-tree.c for a counter at `row` and a screen
      of `maxHeight` rows: it prints while the counter is below
      `maxHeight - 1`. */
  function PrintTree(sym: TreeSymbols, node: TreeNode, depth: nat, isLast: bool, prefix: string,
                     row: int, maxHeight: int): (r: seq<string>)
    ensures |r| <= Room(row, maxHeight - 1)
    ensures r == Lines(Full(TreeLine(sym), TreePrefix(sym), node, depth, isLast, prefix), Room(row, maxHeight - 1))
  {
    SharedIsCut(TreeLine(sym), TreePrefix(sym), node, depth, isLast, prefix, row, maxHeight - 1);
    Shared(TreeLine(sym), TreePrefix(sym), node, depth, isLast, prefix, row, maxHeight - 1)
  }

  /** A top-level node's first line is its name, "/" marking a directory;
      a child's line carries the branch, the last child the last branch. */
  lemma LineShapes(sym: TreeSymbols, node: TreeNode, prefix: string)
    ensures TreeLine(sym)(node, 0, false, "") == node.name + (if node.isFile then "" else "/")
    ensures TreeLine(sym)(node, 1, true, prefix) == prefix + sym.lastBranch + node.name + (if node.isFile then "" else "/")
    ensures TreeLine(sym)(node, 1, false, prefix) == prefix + sym.branch + node.name + (if node.isFile then "" else "/")
  {
  }

  /** Below the top level, a last child hands down blanks and any other child
      a vertical line; the top level hands down its prefix unchanged. */
  lemma PrefixShapes(sym: TreeSymbols, prefix: string, depth: nat)
    ensures TreePrefix(sym)(prefix, 0, true) == prefix && TreePrefix(sym)(prefix, 0, false) == prefix
    ensures depth > 0 ==> TreePrefix(sym)(prefix, depth, true) == prefix + sym.space
    ensures depth > 0 ==> TreePrefix(sym)(prefix, depth, false) == prefix + sym.vertical
  {
  }

  /** `get_display_repo_name`: the name "root" gives way to the text after
      the path's last '/', when there is a '/' and that text is not empty;
      any other name is kept. */
  function DisplayRepoName(name: string, path: string): (r: string)
    ensures name != "root" ==> r == name
    ensures name == "root" && '/' in path && AfterLast(path, '/') != "" ==> r == AfterLast(path, '/')
    ensures name == "root" && ('/' !in path || AfterLast(path, '/') == "") ==> r == "root"
  {
    if name == "root" && LastIndexOf(path, '/').Some? && AfterLast(path, '/') != "" then AfterLast(path, '/')
    else name
  }

  /** The shown name never contains a '/' when it replaces "root". */
  lemma DisplayNameIsComponent(path: string)
    requires '/' in path
    ensures '/' !in DisplayRepoName("root", path)
  {
  }
}

=== FILE: git_status.dfy ===
/** git-status/git-status.c: one run of the status monitor. It reads
    `git status --porcelain`, compares it with the status cached by the
    previous run, writes a report and prints a summary. The git output, the
    cached file's contents (None when it cannot be opened) and the clock are
    parameters; the files the run writes are returned as values. */
module GitStatus {
  import opened Wrappers
  import opened Text

  /** `config_t`. The three C `int` flags are booleans; `load_config` only
      ever stores 1 in them. */
  datatype Config = Config(repoPath: string, statusCache: string, checkInterval: int,
                           cacheStatus: bool, reportChangesOnly: bool)

  /** `load_config`: the repository from `REPO_WATCH_REPO_PATH` (an empty
      value counts, since only a missing variable falls back), else ".";
      a fixed cache path and every flag on. */
  function LoadConfig(env: map<string, string>): (c: Config)
    ensures "REPO_WATCH_REPO_PATH" in env ==> c.repoPath == env["REPO_WATCH_REPO_PATH"]
    ensures "REPO_WATCH_REPO_PATH" !in env ==> c.repoPath == "."
    ensures c.statusCache == "/tmp/git-status.cache" && c.checkInterval == 1
    ensures c.cacheStatus && c.reportChangesOnly
  {
    var repo := if "REPO_WATCH_REPO_PATH" in env then env["REPO_WATCH_REPO_PATH"] else ".";
    Config(repo, "/tmp/git-status.cache", 1, true, true)
  }

  /** `status_changed`: a missing status is a NULL pointer. Two missing
      statuses are the same, one missing status differs from any present
      one, and two present ones differ when `strcmp` tells them apart. */
  function StatusChanged(current: Option<string>, cached: Option<string>): (r: bool)
    ensures r <==> current != cached
  {
    if current.None? && cached.None? then false
    else if current.None? || cached.None? then true
    else current.value != cached.value
  }

  /** The decision in `main`: with caching on, whether the status differs
      from the cached one (None when the cache file could not be opened);
      with caching off, always changed. */
  function Changed(config: Config, current: string, cached: Option<string>): (r: bool)
    ensures !config.cacheStatus ==> r
    ensures config.cacheStatus ==> (r <==> cached != Some(current))
  {
    if config.cacheStatus then StatusChanged(Some(current), cached) else true
  }

  /** The last part of the report: the status text, or the clean marker for
      an empty status. */
  function StatusSection(current: string): string {
    if |current| > 0 then "\nCurrent Status:\n" + current
    else "\nCurrent Status: Clean (no changes)\n"
  }

  const CleanSection := "\nCurrent Status: Clean (no changes)\n"

  /** The report says the repository is clean exactly when the status is
      empty: a non-empty status puts a newline where the clean marker has a
      space. */
  lemma CleanReportIffEmpty(current: string)
    ensures StatusSection(current) == CleanSection <==> current == ""
  {
    if current != "" {
      assert StatusSection(current)[16] == '\n';
      assert CleanSection[16] == ' ';
    }
  }

  /** A non-empty status appears whole at the end of the report. */
  lemma StatusAtEnd(current: string)
    requires current != ""
    ensures IsSuffix(current, StatusSection(current))
  {
    var s := StatusSection(current);
    assert s[|s| - |current|..] == current;
  }

  /** `generate_report`'s text: heading, repository, whether the status
      changed, the timestamp and the status section. */
  function ReportText(current: string, changed: bool, repoPath: string, timestamp: int): (r: string)
    ensures IsPrefix("Git Status Report\n", r)
    ensures current != "" ==> IsSuffix(current, r)
    ensures current == "" ==> IsSuffix(CleanSection, r)
  {
    var fields := "=================\nRepository: " + repoPath + "\nStatus Changed: "
                  + (if changed then "YES" else "NO") + "\nTimestamp: " + IntToString(timestamp) + "\n";
    ReportShape(current, fields);
    "Git Status Report\n" + fields + StatusSection(current)
  }

  /** The report opens with its title and closes with the status section. */
  lemma ReportShape(current: string, fields: string)
    ensures var r := "Git Status Report\n" + fields + StatusSection(current);
            IsPrefix("Git Status Report\n", r)
            && (current != "" ==> IsSuffix(current, r))
            && (current == "" ==> IsSuffix(CleanSection, r))
  {
    var title := "Git Status Report\n";
    Ends(title, fields + StatusSection(current));
    assert title + fields + StatusSection(current) == title + (fields + StatusSection(current));
    if current != "" {
      var lead := title + fields + "\nCurrent Status:\n";
      Ends(lead, current);
      assert title + fields + StatusSection(current) == lead + current;
    } else {
      Ends(title + fields, CleanSection);
    }
  }

  /** A concatenation starts with its first part and ends with its second. */
  lemma Ends(a: string, b: string)
    ensures IsPrefix(a, a + b) && IsSuffix(b, a + b)
  {
    assert (a + b)[..|a|] == a && (a + b)[|a|..] == b;
  }

  /** The stdout summary of `main`, None when nothing is printed: only a
      changed status is reported while `report_changes_only` is on. */
  function Summary(config: Config, changed: bool, current: string): (r: Option<string>)
    ensures r.Some? <==> changed || !config.reportChangesOnly
  {
    if changed || !config.reportChangesOnly then
      Some("Git status " + (if changed then "CHANGED" else "UNCHANGED") + "\n"
           + (if |current| > 0 then "Changes detected:\n" + current else "Repository is clean\n"))
    else None
  }

  /** What one run leaves behind: the report, the cache file's contents and
      the printed summary. */
  datatype Outcome = Outcome(report: string, cache: Option<string>, summary: Option<string>)

  /** `main` after the configuration is loaded: `current` is the git output
      ("" when `popen` fails) and `cached` the previous cache. The cache is
      rewritten with the current status when caching is on. */
  function Run(config: Config, current: string, cached: Option<string>, timestamp: int): (o: Outcome)
    ensures config.cacheStatus ==> o.cache == Some(current)
    ensures !config.cacheStatus ==> o.cache == cached
  {
    var changed := Changed(config, current, cached);
    Outcome(ReportText(current, changed, config.repoPath, timestamp),
            if config.cacheStatus then Some(current) else cached,
            Summary(config, changed, current))
  }

  /** With the default configuration a second run over the same status sees
      no change and, reporting changes only, prints nothing. */
  lemma SecondRunQuiet(env: map<string, string>, current: string, cached: Option<string>, t1: int, t2: int)
    ensures var config := LoadConfig(env);
            var first := Run(config, current, cached, t1);
            !Changed(config, current, first.cache) && Run(config, current, first.cache, t2).summary.None?
  {
  }

  /** With the default configuration a status that differs from the cached
      one is always printed. */
  lemma ChangePrinted(env: map<string, string>, current: string, cached: Option<string>, t: int)
    requires cached != Some(current)
    ensures Run(LoadConfig(env), current, cached, t).summary.Some?
  {
  }
}

=== FILE: git_submodules.dfy ===
/** git-submodules/git-submodules.c: the monitor that walks a repository and
    its submodules, records each one's `git status --porcelain` output and
    writes a JSON report. The file system and git are parameters: a `Tree`
    says which directories are repositories, what `git status` prints in
    each and which lines its `.gitmodules` file holds. */
module GitSubmodules {
  import opened Wrappers
  import opened Text
  import opened PyDict
  import opened Json
  import opened JsonPath
  import opened ExpandVars

  // ---------------------------------------------------------------------
  // Configuration

  datatype Config = Config(
    repoPath: string,
    statusCache: string,
    maxDepth: int,
    checkInterval: int,
    cacheStatus: bool,
    reportChangesOnly: bool,
    includeParentStatus: bool)

  const DefaultRepoPath := "/home/owner/git/serverGenesis"
  const CacheVar := "XDG_CACHE_HOME"
  const CacheFallback := "~/.cache"
  const CacheFile := "/repowatch/git-submodules.cache"

  /** "${XDG_CACHE_HOME:-~/.cache}/repowatch/git-submodules.cache" */
  const CacheTemplate := "${" + CacheVar + ":-" + CacheFallback + "}" + CacheFile

  /** The configuration without an index file. */
  function Defaults(env: map<string, string>): Config {
    Config(DefaultRepoPath, CExpand(CacheTemplate, env), 3, 1, true, true, true)
  }

  /** The default cache file sits under `$XDG_CACHE_HOME`, or under a
      literal "~/.cache" (the "~" is never expanded). */
  lemma DefaultCachePath(env: map<string, string>)
    ensures CExpand(CacheTemplate, env)
            == (if CacheVar in env then env[CacheVar] else CacheFallback) + CacheFile
  {
    CPathTemplate(CacheVar, CacheFallback, CacheFile, env);
  }

  /** The string under `section.key`, if there is one. */
  function StringSetting(root: Value, section: string, key: string): Option<string> {
    match Member2(root, section, key)
    case Some(JString(s)) => Some(s)
    case _ => None
  }

  /** A number setting, converted with the `(int)` cast of the parsed
      double (`toInt`). */
  function NumberSetting(root: Value, section: string, key: string, toInt: string -> int, default: int): int {
    match Member2(root, section, key)
    case Some(JNumber(lexeme)) => toInt(lexeme)
    case _ => default
  }

  function BoolSetting(root: Value, section: string, key: string, default: bool): (b: bool)
    ensures b != default ==> Member2(root, section, key) == Some(JBool(b))
  {
    match Member2(root, section, key)
    case Some(JBool(b)) => b
    case _ => default
  }

  /** `load_config` over the parsed index file (`None` when it could not be
      read): each setting of the right type is taken, anything else falls
      back to its default. */
  function LoadConfig(root: Option<Value>, env: map<string, string>, toInt: string -> int): (c: Config)
    ensures root.None? || !root.value.JObject? ==> c == Defaults(env)
    ensures !c.cacheStatus ==> root.Some? && Member2(root.value, "config", "cache_status") == Some(JBool(false))
  {
    if root.None? || !root.value.JObject? then Defaults(env)
    else
      var v := root.value;
      Config(
        StringSetting(v, "paths", "repo_path").GetOr(DefaultRepoPath),
        CExpand(StringSetting(v, "paths", "status_cache").GetOr(CacheTemplate), env),
        NumberSetting(v, "config", "max_depth", toInt, 3),
        NumberSetting(v, "config", "check_interval", toInt, 1),
        BoolSetting(v, "config", "cache_status", true),
        BoolSetting(v, "config", "report_changes_only", true),
        BoolSetting(v, "config", "include_parent_status", true))
  }

  /** `get_nested_value(root, "section.key")` is the member lookup the
      settings use. */
  lemma SettingPath(v: Value, section: string, key: string, path: string)
    requires section != "" && '.' !in section && key != "" && '.' !in key
    requires path == section + "." + key
    ensures GetNestedValue(Some(v), path) == Member2(v, section, key)
  {
    Member2IsPath(v, section, key);
  }

  /** The repository path is the string at "paths.repo_path", else the
      built-in default. */
  lemma RepoPathSetting(v: Value, env: map<string, string>, toInt: string -> int)
    requires v.JObject?
    ensures LoadConfig(Some(v), env, toInt).repoPath
            == match GetNestedValue(Some(v), "paths.repo_path")
               case Some(JString(s)) => s
               case _ => DefaultRepoPath
  {
    SettingPath(v, "paths", "repo_path", "paths.repo_path");
  }

  /** The cache path is the expanded string at "paths.status_cache", else
      the expanded default template. */
  lemma CacheSetting(v: Value, env: map<string, string>, toInt: string -> int)
    requires v.JObject?
    ensures LoadConfig(Some(v), env, toInt).statusCache
            == match GetNestedValue(Some(v), "paths.status_cache")
               case Some(JString(s)) => CExpand(s, env)
               case _ => CExpand(CacheTemplate, env)
  {
    SettingPath(v, "paths", "status_cache", "paths.status_cache");
  }

  /** The depth limit is the number at "config.max_depth", else 3; a
      depth given as a string is ignored. */
  lemma DepthSetting(v: Value, env: map<string, string>, toInt: string -> int)
    requires v.JObject?
    ensures LoadConfig(Some(v), env, toInt).maxDepth
            == match GetNestedValue(Some(v), "config.max_depth")
               case Some(JNumber(n)) => toInt(n)
               case _ => 3
  {
    SettingPath(v, "config", "max_depth", "config.max_depth");
  }

  /** An index file without "paths" and "config" sections configures the
      same as no index file at all. */
  lemma NoSectionsMeansDefaults(v: Value, env: map<string, string>, toInt: string -> int)
    requires v.JObject? && "paths" !in Keys(v.entries) && "config" !in Keys(v.entries)
    ensures LoadConfig(Some(v), env, toInt) == LoadConfig(None, env, toInt)
  {
  }

  // ---------------------------------------------------------------------
  // .gitmodules

  /** Where the capture group of `path = (.+)` starts in a line as `fgets`
      returns it. Without REG_NEWLINE '.' also matches the newline, so the
      leftmost match runs to the end of the line; it needs one byte after
      "path = ". */
  function CaptureStart(line: string): (r: Option<nat>)
    ensures r.Some? ==> 7 <= r.value < |line| && OccursAt(line, "path = ", r.value - 7)
    ensures r.Some? ==> forall j :: 0 <= j < r.value - 7 ==> !OccursAt(line, "path = ", j)
    ensures r.None? ==> forall j :: 0 <= j && j + 7 < |line| ==> !OccursAt(line, "path = ", j)
  {
    match Find(line, "path = ")
    case Some(i) => if i + 7 < |line| then Some(i + 7) else None
    case None => None
  }

  /** The bytes the trailing-whitespace loop removes. */
  predicate IsTrailing(c: char) {
    c == '\n' || c == '\r' || c == ' ' || c == '\t'
  }

  /** The loop `while (end > path && ...)`: trailing newlines, returns,
      blanks and tabs go, but never the first byte. */
  function TrimCapture(s: string): (r: string)
    requires |s| >= 1
    ensures |r| >= 1 && IsPrefix(r, s)
    ensures |r| > 1 ==> !IsTrailing(r[|r| - 1])
    ensures forall i :: |r| <= i < |s| ==> IsTrailing(s[i])
  {
    if |s| > 1 && IsTrailing(s[|s| - 1]) then TrimCapture(s[..|s| - 1]) else s
  }

  /** The submodule path one line contributes, if it matches. */
  function GitmodulePath(line: string): (r: Option<string>)
    ensures r.Some? <==> CaptureStart(line).Some?
    ensures r.Some? ==> r.value != "" && IsPrefix(r.value, line[CaptureStart(line).value..])
  {
    match CaptureStart(line)
    case Some(k) => Some(TrimCapture(line[k..]))
    case None => None
  }

  /** The matching lines of a file. */
  function MatchCount(lines: seq<string>): nat {
    if |lines| == 0 then 0
    else (if CaptureStart(lines[0]).Some? then 1 else 0) + MatchCount(lines[1..])
  }

  function GitmodulePaths(lines: seq<string>): (r: seq<string>)
    ensures |r| == MatchCount(lines)
    ensures forall i :: 0 <= i < |r| ==> r[i] != ""
  {
    if |lines| == 0 then []
    else
      match GitmodulePath(lines[0])
      case Some(p) => [p] + GitmodulePaths(lines[1..])
      case None => GitmodulePaths(lines[1..])
  }

  /** `read_gitmodules`: one path per matching line, in file order. A file
      that cannot be opened, or has no match, gives none. Both passes read
      the same lines, so every counted line yields its path. */
  function ReadGitmodules(file: Option<seq<string>>): (r: seq<string>)
    ensures file.None? ==> r == []
    ensures file.Some? ==> |r| == MatchCount(file.value)
  {
    match file
    case None => []
    case Some(lines) => GitmodulePaths(lines)
  }

  /** The line `git submodule add` writes for a path. */
  function PathLine(p: string): string {
    "\tpath = " + p + "\n"
  }

  /** A path line gives back its path when the path does not end in
      whitespace. */
  lemma PathLineRoundTrip(p: string)
    requires p != "" && !IsTrailing(p[|p| - 1])
    ensures GitmodulePath(PathLine(p)) == Some(p)
  {
    var line := PathLine(p);
    SkipMismatch(line, "path = ", 0, 0);
    assert line[1..8] == "path = ";
    assert Find(line, "path = ") == Some(1);
    assert line[8..] == p + "\n";
    assert (p + "\n")[..|p|] == p;
  }

  function PathLines(ps: seq<string>): seq<string> {
    if |ps| == 0 then [] else [PathLine(ps[0])] + PathLines(ps[1..])
  }

  /** A file of path lines reads back as its paths. */
  lemma {:induction false} PathLinesRoundTrip(ps: seq<string>)
    requires forall i :: 0 <= i < |ps| ==> ps[i] != "" && !IsTrailing(ps[i][|ps[i]| - 1])
    ensures ReadGitmodules(Some(PathLines(ps))) == ps
  {
    if |ps| > 0 {
      PathLineRoundTrip(ps[0]);
      PathLinesRoundTrip(ps[1..]);
      assert PathLines(ps)[1..] == PathLines(ps[1..]);
    }
  }

  // ---------------------------------------------------------------------
  // The walk

  /** What the monitor sees of the file system: whether a path holds a
      `.git` entry, what `git status --porcelain` prints there (all lines
      joined; "" when the command cannot start) and the lines of its
      `.gitmodules` file, `None` when that cannot be opened. */
  datatype Tree = Tree(
    isRepo: string -> bool,
    status: string -> string,
    gitmodules: string -> Option<seq<string>>)

  /** One entry of the collection; `lastCheck` is the `time(NULL)` of the
      run. */
  datatype RepoStatus = RepoStatus(path: string, name: string, status: string, isClean: bool, lastCheck: int)

  /** An entry says what the tree says about its path. */
  predicate Recorded(t: Tree, r: RepoStatus) {
    t.isRepo(r.path) && r.status == t.status(r.path) && (r.isClean <==> r.status == "")
  }

  /** Depth levels left before `current_depth > max_depth`. */
  function Remaining(depth: int, maxDepth: int): nat {
    if depth > maxDepth then 0 else maxDepth - depth + 1
  }

  /** `collect_repo_status`: nothing beyond the depth limit or outside a
      repository; otherwise the repository itself, then each submodule of
      its `.gitmodules` in file order, one level deeper. */
  function Collect(t: Tree, path: string, name: string, depth: int, maxDepth: int, now: int): (r: seq<RepoStatus>)
    ensures |r| > 0 <==> depth <= maxDepth && t.isRepo(path)
    ensures |r| > 0 ==> r[0] == RepoStatus(path, name, t.status(path), t.status(path) == "", now)
    decreases Remaining(depth, maxDepth), 0, 0
  {
    if depth > maxDepth || !t.isRepo(path) then []
    else
      var status := t.status(path);
      [RepoStatus(path, name, status, status == "", now)]
      + CollectSubs(t, path, ReadGitmodules(t.gitmodules(path)), depth + 1, maxDepth, now)
  }

  /** The loop over a repository's submodule paths: the full path is
      "parent/sub" and the name is what follows the last '/'. */
  function CollectSubs(t: Tree, parent: string, subs: seq<string>, depth: int, maxDepth: int, now: int)
    : seq<RepoStatus>
    decreases Remaining(depth, maxDepth), 1, |subs|
  {
    if |subs| == 0 then []
    else
      Collect(t, parent + "/" + subs[0], AfterLast(subs[0], '/'), depth, maxDepth, now)
      + CollectSubs(t, parent, subs[1..], depth, maxDepth, now)
  }

  /** Every repository of `rs` is one the tree has, recorded with its
      status and the time `now`. */
  predicate AllRecorded(t: Tree, now: int, rs: seq<RepoStatus>) {
    forall i :: 0 <= i < |rs| ==> Recorded(t, rs[i]) && rs[i].lastCheck == now
  }

  /** Every repository collected is one the tree has, recorded with its
      status and the time of the walk. */
  lemma {:induction false} CollectRecorded(t: Tree, path: string, name: string, depth: int, maxDepth: int, now: int)
    ensures AllRecorded(t, now, Collect(t, path, name, depth, maxDepth, now))
    decreases Remaining(depth, maxDepth), 0, 0
  {
    if depth <= maxDepth && t.isRepo(path) {
      var status := t.status(path);
      var subs := CollectSubs(t, path, ReadGitmodules(t.gitmodules(path)), depth + 1, maxDepth, now);
      CollectSubsRecorded(t, path, ReadGitmodules(t.gitmodules(path)), depth + 1, maxDepth, now);
      RecordedAppend(t, now, [RepoStatus(path, name, status, status == "", now)], subs);
    }
  }

  lemma {:induction false} CollectSubsRecorded(t: Tree, parent: string, subs: seq<string>, depth: int, maxDepth: int,
                                               now: int)
    ensures AllRecorded(t, now, CollectSubs(t, parent, subs, depth, maxDepth, now))
    decreases Remaining(depth, maxDepth), 1, |subs|
  {
    if |subs| > 0 {
      CollectRecorded(t, parent + "/" + subs[0], AfterLast(subs[0], '/'), depth, maxDepth, now);
      CollectSubsRecorded(t, parent, subs[1..], depth, maxDepth, now);
      RecordedAppend(t, now, Collect(t, parent + "/" + subs[0], AfterLast(subs[0], '/'), depth, maxDepth, now),
                     CollectSubs(t, parent, subs[1..], depth, maxDepth, now));
    }
  }

  lemma RecordedAppend(t: Tree, now: int, a: seq<RepoStatus>, b: seq<RepoStatus>)
    requires AllRecorded(t, now, a) && AllRecorded(t, now, b)
    ensures AllRecorded(t, now, a + b)
  {
    assert forall i :: |a| <= i < |a + b| ==> (a + b)[i] == b[i - |a|];
  }

  /** Every repository of `rs` lies under `parent` and is named by a single
      path component. */
  predicate Under(parent: string, rs: seq<RepoStatus>) {
    forall i :: 0 <= i < |rs| ==> '/' !in rs[i].name && IsPrefix(parent + "/", rs[i].path)
  }

  /** Below the top, every repository collected lies under the starting
      path and is named by a single path component. */
  lemma {:induction false} CollectUnder(t: Tree, path: string, name: string, depth: int, maxDepth: int, now: int)
    ensures var r := Collect(t, path, name, depth, maxDepth, now);
            |r| > 0 ==> Under(path, r[1..])
    decreases Remaining(depth, maxDepth), 0, 0
  {
    if depth <= maxDepth && t.isRepo(path) {
      var r := Collect(t, path, name, depth, maxDepth, now);
      CollectSubsUnder(t, path, ReadGitmodules(t.gitmodules(path)), depth + 1, maxDepth, now);
      assert r[1..] == CollectSubs(t, path, ReadGitmodules(t.gitmodules(path)), depth + 1, maxDepth, now);
    }
  }

  lemma {:induction false} CollectSubsUnder(t: Tree, parent: string, subs: seq<string>, depth: int, maxDepth: int,
                                            now: int)
    ensures Under(parent, CollectSubs(t, parent, subs, depth, maxDepth, now))
    decreases Remaining(depth, maxDepth), 1, |subs|
  {
    if |subs| > 0 {
      var child := parent + "/" + subs[0];
      var here := Collect(t, child, AfterLast(subs[0], '/'), depth, maxDepth, now);
      CollectUnder(t, child, AfterLast(subs[0], '/'), depth, maxDepth, now);
      UnderParent(parent, subs[0], here);
      CollectSubsUnder(t, parent, subs[1..], depth, maxDepth, now);
      UnderAppend(parent, here, CollectSubs(t, parent, subs[1..], depth, maxDepth, now));
    }
  }

  /** What the walk from the submodule `sub` of `parent` finds lies under
      `parent`. */
  lemma UnderParent(parent: string, sub: string, r: seq<RepoStatus>)
    requires |r| > 0 ==> r[0].path == parent + "/" + sub && r[0].name == AfterLast(sub, '/')
    requires |r| > 0 ==> Under(parent + "/" + sub, r[1..])
    ensures Under(parent, r)
  {
    var child := parent + "/" + sub;
    assert (child + "/")[..|parent + "/"|] == parent + "/";
    assert child[..|parent + "/"|] == parent + "/";
    forall i | 0 <= i < |r|
      ensures '/' !in r[i].name && IsPrefix(parent + "/", r[i].path)
    {
      if i > 0 {
        assert r[i] == r[1..][i - 1];
        assert r[i].path[..|child + "/"|] == child + "/";
        assert r[i].path[..|parent + "/"|] == (child + "/")[..|parent + "/"|];
      }
    }
  }

  lemma UnderAppend(parent: string, a: seq<RepoStatus>, b: seq<RepoStatus>)
    requires Under(parent, a) && Under(parent, b)
    ensures Under(parent, a + b)
  {
    assert forall i :: |a| <= i < |a + b| ==> (a + b)[i] == b[i - |a|];
  }

  /** Below the depth limit the loop visits nothing. */
  lemma {:induction false} NothingBelowLimit(t: Tree, parent: string, subs: seq<string>, depth: int, maxDepth: int, now: int)
    requires depth > maxDepth
    ensures CollectSubs(t, parent, subs, depth, maxDepth, now) == []
    decreases |subs|
  {
    if |subs| > 0 {
      NothingBelowLimit(t, parent, subs[1..], depth, maxDepth, now);
    }
  }

  /** A repository at the depth limit is recorded without its
      submodules. */
  lemma AtDepthLimit(t: Tree, path: string, name: string, depth: int, now: int)
    requires t.isRepo(path)
    ensures Collect(t, path, name, depth, depth, now)
            == [RepoStatus(path, name, t.status(path), t.status(path) == "", now)]
  {
    NothingBelowLimit(t, path, ReadGitmodules(t.gitmodules(path)), depth + 1, depth, now);
  }

  /** Submodules that are not checked out (no `.git` of their own) are
      skipped without a trace. */
  lemma {:induction false} SkipsNonRepositories(t: Tree, parent: string, subs: seq<string>, depth: int, maxDepth: int, now: int)
    requires forall i :: 0 <= i < |subs| ==> !t.isRepo(parent + "/" + subs[i])
    ensures CollectSubs(t, parent, subs, depth, maxDepth, now) == []
    decreases |subs|
  {
    if |subs| > 0 {
      SkipsNonRepositories(t, parent, subs[1..], depth, maxDepth, now);
    }
  }

  // ---------------------------------------------------------------------
  // The report

  function CleanCount(rs: seq<RepoStatus>): nat {
    if |rs| == 0 then 0 else (if rs[0].isClean then 1 else 0) + CleanCount(rs[1..])
  }

  function DirtyCount(rs: seq<RepoStatus>): nat {
    if |rs| == 0 then 0 else (if rs[0].isClean then 0 else 1) + DirtyCount(rs[1..])
  }

  /** Every repository is counted once, as clean or as dirty. */
  lemma {:induction false} CountsAddUp(rs: seq<RepoStatus>)
    ensures CleanCount(rs) + DirtyCount(rs) == |rs|
  {
    if |rs| > 0 {
      CountsAddUp(rs[1..]);
    }
  }

  /** The "status" word of a report entry. */
  function StatusWord(r: RepoStatus): string {
    if r.isClean then "CLEAN" else "DIRTY"
  }

  /** The "changes" text of a report entry: nothing for a clean one. */
  function ChangesText(r: RepoStatus): string {
    if r.isClean then "" else r.status
  }

  /** A repository's object in the report. */
  function RepoObject(r: RepoStatus): Value
  {
    JObject([
      ("name", JString(r.name)),
      ("path", JString(r.path)),
      ("is_clean", JBool(r.isClean)),
      ("last_check", JNumber(IntToString(r.lastCheck))),
      ("status", JString(StatusWord(r))),
      ("changes", JString(ChangesText(r)))])
  }

  /** What a reader of the report finds in a repository's object. */
  lemma RepoObjectFields(r: RepoStatus)
    ensures Member(RepoObject(r), "name") == Some(JString(r.name))
    ensures Member(RepoObject(r), "path") == Some(JString(r.path))
    ensures Member(RepoObject(r), "status") == Some(JString(StatusWord(r)))
    ensures Member(RepoObject(r), "changes") == Some(JString(ChangesText(r)))
    ensures "submodules" !in Keys(RepoObject(r).entries)
  {
    NameAndPath(r);
    StatusAndChanges(r);
    NoSubmodules(r);
  }

  lemma NoSubmodules(r: RepoStatus)
    ensures "submodules" !in Keys(RepoObject(r).entries)
  {
    var ks := Keys(RepoObject(r).entries);
    assert ks == ["name", "path", "is_clean", "last_check", "status", "changes"];
  }

  lemma NameAndPath(r: RepoStatus)
    ensures Member(RepoObject(r), "name") == Some(JString(r.name))
    ensures Member(RepoObject(r), "path") == Some(JString(r.path))
  {
    ObjectField(r, 0, "name");
    ObjectField(r, 1, "path");
  }

  lemma StatusAndChanges(r: RepoStatus)
    ensures Member(RepoObject(r), "status") == Some(JString(StatusWord(r)))
    ensures Member(RepoObject(r), "changes") == Some(JString(ChangesText(r)))
  {
    StatusField(r);
    ChangesField(r);
  }

  lemma StatusField(r: RepoStatus)
    ensures Member(RepoObject(r), "status") == Some(JString(StatusWord(r)))
  {
    ObjectField(r, 4, "status");
  }

  lemma ChangesField(r: RepoStatus)
    ensures Member(RepoObject(r), "changes") == Some(JString(ChangesText(r)))
  {
    ObjectField(r, 5, "changes");
  }

  lemma ObjectField(r: RepoStatus, i: nat, key: string)
    requires i < 6 && RepoObject(r).entries[i].0 == key
    requires forall j :: 0 <= j < i ==> RepoObject(r).entries[j].0 != key
    ensures Member(RepoObject(r), key) == Some(RepoObject(r).entries[i].1)
  {
    GetFirst(RepoObject(r).entries, i, key);
  }

  function RepoObjects(rs: seq<RepoStatus>): (r: seq<Value>)
    ensures |r| == |rs|
  {
    if |rs| == 0 then [] else [RepoObject(rs[0])] + RepoObjects(rs[1..])
  }

  /** A count as the report holds it: its decimal digits. */
  function CountText(n: nat): string {
    NatToString(n)
  }

  function SummaryObject(rs: seq<RepoStatus>): Value {
    JObject([
      ("clean_repositories", JNumber(CountText(CleanCount(rs)))),
      ("dirty_repositories", JNumber(CountText(DirtyCount(rs))))])
  }

  /** `generate_json_report`: the object written to
      "git-submodules.report". */
  function Report(rs: seq<RepoStatus>, repoPath: string, now: int): (r: Value)
    ensures r.JObject? && UniqueKeys(r.entries)
  {
    JObject([
      ("report_type", JString("git_submodules_status")),
      ("root_repository", JString(repoPath)),
      ("timestamp", JNumber(IntToString(now))),
      ("total_repositories_checked", JNumber(CountText(|rs|))),
      ("repositories", JArray(RepoObjects(rs))),
      ("summary", SummaryObject(rs))])
  }

  /** A count as a reader takes it from the report: the decimal text of a
      number. */
  function CountField(x: Option<Value>): Option<nat> {
    match x
    case Some(JNumber(lexeme)) => ParseNat(lexeme)
    case _ => None
  }

  /** The report's entries, one object per collected repository, in
      collection order. */
  lemma ReportEntries(rs: seq<RepoStatus>, repoPath: string, now: int)
    ensures Member(Report(rs, repoPath, now), "repositories") == Some(JArray(RepoObjects(rs)))
  {
    ReportField(rs, repoPath, now, 4, "repositories");
  }

  /** The total a reader takes from the report is the clean count plus the
      dirty count. */
  lemma ReportTotal(rs: seq<RepoStatus>, repoPath: string, now: int)
    ensures CountField(Member(Report(rs, repoPath, now), "total_repositories_checked"))
            == Some(CleanCount(rs) + DirtyCount(rs))
  {
    ReportField(rs, repoPath, now, 3, "total_repositories_checked");
    CountsAddUp(rs);
    NatToStringRoundTrip(|rs|);
  }

  /** The clean and dirty counts a reader takes from the summary. */
  lemma ReportSummary(rs: seq<RepoStatus>, repoPath: string, now: int)
    ensures CountField(Member2(Report(rs, repoPath, now), "summary", "clean_repositories")) == Some(CleanCount(rs))
    ensures CountField(Member2(Report(rs, repoPath, now), "summary", "dirty_repositories")) == Some(DirtyCount(rs))
  {
    ReportField(rs, repoPath, now, 5, "summary");
    SummaryCounts(rs);
    NatToStringRoundTrip(CleanCount(rs));
    NatToStringRoundTrip(DirtyCount(rs));
  }

  lemma ReportField(rs: seq<RepoStatus>, repoPath: string, now: int, i: nat, key: string)
    requires i < 6 && Report(rs, repoPath, now).entries[i].0 == key
    requires forall j :: 0 <= j < i ==> Report(rs, repoPath, now).entries[j].0 != key
    ensures Member(Report(rs, repoPath, now), key) == Some(Report(rs, repoPath, now).entries[i].1)
  {
    GetFirst(Report(rs, repoPath, now).entries, i, key);
  }

  lemma SummaryCounts(rs: seq<RepoStatus>)
    ensures Member(SummaryObject(rs), "clean_repositories") == Some(JNumber(CountText(CleanCount(rs))))
    ensures Member(SummaryObject(rs), "dirty_repositories") == Some(JNumber(CountText(DirtyCount(rs))))
  {
    GetFirst(SummaryObject(rs).entries, 0, "clean_repositories");
    GetFirst(SummaryObject(rs).entries, 1, "dirty_repositories");
  }

  // ---------------------------------------------------------------------
  // Standard output

  /** The line `main` prints for a dirty repository. */
  function ListingLine(r: RepoStatus): string {
    "  - " + r.name + " (" + r.path + ")\n"
  }

  /** The listing lines of the dirty repositories, in collection order. */
  function DirtyLines(rs: seq<RepoStatus>): (r: seq<string>)
    ensures |r| == DirtyCount(rs)
  {
    if |rs| == 0 then []
    else (if rs[0].isClean then [] else [ListingLine(rs[0])]) + DirtyLines(rs[1..])
  }

  /** The lines before the dirty listing. */
  function Preamble(c: Config, rs: seq<RepoStatus>): seq<string> {
    [ Starting,
      "Monitoring repository: " + c.repoPath + " (max depth: " + IntToString(c.maxDepth) + ")\n",
      "Checked " + NatToString(|rs|) + " repositories\n",
      "Report generated\n",
      "Repository status summary:\n",
      "  Clean: " + NatToString(CleanCount(rs)) + "\n",
      "  Dirty: " + NatToString(DirtyCount(rs)) + "\n"]
  }

  const Starting := "Git Submodules Monitor starting...\n"
  const DirtyHeading := "Dirty repositories:\n"
  const Completed := "Git Submodules Monitor completed\n"

  /** The lines after the counts: the heading "Dirty repositories:" and
      the listing only when a repository is dirty, then the closing
      line. */
  function Closing(rs: seq<RepoStatus>): (lines: seq<string>)
    ensures |lines| == 1 + (if DirtyCount(rs) > 0 then 1 + DirtyCount(rs) else 0)
    ensures lines[|lines| - 1] == Completed
  {
    if DirtyCount(rs) > 0 then [DirtyHeading] + (DirtyLines(rs) + [Completed]) else [Completed]
  }

  /** `main`'s standard output for a configuration and a collection. */
  function MonitorOutput(c: Config, rs: seq<RepoStatus>): seq<string> {
    Preamble(c, rs) + Closing(rs)
  }

  /** `main`: the configuration, the walk from the configured path as
      "root" at depth 0, the report and the printed lines. */
  function Run(root: Option<Value>, env: map<string, string>, toInt: string -> int, t: Tree, now: int)
    : (r: (Value, seq<string>))
    ensures r.0.JObject? && UniqueKeys(r.0.entries)
    ensures r.1 == MonitorOutput(LoadConfig(root, env, toInt), Collect(t, LoadConfig(root, env, toInt).repoPath, "root", 0, LoadConfig(root, env, toInt).maxDepth, now))
  {
    var c := LoadConfig(root, env, toInt);
    var rs := Collect(t, c.repoPath, "root", 0, c.maxDepth, now);
    (Report(rs, c.repoPath, now), MonitorOutput(c, rs))
  }

  /** The output opens with the start line and ends with the completion
      line, with at least the six count lines between them. */
  lemma MonitorOutputShape(c: Config, rs: seq<RepoStatus>)
    ensures var out := MonitorOutput(c, rs);
            |out| >= 8 && out[0] == Starting && out[|out| - 1] == Completed
  {
    var pre := Preamble(c, rs);
    var close := Closing(rs);
    assert |pre| == 7 && |close| >= 1;
    assert MonitorOutput(c, rs) == pre + close;
    assert (pre + close)[|pre + close| - 1] == close[|close| - 1];
  }
}

=== FILE: git_tracker.dfy ===
/** git_tracker.py: `GitTracker` reads `git status` and `git log` either
    through GitPython or, as a fallback, through subprocess output. The
    command output is a parameter: `Option<(int, string)>` is a run's exit
    code and standard output, None when the command timed out or git is
    missing. Timestamps are integers; parsing git's date text is a
    parameter. */
module GitTracker {
  import opened Wrappers
  import opened Text

  /** `GitFileStatus`. */
  datatype FileStatus = FileStatus(path: string, status: string, staged: bool)

  /** `GitCommit`. */
  datatype Commit = Commit(sha: string, message: string, author: string, timestamp: int, files: seq<string>)

  /** The codes `_normalize_status` knows by name. */
  const StatusNames: map<string, string> :=
    map["A" := "added", "M" := "modified", "D" := "deleted", "R" := "renamed",
        "C" := "copied", "U" := "updated", "?" := "untracked"]

  /** The names `status_symbol` knows by symbol. */
  const Symbols: map<string, string> :=
    map["modified" := "M", "added" := "A", "deleted" := "D", "untracked" := "?", "renamed" := "R"]

  /** `_normalize_status`: a known code by name, anything else lower-cased. */
  function NormalizeStatus(code: string): (r: string)
    ensures code in StatusNames ==> r == StatusNames[code]
    ensures code !in StatusNames ==> r == Lower(code)
  {
    if code in StatusNames then StatusNames[code] else Lower(code)
  }

  /** `status_symbol`: the fixed symbol, else the upper-cased first
      character; None where `status[0]` raises on an empty status. */
  function StatusSymbol(status: string): (r: Option<string>)
    ensures r.None? <==> status == ""
    ensures status in Symbols ==> r == Some(Symbols[status])
    ensures status !in Symbols && status != "" ==> r == Some([AsciiUpper(status[0])])
  {
    if status in Symbols then Some(Symbols[status])
    else if status == "" then None
    else Some([AsciiUpper(status[0])])
  }

  /** Every one-letter code the status map knows comes back from its name as
      its own symbol, and so does any other upper-case letter: naming a
      status and taking its symbol undo each other. */
  lemma SymbolOfNormalized(c: char)
    requires [c] in StatusNames || 'A' <= c <= 'Z'
    ensures StatusSymbol(NormalizeStatus([c])) == Some([c])
  {
    if [c] !in StatusNames {
      assert Lower([c]) == [AsciiLower(c)];
      assert AsciiUpper(AsciiLower(c)) == c;
    }
  }

  /** `_parse_porcelain_status` on the two status columns: a non-blank
      worktree column wins (unstaged), else the index column (staged), else
      "unknown". None where indexing a code shorter than two characters
      raises. */
  function ParsePorcelainStatus(code: string): (r: Option<(string, bool)>)
    ensures r.None? <==> |code| < 2
    ensures |code| >= 2 && code[1] != ' ' ==> r == Some((NormalizeStatus([code[1]]), false))
    ensures |code| >= 2 && code[1] == ' ' && code[0] != ' ' ==> r == Some((NormalizeStatus([code[0]]), true))
    ensures |code| >= 2 && code[0] == ' ' && code[1] == ' ' ==> r == Some(("unknown", false))
  {
    if |code| < 2 then None
    else if code[1] != ' ' then Some((NormalizeStatus([code[1]]), false))
    else if code[0] != ' ' then Some((NormalizeStatus([code[0]]), true))
    else Some(("unknown", false))
  }

  /** A file staged and then changed again reports only its worktree change. */
  lemma UnstagedWins()
    ensures ParsePorcelainStatus("MD") == Some(("deleted", false))
    ensures ParsePorcelainStatus("A ") == Some(("added", true))
  {
  }

  /** One non-blank porcelain line: code `line[:2]`, path `line[2:].strip()`. */
  function StatusLine(line: string): (r: Option<FileStatus>)
    ensures r.None? <==> |line| < 2
    ensures r.Some? ==> r.value.path == PyStrip(Drop(line, 2))
    ensures r.Some? ==> ParsePorcelainStatus(Take(line, 2)) == Some((r.value.status, r.value.staged))
  {
    match ParsePorcelainStatus(Take(line, 2))
    case None => None
    case Some(st) => Some(FileStatus(PyStrip(Drop(line, 2)), st.0, st.1))
  }

  /** The entries of the non-blank lines, in order; None when a line is too
      short (the `IndexError` escapes `_get_status_subprocess`). */
  function StatusLines(lines: seq<string>): Option<seq<FileStatus>> {
    AllSome(StatusLine, lines)
  }

  /** The parse succeeds exactly when every line has its two status columns,
      and then gives one entry per line, in order. */
  lemma StatusLinesSpec(lines: seq<string>)
    ensures StatusLines(lines).Some? <==> forall i :: 0 <= i < |lines| ==> |lines[i]| >= 2
    ensures StatusLines(lines).Some? ==>
              |StatusLines(lines).value| == |lines|
              && forall i :: 0 <= i < |lines| ==> Some(StatusLines(lines).value[i]) == StatusLine(lines[i])
  {
    AllSomeSucceeds(StatusLine, lines);
    if StatusLines(lines).Some? {
      AllSomeValues(StatusLine, lines);
    }
  }

  /** `_get_status_subprocess` given the outcome of `git status --porcelain`. */
  function SubprocessStatus(run: Option<(int, string)>): (r: Option<seq<FileStatus>>)
    ensures run.None? || run.value.0 != 0 ==> r == Some([])
    ensures run.Some? && run.value.0 == 0 ==> r == StatusLines(NonBlank(Split(run.value.1, '\n')))
  {
    match run
    case None => Some([])
    case Some((code, out)) =>
      if code != 0 then Some([]) else StatusLines(NonBlank(Split(out, '\n')))
  }

  /** The porcelain line git prints for one file. */
  function PorcelainLine(x: char, y: char, path: string): string {
    [x, y, ' '] + path
  }

  /** Printing a file's porcelain line and parsing it back gives the file
      with the status the column precedence picks. */
  lemma PorcelainRoundTrip(x: char, y: char, path: string)
    requires x != ' ' || y != ' '
    requires x != '\n' && y != '\n'
    requires |path| > 0 && !IsPySpace(path[0]) && !IsPySpace(path[|path| - 1]) && '\n' !in path
    ensures var st := ParsePorcelainStatus([x, y]).value;
            SubprocessStatus(Some((0, PorcelainLine(x, y, path)))) == Some([FileStatus(path, st.0, st.1)])
  {
    var line := PorcelainLine(x, y, path);
    PorcelainOneLine(x, y, path);
    PorcelainEntry(x, y, path);
    AllSomeOne(StatusLine, line);
  }

  /** A porcelain line is one non-blank line of output. */
  lemma PorcelainOneLine(x: char, y: char, path: string)
    requires x != '\n' && y != '\n'
    requires |path| > 0 && !IsPySpace(path[0]) && '\n' !in path
    ensures NonBlank(Split(PorcelainLine(x, y, path), '\n')) == [PorcelainLine(x, y, path)]
  {
    var line := PorcelainLine(x, y, path);
    assert '\n' !in line by {
      assert forall i :: 3 <= i < |line| ==> line[i] == path[i - 3];
    }
    assert line[3] == path[0];
    OneLine(line, 3);
  }

  /** A porcelain line reads back as its path with the status of its columns. */
  lemma PorcelainEntry(x: char, y: char, path: string)
    requires |path| > 0 && !IsPySpace(path[0]) && !IsPySpace(path[|path| - 1])
    ensures var st := ParsePorcelainStatus([x, y]).value;
            StatusLine(PorcelainLine(x, y, path)) == Some(FileStatus(path, st.0, st.1))
  {
    var line := PorcelainLine(x, y, path);
    assert Take(line, 2) == [x, y];
    assert Drop(line, 2) == [' '] + path;
    assert PyLStrip([' '] + path) == PyLStrip(path);
    StripClean(path);
  }

  /** One line of `git diff --name-status`: the status before the first tab
      and the path after it; None where the two-name unpacking raises. */
  function NameStatusLine(line: string, staged: bool): (r: Option<FileStatus>)
    ensures r.None? <==> '\t' !in line
  {
    var parts := SplitMax(line, '\t', 1);
    if |parts| < 2 then None
    else Some(FileStatus(parts[1], NormalizeStatus(parts[0]), staged))
  }

  /** A line with a tab gives its normalised status code, the text after
      the first tab as the path, and the staged flag it was read with. */
  lemma NameStatusLineParts(line: string, staged: bool)
    requires '\t' in line
    ensures var r := NameStatusLine(line, staged).value;
            var code := SplitMax(line, '\t', 1)[0];
            '\t' !in code && code + "\t" + r.path == line
            && r.status == NormalizeStatus(code) && r.staged == staged
  {
    var parts := SplitMax(line, '\t', 1);
    assert Join(parts, "\t") == parts[0] + "\t" + Join(parts[1..], "\t");
  }

  /** The entries of `--name-status` lines read with one staged flag. */
  function NameStatusLines(lines: seq<string>, staged: bool): Option<seq<FileStatus>> {
    AllSome(line => NameStatusLine(line, staged), lines)
  }

  /** The parse succeeds exactly when every line has a tab, and then gives
      one entry per line, in order. */
  lemma NameStatusLinesSpec(lines: seq<string>, staged: bool)
    ensures NameStatusLines(lines, staged).Some? <==> forall i :: 0 <= i < |lines| ==> '\t' in lines[i]
    ensures NameStatusLines(lines, staged).Some? ==>
              |NameStatusLines(lines, staged).value| == |lines|
              && forall i :: 0 <= i < |lines| ==>
                   Some(NameStatusLines(lines, staged).value[i]) == NameStatusLine(lines[i], staged)
  {
    var f := line => NameStatusLine(line, staged);
    AllSomeSucceeds(f, lines);
    if NameStatusLines(lines, staged).Some? {
      AllSomeValues(f, lines);
    }
  }

  /** The entries of one `--name-status` output: nothing for empty output. */
  function NameStatusOutput(out: string, staged: bool): (r: Option<seq<FileStatus>>)
    ensures out == "" ==> r == Some([])
    ensures r.Some? ==> forall i :: 0 <= i < |r.value| ==> r.value[i].staged == staged
  {
    if out == "" then Some([])
    else
      NameStatusLinesSpec(NonBlank(Split(out, '\n')), staged);
      NameStatusLines(NonBlank(Split(out, '\n')), staged)
  }

  function Untracked(paths: seq<string>): (r: seq<FileStatus>)
    ensures |r| == |paths|
    ensures forall i :: 0 <= i < |paths| ==> r[i] == FileStatus(paths[i], "untracked", false)
  {
    if |paths| == 0 then [] else [FileStatus(paths[0], "untracked", false)] + Untracked(paths[1..])
  }

  /** `_get_status_gitpython` on the outputs of `git diff --cached
      --name-status`, `git diff --name-status` and the untracked paths: the
      three lists concatenated. None where a line lacks its tab (the method
      then falls back to the subprocess). */
  function GitPythonStatus(cached: string, worktree: string, untracked: seq<string>): (r: Option<seq<FileStatus>>)
    ensures r.Some? <==> NameStatusOutput(cached, true).Some? && NameStatusOutput(worktree, false).Some?
    ensures r.Some? ==> r.value == NameStatusOutput(cached, true).value + NameStatusOutput(worktree, false).value
                                   + Untracked(untracked)
  {
    var s :- NameStatusOutput(cached, true);
    var u :- NameStatusOutput(worktree, false);
    Some(s + u + Untracked(untracked))
  }

  /** A path changed in both the index and the worktree is listed twice,
      once staged and once not. */
  lemma BothChangedListedTwice(path: string)
    requires '\n' !in path && '\t' !in path
    ensures GitPythonStatus("M\t" + path, "M\t" + path, [])
            == Some([FileStatus(path, "modified", true), FileStatus(path, "modified", false)])
  {
    OneNameStatusLine(path, true);
    OneNameStatusLine(path, false);
    assert Untracked([]) == [];
    var a, b := FileStatus(path, "modified", true), FileStatus(path, "modified", false);
    assert [a] + [b] + [] == [a, b];
  }

  lemma OneNameStatusLine(path: string, staged: bool)
    requires '\n' !in path && '\t' !in path
    ensures NameStatusOutput("M\t" + path, staged) == Some([FileStatus(path, "modified", staged)])
  {
    var line := "M\t" + path;
    NameStatusOneLine(path);
    NameStatusModified(path, staged);
    AllSomeOne(line => NameStatusLine(line, staged), line);
  }

  /** A `--name-status` line without a newline is one non-blank line. */
  lemma NameStatusOneLine(path: string)
    requires '\n' !in path
    ensures NonBlank(Split("M\t" + path, '\n')) == ["M\t" + path]
  {
    var line := "M\t" + path;
    assert '\n' !in line by {
      assert forall i :: 2 <= i < |line| ==> line[i] == path[i - 2];
    }
    OneLine(line, 0);
  }

  /** A modified file's line reads back as that file. */
  lemma NameStatusModified(path: string, staged: bool)
    requires '\t' !in path
    ensures NameStatusLine("M\t" + path, staged) == Some(FileStatus(path, "modified", staged))
  {
    SplitMaxHead("M", path, '\t', 1);
    assert "M\t" + path == "M" + ['\t'] + path;
    assert SplitMax(path, '\t', 0) == [path];
  }

  /** `get_status`: GitPython's answer when it has one (None when there is no
      repository object or it failed), else the subprocess's; None when the
      subprocess parse raises. */
  function GetStatus(gitpython: Option<(string, string, seq<string>)>, run: Option<(int, string)>)
    : (r: Option<seq<FileStatus>>)
    ensures gitpython.Some? && GitPythonStatus(gitpython.value.0, gitpython.value.1, gitpython.value.2).Some?
            ==> r == GitPythonStatus(gitpython.value.0, gitpython.value.1, gitpython.value.2)
    ensures gitpython.Some? && GitPythonStatus(gitpython.value.0, gitpython.value.1, gitpython.value.2).None?
            ==> r == SubprocessStatus(run)
    ensures gitpython.None? ==> r == SubprocessStatus(run)
  {
    match gitpython
    case Some((c, w, u)) =>
      (match GitPythonStatus(c, w, u)
       case Some(st) => Some(st)
       case None => SubprocessStatus(run))
    case None => SubprocessStatus(run)
  }

  /** `is_clean`: no status entries. */
  function IsClean(gitpython: Option<(string, string, seq<string>)>, run: Option<(int, string)>): (r: Option<bool>)
    ensures r == Some(true) <==> GetStatus(gitpython, run) == Some([])
    ensures r.None? <==> GetStatus(gitpython, run).None?
  {
    match GetStatus(gitpython, run)
    case None => None
    case Some(st) => Some(|st| == 0)
  }

  /** A failed `git status` run reads as a clean repository. */
  lemma FailedRunLooksClean(code: int, out: string)
    requires code != 0
    ensures IsClean(None, Some((code, out))) == Some(true)
    ensures IsClean(None, None) == Some(true)
  {
  }

  /** `short_sha`: the first eight characters. */
  function ShortSha(sha: string): (r: string)
    ensures IsPrefix(r, sha)
    ensures |r| == if |sha| < 8 then |sha| else 8
  {
    Take(sha, 8)
  }

  /** `summary`: the message up to its first newline. */
  function Summary(message: string): (r: string)
    ensures IsPrefix(r, message) && '\n' !in r
    ensures |r| < |message| ==> message[|r|] == '\n'
  {
    var parts := Split(message, '\n');
    JoinHeadPrefix(parts);
    parts[0]
  }

  /** The first piece of a join starts it and is followed by the separator. */
  lemma JoinHeadPrefix(parts: seq<string>)
    requires |parts| >= 1
    ensures IsPrefix(parts[0], Join(parts, "\n"))
    ensures |parts[0]| < |Join(parts, "\n")| ==> Join(parts, "\n")[|parts[0]|] == '\n'
  {
    if |parts| > 1 {
      assert Join(parts, "\n") == parts[0] + "\n" + Join(parts[1..], "\n");
    }
  }

  /** One line of `git log --pretty=format:%H|%s|%an|%ai`: split at the first
      three '|', kept only with all four fields; a date that does not parse
      becomes `now`. Files are never filled in. */
  function LogLine(line: string, parseTime: string -> Option<int>, now: int): (r: Option<Commit>)
    ensures r.Some? <==> |SplitMax(line, '|', 3)| == 4
    ensures r.Some? ==> r.value.files == []
    ensures r.Some? ==> '|' !in r.value.sha && '|' !in r.value.message && '|' !in r.value.author
    ensures r.Some? ==> r.value.timestamp == parseTime(SplitMax(line, '|', 3)[3]).GetOr(now)
  {
    var parts := SplitMax(line, '|', 3);
    if |parts| >= 4 then
      Some(Commit(parts[0], parts[1], parts[2], parseTime(parts[3]).GetOr(now), []))
    else None
  }

  /** The commits read from the non-blank lines of the log, a line that
      does not hold four fields yielding none. */
  function LogLines(lines: seq<string>, parseTime: string -> Option<int>, now: int): (r: seq<Commit>)
    ensures |r| <= |lines|
    ensures forall c :: c in r ==> c.files == []
    ensures |lines| == 1 && LogLine(lines[0], parseTime, now).None? ==> r == []
    ensures |lines| == 1 && LogLine(lines[0], parseTime, now).Some? ==> r == [LogLine(lines[0], parseTime, now).value]
  {
    if |lines| == 0 then []
    else
      (match LogLine(lines[0], parseTime, now) case None => [] case Some(c) => [c])
      + LogLines(lines[1..], parseTime, now)
  }

  /** `_get_commits_subprocess` given the outcome of the `git log` run. */
  function SubprocessCommits(run: Option<(int, string)>, parseTime: string -> Option<int>, now: int): (r: seq<Commit>)
    ensures run.None? || run.value.0 != 0 ==> r == []
    ensures run.Some? && run.value.0 == 0 ==> r == LogLines(NonBlank(Split(run.value.1, '\n')), parseTime, now)
    ensures forall c :: c in r ==> c.files == []
  {
    match run
    case None => []
    case Some((code, out)) =>
      if code != 0 then [] else LogLines(NonBlank(Split(out, '\n')), parseTime, now)
  }

  /** The log line git prints for a commit. */
  function LogFormat(sha: string, subject: string, author: string, date: string): string {
    sha + "|" + subject + "|" + author + "|" + date
  }

  /** Parsing the line printed for a commit gives back its hash, subject and
      author, as long as none of them holds a '|'; the date may hold any. */
  lemma LogLineRoundTrip(sha: string, subject: string, author: string, date: string,
                         parseTime: string -> Option<int>, now: int)
    requires '|' !in sha && '|' !in subject && '|' !in author
    ensures var c := LogLine(LogFormat(sha, subject, author, date), parseTime, now);
            c == Some(Commit(sha, subject, author, parseTime(date).GetOr(now), []))
  {
    var rest2 := author + ['|'] + date;
    var rest1 := subject + ['|'] + rest2;
    assert LogFormat(sha, subject, author, date) == sha + ['|'] + rest1;
    SplitMaxHead(sha, rest1, '|', 3);
    SplitMaxHead(subject, rest2, '|', 2);
    SplitMaxHead(author, date, '|', 1);
    assert SplitMax(date, '|', 0) == [date];
  }

  /** The log of two runs of lines is the log of the first followed by the
      log of the second: with the one-line case, every line that holds four
      fields gives its commit, in line order. */
  lemma {:induction false} LogLinesAppend(a: seq<string>, b: seq<string>, parseTime: string -> Option<int>, now: int)
    ensures LogLines(a + b, parseTime, now) == LogLines(a, parseTime, now) + LogLines(b, parseTime, now)
    decreases |a|
  {
    if |a| == 0 {
      assert a + b == b;
    } else {
      LogLinesStep(a + b, a[0], a[1..] + b, parseTime, now);
      LogLinesStep(a, a[0], a[1..], parseTime, now);
      LogLinesAppend(a[1..], b, parseTime, now);
      ConcatAssoc(HeadCommit(a[0], parseTime, now), LogLines(a[1..], parseTime, now), LogLines(b, parseTime, now));
    }
  }

  /** The commit one log line contributes, if any. */
  function HeadCommit(line: string, parseTime: string -> Option<int>, now: int): (r: seq<Commit>)
    ensures |r| <= 1
  {
    match LogLine(line, parseTime, now) case None => [] case Some(c) => [c]
  }

  lemma LogLinesStep(lines: seq<string>, head: string, tail: seq<string>, parseTime: string -> Option<int>, now: int)
    requires |lines| > 0 && lines[0] == head && lines[1..] == tail
    ensures LogLines(lines, parseTime, now) == HeadCommit(head, parseTime, now) + LogLines(tail, parseTime, now)
  {
  }

  /** The fields of one logged commit. */
  datatype LogEntry = LogEntry(sha: string, subject: string, author: string, date: string)

  predicate Loggable(e: LogEntry) {
    '|' !in e.sha && '|' !in e.subject && '|' !in e.author
  }

  function FormatAll(es: seq<LogEntry>): (r: seq<string>)
    ensures |r| == |es|
  {
    if |es| == 0 then [] else [LogFormat(es[0].sha, es[0].subject, es[0].author, es[0].date)] + FormatAll(es[1..])
  }

  function CommitsOf(es: seq<LogEntry>, parseTime: string -> Option<int>, now: int): (r: seq<Commit>)
    ensures |r| == |es|
  {
    if |es| == 0 then []
    else [Commit(es[0].sha, es[0].subject, es[0].author, parseTime(es[0].date).GetOr(now), [])]
         + CommitsOf(es[1..], parseTime, now)
  }

  /** Reading the lines printed for a run of commits gives back each commit's
      hash, subject, author and parsed date, in order. */
  lemma {:induction false} LogLinesRoundTrip(es: seq<LogEntry>, parseTime: string -> Option<int>, now: int)
    requires forall i :: 0 <= i < |es| ==> Loggable(es[i])
    ensures LogLines(FormatAll(es), parseTime, now) == CommitsOf(es, parseTime, now)
    decreases |es|
  {
    if |es| > 0 {
      var e := es[0];
      LogLineRoundTrip(e.sha, e.subject, e.author, e.date, parseTime, now);
      LogLinesAppend([LogFormat(e.sha, e.subject, e.author, e.date)], FormatAll(es[1..]), parseTime, now);
      LogLinesRoundTrip(es[1..], parseTime, now);
    }
  }

  /** `get_commit_files` through `git show --name-only`: the stripped
      non-blank lines, nothing when the run failed. */
  function ShowFiles(run: Option<(int, string)>): (r: seq<string>)
    ensures run.None? || run.value.0 != 0 ==> r == []
    ensures run.Some? && run.value.0 == 0 ==> |r| == |NonBlank(Split(run.value.1, '\n'))|
    ensures run.Some? && run.value.0 == 0 ==>
              forall i :: 0 <= i < |r| ==> r[i] == PyStrip(NonBlank(Split(run.value.1, '\n'))[i])
    ensures forall i :: 0 <= i < |r| ==> r[i] != ""
  {
    match run
    case None => []
    case Some((code, out)) =>
      if code != 0 then []
      else
        var lines := NonBlank(Split(out, '\n'));
        StripAllAt(lines);
        StripAll(lines)
  }

  /** Names that stripping leaves alone, one per line: `git show` lists them
      and they come back as they are, in order. */
  lemma ShowFilesRoundTrip(names: seq<string>)
    requires forall i :: 0 <= i < |names| ==>
               '\n' !in names[i] && |names[i]| > 0 && !IsPySpace(names[i][0]) && !IsPySpace(names[i][|names[i]| - 1])
    ensures ShowFiles(Some((0, Join(names, "\n")))) == names
  {
    if |names| == 0 {
      assert Split("", '\n') == [""];
      assert PyStrip("") == "";
    } else {
      SplitJoin(names, '\n');
      forall i | 0 <= i < |names|
        ensures PyStrip(names[i]) == names[i] && PyStrip(names[i]) != ""
      {
        StripClean(names[i]);
      }
      var r := ShowFiles(Some((0, Join(names, "\n"))));
      NonBlankAll(names);
      assert |r| == |names|;
      forall i | 0 <= i < |names|
        ensures r[i] == names[i]
      {
        assert r[i] == PyStrip(names[i]);
      }
    }
  }

  function StripAll(lines: seq<string>): (r: seq<string>)
    ensures |r| == |lines|
  {
    if |lines| == 0 then [] else [PyStrip(lines[0])] + StripAll(lines[1..])
  }

  /** Stripping keeps each line in place, and non-blank lines stay non-empty. */
  lemma {:induction false} StripAllAt(lines: seq<string>)
    requires forall i :: 0 <= i < |lines| ==> PyStrip(lines[i]) != ""
    ensures forall i :: 0 <= i < |lines| ==> StripAll(lines)[i] == PyStrip(lines[i]) && StripAll(lines)[i] != ""
  {
    if |lines| > 0 {
      StripAllAt(lines[1..]);
    }
  }

  /** `get_branch_name` through `git branch --show-current`: the stripped
      output, "HEAD" on a failing exit, "unknown" when the run raised. */
  function BranchName(run: Option<(int, string)>): (r: string)
    ensures run.None? ==> r == "unknown"
    ensures run.Some? && run.value.0 != 0 ==> r == "HEAD"
    ensures run.Some? && run.value.0 == 0 ==> r == PyStrip(run.value.1)
  {
    match run
    case None => "unknown"
    case Some((code, out)) => if code == 0 then PyStrip(out) else "HEAD"
  }
}

=== FILE: glyphs.dfy ===
/** The box-drawing markers the C programs print in their trees, as the
    UTF-8 bytes a `char*` holds: each glyph is three bytes, so "├── " is
    ten bytes long although it shows as four columns. */
module Glyphs {
  /** U+251C, "├". */
  const Tee: string := "\U{E2}\U{94}\U{9C}"
  /** U+2514, "└". */
  const Corner: string := "\U{E2}\U{94}\U{94}"
  /** U+2500, "─". */
  const Dash: string := "\U{E2}\U{94}\U{80}"
  /** U+2502, "│". */
  const Bar: string := "\U{E2}\U{94}\U{82}"

  /** "├── " */
  const Branch: string := Tee + Dash + Dash + " "
  /** "└── " */
  const LastBranch: string := Corner + Dash + Dash + " "
  /** "│   " */
  const Vertical: string := Bar + "   "

  lemma MarkerLengths()
    ensures |Branch| == 10 && |LastBranch| == 10 && |Vertical| == 6
  {
  }
}

=== FILE: index_app.dfy ===
/** index.py, the simple Textual app: a watchdog callback stamps the changed
    file's repository-relative path in `active_changes`; a 100 ms loop drops
    stamps older than one second and spins a ten-frame spinner while any
    remain; the side panes list the uncommitted files and the files of recent
    commits. Times are integer milliseconds. */
module IndexApp {
  import opened Wrappers
  import opened Text
  import opened PyPath
  import opened PyDict

  /** `active_changes`: relative path to the time it was last touched. */
  type Active = Dict<Path, int>

  /** How long a touched file stays in the active pane. */
  const ExpiryMs: int := 1000

  /** `animation_frames`, as the characters the file holds: the braille
      spinner's UTF-8 bytes read once as Windows-1252 and saved again, so each
      frame is "â", a no-break space and a third character, and the last frame
      lost its third byte (0x8F has no Windows-1252 character). */
  const SpinnerFrames: seq<string> :=
    ["\U{E2}\U{A0}\U{2039}", "\U{E2}\U{A0}\U{2122}", "\U{E2}\U{A0}\U{B9}", "\U{E2}\U{A0}\U{B8}",
     "\U{E2}\U{A0}\U{BC}", "\U{E2}\U{A0}\U{B4}", "\U{E2}\U{A0}\U{A6}", "\U{E2}\U{A0}\U{A7}",
     "\U{E2}\U{A0}\U{2021}", "\U{E2}\U{A0}"]

  /** The idle text of the active pane, with the sleeping emoji garbled the
      same way into four characters. */
  const IdleText: string := "\U{F0}\U{178}\U{2019}\U{A4} Watching for changes..."

  /** `on_file_change`: the table after the event, and whether a status update
      was scheduled. A path outside the repository raises `ValueError` in
      `relative_to` and is dropped. */
  function OnFileChange(active: Active, repo: Path, filePath: string, now: int): (r: (Active, bool))
    ensures RelativeTo(Parse(filePath), repo).None? ==> r == (active, false)
    ensures RelativeTo(Parse(filePath), repo).Some? ==>
              var rel := RelativeTo(Parse(filePath), repo).value;
              r.1 && Get(r.0, rel) == Some(now)
              && (forall p :: p != rel ==> Get(r.0, p) == Get(active, p))
  {
    match RelativeTo(Parse(filePath), repo)
    case None => (active, false)
    case Some(rel) =>
      PutGet(active, rel, now);
      PutOther(active, rel, now);
      (Put(active, rel, now), true)
  }

  /** A stamp is still live at `now` unless it is more than a second old. */
  function Live(now: int): (keep: int -> bool)
    ensures forall t :: keep(t) <==> now - t <= ExpiryMs
  {
    t => now - t <= ExpiryMs
  }

  /** The stamps `animation_loop` deletes at `now`. */
  function ExpiredAt(active: Active, now: int): (r: Active)
    ensures forall e :: e in r <==> e in active && now - e.1 > ExpiryMs
  {
    Filter(active, t => now - t > ExpiryMs)
  }

  /** What one pass of `animation_loop` keeps of the state. */
  datatype Loop = Loop(active: Active, frameIndex: nat)

  /** One pass of `animation_loop` at `now`: the state after it, and whether
      the active pane was redrawn. */
  function Tick(s: Loop, now: int): (r: (Loop, bool))
    ensures forall e :: e in r.0.active <==> e in s.active && now - e.1 <= ExpiryMs
    ensures r.0.frameIndex == if |r.0.active| > 0 then s.frameIndex + 1 else s.frameIndex
    ensures r.1 <==> |r.0.active| > 0 || |ExpiredAt(s.active, now)| > 0
  {
    var kept := Filter(s.active, Live(now));
    if |kept| > 0 then (Loop(kept, s.frameIndex + 1), true)
    else (Loop(kept, s.frameIndex), |ExpiredAt(s.active, now)| > 0)
  }

  /** Each path appears at most once in the active pane, whatever the events
      and passes. */
  lemma KeysStayUnique(s: Loop, repo: Path, filePath: string, now: int)
    requires UniqueKeys(s.active)
    ensures UniqueKeys(OnFileChange(s.active, repo, filePath, now).0)
    ensures UniqueKeys(Tick(s, now).0.active)
  {
    FilterUnique(s.active, Live(now));
    match RelativeTo(Parse(filePath), repo)
    case None =>
    case Some(rel) => PutUnique(s.active, rel, now);
  }

  /** A touched file is still shown by every pass within a second of its
      stamp, and gone from the first pass after that. */
  lemma ShownForOneSecond(s: Loop, repo: Path, filePath: string, now: int, later: int)
    requires RelativeTo(Parse(filePath), repo).Some?
    ensures var rel := RelativeTo(Parse(filePath), repo).value;
            var touched := Loop(OnFileChange(s.active, repo, filePath, now).0, s.frameIndex);
            (later - now <= ExpiryMs <==> (rel, now) in Tick(touched, later).0.active)
  {
    var rel := RelativeTo(Parse(filePath), repo).value;
    var t := OnFileChange(s.active, repo, filePath, now).0;
    var e := Get(t, rel);
    var i :| 0 <= i < |t| && t[i] == (rel, now);
    assert (rel, now) in t;
  }

  /** With nothing left the loop is quiet: no redraw, the spinner stands still. */
  lemma EmptyIsQuiet(s: Loop, now: int)
    requires |s.active| == 0
    ensures Tick(s, now) == (s, false)
  {
  }

  /** A pass that expires the last stamps still redraws once, so the pane
      falls back to the watching message. */
  lemma LastExpiryRedraws(s: Loop, now: int)
    requires |s.active| > 0 && forall e :: e in s.active ==> now - e.1 > ExpiryMs
    ensures Tick(s, now).1 && |Tick(s, now).0.active| == 0
  {
    assert s.active[0] in ExpiredAt(s.active, now);
    assert forall i :: 0 <= i < |s.active| ==> !Live(now)(s.active[i].1) by {
      forall i | 0 <= i < |s.active|
        ensures !Live(now)(s.active[i].1)
      {
        assert s.active[i] in s.active;
      }
    }
  }

  /** The spinner glyph shown at `frameIndex`. */
  function Spinner(frameIndex: nat): (r: string)
    ensures r == SpinnerFrames[frameIndex % 10] && r in SpinnerFrames
  {
    SpinnerFrames[frameIndex % |SpinnerFrames|]
  }

  function ActiveLines(active: Active, glyph: string): (r: seq<string>)
    ensures |r| == |active|
    ensures forall i :: 0 <= i < |active| ==> r[i] == glyph + " " + Str(active[i].0)
  {
    if |active| == 0 then [] else [glyph + " " + Str(active[0].0)] + ActiveLines(active[1..], glyph)
  }

  /** No active path spans lines. */
  predicate OneLinePaths(active: Active) {
    forall i :: 0 <= i < |active| ==> '\n' !in Str(active[i].0)
  }

  /** `update_active_changes`: the text of the active pane. Read back line by
      line it is the heading and then one line per active path, in order, the
      current spinner glyph before each. */
  function ActivePane(active: Active, frameIndex: nat): (r: string)
    ensures |active| == 0 <==> r == IdleText
    ensures |active| > 0 ==> IsPrefix("Active changes:\n", r)
    ensures |active| > 0 && OneLinePaths(active) ==>
              var lines := Split(r, '\n');
              |lines| == |active| + 1 && lines[0] == "Active changes:"
              && forall i :: 0 <= i < |active| ==> lines[i + 1] == Spinner(frameIndex) + " " + Str(active[i].0)
  {
    if |active| == 0 then IdleText
    else
      var r := "Active changes:\n" + Join(ActiveLines(active, Spinner(frameIndex)), "\n");
      ActiveHeading(r, Join(ActiveLines(active, Spinner(frameIndex)), "\n"));
      SpinnerOneLine(frameIndex);
      ActivePaneLines(active, Spinner(frameIndex));
      r
  }

  /** Text under the heading starts with it and is not the idle text. */
  lemma ActiveHeading(r: string, body: string)
    requires r == "Active changes:\n" + body
    ensures IsPrefix("Active changes:\n", r) && r != IdleText
  {
    assert r[..16] == "Active changes:\n" && r[0] == 'A';
  }

  lemma SpinnerOneLine(frameIndex: nat)
    ensures '\n' !in Spinner(frameIndex)
  {
    var k := frameIndex % 10;
    var g := SpinnerFrames[k];
    assert |g| <= 3;
    assert forall j :: 0 <= j < |g| ==> g[j] != '\n' by {
      if k == 9 { assert g == "\U{E2}\U{A0}"; }
      else { assert g[0] == '\U{E2}' && g[1] == '\U{A0}' && g[2] != '\n'; }
    }
  }

  lemma ActiveLinesOneLine(active: Active, glyph: string)
    requires OneLinePaths(active) && '\n' !in glyph
    ensures forall i :: 0 <= i < |ActiveLines(active, glyph)| ==> '\n' !in ActiveLines(active, glyph)[i]
  {
    var lines := ActiveLines(active, glyph);
    forall i | 0 <= i < |lines|
      ensures '\n' !in lines[i]
    {
      assert lines[i] == glyph + " " + Str(active[i].0);
    }
  }

  lemma ActivePaneLines(active: Active, glyph: string)
    requires |active| > 0 && '\n' !in glyph
    ensures OneLinePaths(active) ==>
              Split("Active changes:\n" + Join(ActiveLines(active, glyph), "\n"), '\n')
              == ["Active changes:"] + ActiveLines(active, glyph)
  {
    if OneLinePaths(active) {
      var lines := ActiveLines(active, glyph);
      ActiveLinesOneLine(active, glyph);
      var h := "Active changes:";
      assert '\n' !in h by {
        assert forall j :: 0 <= j < |h| ==> h[j] != '\n';
      }
      assert "Active changes:\n" == h + "\n";
      HeadThenLines(h, lines);
    }
  }

  /** A heading line followed by separator-free lines splits back into them. */
  lemma HeadThenLines(h: string, lines: seq<string>)
    requires |lines| > 0 && '\n' !in h
    requires forall i :: 0 <= i < |lines| ==> '\n' !in lines[i]
    ensures Split(h + "\n" + Join(lines, "\n"), '\n') == [h] + lines
  {
    JoinCons(h, lines, "\n");
    SplitJoin([h] + lines, '\n');
  }

  /** `get_uncommitted_files`: the union of the staged, unstaged and untracked
      paths; a failing repository query (None) empties the whole answer. */
  function UncommittedFiles(staged: Option<seq<string>>, unstaged: Option<seq<string>>,
                            untracked: Option<seq<string>>): (r: set<string>)
    ensures staged.None? || unstaged.None? || untracked.None? ==> r == {}
    ensures staged.Some? && unstaged.Some? && untracked.Some? ==>
              forall f :: f in r <==> f in staged.value || f in unstaged.value || f in untracked.value
  {
    if staged.None? || unstaged.None? || untracked.None? then {}
    else set f | f in staged.value + unstaged.value + untracked.value
  }

  /** How many commits `iter_commits` is asked for. */
  const MaxRecentCommits: nat := 10

  /** The files of the first `n` commits. */
  function FilesOf(commits: seq<seq<string>>, n: nat): (r: set<string>)
    ensures forall f :: f in r <==> exists i :: 0 <= i < n && i < |commits| && f in commits[i]
  {
    if n == 0 || |commits| == 0 then {}
    else
      var rest := FilesOf(commits[1..], n - 1);
      assert forall f :: f in rest <==> exists i :: 1 <= i < n && i < |commits| && f in commits[i] by {
        forall f | f in rest
          ensures exists i :: 1 <= i < n && i < |commits| && f in commits[i]
        {
          var i :| 0 <= i < n - 1 && i < |commits[1..]| && f in commits[1..][i];
          assert f in commits[i + 1];
        }
        forall f | exists i :: 1 <= i < n && i < |commits| && f in commits[i]
          ensures f in rest
        {
          var i :| 1 <= i < n && i < |commits| && f in commits[i];
          assert f in commits[1..][i - 1];
        }
      }
      (set f | f in commits[0]) + rest
  }

  /** `get_recent_commits`: the files of the at most ten commits since the
      session started, newest first as git lists them (`commits` is that
      list, the `since` filter being git's); None when the query raises. */
  function RecentCommitFiles(commits: Option<seq<seq<string>>>): (r: set<string>)
    ensures commits.None? ==> r == {}
    ensures commits.Some? ==>
              forall f :: f in r <==> exists i :: 0 <= i < MaxRecentCommits && i < |commits.value| && f in commits.value[i]
  {
    match commits
    case None => {}
    case Some(cs) => FilesOf(cs, MaxRecentCommits)
  }

  /** An eleventh commit contributes nothing. */
  lemma OnlyTenCommitsCount(cs: seq<seq<string>>, f: string)
    requires |cs| > 10 && f in cs[10] && forall i :: 0 <= i < 10 ==> f !in cs[i]
    ensures f !in RecentCommitFiles(Some(cs))
  {
  }

  /** The status bar `update_status` writes: whole minutes of the session
      (truncated), then the two pane sizes. */
  function StatusBar(elapsedMs: int, uncommitted: nat, committed: nat): (r: string)
    ensures IsPrefix("Session: " + IntToString(TruncDiv(elapsedMs, 60000)) + "m | Uncommitted: ", r)
  {
    var head := "Session: " + IntToString(TruncDiv(elapsedMs, 60000)) + "m | Uncommitted: ";
    var r := head + NatToString(uncommitted) + " | Committed: " + NatToString(committed);
    assert r[..|head|] == head;
    r
  }

  /** Read back field by field, the status bar gives the elapsed minutes and
      the two pane sizes, each count printed so that it parses back. */
  lemma StatusBarReadBack(elapsedMs: int, uncommitted: nat, committed: nat)
    ensures Split(StatusBar(elapsedMs, uncommitted, committed), '|')
            == ["Session: " + IntToString(TruncDiv(elapsedMs, 60000)) + "m ",
                " Uncommitted: " + NatToString(uncommitted) + " ",
                " Committed: " + NatToString(committed)]
    ensures ParseNat(NatToString(uncommitted)) == Some(uncommitted)
    ensures ParseNat(NatToString(committed)) == Some(committed)
  {
    var m := IntToString(TruncDiv(elapsedMs, 60000));
    var u := NatToString(uncommitted);
    var c := NatToString(committed);
    BarLabels();
    Regroup("Session: ", m, "m ", " Uncommitted: ", u, " ", " Committed: ", c);
    NoBarIn("Session: ", m, "m ");
    NoBarIn(" Uncommitted: ", u, " ");
    NoBarIn(" Committed: ", c, "");
    ThreeFields("Session: " + m + "m ", " Uncommitted: " + u + " ", " Committed: " + c + "");
    assert " Committed: " + c + "" == " Committed: " + c;
    NatToStringRoundTrip(uncommitted);
    NatToStringRoundTrip(committed);
  }

  /** The labels between the numbers, cut at their bars. */
  lemma BarLabels()
    ensures "m " + "|" + " Uncommitted: " == "m | Uncommitted: "
    ensures " " + "|" + " Committed: " == " | Committed: "
  {
  }

  /** The status bar text, regrouped at its two bars. */
  lemma Regroup(s1: string, m: string, s2a: string, s2b: string, u: string, s3a: string, s3b: string, c: string)
    ensures s1 + m + (s2a + "|" + s2b) + u + (s3a + "|" + s3b) + c
            == (s1 + m + s2a) + "|" + (s2b + u + s3a) + "|" + (s3b + c + "")
  {
  }

  /** A number between two labels adds no bar. */
  lemma NoBarIn(pre: string, n: string, post: string)
    requires '|' !in pre && '|' !in post
    requires forall i :: 0 <= i < |n| ==> n[i] == '-' || '0' <= n[i] <= '9'
    ensures '|' !in pre + n + post
  {
    var s := pre + n + post;
    forall i | 0 <= i < |s|
      ensures s[i] != '|'
    {
      if i < |pre| { assert s[i] == pre[i]; } else if i < |pre| + |n| { assert s[i] == n[i - |pre|]; } else { assert s[i] == post[i - |pre| - |n|]; }
    }
  }

  /** Three bar-free fields joined by bars split back into themselves. */
  lemma ThreeFields(a: string, b: string, d: string)
    requires '|' !in a && '|' !in b && '|' !in d
    ensures Split(a + "|" + b + "|" + d, '|') == [a, b, d]
  {
    var tail := b + "|" + d;
    SplitAtBar(b, d);
    SplitNoBar(d);
    SplitAtBar(a, tail);
    BarAssoc(a, b, d);
    assert [a] + ([b] + [d]) == [a, b, d];
  }

  lemma SplitNoBar(d: string)
    requires '|' !in d
    ensures Split(d, '|') == [d]
  {
  }

  lemma BarAssoc(a: string, b: string, d: string)
    ensures a + "|" + b + "|" + d == a + "|" + (b + "|" + d)
  {
  }

  /** A bar-free field before a bar is split off first. */
  lemma SplitAtBar(a: string, rest: string)
    requires '|' !in a
    ensures Split(a + "|" + rest, '|') == [a] + Split(rest, '|')
  {
    var s := a + "|" + rest;
    assert s == a + ['|'] + rest;
    IndexOfFirst(s, '|', |a|);
    assert s[..|a|] == a && s[|a| + 1..] == rest;
  }

  /** A full minute shows as one more minute: 59.999 s is still "0m". */
  lemma MinutesTruncate()
    ensures TruncDiv(59999, 60000) == 0 && TruncDiv(60000, 60000) == 1
  {
  }

  /** `main`'s checks before the app starts: the dependencies are importable,
      the resolved repository path exists, and it has a ".git" entry. */
  function MainChecks(depsOk: bool, pathExists: Path -> bool, repo: Path): (r: bool)
    ensures r <==> depsOk && pathExists(repo) && pathExists(JoinPath(repo, Path("", [".git"])))
  {
    depsOk && pathExists(repo) && pathExists(JoinPath(repo, Path("", [".git"])))
  }
}

=== FILE: inotify_daemon.dfy ===
/** inotify-watcher/inotify-daemon.c: which paths the daemon watches, the
    watch table it looks events up in, and the event table it keeps per
    (path, repository), stamped in whole seconds. */
module InotifyDaemon {
  import opened Wrappers
  import opened Text

  /** The temporary and object-file fragments that exclude a path wherever
      they occur. */
  const Fragments: seq<string> := [".tmp", ".swp", ".o", "~", ".cache"]

  /** `should_exclude_path` as written: a missing path; one containing
      "/.git/"; one whose FIRST "/.git" is its last five bytes; or one
      containing a fragment. */
  function ShouldExcludePath(path: Option<string>): (r: bool)
    ensures path.Some? && Contains(path.value, "/.git/") ==> r
    ensures path.Some? && AnyContains(Fragments, path.value) ==> r
  {
    match path
    case None => true
    case Some(p) =>
      Contains(p, "/.git/") || Find(p, "/.git") == Some(|p| - 5) || AnyContains(Fragments, p)
  }

  /** The rule the comment "Exclude .git directories" asks for: a path
      ending in "/.git" is excluded wherever else "/.git" occurs. */
  function ShouldExcludePathFixed(path: Option<string>): (r: bool)
    ensures path.Some? && IsSuffix("/.git", path.value) ==> r
    ensures path.Some? && Contains(path.value, "/.git/") ==> r
    ensures path.Some? && AnyContains(Fragments, path.value) ==> r
  {
    match path
    case None => true
    case Some(p) => Contains(p, "/.git/") || IsSuffix("/.git", p) || AnyContains(Fragments, p)
  }

  /** The fix only adds exclusions, exactly the paths ending in "/.git"
      whose first "/.git" comes earlier. */
  lemma FixOnlyAddsGitEndings(path: string)
    ensures ShouldExcludePath(Some(path)) ==> ShouldExcludePathFixed(Some(path))
    ensures ShouldExcludePathFixed(Some(path)) && !ShouldExcludePath(Some(path)) ==>
              IsSuffix("/.git", path) && Find(path, "/.git").Some? && Find(path, "/.git").value < |path| - 5
  {
    if Find(path, "/.git") == Some(|path| - 5) {
      assert OccursAt(path, "/.git", |path| - 5);
    }
    if IsSuffix("/.git", path) {
      assert OccursAt(path, "/.git", |path| - 5);
    }
  }

  lemma GithubNoGitDirTail()
    ensures FindFrom("r/.github/.git", "/.git/", 5) == None
  {
    var p := "r/.github/.git";
    var pat := "/.git/";
    SkipMismatch(p, pat, 5, 0);
    SkipMismatch(p, pat, 6, 0);
    SkipMismatch(p, pat, 7, 0);
    SkipMismatch(p, pat, 8, 0);
    assert FindFrom(p, pat, 9) == None;
  }

  lemma GithubNoGitDir()
    ensures !Contains("r/.github/.git", "/.git/")
  {
    var p := "r/.github/.git";
    var pat := "/.git/";
    SkipMismatch(p, pat, 0, 0);
    SkipMismatch(p, pat, 1, 5);
    SkipMismatch(p, pat, 2, 0);
    SkipMismatch(p, pat, 3, 0);
    SkipMismatch(p, pat, 4, 0);
    GithubNoGitDirTail();
  }

  lemma GithubFirstGit()
    ensures Find("r/.github/.git", "/.git") == Some(1)
  {
    var p := "r/.github/.git";
    SkipMismatch(p, "/.git", 0, 0);
    assert p[1..6] == "/.git";
  }

  lemma GithubNoFragment()
    ensures !AnyContains(Fragments, "r/.github/.git")
  {
    var p := "r/.github/.git";
    assert 'm' !in p && 's' !in p && 'o' !in p && '~' !in p && 'c' !in p;
    MissingChar(p, ".tmp", 'm');
    MissingChar(p, ".swp", 's');
    MissingChar(p, ".o", 'o');
    MissingChar(p, "~", '~');
    MissingChar(p, ".cache", 'c');
    AnyContainsIff(Fragments, p);
  }

  /** A `.git` directory inside ".github" is not excluded by the rule as
      written, and is by the fixed one. */
  lemma GithubGitSlipsThrough()
    ensures !ShouldExcludePath(Some("r/.github/.git"))
    ensures ShouldExcludePathFixed(Some("r/.github/.git"))
  {
    GithubNoGitDir();
    GithubFirstGit();
    GithubNoFragment();
  }

  /** `get_repository_name`: the text after the last '/', or the whole
      path. */
  function RepositoryName(repoPath: string): (r: string)
    ensures '/' !in r
    ensures IsSuffix(r, repoPath)
    ensures '/' !in repoPath ==> r == repoPath
  {
    match LastIndexOf(repoPath, '/')
    case None => repoPath
    case Some(k) =>
      var r := repoPath[k + 1..];
      assert repoPath[|repoPath| - |r|..] == r;
      r
  }

  /** A repository path is its parent, a slash and its name. */
  lemma RepositoryNameSplits(parent: string, name: string)
    requires '/' !in name
    ensures RepositoryName(parent + "/" + name) == name
  {
    var p := parent + "/" + name;
    assert p[|parent|] == '/' && p[|parent| + 1..] == name;
    LastSlash(p, |parent|);
  }

  lemma LastSlash(s: string, k: nat)
    requires k < |s| && s[k] == '/' && '/' !in s[k + 1..]
    ensures AfterLast(s, '/') == s[k + 1..]
  {
  }

  /** `file_event_t`: `timestamp` and `first_detected` are set when the
      entry is created, `last_updated` and `event_type` on every event. */
  datatype FileEvent = FileEvent(path: string, repository: string, timestamp: int,
                                 eventType: bv32, firstDetected: int, lastUpdated: int)

  predicate SameKey(e: FileEvent, path: string, repository: string) {
    e.path == path && e.repository == repository
  }

  /** No (path, repository) pair occurs twice. */
  predicate UniqueKeys(es: seq<FileEvent>) {
    forall i, j :: 0 <= i < j < |es| ==> !SameKey(es[j], es[i].path, es[i].repository)
  }

  /** The first event with that path and repository. */
  function FindEvent(es: seq<FileEvent>, path: string, repository: string): (r: Option<nat>)
    ensures r.Some? ==> r.value < |es| && SameKey(es[r.value], path, repository)
                        && forall j :: 0 <= j < r.value ==> !SameKey(es[j], path, repository)
    ensures r.None? ==> forall j :: 0 <= j < |es| ==> !SameKey(es[j], path, repository)
  {
    if |es| == 0 then None
    else if SameKey(es[0], path, repository) then Some(0)
    else
      match FindEvent(es[1..], path, repository)
      case None => None
      case Some(k) => Some(k + 1)
  }

  /** `find_or_create_event`: the table after the event, and the index of
      the entry it returns. */
  function FindOrCreateEvent(es: seq<FileEvent>, path: string, repository: string,
                             eventType: bv32, now: int): (r: (seq<FileEvent>, nat))
    ensures |r.0| >= |es| && r.1 < |r.0| && SameKey(r.0[r.1], path, repository)
    ensures r.0[r.1].lastUpdated == now && r.0[r.1].eventType == eventType
    ensures forall j :: 0 <= j < |es| && j != r.1 ==> r.0[j] == es[j]
    ensures r.1 < |es| ==>
              |r.0| == |es| && r.0[r.1].firstDetected == es[r.1].firstDetected
              && r.0[r.1].timestamp == es[r.1].timestamp
    ensures r.1 == |es| <==> forall j :: 0 <= j < |es| ==> !SameKey(es[j], path, repository)
    ensures r.1 == |es| ==> r.0 == es + [FileEvent(path, repository, now, eventType, now, now)]
  {
    match FindEvent(es, path, repository)
    case Some(i) => (es[i := es[i].(lastUpdated := now, eventType := eventType)], i)
    case None => (es + [FileEvent(path, repository, now, eventType, now, now)], |es|)
  }

  /** Events never make a (path, repository) pair repeat. */
  lemma FindOrCreateKeepsKeysUnique(es: seq<FileEvent>, path: string, repository: string, eventType: bv32, now: int)
    requires UniqueKeys(es)
    ensures UniqueKeys(FindOrCreateEvent(es, path, repository, eventType, now).0)
  {
  }

  /** With distinct keys, an event on a known file lands on its one entry. */
  lemma KnownFileUpdatedInPlace(es: seq<FileEvent>, i: nat, eventType: bv32, now: int)
    requires UniqueKeys(es) && i < |es|
    ensures FindOrCreateEvent(es, es[i].path, es[i].repository, eventType, now).1 == i
  {
  }

  /** `watch_entry_t`. */
  datatype Watch = Watch(wd: int, path: string, repository: string)

  /** The first watch with the descriptor. */
  function WatchOf(ws: seq<Watch>, wd: int): (r: Option<Watch>)
    ensures r.Some? ==> r.value in ws && r.value.wd == wd
    ensures r.None? <==> forall i :: 0 <= i < |ws| ==> ws[i].wd != wd
  {
    if |ws| == 0 then None
    else if ws[0].wd == wd then Some(ws[0])
    else
      var r := WatchOf(ws[1..], wd);
      assert r.Some? ==> r.value in ws;
      assert r.None? ==> forall i :: 1 <= i < |ws| ==> ws[i] == ws[1..][i - 1];
      r
  }

  /** `get_path_from_wd`. */
  function PathFromWd(ws: seq<Watch>, wd: int): (r: Option<string>)
    ensures r.None? <==> forall i :: 0 <= i < |ws| ==> ws[i].wd != wd
    ensures r.Some? ==> exists i :: 0 <= i < |ws| && ws[i].wd == wd && ws[i].path == r.value
  {
    match WatchOf(ws, wd)
    case None => None
    case Some(w) => Some(w.path)
  }

  /** `get_repository_from_wd`. */
  function RepositoryFromWd(ws: seq<Watch>, wd: int): (r: Option<string>)
    ensures r.None? <==> forall i :: 0 <= i < |ws| ==> ws[i].wd != wd
    ensures r.Some? ==> exists i :: 0 <= i < |ws| && ws[i].wd == wd && ws[i].repository == r.value
  {
    match WatchOf(ws, wd)
    case None => None
    case Some(w) => Some(w.repository)
  }

  /** Both lookups read the same entry, the first with that descriptor:
      they find something together, and a watch added later never shadows
      an earlier one. */
  lemma LookupsAgree(ws: seq<Watch>, wd: int, later: Watch)
    ensures PathFromWd(ws, wd).Some? <==> RepositoryFromWd(ws, wd).Some?
    ensures PathFromWd(ws, wd).Some? ==>
              exists i :: 0 <= i < |ws| && ws[i].wd == wd
                          && PathFromWd(ws, wd).value == ws[i].path
                          && RepositoryFromWd(ws, wd).value == ws[i].repository
    ensures PathFromWd(ws, wd).Some? ==> PathFromWd(ws + [later], wd) == PathFromWd(ws, wd)
  {
    AppendKeepsFirst(ws, wd, later);
  }

  lemma {:induction false} AppendKeepsFirst(ws: seq<Watch>, wd: int, later: Watch)
    ensures WatchOf(ws, wd).Some? ==> WatchOf(ws + [later], wd) == WatchOf(ws, wd)
  {
    if |ws| > 0 {
      assert (ws + [later])[0] == ws[0] && (ws + [later])[1..] == ws[1..] + [later];
      AppendKeepsFirst(ws[1..], wd, later);
    }
  }

  const InModify: bv32 := 0x2
  const InMovedFrom: bv32 := 0x40
  const InMovedTo: bv32 := 0x80
  const InCreate: bv32 := 0x100
  const InDelete: bv32 := 0x200

  /** The report's name for an event mask: the first of MODIFY, CREATE,
      DELETE, MOVED_FROM, MOVED_TO whose bit is set. */
  function EventTypeName(mask: bv32): (r: string)
    ensures r == "UNKNOWN" <==> mask & (InModify | InCreate | InDelete | InMovedFrom | InMovedTo) == 0
    ensures r == "IN_MODIFY" <==> mask & InModify != 0
    ensures r == "IN_CREATE" <==> mask & InModify == 0 && mask & InCreate != 0
    ensures r == "IN_DELETE" <==> mask & (InModify | InCreate) == 0 && mask & InDelete != 0
    ensures r == "IN_MOVED_FROM" <==> mask & (InModify | InCreate | InDelete) == 0 && mask & InMovedFrom != 0
    ensures r == "IN_MOVED_TO" <==> mask & (InModify | InCreate | InDelete | InMovedFrom) == 0 && mask & InMovedTo != 0
  {
    if mask & InModify != 0 then "IN_MODIFY"
    else if mask & InCreate != 0 then "IN_CREATE"
    else if mask & InDelete != 0 then "IN_DELETE"
    else if mask & InMovedFrom != 0 then "IN_MOVED_FROM"
    else if mask & InMovedTo != 0 then "IN_MOVED_TO"
    else "UNKNOWN"
  }

  /** What `stat` says the named entry is. */
  datatype Kind = Regular | Directory | Other | Missing

  /** What one inotify event does in `daemon_run`: the new event table, and
      the directory to watch recursively, if any. */
  datatype Outcome = Outcome(events: seq<FileEvent>, watchDir: Option<string>)

  /** An event with a name under a known watch records a regular file under
      "<watch path>/<name>"; a directory created there is watched instead;
      anything else is passed over. */
  function HandleEvent(ws: seq<Watch>, es: seq<FileEvent>, wd: int, name: string,
                       mask: bv32, kind: Kind, now: int): (r: Outcome)
    ensures r.events != es ==> kind.Regular?
    ensures r.watchDir.Some? ==> kind.Directory? && mask & InCreate != 0 && r.events == es
    ensures kind.Regular? && |name| > 0 && WatchOf(ws, wd).Some? ==>
              var w := WatchOf(ws, wd).value;
              r.events == FindOrCreateEvent(es, w.path + "/" + name, w.repository, mask, now).0
    ensures kind.Directory? && mask & InCreate != 0 && |name| > 0 && WatchOf(ws, wd).Some? ==>
              r.watchDir == Some(WatchOf(ws, wd).value.path + "/" + name)
  {
    if |name| == 0 then Outcome(es, None)
    else
      match (PathFromWd(ws, wd), RepositoryFromWd(ws, wd))
      case (Some(dir), Some(repository)) =>
        var filePath := dir + "/" + name;
        (match kind
         case Regular => Outcome(FindOrCreateEvent(es, filePath, repository, mask, now).0, None)
         case Directory => if mask & InCreate != 0 then Outcome(es, Some(filePath)) else Outcome(es, None)
         case _ => Outcome(es, None))
      case _ => Outcome(es, None)
  }
}

=== FILE: inotify_watcher.dfy ===
/** inotify-watcher/inotify-watcher.c: the front end that starts and pings
    the inotify daemon. Its `expandvars` is the C expansion of the other
    tools (`ExpandVars.CExpand`). Modelled: where the three paths come from
    and the guard of `ping_daemon`; the parsed index file is a parameter
    (None when it cannot be read) and sending the signal is a boolean. */
module InotifyWatcher {
  import opened Wrappers
  import opened Text
  import opened Json
  import opened JsonPath
  import opened ExpandVars

  /** The three paths `load_config` may find, the pid file already expanded
      once. */
  datatype Configured = Configured(pidFile: Option<string>, reportFile: Option<string>, gitReport: Option<string>)

  function StringAt(v: Value, key: string): Option<string> {
    match Member2(v, "paths", key)
    case Some(JString(s)) => Some(s)
    case _ => None
  }

  /** `load_config`: -1 (None) unless the file parses to an object; then
      each string under "paths", the pid file expanded. */
  function LoadConfig(root: Option<Value>, env: map<string, string>): (r: Option<Configured>)
    ensures r.None? <==> root.None? || !root.value.JObject?
    ensures r.Some? ==> r.value.reportFile == StringAt(root.value, "report_file")
                        && r.value.gitReport == StringAt(root.value, "git_submodules_report")
    ensures r.Some? ==> (r.value.pidFile.Some? <==> StringAt(root.value, "pid_file").Some?)
    ensures r.Some? && r.value.pidFile.Some? ==> r.value.pidFile.value == CExpand(StringAt(root.value, "pid_file").value, env)
  {
    if root.None? || !root.value.JObject? then None
    else
      var v := root.value;
      Some(Configured(
        match StringAt(v, "pid_file") case Some(s) => Some(CExpand(s, env)) case None => None,
        StringAt(v, "report_file"),
        StringAt(v, "git_submodules_report")))
  }

  /** The paths `main` works with. */
  datatype Paths = Paths(pidFile: string, reportFile: string, gitReport: string)

  const PidSuffix := "/repowatch/inotify-daemon.pid"
  const DefaultReport := "inotify-changes-report.json"
  const DefaultGitReport := "../git-submodules.report"

  /** `$XDG_CACHE_HOME`, or a literal "~/.cache". */
  function CacheHome(env: map<string, string>): string {
    if "XDG_CACHE_HOME" in env then env["XDG_CACHE_HOME"] else "~/.cache"
  }

  /** The pid path before the second expansion: the configured one, or the
      default under the cache directory, expanded once. */
  function FirstPid(c: Configured, env: map<string, string>): string {
    match c.pidFile
    case Some(p) => p
    case None => CExpand(CacheHome(env) + PidSuffix, env)
  }

  /** The defaulting in `main` and the second expansion of the pid path. */
  function Resolve(c: Configured, env: map<string, string>): (r: Paths)
    ensures r.pidFile == CExpand(FirstPid(c, env), env)
    ensures r.reportFile == c.reportFile.GetOr(DefaultReport)
    ensures r.gitReport == c.gitReport.GetOr(DefaultGitReport)
  {
    Paths(CExpand(FirstPid(c, env), env), c.reportFile.GetOr(DefaultReport), c.gitReport.GetOr(DefaultGitReport))
  }

  /** The second expansion changes nothing when the first left no "${". */
  lemma SecondExpansionHarmless(c: Configured, env: map<string, string>)
    requires !Contains(FirstPid(c, env), "${")
    ensures Resolve(c, env).pidFile == FirstPid(c, env)
  {
  }

  /** Without a configured pid file and with a cache directory free of '$',
      the pid file is the default under it. */
  lemma DefaultPidPath(env: map<string, string>)
    requires '$' !in CacheHome(env)
    ensures Resolve(Configured(None, None, None), env)
            == Paths(CacheHome(env) + PidSuffix, DefaultReport, DefaultGitReport)
  {
    var s := CacheHome(env) + PidSuffix;
    assert '$' !in s;
    MissingChar(s, "${", '$');
  }

  /** A configured pid file is expanded twice, so a placeholder whose value
      is itself a placeholder is resolved all the way. */
  lemma PidExpandedTwice()
    ensures var env := map["A" := "${B}", "B" := "x"];
            Resolve(LoadConfig(Some(JObject([("paths", JObject([("pid_file", JString("${A}"))]))])), env).value, env).pidFile
            == "x"
  {
    var env := map["A" := "${B}", "B" := "x"];
    var root := JObject([("paths", JObject([("pid_file", JString("${A}"))]))]);
    assert StringAt(root, "pid_file") == Some("${A}");
    ChainedPlaceholders(env);
  }

  lemma ChainedPlaceholders(env: map<string, string>)
    requires env == map["A" := "${B}", "B" := "x"]
    ensures CExpand("${A}", env) == "${B}" && CExpand("${B}", env) == "x"
  {
    PlaceholderAlone("A");
    assert "${" + "A" + "}" == "${A}";
    assert !Contains("A", ":-");
    assert CExpandPieces([Placeholder("A")], env) == CValue("A", env) + CExpandPieces([], env);
    PlaceholderAlone("B");
    assert "${" + "B" + "}" == "${B}";
    assert !Contains("B", ":-");
    assert CExpandPieces([Placeholder("B")], env) == CValue("B", env) + CExpandPieces([], env);
  }

  /** `ping_daemon`: -1 for a pid that is not positive, before any signal is
      sent; otherwise 0 when the signal goes through, else -1. */
  function PingDaemon(pid: int, signalSent: bool): (r: int)
    ensures r == 0 <==> pid > 0 && signalSent
    ensures r == 0 || r == -1
  {
    if pid <= 0 then -1 else if !signalSent then -1 else 0
  }
}

=== FILE: interactive_tui.dfy ===
/** interactive-dirty-files-tui/interactive-dirty-files-tui.c: the string
    helpers of the interactive dirty-files viewer, its key handling and the
    tree lines `print_tree_node` prints. Its `get_display_repo_name` is the
    one of file-tree.c (`FileTree.DisplayRepoName`); building the tree from
    the report's paths is `TreeBuild`. */
module InteractiveTui {
  import opened Text
  import opened FileTree

  /** `extract_filename`: the bytes after the last '/', or the whole path. */
  function ExtractFilename(path: string): (r: string)
    ensures '/' !in r && IsSuffix(r, path)
    ensures '/' !in path ==> r == path
    ensures '/' in path ==> path[|path| - |r| - 1] == '/'
  {
    AfterLast(path, '/')
  }

  /** A path is its directory, a '/', and the name `ExtractFilename` gives. */
  lemma ExtractJoined(dir: string, name: string)
    requires '/' !in name
    ensures ExtractFilename(dir + "/" + name) == name
  {
    var s := dir + "/" + name;
    var r := ExtractFilename(s);
    assert s[|s| - |name| - 1] == '/';
    assert r == s[|s| - |r|..] && name == s[|s| - |name|..];
  }

  /** `truncate_filename` (and the same inline code of `print_tree_node`):
      the name when it fits `maxWidth` (compared as unsigned, so a negative
      width always fits), else its first `max(maxWidth - 3, 1)` bytes and
      "...". */
  function TruncateName(name: string, maxWidth: int): (r: string)
    ensures maxWidth < 0 || |name| <= maxWidth ==> r == name
    ensures 0 <= maxWidth < |name| ==>
              var keep := if maxWidth - 3 < 1 then 1 else maxWidth - 3;
              r == name[..keep] + "..." && |r| == keep + 3
  {
    if maxWidth < 0 || |name| <= maxWidth then name
    else
      var keep := if maxWidth - 3 < 1 then 1 else maxWidth - 3;
      name[..keep] + "..."
  }

  /** From four columns on, a truncated name fills the width exactly and
      truncating it again changes nothing. */
  lemma TruncateIdempotent(name: string, maxWidth: int)
    requires maxWidth >= 4
    ensures |TruncateName(name, maxWidth)| <= maxWidth
    ensures TruncateName(TruncateName(name, maxWidth), maxWidth) == TruncateName(name, maxWidth)
  {
  }

  /** A truncated name still starts like the name. */
  lemma TruncateKeepsStart(name: string, maxWidth: int)
    requires 0 <= maxWidth < |name|
    ensures var r := TruncateName(name, maxWidth);
            IsPrefix(r[..|r| - 3], name) && IsSuffix("...", r)
  {
    var r := TruncateName(name, maxWidth);
    assert r[|r| - 3..] == "...";
  }

  /** `view_mode_t`. */
  datatype ViewMode = Flat | Tree

  /** What one key does in the main loop: whether it keeps running, the
      view afterwards and whether the report is reloaded. */
  datatype KeyEffect = KeyEffect(running: bool, view: ViewMode, reload: bool)

  /** The key handling of the main loop: 'q', 'Q' and ESC stop, 'r' and 'R'
      reload, a space toggles between the flat and the tree view, and any
      other key changes nothing. */
  function HandleKey(c: int, view: ViewMode): (e: KeyEffect)
    ensures !e.running <==> c == 'q' as int || c == 'Q' as int || c == 27
    ensures e.reload <==> c == 'r' as int || c == 'R' as int
    ensures e.view != view <==> c == ' ' as int
  {
    if c == 'q' as int || c == 'Q' as int || c == 27 then KeyEffect(false, view, false)
    else if c == 'r' as int || c == 'R' as int then KeyEffect(true, view, true)
    else if c == ' ' as int then KeyEffect(true, if view == Flat then Tree else Flat, false)
    else KeyEffect(true, view, false)
  }

  /** Two spaces bring the view back. */
  lemma ToggleTwice(view: ViewMode)
    ensures HandleKey(' ' as int, HandleKey(' ' as int, view).view).view == view
  {
  }

  /** The tree strings `print_tree_node` takes from the configuration: the
      branch, the last branch, the indent and the name width. */
  datatype TreeStyle = TreeStyle(prefix: string, lastPrefix: string, indent: string, maxWidth: int)

  /** `n` copies of `s`. */
  function RepeatString(s: string, n: nat): (r: string)
    ensures |r| == n * |s|
  {
    if n == 0 then "" else s + RepeatString(s, n - 1)
  }

  /** One line of this `print_tree_node`: the indent once per level, the
      (last) branch below the top level and the truncated name. It inherits
      no prefix from its parent. */
  function StyleLine(style: TreeStyle): LineFormat {
    (node: TreeNode, depth: nat, isLast: bool, prefix: string) =>
      RepeatString(style.indent, depth) + (if depth > 0 then (if isLast then style.lastPrefix else style.prefix) else "")
      + TruncateName(node.name, style.maxWidth)
  }

  /** Nothing is passed down: every line is built from its depth alone. */
  function NoPrefix(): PrefixRule {
    (prefix: string, depth: nat, isLast: bool) => ""
  }

  /** `print_tree_node` as written: `current_row` is passed by value, so a
      child starts at its parent's row plus one and the lines its older
      siblings printed are not counted. */
  function PrintAsWritten(style: TreeStyle, node: TreeNode, depth: nat, isLast: bool, row: int,
                          maxRow: int): (r: seq<string>)
    ensures row >= maxRow <==> r == []
    ensures row < maxRow ==> r[0] == StyleLine(style)(node, depth, isLast, "")
    decreases node, |node.children| + 1
  {
    if row >= maxRow then []
    else [StyleLine(style)(node, depth, isLast, "")] + KidsAsWritten(style, node, 0, depth, row + 1, maxRow)
  }

  function KidsAsWritten(style: TreeStyle, parent: TreeNode, i: nat, depth: nat, row: int,
                         maxRow: int): seq<string>
    decreases parent, |parent.children| - i
  {
    if i >= |parent.children| then []
    else
      PrintAsWritten(style, parent.children[i], depth + 1, i == |parent.children| - 1, row, maxRow)
      + KidsAsWritten(style, parent, i + 1, depth, row, maxRow)
  }

  /** As written, a directory with three files printed with room for two
      rows prints four lines: each file is checked against its parent's
      row, not against the rows its siblings used. The shared counter
      prints two. */
  lemma AsWrittenOverflows()
    ensures var style := TreeStyle("├── ", "└── ", "  ", 40);
            var leaf := TreeNode("f", [], true);
            var dir := TreeNode("d", [leaf, leaf, leaf], false);
            |PrintAsWritten(style, dir, 0, true, 0, 2)| == 4 && |PrintTreeRows(style, dir, 0, true, 0, 2)| == 2
  {
    var style := TreeStyle("├── ", "└── ", "  ", 40);
    var leaf := TreeNode("f", [], true);
    var dir := TreeNode("d", [leaf, leaf, leaf], false);
    assert |PrintAsWritten(style, leaf, 1, false, 1, 2)| == 1;
    assert |PrintAsWritten(style, leaf, 1, true, 1, 2)| == 1;
    assert |KidsAsWritten(style, dir, 3, 0, 1, 2)| == 0;
    assert |KidsAsWritten(style, dir, 2, 0, 1, 2)| == 1;
    assert |KidsAsWritten(style, dir, 1, 0, 1, 2)| == 2;
    assert |KidsAsWritten(style, dir, 0, 0, 1, 2)| == 3;
  }

  /** `print_tree_node` with the row counter shared, as file-tree.c does it:
      never more than `maxRow - row` lines, and exactly the first lines of
      the whole tree's listing. */
  function PrintTreeRows(style: TreeStyle, node: TreeNode, depth: nat, isLast: bool, row: int,
                         maxRow: int): (r: seq<string>)
    ensures |r| <= Room(row, maxRow)
    ensures r == Lines(Full(StyleLine(style), NoPrefix(), node, depth, isLast, ""), Room(row, maxRow))
  {
    SharedIsCut(StyleLine(style), NoPrefix(), node, depth, isLast, "", row, maxRow);
    Shared(StyleLine(style), NoPrefix(), node, depth, isLast, "", row, maxRow)
  }

  /** Where the tree is shallow enough, the two agree: with the rows to
      spare, both print the whole listing. */
  lemma {:induction false} AsWrittenWhole(style: TreeStyle, node: TreeNode, depth: nat, isLast: bool,
                                          row: int, maxRow: int)
    requires row + Size(node) <= maxRow
    ensures PrintAsWritten(style, node, depth, isLast, row, maxRow)
            == Full(StyleLine(style), NoPrefix(), node, depth, isLast, "")
    decreases node, |node.children| + 1
  {
    KidsAsWrittenWhole(style, node, 0, depth, isLast, row + 1, maxRow);
  }

  lemma {:induction false} KidsAsWrittenWhole(style: TreeStyle, parent: TreeNode, i: nat, depth: nat,
                                              isLast: bool, row: int, maxRow: int)
    requires row + SizeKids(parent, i) <= maxRow
    ensures KidsAsWritten(style, parent, i, depth, row, maxRow)
            == FullKids(StyleLine(style), NoPrefix(), parent, i, depth, isLast, "")
    decreases parent, |parent.children| - i
  {
    if i < |parent.children| {
      AsWrittenWhole(style, parent.children[i], depth + 1, i == |parent.children| - 1, row, maxRow);
      KidsAsWrittenWhole(style, parent, i + 1, depth, isLast, row, maxRow);
    }
  }
}

=== FILE: json.dfy ===
/** json-utils/json-utils.c: the in-house JSON reader and writer. The reader
    is a recursive descent over a C string that keeps string bytes raw and
    numbers as the text they were written in (`atof` is left out); the
    writer emits compact text. Characters stand for the bytes of the C
    string, and the end of the text acts as its terminating NUL. */
module Json {
  import opened Wrappers
  import opened Text
  import opened PyDict

  /** `json_value_t` (json-utils.h): a number keeps its lexeme, an object
      its entries in order, duplicates included. */
  datatype Value =
    | JNull
    | JBool(b: bool)
    | JNumber(lexeme: string)
    | JString(s: string)
    | JArray(items: seq<Value>)
    | JObject(entries: seq<(string, Value)>)

  /** The first byte of the rest of the text, or the terminating NUL at
      its end. The reader's functions take and return the rest of the text,
      as the C code advances its `const char **json` cursor. */
  function At(s: string): char {
    if |s| > 0 then s[0] else '\0'
  }

  /** `skip_whitespace`. */
  function SkipWs(s: string): (r: string)
    ensures |r| <= |s|
    ensures !IsCSpace(At(r))
  {
    if |s| > 0 && IsCSpace(s[0]) then SkipWs(s[1..]) else s
  }

  /** The text after a run of decimal digits. */
  function SkipDigits(s: string): (r: string)
    ensures |r| <= |s|
    ensures !IsDigit(At(r))
  {
    if |s| > 0 && IsDigit(s[0]) then SkipDigits(s[1..]) else s
  }

  /** The text after the number lexeme `parse_value` scans: an optional '-',
      digits, an optional '.' and digits, an optional exponent mark, sign and
      digits, every digit run possibly empty. */
  function SkipNumber(s: string): (r: string)
    ensures |r| <= |s|
    ensures IsDigit(At(s)) || At(s) == '-' ==> |r| < |s|
  {
    var a := if At(s) == '-' then s[1..] else s;
    var b := SkipDigits(a);
    var c := if At(b) == '.' then SkipDigits(b[1..]) else b;
    if At(c) == 'e' || At(c) == 'E' then
      var d := c[1..];
      SkipDigits(if At(d) == '+' || At(d) == '-' then d[1..] else d)
    else c
  }

  /** The loop of `parse_string` after the opening quote: the raw bytes up to
      the closing quote, escapes left as written, and the text after it. A
      backslash makes the next byte part of the string whatever it is; a
      backslash right before the terminating NUL would make the C loop step
      over the terminator, and is reported as a failure here. */
  function ScanString(s: string): (r: Option<(string, string)>)
    ensures r.Some? ==> |r.value.1| < |s| && s == r.value.0 + "\"" + r.value.1
    ensures r.Some? ==> ScanSafe(r.value.0)
  {
    if At(s) == '\0' then None
    else if s[0] == '"' then Some(("", s[1..]))
    else if s[0] == '\\' then
      if |s| < 2 || s[1] == '\0' then None
      else
        match ScanString(s[2..])
        case None => None
        case Some((t, r)) =>
          assert (s[..2] + t)[2..] == t;
          Some((s[..2] + t, r))
    else
      match ScanString(s[1..])
      case None => None
      case Some((t, r)) =>
        assert ([s[0]] + t)[1..] == t;
        Some(([s[0]] + t, r))
  }

  /** `parse_string`: only at an opening quote. */
  function ParseString(s: string): (r: Option<(string, string)>)
    ensures r.Some? ==> |r.value.1| < |s|
    ensures At(s) != '"' ==> r.None?
    ensures r.Some? ==> s == "\"" + r.value.0 + "\"" + r.value.1 && ScanSafe(r.value.0)
  {
    if At(s) != '"' then None else ScanString(s[1..])
  }

  /** `parse_value`: the value at the start of `s` after white space, and
      the text after it. */
  function ParseValue(s: string): (r: Option<(Value, string)>)
    ensures r.Some? ==> |r.value.1| < |s|
    ensures r.Some? && At(SkipWs(s)) == '{' ==> r.value.0.JObject?
    ensures r.Some? && At(SkipWs(s)) == '[' ==> r.value.0.JArray?
    decreases |s|, 0
  {
    var t := SkipWs(s);
    var c := At(t);
    if c == '{' then
      match Members(SkipWs(t[1..]))
      case None => None
      case Some((es, r)) => Some((JObject(es), r))
    else if c == '[' then
      match Elements(SkipWs(t[1..]))
      case None => None
      case Some((vs, r)) => Some((JArray(vs), r))
    else if c == '"' then
      match ParseString(t)
      case None => None
      case Some((k, r)) => Some((JString(k), r))
    else if IsDigit(c) || c == '-' then
      var r := SkipNumber(t);
      Some((JNumber(t[..|t| - |r|]), r))
    else if IsPrefix("true", t) then Some((JBool(true), t[4..]))
    else if IsPrefix("false", t) then Some((JBool(false), t[5..]))
    else if IsPrefix("null", t) then Some((JNull, t[4..]))
    else None
  }

  /** The loop of `parse_array` (white space after the bracket already
      skipped): the items up to the closing bracket and the text after it.
      A comma may be followed directly by the bracket. */
  function Elements(s: string): (r: Option<(seq<Value>, string)>)
    ensures r.Some? ==> |r.value.1| < |s|
    decreases |s|, 1
  {
    if At(s) == '\0' then None
    else if s[0] == ']' then Some(([], s[1..]))
    else
      match ParseValue(s)
      case None => None
      case Some((v, r)) =>
        var r1 := SkipWs(r);
        if At(r1) == ',' then
          match Elements(SkipWs(r1[1..]))
          case None => None
          case Some((vs, e)) => Some(([v] + vs, e))
        else if At(r1) == ']' then Some(([v], r1[1..]))
        else None
  }

  /** The loop of `parse_object` (white space after the brace already
      skipped): the "key": value entries up to the closing brace, every one
      kept even when a key repeats, and the text after the brace. A comma may
      be followed directly by the brace. */
  function Members(s: string): (r: Option<(seq<(string, Value)>, string)>)
    ensures r.Some? ==> |r.value.1| < |s|
    decreases |s|, 2
  {
    if At(s) == '\0' then None
    else if s[0] == '}' then Some(([], s[1..]))
    else if s[0] != '"' then None
    else
      match ParseString(s)
      case None => None
      case Some((k, r)) => MemberValue(k, r)
  }

  /** One entry after its key `k`: the colon and the value, then what
      follows the value. */
  function MemberValue(k: string, s: string): (r: Option<(seq<(string, Value)>, string)>)
    ensures r.Some? ==> |r.value.1| < |s|
    decreases |s|, 4
  {
    var r1 := SkipWs(s);
    if At(r1) != ':' then None
    else
      match ParseValue(SkipWs(r1[1..]))
      case None => None
      case Some((v, r2)) => MemberNext(k, v, r2)
  }

  /** After the entry `k`: `v`, then a comma and more entries, or the
      closing brace. */
  function MemberNext(k: string, v: Value, s: string): (r: Option<(seq<(string, Value)>, string)>)
    ensures r.Some? ==> |r.value.1| < |s|
    decreases |s|, 3
  {
    var r3 := SkipWs(s);
    if At(r3) == ',' then
      match Members(SkipWs(r3[1..]))
      case None => None
      case Some((es, e)) => Some(([(k, v)] + es, e))
    else if At(r3) == '}' then Some(([(k, v)], r3[1..]))
    else None
  }

  /** `json_parse_string`: only an object or an array is accepted at the top
      level, and whatever follows it is ignored. */
  function ParseDocument(s: string): (r: Option<Value>)
    ensures r.Some? ==> r.value.JObject? || r.value.JArray?
    ensures At(SkipWs(s)) != '{' && At(SkipWs(s)) != '[' ==> r.None?
  {
    var t := SkipWs(s);
    if At(t) == '{' || At(t) == '[' then
      match ParseValue(t)
      case None => None
      case Some((v, _)) => Some(v)
    else None
  }

  /** A lower-case hexadecimal digit. */
  function HexDigit(n: nat): char
    requires n < 16
  {
    if n < 10 then ('0' as int + n) as char else ('a' as int + n - 10) as char
  }

  /** `json_stringify`'s escape of one string byte. `char` is taken to be
      signed, as on x86-64, so bytes from 128 up compare below 32 and are
      written as \u00XX like the control bytes. */
  function EscapeChar(c: char): (r: string)
    ensures |r| >= 1
    ensures 32 <= c as int < 128 && c != '"' && c != '\\' ==> r == [c]
  {
    if c == '"' then "\\\""
    else if c == '\\' then "\\\\"
    else if c == '\U{08}' then "\\b"
    else if c == '\U{0C}' then "\\f"
    else if c == '\n' then "\\n"
    else if c == '\r' then "\\r"
    else if c == '\t' then "\\t"
    else if c as int < 32 || c as int >= 128 then
      var b := c as int % 256;
      "\\u00" + [HexDigit(b / 16), HexDigit(b % 16)]
    else [c]
  }

  /** A byte a string value carries through the writer and reader unchanged. */
  predicate Plain(c: char) {
    32 <= c as int < 128 && c != '"' && c != '\\'
  }

  function EscapeString(t: string): (r: string)
    ensures (forall i :: 0 <= i < |t| ==> Plain(t[i])) ==> r == t
  {
    if |t| == 0 then "" else EscapeChar(t[0]) + EscapeString(t[1..])
  }

  /** A byte an object key carries through unchanged: keys escape only the
      quote and the backslash, so control bytes pass raw (NUL would end the
      C string). */
  predicate PlainKeyChar(c: char) {
    c != '"' && c != '\\' && c != '\0'
  }

  /** The key escaping of `json_stringify`: a backslash before each quote
      and backslash, nothing else. */
  function EscapeKey(k: string): (r: string)
    ensures |r| >= |k|
    ensures (forall i :: 0 <= i < |k| ==> k[i] != '"' && k[i] != '\\') ==> r == k
  {
    if |k| == 0 then ""
    else (if k[0] == '"' || k[0] == '\\' then ['\\', k[0]] else [k[0]]) + EscapeKey(k[1..])
  }

  /** `json_stringify` of a value; `num` is the `%.17g` text of a number
      lexeme's `atof` value. */
  function Stringify(v: Value, num: string -> string): string
    decreases v, 1
  {
    match v
    case JNull => "null"
    case JBool(b) => if b then "true" else "false"
    case JNumber(t) => num(t)
    case JString(t) => "\"" + EscapeString(t) + "\""
    case JArray(items) => "[" + ItemsText(v, 0, num) + "]"
    case JObject(es) => "{" + EntriesText(v, 0, num) + "}"
  }

  /** A string is written between quotes, an array between brackets and
      an object between braces. */
  lemma StringifyDelimited(v: Value, num: string -> string)
    ensures var r := Stringify(v, num);
            (v.JString? ==> |r| >= 2 && r[0] == '"' && r[|r| - 1] == '"')
            && (v.JArray? ==> |r| >= 2 && r[0] == '[' && r[|r| - 1] == ']')
            && (v.JObject? ==> |r| >= 2 && r[0] == '{' && r[|r| - 1] == '}')
  {
  }

  /** The items from `i` on with a comma between neighbours (the C loop
      writes one before every item but the first). */
  function ItemsText(v: Value, i: nat, num: string -> string): string
    requires v.JArray? && i <= |v.items|
    decreases v, 0, |v.items| - i
  {
    if i == |v.items| then ""
    else
      assert v.items[i] in v.items;
      Stringify(v.items[i], num) + Comma(i + 1 < |v.items|) + ItemsText(v, i + 1, num)
  }

  /** The entries from `i` on as "key":value with a comma between
      neighbours. */
  function EntriesText(v: Value, i: nat, num: string -> string): string
    requires v.JObject? && i <= |v.entries|
    decreases v, 0, |v.entries| - i
  {
    if i == |v.entries| then ""
    else
      var e := v.entries[i];
      assert e in v.entries;
      KeyText(e.0) + Stringify(e.1, num) + Comma(i + 1 < |v.entries|) + EntriesText(v, i + 1, num)
  }

  function Comma(more: bool): string {
    if more then "," else ""
  }

  /** A key as written before its value: quoted, escaped, and the colon. */
  function KeyText(k: string): string {
    "\"" + EscapeKey(k) + "\":"
  }

  /** `json_array_add`: -1 and nothing changed for a missing or non-array
      target or a missing value; otherwise 0 and the value appended. */
  function ArrayAdd(target: Option<Value>, value: Option<Value>): (r: (int, Option<Value>))
    ensures r.0 == -1 <==> target.None? || !target.value.JArray? || value.None?
    ensures r.0 == -1 ==> r.1 == target
    ensures r.0 == 0 ==> r.1.Some? && r.1.value.JArray?
                         && r.1.value.items == target.value.items + [value.value]
  {
    if target.None? || !target.value.JArray? || value.None? then (-1, target)
    else (0, Some(JArray(target.value.items + [value.value])))
  }

  /** `json_object_set`: -1 and nothing changed for a missing or non-object
      target, key or value; otherwise 0, with the first entry holding the
      key given the new value where it stands, or a new entry appended. */
  function ObjectSet(target: Option<Value>, key: Option<string>, value: Option<Value>): (r: (int, Option<Value>))
    ensures r.0 == -1 <==> target.None? || !target.value.JObject? || key.None? || value.None?
    ensures r.0 == -1 ==> r.1 == target
    ensures r.0 == 0 ==> r.1.Some? && r.1.value.JObject?
                         && Get(r.1.value.entries, key.value) == Some(value.value)
                         && (forall k :: k != key.value ==> Get(r.1.value.entries, k) == Get(target.value.entries, k))
    ensures r.0 == 0 ==> |r.1.value.entries| == |target.value.entries| + (if key.value in Keys(target.value.entries) then 0 else 1)
  {
    if target.None? || !target.value.JObject? || key.None? || value.None? then (-1, target)
    else
      var d, k, x := target.value.entries, key.value, value.value;
      PutGet(d, k, x);
      PutOther(d, k, x);
      PutKeys(d, k, x);
      (0, Some(JObject(Put(d, k, x))))
  }

  /** Setting keys never makes them repeat. */
  lemma ObjectSetKeepsKeysUnique(target: Value, key: string, value: Value)
    requires target.JObject? && UniqueKeys(target.entries)
    ensures UniqueKeys(ObjectSet(Some(target), Some(key), Some(value)).1.value.entries)
  {
    PutUnique(target.entries, key, value);
  }

  /** A tree the writer and reader agree on: no numbers (their text goes
      through `%.17g`), string values of plain bytes only, and keys without
      a quote, backslash or NUL. */
  predicate Clean(v: Value) {
    match v
    case JNull => true
    case JBool(_) => true
    case JNumber(_) => false
    case JString(t) => forall i :: 0 <= i < |t| ==> Plain(t[i])
    case JArray(items) => forall x :: x in items ==> Clean(x)
    case JObject(es) => forall e :: e in es ==> CleanKey(e.0) && Clean(e.1)
  }

  predicate CleanKey(k: string) {
    forall i :: 0 <= i < |k| ==> PlainKeyChar(k[i])
  }

  /** A byte a written value can start with. */
  predicate StartChar(c: char) {
    c == 'n' || c == 't' || c == 'f' || c == '"' || c == '[' || c == '{'
  }

  lemma FirstChar(v: Value, num: string -> string)
    requires Clean(v)
    ensures |Stringify(v, num)| > 0 && StartChar(Stringify(v, num)[0])
  {
  }

  /** The written text from item `i` on: the item, then either a comma and
      the text from item `i + 1` on, or the closing bracket. */
  lemma ItemShape(v: Value, i: nat, num: string -> string, rest: string)
    requires v.JArray? && Clean(v) && i < |v.items|
    ensures Clean(v.items[i])
    ensures ItemsText(v, i, num) + "]" + rest == Stringify(v.items[i], num) + AfterItem(v, i, num, rest)
  {
    assert v.items[i] in v.items;
  }

  /** What the written text holds after item `i` and before `rest`. */
  function AfterItem(v: Value, i: nat, num: string -> string, rest: string): (r: string)
    requires v.JArray? && i < |v.items|
    ensures i + 1 < |v.items| ==> r == "," + (ItemsText(v, i + 1, num) + "]" + rest)
    ensures i + 1 == |v.items| ==> r == "]" + rest
  {
    Comma(i + 1 < |v.items|) + ItemsText(v, i + 1, num) + "]" + rest
  }

  /** The written text of entry `i`: its key text, its value, then either a
      comma and the next entry or the closing brace. */
  lemma EntryShape(v: Value, i: nat, num: string -> string, rest: string)
    requires v.JObject? && Clean(v) && i < |v.entries|
    ensures CleanKey(v.entries[i].0) && Clean(v.entries[i].1)
    ensures EntriesText(v, i, num) + "}" + rest
            == KeyText(v.entries[i].0) + (Stringify(v.entries[i].1, num) + AfterEntry(v, i, num, rest))
  {
    EntryClean(v, i);
    EntryText(v, i, num, rest);
  }

  lemma EntryClean(v: Value, i: nat)
    requires v.JObject? && Clean(v) && i < |v.entries|
    ensures CleanKey(v.entries[i].0) && Clean(v.entries[i].1)
  {
    assert v.entries[i] in v.entries;
  }

  lemma EntryText(v: Value, i: nat, num: string -> string, rest: string)
    requires v.JObject? && i < |v.entries|
    ensures EntriesText(v, i, num) + "}" + rest
            == KeyText(v.entries[i].0) + (Stringify(v.entries[i].1, num) + AfterEntry(v, i, num, rest))
  {
    var e := v.entries[i];
    var a, b, c, d := KeyText(e.0), Stringify(e.1, num), Comma(i + 1 < |v.entries|), EntriesText(v, i + 1, num);
    assert EntriesText(v, i, num) == a + b + c + d;
    assert AfterEntry(v, i, num, rest) == c + d + "}" + rest;
    assert a + b + c + d + "}" + rest == a + (b + (c + d + "}" + rest));
  }

  function AfterEntry(v: Value, i: nat, num: string -> string, rest: string): (r: string)
    requires v.JObject? && i < |v.entries|
    ensures i + 1 < |v.entries| ==> r == "," + (EntriesText(v, i + 1, num) + "}" + rest)
    ensures i + 1 == |v.entries| ==> r == "}" + rest
  {
    Comma(i + 1 < |v.entries|) + EntriesText(v, i + 1, num) + "}" + rest
  }

  /** The key text of a clean key is the quoted key and a colon. */
  lemma KeyShape(k: string, after: string)
    requires CleanKey(k)
    ensures KeyText(k) + after == "\"" + (k + "\"" + (":" + after))
  {
    assert EscapeKey(k) == k;
  }

  /** After an item or entry that is not the last: a comma, and the next
      one right after it. */
  lemma ItemNext(v: Value, i: nat, num: string -> string, rest: string)
    requires v.JArray? && Clean(v) && i + 1 < |v.items|
    ensures var a := AfterItem(v, i, num, rest);
            At(a) == ',' && SkipWs(a[1..]) == ItemsText(v, i + 1, num) + "]" + rest
  {
    var next := ItemsText(v, i + 1, num) + "]" + rest;
    assert AfterItem(v, i, num, rest)[1..] == next;
    ItemsStart(v, i + 1, num, rest);
    assert SkipWs(next) == next;
  }

  lemma EntryNext(v: Value, i: nat, num: string -> string, rest: string)
    requires v.JObject? && Clean(v) && i + 1 < |v.entries|
    ensures var a := AfterEntry(v, i, num, rest);
            At(a) == ',' && SkipWs(a[1..]) == EntriesText(v, i + 1, num) + "}" + rest
  {
    var next := EntriesText(v, i + 1, num) + "}" + rest;
    assert AfterEntry(v, i, num, rest)[1..] == next;
    EntriesStart(v, i + 1, num, rest);
    assert SkipWs(next) == next;
  }

  /** The text a container's reader loop starts on begins with a value or
      the closing bracket. */
  lemma ItemsStart(v: Value, i: nat, num: string -> string, rest: string)
    requires v.JArray? && Clean(v) && i <= |v.items|
    ensures var t := ItemsText(v, i, num) + "]" + rest; |t| > 0 && (t[0] == ']' || StartChar(t[0]))
  {
    if i < |v.items| {
      ItemShape(v, i, num, rest);
      FirstChar(v.items[i], num);
    }
  }

  lemma EntriesStart(v: Value, i: nat, num: string -> string, rest: string)
    requires v.JObject? && Clean(v) && i <= |v.entries|
    ensures var t := EntriesText(v, i, num) + "}" + rest; |t| > 0 && (t[0] == '}' || t[0] == '"')
  {
    if i < |v.entries| {
      EntryShape(v, i, num, rest);
    }
  }

  /** A run of bytes without quote, backslash or NUL, closed by a quote,
      scans back as itself. */
  lemma {:induction false} ScanPlain(k: string, rest: string)
    requires CleanKey(k)
    ensures ScanString(k + "\"" + rest) == Some((k, rest))
  {
    var s := k + "\"" + rest;
    if |k| == 0 {
      assert s == "\"" + rest;
      assert s[1..] == rest;
    } else {
      assert s[0] == k[0];
      assert s[1..] == k[1..] + "\"" + rest;
      ScanPlain(k[1..], rest);
      assert [k[0]] + k[1..] == k;
    }
  }

  lemma QuotedRead(k: string, rest: string)
    requires CleanKey(k)
    ensures ParseString("\"" + (k + "\"" + rest)) == Some((k, rest))
  {
    var s := "\"" + (k + "\"" + rest);
    assert s[1..] == k + "\"" + rest;
    ScanPlain(k, rest);
  }

  /** How `ParseValue` reads the words, strings, arrays and objects. */
  lemma ValueAtWord(v: Value, rest: string)
    requires v.JNull? || v.JBool?
    ensures ParseValue(WordOf(v) + rest) == Some((v, rest))
  {
    var t := WordOf(v) + rest;
    assert t[..|WordOf(v)|] == WordOf(v) && t[|WordOf(v)|..] == rest;
    assert SkipWs(t) == t;
  }

  function WordOf(v: Value): string
    requires v.JNull? || v.JBool?
  {
    if v.JNull? then "null" else if v.b then "true" else "false"
  }

  lemma ValueAtString(s: string, k: string, r: string)
    requires At(s) == '"' && ParseString(s) == Some((k, r))
    ensures ParseValue(s) == Some((JString(k), r))
  {
    assert SkipWs(s) == s;
  }

  lemma ValueAtArray(s: string, vs: seq<Value>, r: string)
    requires At(s) == '[' && Elements(SkipWs(s[1..])) == Some((vs, r))
    ensures ParseValue(s) == Some((JArray(vs), r))
  {
    assert SkipWs(s) == s;
  }

  lemma ValueAtObject(s: string, es: seq<(string, Value)>, r: string)
    requires At(s) == '{' && Members(SkipWs(s[1..])) == Some((es, r))
    ensures ParseValue(s) == Some((JObject(es), r))
  {
    assert SkipWs(s) == s;
  }

  /** How `Elements` reads an empty tail, and one item followed by the
      closing bracket or by a comma. */
  lemma ElementsEmpty(rest: string)
    ensures Elements("]" + rest) == Some(([], rest))
  {
    assert ("]" + rest)[1..] == rest;
  }

  lemma ElementsLast(s: string, x: Value, r: string)
    requires At(s) != '\0' && At(s) != ']' && ParseValue(s) == Some((x, r)) && At(r) == ']'
    ensures Elements(s) == Some(([x], r[1..]))
  {
    assert SkipWs(r) == r;
  }

  lemma ElementsMore(s: string, x: Value, r: string, xs: seq<Value>, e: string)
    requires At(s) != '\0' && At(s) != ']' && ParseValue(s) == Some((x, r)) && At(r) == ','
    requires Elements(SkipWs(r[1..])) == Some((xs, e))
    ensures Elements(s) == Some(([x] + xs, e))
  {
    assert SkipWs(r) == r;
  }

  /** How `Members` reads an empty tail, and one entry: the key, then the
      colon and the value, then the closing brace or a comma. */
  lemma MembersEmpty(rest: string)
    ensures Members("}" + rest) == Some(([], rest))
  {
    assert ("}" + rest)[1..] == rest;
  }

  lemma MembersKey(s: string, k: string, r: string)
    requires At(s) == '"' && ParseString(s) == Some((k, r))
    ensures Members(s) == MemberValue(k, r)
  {
  }

  lemma MemberColon(k: string, s: string, x: Value, r: string)
    requires At(s) == ':' && ParseValue(SkipWs(s[1..])) == Some((x, r))
    ensures MemberValue(k, s) == MemberNext(k, x, r)
  {
    assert SkipWs(s) == s;
  }

  lemma MemberClose(k: string, x: Value, s: string)
    requires At(s) == '}'
    ensures MemberNext(k, x, s) == Some(([(k, x)], s[1..]))
  {
    assert SkipWs(s) == s;
  }

  lemma MemberComma(k: string, x: Value, s: string, es: seq<(string, Value)>, e: string)
    requires At(s) == ',' && Members(SkipWs(s[1..])) == Some((es, e))
    ensures MemberNext(k, x, s) == Some(([(k, x)] + es, e))
  {
    assert SkipWs(s) == s;
  }

  /** Parsing the written text of a clean value gives the value back and
      leaves whatever follows it. */
  lemma {:induction false} ValueRoundTrip(v: Value, num: string -> string, rest: string)
    requires Clean(v)
    ensures ParseValue(Stringify(v, num) + rest) == Some((v, rest))
    decreases v, 2
  {
    match v
    case JArray(_) => ArrayRoundTrip(v, num, rest);
    case JObject(_) => ObjectRoundTrip(v, num, rest);
    case JString(u) =>
      var s := Stringify(v, num) + rest;
      assert EscapeString(u) == u;
      assert s == "\"" + (u + "\"" + rest);
      QuotedRead(u, rest);
      ValueAtString(s, u, rest);
    case JNull =>
      ValueAtWord(v, rest);
    case JBool(_) =>
      ValueAtWord(v, rest);
    case JNumber(_) =>
  }

  lemma ArrayRoundTrip(v: Value, num: string -> string, rest: string)
    requires v.JArray? && Clean(v)
    ensures ParseValue(Stringify(v, num) + rest) == Some((v, rest))
    decreases v, 1
  {
    var s := Stringify(v, num) + rest;
    var body := ItemsText(v, 0, num) + "]" + rest;
    assert s == "[" + body;
    assert s[1..] == body;
    ItemsStart(v, 0, num, rest);
    assert SkipWs(body) == body;
    ElementsRoundTrip(v, 0, num, rest);
    assert v.items[0..] == v.items;
    ValueAtArray(s, v.items, rest);
  }

  lemma ObjectRoundTrip(v: Value, num: string -> string, rest: string)
    requires v.JObject? && Clean(v)
    ensures ParseValue(Stringify(v, num) + rest) == Some((v, rest))
    decreases v, 1
  {
    var s := Stringify(v, num) + rest;
    var body := EntriesText(v, 0, num) + "}" + rest;
    assert s == "{" + body;
    assert s[1..] == body;
    EntriesStart(v, 0, num, rest);
    assert SkipWs(body) == body;
    MembersRoundTrip(v, 0, num, rest);
    assert v.entries[0..] == v.entries;
    ValueAtObject(s, v.entries, rest);
  }

  lemma {:induction false} ElementsRoundTrip(v: Value, i: nat, num: string -> string, rest: string)
    requires v.JArray? && Clean(v) && i <= |v.items|
    ensures Elements(ItemsText(v, i, num) + "]" + rest) == Some((v.items[i..], rest))
    decreases v, 0, |v.items| - i, 1
  {
    if i == |v.items| {
      ElementsAtEnd(v, num, rest);
    } else if i + 1 == |v.items| {
      ItemStep(v, i, num, rest);
      ElementsLastItem(v, i, num, rest);
    } else {
      ItemStep(v, i, num, rest);
      ElementsRoundTrip(v, i + 1, num, rest);
      ElementsNextItem(v, i, num, rest);
    }
  }

  /** Reading item `i` from its written text reaches what follows it. */
  lemma {:induction false} ItemStep(v: Value, i: nat, num: string -> string, rest: string)
    requires v.JArray? && Clean(v) && i < |v.items|
    ensures var s := ItemsText(v, i, num) + "]" + rest;
            At(s) != '\0' && At(s) != ']' && ParseValue(s) == Some((v.items[i], AfterItem(v, i, num, rest)))
    decreases v, 0, |v.items| - i, 0
  {
    var x := v.items[i];
    ItemShape(v, i, num, rest);
    FirstChar(x, num);
    ValueRoundTrip(x, num, AfterItem(v, i, num, rest));
  }

  lemma ElementsAtEnd(v: Value, num: string -> string, rest: string)
    requires v.JArray?
    ensures Elements(ItemsText(v, |v.items|, num) + "]" + rest) == Some((v.items[|v.items|..], rest))
  {
    assert ItemsText(v, |v.items|, num) + "]" + rest == "]" + rest;
    assert v.items[|v.items|..] == [];
    ElementsEmpty(rest);
  }

  lemma ElementsLastItem(v: Value, i: nat, num: string -> string, rest: string)
    requires v.JArray? && i + 1 == |v.items|
    requires var s := ItemsText(v, i, num) + "]" + rest;
             At(s) != '\0' && At(s) != ']' && ParseValue(s) == Some((v.items[i], AfterItem(v, i, num, rest)))
    ensures Elements(ItemsText(v, i, num) + "]" + rest) == Some((v.items[i..], rest))
  {
    var after := AfterItem(v, i, num, rest);
    assert after[1..] == rest;
    ElementsLast(ItemsText(v, i, num) + "]" + rest, v.items[i], after);
    assert v.items[i..] == [v.items[i]];
  }

  lemma ElementsNextItem(v: Value, i: nat, num: string -> string, rest: string)
    requires v.JArray? && Clean(v) && i + 1 < |v.items|
    requires var s := ItemsText(v, i, num) + "]" + rest;
             At(s) != '\0' && At(s) != ']' && ParseValue(s) == Some((v.items[i], AfterItem(v, i, num, rest)))
    requires Elements(ItemsText(v, i + 1, num) + "]" + rest) == Some((v.items[i + 1..], rest))
    ensures Elements(ItemsText(v, i, num) + "]" + rest) == Some((v.items[i..], rest))
  {
    var x := v.items[i];
    ItemNext(v, i, num, rest);
    ElementsMore(ItemsText(v, i, num) + "]" + rest, x, AfterItem(v, i, num, rest), v.items[i + 1..], rest);
    assert v.items[i..] == [x] + v.items[i + 1..];
  }

  /** Reading entry `i` from its written text reaches what follows its value. */
  lemma {:induction false} MemberStep(v: Value, i: nat, num: string -> string, rest: string)
    requires v.JObject? && Clean(v) && i < |v.entries|
    ensures Members(EntriesText(v, i, num) + "}" + rest)
            == MemberNext(v.entries[i].0, v.entries[i].1, AfterEntry(v, i, num, rest))
    decreases v, 0, |v.entries| - i, 0
  {
    var e := v.entries[i];
    var after := AfterEntry(v, i, num, rest);
    var colon := ":" + (Stringify(e.1, num) + after);
    EntryKeyRead(v, i, num, rest);
    EntryClean(v, i);
    ValueAfterColon(e.1, num, after);
    assert colon[1..] == Stringify(e.1, num) + after;
    MemberColon(e.0, colon, e.1, after);
  }

  /** Reading entry `i` from its written text gets its key and stops at
      the colon. */
  lemma EntryKeyRead(v: Value, i: nat, num: string -> string, rest: string)
    requires v.JObject? && Clean(v) && i < |v.entries|
    ensures Members(EntriesText(v, i, num) + "}" + rest)
            == MemberValue(v.entries[i].0, ":" + (Stringify(v.entries[i].1, num) + AfterEntry(v, i, num, rest)))
  {
    var e := v.entries[i];
    var colon := ":" + (Stringify(e.1, num) + AfterEntry(v, i, num, rest));
    EntryShape(v, i, num, rest);
    KeyShape(e.0, Stringify(e.1, num) + AfterEntry(v, i, num, rest));
    QuotedRead(e.0, colon);
    MembersKey(EntriesText(v, i, num) + "}" + rest, e.0, colon);
  }

  /** The written text of a clean value, white space skipped first, reads
      back as the value. */
  lemma {:induction false} ValueAfterColon(x: Value, num: string -> string, after: string)
    requires Clean(x)
    ensures ParseValue(SkipWs(Stringify(x, num) + after)) == Some((x, after))
    decreases x, 3
  {
    var val := Stringify(x, num) + after;
    FirstChar(x, num);
    assert val[0] == Stringify(x, num)[0];
    assert SkipWs(val) == val;
    ValueRoundTrip(x, num, after);
  }

  lemma {:induction false} MembersRoundTrip(v: Value, i: nat, num: string -> string, rest: string)
    requires v.JObject? && Clean(v) && i <= |v.entries|
    ensures Members(EntriesText(v, i, num) + "}" + rest) == Some((v.entries[i..], rest))
    decreases v, 0, |v.entries| - i, 1
  {
    if i == |v.entries| {
      MembersAtEnd(v, num, rest);
    } else if i + 1 == |v.entries| {
      MemberStep(v, i, num, rest);
      MembersLastEntry(v, i, num, rest);
    } else {
      MemberStep(v, i, num, rest);
      MembersRoundTrip(v, i + 1, num, rest);
      MembersNextEntry(v, i, num, rest);
    }
  }

  lemma MembersNextEntry(v: Value, i: nat, num: string -> string, rest: string)
    requires v.JObject? && Clean(v) && i + 1 < |v.entries|
    requires Members(EntriesText(v, i, num) + "}" + rest)
             == MemberNext(v.entries[i].0, v.entries[i].1, AfterEntry(v, i, num, rest))
    requires Members(EntriesText(v, i + 1, num) + "}" + rest) == Some((v.entries[i + 1..], rest))
    ensures Members(EntriesText(v, i, num) + "}" + rest) == Some((v.entries[i..], rest))
  {
    var e := v.entries[i];
    var a := AfterEntry(v, i, num, rest);
    EntryNext(v, i, num, rest);
    MembersCons(EntriesText(v, i, num) + "}" + rest, e.0, e.1, a, v.entries[i + 1..], rest);
    assert v.entries[i..] == [e] + v.entries[i + 1..];
  }

  /** An entry followed by a comma and more entries reads as all of them. */
  lemma MembersCons(s: string, k: string, x: Value, a: string, es: seq<(string, Value)>, rest: string)
    requires Members(s) == MemberNext(k, x, a)
    requires At(a) == ',' && Members(SkipWs(a[1..])) == Some((es, rest))
    ensures Members(s) == Some(([(k, x)] + es, rest))
  {
    MemberComma(k, x, a, es, rest);
  }

  lemma MembersAtEnd(v: Value, num: string -> string, rest: string)
    requires v.JObject?
    ensures Members(EntriesText(v, |v.entries|, num) + "}" + rest) == Some((v.entries[|v.entries|..], rest))
  {
    assert EntriesText(v, |v.entries|, num) + "}" + rest == "}" + rest;
    assert v.entries[|v.entries|..] == [];
    MembersEmpty(rest);
  }

  lemma MembersLastEntry(v: Value, i: nat, num: string -> string, rest: string)
    requires v.JObject? && i + 1 == |v.entries|
    requires Members(EntriesText(v, i, num) + "}" + rest)
             == MemberNext(v.entries[i].0, v.entries[i].1, AfterEntry(v, i, num, rest))
    ensures Members(EntriesText(v, i, num) + "}" + rest) == Some((v.entries[i..], rest))
  {
    var e := v.entries[i];
    var after := AfterEntry(v, i, num, rest);
    assert after == "}" + rest;
    assert after[1..] == rest;
    MemberClose(e.0, e.1, after);
    assert v.entries[i..] == [e];
  }

  /** Writing a clean object or array and reading the text back, with
      anything after it, rebuilds the same tree. */
  lemma DocumentRoundTrip(v: Value, num: string -> string, rest: string)
    requires Clean(v) && (v.JObject? || v.JArray?)
    ensures ParseDocument(Stringify(v, num) + rest) == Some(v)
  {
    var s := Stringify(v, num) + rest;
    FirstChar(v, num);
    assert s[0] == Stringify(v, num)[0];
    assert SkipWs(s) == s;
    ValueRoundTrip(v, num, rest);
  }

  /** The reader is laxer than section 4 of RFC 8259: a comma may close an
      array. */
  lemma TrailingCommaAccepted()
    ensures ParseDocument("[1,]") == Some(JArray([JNumber("1")]))
  {
    NumberAt("1", ",]");
    assert "1" + ",]" == "1,]";
    assert SkipWs(",]"[1..]) == "]";
    ElementsEmpty("");
    ElementsMore("1,]", JNumber("1"), ",]", [], "");
    assert [JNumber("1")] + [] == [JNumber("1")];
    assert "[1,]"[1..] == "1,]";
    assert SkipWs("1,]") == "1,]";
    ValueAtArray("[1,]", [JNumber("1")], "");
    assert SkipWs("[1,]") == "[1,]";
  }

  /** A run of digits ends where the text after it starts with no digit. */
  lemma {:induction false} DigitsAt(d: string, rest: string)
    requires forall i :: 0 <= i < |d| ==> IsDigit(d[i])
    requires !IsDigit(At(rest))
    ensures SkipDigits(d + rest) == rest
  {
    if |d| > 0 {
      assert (d + rest)[1..] == d[1..] + rest;
      DigitsAt(d[1..], rest);
    } else {
      assert d + rest == rest;
    }
  }

  /** A digit run followed by a byte that cannot continue a number reads as
      a number with that lexeme. */
  lemma NumberAt(d: string, rest: string)
    requires |d| > 0 && forall i :: 0 <= i < |d| ==> IsDigit(d[i])
    requires !IsDigit(At(rest)) && At(rest) != '.' && At(rest) != 'e' && At(rest) != 'E'
    ensures ParseValue(d + rest) == Some((JNumber(d), rest))
  {
    var s := d + rest;
    assert s[0] == d[0];
    assert SkipWs(s) == s;
    DigitsAt(d, rest);
    assert s[..|s| - |rest|] == d;
  }

  /** Number lexemes are laxer than section 6 of RFC 8259: a lone minus
      passes, ... */
  lemma LoneMinus(rest: string)
    requires !IsDigit(At(rest)) && At(rest) != '.' && At(rest) != 'e' && At(rest) != 'E'
    ensures ParseValue("-" + rest) == Some((JNumber("-"), rest))
  {
    var m := "-" + rest;
    assert m[1..] == rest && SkipWs(m) == m;
    DigitsAt("", rest);
    assert m[..|m| - |rest|] == "-";
  }

  /** ... so does a point without digits after it, ... */
  lemma BarePoint(d: string, rest: string)
    requires |d| > 0 && forall i :: 0 <= i < |d| ==> IsDigit(d[i])
    requires !IsDigit(At(rest)) && At(rest) != 'e' && At(rest) != 'E'
    ensures ParseValue(d + "." + rest) == Some((JNumber(d + "."), rest))
  {
    var p := d + "." + rest;
    PointAfterDigits(d, rest);
    assert p[0] == d[0];
    NumberLexeme(p);
    assert p[..|p| - |rest|] == d + ".";
  }

  /** The number scan of digits and a point stops right after the point. */
  lemma PointAfterDigits(d: string, rest: string)
    requires |d| > 0 && forall i :: 0 <= i < |d| ==> IsDigit(d[i])
    requires !IsDigit(At(rest)) && At(rest) != 'e' && At(rest) != 'E'
    ensures SkipNumber(d + "." + rest) == rest
  {
    var p := d + "." + rest;
    DigitsAt(d, "." + rest);
    assert d + ("." + rest) == p && ("." + rest)[1..] == rest;
    DigitsAt("", rest);
  }

  /** Text starting with a digit reads as the number lexeme the scan covers. */
  lemma NumberLexeme(t: string)
    requires |t| > 0 && IsDigit(t[0])
    ensures ParseValue(t) == Some((JNumber(t[..|t| - |SkipNumber(t)|]), SkipNumber(t)))
  {
    assert SkipWs(t) == t;
  }

  /** ... and so do leading zeros. */
  lemma LeadingZeros(d: string, rest: string)
    requires |d| > 0 && forall i :: 0 <= i < |d| ==> IsDigit(d[i])
    requires !IsDigit(At(rest)) && At(rest) != '.' && At(rest) != 'e' && At(rest) != 'E'
    ensures ParseValue("0" + d + rest) == Some((JNumber("0" + d), rest))
  {
    NumberAt("0" + d, rest);
    assert "0" + d + rest == ("0" + d) + rest;
  }

  /** Strings are kept as written: an escape stays a backslash and the byte
      after it, and an escaped quote does not end the string. */
  lemma EscapesKeptRaw(c: char, rest: string)
    requires c != '\0'
    ensures ParseString("\"\\" + [c] + "\"" + rest) == Some(("\\" + [c], rest))
  {
    var s := "\"\\" + [c] + "\"" + rest;
    var t := s[1..];
    assert t == "\\" + [c] + "\"" + rest;
    assert t[2..] == "\"" + rest && ("\"" + rest)[1..] == rest;
    assert ScanString(t[2..]) == Some(("", rest));
    assert t[0] == '\\' && t[1] == c;
    assert t[..2] + "" == "\\" + [c];
    assert ScanString(t) == Some(("\\" + [c], rest));
  }

  /** Unlike sections 4 and 5 of RFC 8259, which leave duplicate names and
      their handling open, every entry of a repeated key is kept, in order. */
  lemma DuplicateKeysKept(k: string, a: Value, b: Value, num: string -> string)
    requires CleanKey(k) && Clean(a) && Clean(b)
    ensures var v := JObject([(k, a), (k, b)]);
            ParseDocument(Stringify(v, num)) == Some(v)
  {
    var v := JObject([(k, a), (k, b)]);
    assert Clean(v);
    DocumentRoundTrip(v, num, "");
    assert Stringify(v, num) + "" == Stringify(v, num);
  }

  // ---------------------------------------------------------------------
  // One line of text

  /** No key anywhere in the tree holds a newline. */
  predicate LineKeys(v: Value)
    decreases v
  {
    match v
    case JArray(items) => forall x :: x in items ==> LineKeys(x)
    case JObject(es) => forall e :: e in es ==> '\n' !in e.0 && LineKeys(e.1)
    case _ => true
  }

  /** The writer escapes every newline of a string value. */
  lemma {:induction false} EscapeStringOneLine(t: string)
    ensures '\n' !in EscapeString(t)
  {
    if |t| > 0 {
      EscapeStringOneLine(t[1..]);
      var c := t[0];
      var e := EscapeChar(c);
      if c != '"' && c != '\\' && c != '\U{08}' && c != '\U{0C}' && c != '\n' && c != '\r' && c != '\t'
         && (c as int < 32 || c as int >= 128) {
        var b := c as int % 256;
        assert e == "\\u00" + [HexDigit(b / 16), HexDigit(b % 16)];
      }
      assert '\n' !in e;
    }
  }

  /** A key without a newline is written without one. */
  lemma {:induction false} EscapeKeyOneLine(k: string)
    requires '\n' !in k
    ensures '\n' !in EscapeKey(k)
  {
    if |k| > 0 {
      assert forall x :: x in k[1..] ==> x in k;
      EscapeKeyOneLine(k[1..]);
    }
  }

  /** `json_stringify` writes one line: a tree whose keys hold no newline,
      with numbers printed without one, becomes text without a newline. */
  lemma {:induction false} StringifyOneLine(v: Value, num: string -> string)
    requires LineKeys(v) && forall t :: '\n' !in num(t)
    ensures '\n' !in Stringify(v, num)
    decreases v, 1
  {
    match v
    case JString(t) => EscapeStringOneLine(t);
    case JArray(items) => ItemsOneLine(v, 0, num);
    case JObject(es) => EntriesOneLine(v, 0, num);
    case _ =>
  }

  lemma {:induction false} ItemsOneLine(v: Value, i: nat, num: string -> string)
    requires v.JArray? && i <= |v.items| && LineKeys(v) && forall t :: '\n' !in num(t)
    ensures '\n' !in ItemsText(v, i, num)
    decreases v, 0, |v.items| - i
  {
    if i < |v.items| {
      assert v.items[i] in v.items;
      StringifyOneLine(v.items[i], num);
      ItemsOneLine(v, i + 1, num);
    }
  }

  lemma {:induction false} EntriesOneLine(v: Value, i: nat, num: string -> string)
    requires v.JObject? && i <= |v.entries| && LineKeys(v) && forall t :: '\n' !in num(t)
    ensures '\n' !in EntriesText(v, i, num)
    decreases v, 0, |v.entries| - i
  {
    if i < |v.entries| {
      var e := v.entries[i];
      assert e in v.entries;
      EscapeKeyOneLine(e.0);
      StringifyOneLine(e.1, num);
      EntriesOneLine(v, i + 1, num);
    }
  }

  // ---------------------------------------------------------------------
  // Escapes read back raw

  /** Text the string loop steps through without stopping: plain bytes, and
      a backslash with the (non-NUL) byte after it. */
  predicate ScanSafe(e: string)
    decreases |e|
  {
    if |e| == 0 then true
    else if e[0] == '\\' then |e| >= 2 && e[1] != '\0' && ScanSafe(e[2..])
    else e[0] != '"' && e[0] != '\0' && ScanSafe(e[1..])
  }

  /** The loop copies scan-safe text into the string as it stands. */
  lemma {:induction false} ScanThrough(e: string, tail: string)
    requires ScanSafe(e)
    ensures ScanString(e + tail) == match ScanString(tail)
                                   case None => None
                                   case Some((t, r)) => Some((e + t, r))
    decreases |e|
  {
    var s := e + tail;
    if |e| == 0 {
      assert s == tail;
      assert forall t :: e + t == t;
    } else if e[0] == '\\' {
      assert |e| >= 2;
      assert s[0] == '\\' && s[1] == e[1] && s[2..] == e[2..] + tail;
      assert At(s) == '\\';
      ScanThrough(e[2..], tail);
      assert s[..2] == e[..2] && e[..2] + e[2..] == e;
      assert forall t :: s[..2] + (e[2..] + t) == e + t;
    } else {
      assert s[0] == e[0] && s[1..] == e[1..] + tail;
      assert At(s) == e[0];
      ScanThrough(e[1..], tail);
      assert forall t :: [e[0]] + (e[1..] + t) == e + t;
    }
  }

  lemma {:induction false} ScanSafeAppend(a: string, b: string)
    requires ScanSafe(a) && ScanSafe(b)
    ensures ScanSafe(a + b)
    decreases |a|
  {
    if |a| > 0 {
      if a[0] == '\\' {
        assert (a + b)[2..] == a[2..] + b;
        ScanSafeAppend(a[2..], b);
      } else {
        assert (a + b)[1..] == a[1..] + b;
        ScanSafeAppend(a[1..], b);
      }
    } else {
      assert a + b == b;
    }
  }

  lemma EscapeCharScanSafe(c: char)
    ensures ScanSafe(EscapeChar(c))
  {
    var e := EscapeChar(c);
    if c != '"' && c != '\\' && c != '\U{08}' && c != '\U{0C}' && c != '\n' && c != '\r' && c != '\t'
       && (c as int < 32 || c as int >= 128) {
      var b := c as int % 256;
      var x, y := HexDigit(b / 16), HexDigit(b % 16);
      assert e == "\\u00" + [x, y];
      assert e[2..] == ['0', '0', x, y];
      assert ScanSafe([y]) by { assert [y][1..] == []; }
      assert ScanSafe([x, y]) by { assert [x, y][1..] == [y]; }
      assert ScanSafe(['0', x, y]) by { assert ['0', x, y][1..] == [x, y]; }
      assert ScanSafe(['0', '0', x, y]) by { assert ['0', '0', x, y][1..] == ['0', x, y]; }
    } else if |e| == 2 {
      assert e[2..] == [];
    } else {
      assert e == [c] && e[1..] == [];
    }
  }

  lemma {:induction false} EscapeStringScanSafe(t: string)
    ensures ScanSafe(EscapeString(t))
  {
    if |t| > 0 {
      EscapeCharScanSafe(t[0]);
      EscapeStringScanSafe(t[1..]);
      ScanSafeAppend(EscapeChar(t[0]), EscapeString(t[1..]));
    }
  }

  /** As written, the reader keeps a string's escapes as text: a string
      value written and read back is its escaped form, not the value, for
      every value with a quote, a backslash, a control byte or a byte from
      128 up. */
  lemma StringReadRaw(t: string, num: string -> string, rest: string)
    ensures ParseValue(Stringify(JString(t), num) + rest) == Some((JString(EscapeString(t)), rest))
  {
    var e := EscapeString(t);
    var s := Stringify(JString(t), num) + rest;
    assert s == "\"" + (e + ("\"" + rest));
    EscapeStringScanSafe(t);
    ScanThrough(e, "\"" + rest);
    assert ("\"" + rest)[1..] == rest;
    assert e + "" == e;
    assert s[1..] == e + ("\"" + rest);
    ValueAtString(s, e, rest);
  }

  /** One byte from 128 up shows it: "\u00e9" comes back in place of the
      byte 0xE9. */
  lemma HighByteReadRaw(num: string -> string)
    ensures ParseValue(Stringify(JString("\U{E9}"), num)) == Some((JString("\\u00e9"), ""))
  {
    var t := "\U{E9}";
    StringReadRaw(t, num, "");
    assert Stringify(JString(t), num) + "" == Stringify(JString(t), num);
    assert HexDigit(233 / 16) == 'e' && HexDigit(233 % 16) == '9';
    assert EscapeChar(t[0]) == "\\u00" + ['e', '9'] == "\\u00e9";
    assert t[1..] == "" && EscapeString(t[1..]) == "";
    assert EscapeString(t) == EscapeChar(t[0]) + EscapeString(t[1..]);
    assert EscapeString(t) == "\\u00e9";
    assert ParseValue(Stringify(JString(t), num)) == Some((JString(EscapeString(t)), ""));
  }
}

=== FILE: json_escape.dfy ===
/** The string escaping of json-utils/json-utils.c's writer, read back by an
    independent decoder for the escapes of section 7 of RFC 8259. Characters
    stand for bytes (values below 256). The decoder takes \uXXXX up to
    U+FFFF outside the surrogate range, which covers every escape the
    writer produces. */
module JsonEscape {
  import opened Wrappers
  import opened Json

  /** The value of a hexadecimal digit, either case. */
  function HexValue(c: char): Option<nat> {
    if '0' <= c <= '9' then Some(c as int - '0' as int)
    else if 'a' <= c <= 'f' then Some(c as int - 'a' as int + 10)
    else if 'A' <= c <= 'F' then Some(c as int - 'A' as int + 10)
    else None
  }

  /** The byte a two-character escape `\e` stands for. */
  function ShortEscape(e: char): Option<char> {
    if e == '"' then Some('"')
    else if e == '\\' then Some('\\')
    else if e == '/' then Some('/')
    else if e == 'b' then Some('\U{08}')
    else if e == 'f' then Some('\U{0C}')
    else if e == 'n' then Some('\n')
    else if e == 'r' then Some('\r')
    else if e == 't' then Some('\t')
    else None
  }

  function Prepend(c: char, rest: Option<string>): Option<string> {
    match rest
    case None => None
    case Some(t) => Some([c] + t)
  }

  /** The code unit of four hexadecimal digits, when it is not a surrogate. */
  function Unit(a: char, b: char, c: char, d: char): Option<char> {
    match (HexValue(a), HexValue(b), HexValue(c), HexValue(d))
    case (Some(w), Some(x), Some(y), Some(z)) =>
      var n := w * 4096 + x * 256 + y * 16 + z;
      if 0xD800 <= n < 0xE000 then None else Some(n as char)
    case _ => None
  }

  /** The contents of a string as section 7 of RFC 8259 reads them: raw
      characters from U+0020 on except the quote and the backslash, and the
      escapes. */
  function Unescape(s: string): Option<string>
    decreases |s|
  {
    if |s| == 0 then Some("")
    else if s[0] == '\\' then
      if |s| < 2 then None
      else if s[1] == 'u' then
        if |s| < 6 then None
        else
          match Unit(s[2], s[3], s[4], s[5])
          case None => None
          case Some(c) => Prepend(c, Unescape(s[6..]))
      else
        match ShortEscape(s[1])
        case None => None
        case Some(c) => Prepend(c, Unescape(s[2..]))
    else if s[0] as int < 32 || s[0] == '"' then None
    else Prepend(s[0], Unescape(s[1..]))
  }

  /** Characters standing for bytes. */
  predicate Bytes(t: string) {
    forall i :: 0 <= i < |t| ==> t[i] as int < 256
  }

  lemma HexRoundTrip(n: nat)
    requires n < 16
    ensures HexValue(HexDigit(n)) == Some(n)
  {
  }

  /** One escaped byte decodes back to itself, whatever follows. */
  lemma EscapeCharRoundTrip(c: char, rest: string)
    requires c as int < 256
    ensures Unescape(EscapeChar(c) + rest) == Prepend(c, Unescape(rest))
  {
    var s := EscapeChar(c) + rest;
    if c == '"' || c == '\\' || c == '\U{08}' || c == '\U{0C}' || c == '\n' || c == '\r' || c == '\t' {
      assert s[0] == '\\' && s[2..] == rest;
    } else if c as int < 32 || c as int >= 128 {
      var b := c as int % 256;
      HexRoundTrip(b / 16);
      HexRoundTrip(b % 16);
      assert s[0] == '\\' && s[1] == 'u' && s[2] == '0' && s[3] == '0';
      assert s[4] == HexDigit(b / 16) && s[5] == HexDigit(b % 16);
      assert s[6..] == rest;
      assert Unit(s[2], s[3], s[4], s[5]) == Some(c);
    } else {
      assert s[0] == c && s[1..] == rest;
    }
  }

  /** The writer's escaping of a string value is undone exactly by a
      standard decoder. */
  lemma {:induction false} EscapeStringRoundTrip(t: string)
    requires Bytes(t)
    ensures Unescape(EscapeString(t)) == Some(t)
  {
    if |t| > 0 {
      EscapeCharRoundTrip(t[0], EscapeString(t[1..]));
      EscapeStringRoundTrip(t[1..]);
      assert [t[0]] + t[1..] == t;
    }
  }

  /** Keys escape only the quote and the backslash, so a key with a
      control byte is written raw, which section 7 of RFC 8259 does not
      allow; a key without one decodes back to itself. */
  lemma {:induction false} EscapeKeyRoundTrip(k: string)
    requires forall i :: 0 <= i < |k| ==> k[i] as int >= 32
    ensures Unescape(EscapeKey(k)) == Some(k)
  {
    if |k| > 0 {
      var head := if k[0] == '"' || k[0] == '\\' then ['\\', k[0]] else [k[0]];
      var s := head + EscapeKey(k[1..]);
      assert EscapeKey(k) == s;
      EscapeKeyRoundTrip(k[1..]);
      if k[0] == '"' || k[0] == '\\' {
        assert s[0] == '\\' && s[1] == k[0] && s[2..] == EscapeKey(k[1..]);
      } else {
        assert s[0] == k[0] && s[1..] == EscapeKey(k[1..]);
      }
      assert [k[0]] + k[1..] == k;
    }
  }

  lemma RawControlByteInKey()
    ensures Unescape(EscapeKey("\n")) == None
  {
    assert EscapeKey("\n") == "\n";
  }

  /** A string value read with its escapes decoded, as the reader should
      have done: the value at the start of `s`, when it is a string whose
      escapes are well formed, and the text after it. */
  function ReadString(s: string): Option<(string, string)> {
    match ParseValue(s)
    case Some((JString(raw), rest)) =>
      (match Unescape(raw)
       case Some(t) => Some((t, rest))
       case None => None)
    case _ => None
  }

  /** With the escapes decoded, every string of bytes the writer writes
      reads back as itself, whatever follows it. */
  lemma StringRoundTrip(t: string, num: string -> string, rest: string)
    requires Bytes(t)
    ensures ReadString(Stringify(JString(t), num) + rest) == Some((t, rest))
  {
    StringReadRaw(t, num, rest);
    EscapeStringRoundTrip(t);
  }
}

=== FILE: json_path.dfy ===
/** json-utils/get-value.c: `get_nested_value` walks a parsed tree along a
    dot-separated key path. The path is cut with `strtok`, so runs of dots
    and dots at either end produce no segment; each segment picks the first
    entry with that key in the current object, and arrays are never
    indexed. */
module JsonPath {
  import opened Wrappers
  import opened Text
  import opened PyDict
  import opened Json

  /** The tokens `strtok(path, ".")` hands out, in order. */
  function Tokens(path: string): (r: seq<string>)
    ensures forall i :: 0 <= i < |r| ==> r[i] != "" && '.' !in r[i]
  {
    NonEmpty(Split(path, '.'))
  }

  /** A dot splits the text on either side of it. */
  lemma {:induction false} SplitAround(x: string, y: string, sep: char)
    ensures Split(x + [sep] + y, sep) == Split(x, sep) + Split(y, sep)
    decreases |x|
  {
    var s := x + [sep] + y;
    match IndexOf(x, sep)
    case None =>
      IndexOfFirst(s, sep, |x|);
      assert s[..|x|] == x && s[|x| + 1..] == y;
    case Some(k) =>
      assert s[k] == sep && sep !in s[..k] by {
        assert s[..k] == x[..k];
      }
      IndexOfFirst(s, sep, k);
      assert s[..k] == x[..k];
      assert s[k + 1..] == x[k + 1..] + [sep] + y;
      SplitAround(x[k + 1..], y, sep);
  }

  /** A dot in a path only separates: the tokens of `x.y` are those of `x`
      followed by those of `y`. */
  lemma DotSeparates(x: string, y: string)
    ensures Tokens(x + "." + y) == Tokens(x) + Tokens(y)
  {
    SplitAround(x, y, '.');
    NonEmptyAppend(Split(x, '.'), Split(y, '.'));
  }

  /** Joining segments with dots and tokenising gives the segments back. */
  lemma TokensOfJoin(segs: seq<string>)
    requires |segs| >= 1
    requires forall i :: 0 <= i < |segs| ==> segs[i] != "" && '.' !in segs[i]
    ensures Tokens(Join(segs, ".")) == segs
  {
    SplitJoin(segs, '.');
    NonEmptyAll(segs);
  }

  /** The walk from `v` along `segs`: each segment needs an object and picks
      the first entry with that key; anything else ends the walk with
      nothing. */
  function Lookup(v: Value, segs: seq<string>): (r: Option<Value>)
    ensures |segs| == 0 ==> r == Some(v)
    ensures |segs| > 0 && !v.JObject? ==> r.None?
    ensures |segs| > 0 && v.JObject? && segs[0] !in Keys(v.entries) ==> r.None?
    decreases |segs|
  {
    if |segs| == 0 then Some(v)
    else if !v.JObject? then None
    else
      match Get(v.entries, segs[0])
      case None => None
      case Some(child) => Lookup(child, segs[1..])
  }

  /** Walking a longer path is walking its first part, then the rest from
      where that ended. */
  lemma {:induction false} LookupAppend(v: Value, a: seq<string>, b: seq<string>)
    ensures Lookup(v, a + b) == match Lookup(v, a) case None => None case Some(w) => Lookup(w, b)
    decreases |a|
  {
    if |a| > 0 && v.JObject? {
      assert (a + b)[0] == a[0] && (a + b)[1..] == a[1..] + b;
      match Get(v.entries, a[0])
      case None =>
      case Some(child) => LookupAppend(child, a[1..], b);
    } else if |a| > 0 {
      assert (a + b)[0] == a[0];
    } else {
      assert a + b == b;
    }
  }

  /** `get_nested_value`: nothing for a missing or non-object root,
      otherwise the walk along the path's tokens. */
  function GetNestedValue(root: Option<Value>, path: string): (r: Option<Value>)
    ensures root.None? || !root.value.JObject? ==> r.None?
    ensures root.Some? && root.value.JObject? && Tokens(path) == [] ==> r == root
    ensures r.Some? ==> root.Some? && root.value.JObject?
  {
    if root.None? || !root.value.JObject? then None
    else Lookup(root.value, Tokens(path))
  }

  lemma TokensEmpty()
    ensures Tokens("") == []
  {
    assert Split("", '.') == [""];
  }

  /** A segment without dots is its own single token. */
  lemma TokensSingle(key: string)
    requires key != "" && '.' !in key
    ensures Tokens(key) == [key]
  {
    assert Split(key, '.') == [key];
    NonEmptyAll([key]);
  }

  lemma TokensDoubleDot(a: string, b: string)
    ensures Tokens(a + ".." + b) == Tokens(a + "." + b)
  {
    TokensEmpty();
    DotSeparates("", b);
    assert "" + "." + b == "." + b;
    DotSeparates(a, "." + b);
    assert a + ".." + b == a + "." + ("." + b);
    DotSeparates(a, b);
  }

  lemma TokensOuterDots(p: string)
    ensures Tokens("." + p + ".") == Tokens(p)
  {
    TokensEmpty();
    DotSeparates("", p + ".");
    assert "." + p + "." == "" + "." + (p + ".");
    DotSeparates(p, "");
    assert p + "." + "" == p + ".";
  }

  /** Empty segments vanish: "a..b" and ".a.b." find what "a.b" finds. */
  lemma EmptySegmentsVanish(root: Option<Value>, a: string, b: string)
    ensures GetNestedValue(root, a + ".." + b) == GetNestedValue(root, a + "." + b)
    ensures GetNestedValue(root, "." + a + "." + b + ".") == GetNestedValue(root, a + "." + b)
  {
    TokensDoubleDot(a, b);
    TokensOuterDots(a + "." + b);
    assert "." + a + "." + b + "." == "." + (a + "." + b) + ".";
  }

  /** The empty path, or one made only of dots, finds the root object
      itself. */
  lemma EmptyPathGivesRoot(root: Value)
    requires root.JObject?
    ensures GetNestedValue(Some(root), "") == Some(root)
    ensures GetNestedValue(Some(root), ".") == Some(root)
  {
    TokensEmpty();
    DotSeparates("", "");
    assert "" + "." + "" == ".";
  }

  /** A path through several keys is the walk through each object in turn:
      what `x.y` finds is what `y` finds inside what `x` found. */
  lemma PathComposes(root: Option<Value>, x: string, y: string)
    ensures GetNestedValue(root, x + "." + y)
            == match GetNestedValue(root, x)
               case None => None
               case Some(w) => if Tokens(y) == [] then Some(w) else if w.JObject? then GetNestedValue(Some(w), y) else None
  {
    DotSeparates(x, y);
    if root.Some? && root.value.JObject? {
      LookupAppend(root.value, Tokens(x), Tokens(y));
    }
  }

  /** An array on the way ends the walk with nothing, whatever the next
      segment says, so an index such as "0" never selects an item. */
  lemma ArraysNeverIndexed(root: Value, key: string, items: seq<Value>, rest: string)
    requires root.JObject? && Get(root.entries, key) == Some(JArray(items))
    requires key != "" && '.' !in key && Tokens(rest) != []
    ensures GetNestedValue(Some(root), key + "." + rest).None?
  {
    DotSeparates(key, rest);
    TokensSingle(key);
    assert Lookup(root, [key] + Tokens(rest)) == Lookup(JArray(items), Tokens(rest));
  }

  /** A path such as "repositories.0.name" never resolves: the array under
      the first segment ends the walk, whatever index and field follow. */
  lemma IndexedPathNeverResolves(root: Value, key: string, items: seq<Value>, index: string, field: string)
    requires root.JObject? && Get(root.entries, key) == Some(JArray(items))
    requires key != "" && '.' !in key && index != "" && '.' !in index
    ensures GetNestedValue(Some(root), key + "." + (index + "." + field)).None?
  {
    DotSeparates(index, field);
    TokensSingle(index);
    ArraysNeverIndexed(root, key, items, index + "." + field);
  }

  /** A single segment reads the first entry with that key, so of two
      entries with the same key the first one is found. */
  lemma SingleKeyIsFirstMatch(root: Value, key: string)
    requires root.JObject? && key != "" && '.' !in key
    ensures GetNestedValue(Some(root), key) == Get(root.entries, key)
  {
    TokensSingle(key);
  }

  /** `get_nested_value(v, key)` for a key without dots, the form every
      caller uses: the first entry with that key of an object. */
  function Member(v: Value, key: string): (r: Option<Value>)
    ensures r.Some? ==> v.JObject? && key in Keys(v.entries)
  {
    if v.JObject? then Get(v.entries, key) else None
  }

  lemma MemberIsPath(v: Value, key: string)
    requires key != "" && '.' !in key
    ensures GetNestedValue(Some(v), key) == Member(v, key)
  {
    if v.JObject? {
      SingleKeyIsFirstMatch(v, key);
    }
  }

  /** `get_nested_value(v, "a.b")` for two dot-free keys, the form the
      configuration loaders use: the member `b` of the object under `a`. */
  function Member2(v: Value, a: string, b: string): (r: Option<Value>)
    ensures r.Some? ==> v.JObject? && a in Keys(v.entries)
  {
    match Member(v, a)
    case Some(w) => Member(w, b)
    case None => None
  }

  lemma Member2IsPath(v: Value, a: string, b: string)
    requires a != "" && '.' !in a && b != "" && '.' !in b
    ensures GetNestedValue(Some(v), a + "." + b) == Member2(v, a, b)
  {
    DotSeparates(a, b);
    TokensSingle(a);
    TokensSingle(b);
    if v.JObject? {
      LookupAppend(v, [a], [b]);
      assert [a] + [b] == [a, b];
    }
  }

  /** The strings of an array, in order; other items are passed over. */
  function StringItems(items: seq<Value>): (r: seq<string>)
    ensures forall s :: s in r <==> JString(s) in items
  {
    if |items| == 0 then []
    else
      var rest := StringItems(items[1..]);
      assert forall v :: v in items <==> v == items[0] || v in items[1..] by {
        assert items == [items[0]] + items[1..];
      }
      match items[0]
      case JString(s) => [s] + rest
      case _ => rest
  }

  /** What `json_object_set` stores under a key is what the path of that
      one key finds. */
  lemma SetThenGet(target: Value, key: string, value: Value)
    requires target.JObject? && key != "" && '.' !in key
    ensures GetNestedValue(ObjectSet(Some(target), Some(key), Some(value)).1, key) == Some(value)
  {
    var r := ObjectSet(Some(target), Some(key), Some(value)).1;
    SingleKeyIsFirstMatch(r.value, key);
  }
}

=== FILE: main_orchestrator.dfy ===
/** main.c: the C orchestrator. Its `expandvars` is the C expansion of the
    other tools (`ExpandVars.CExpand`). Whether the index file opens, which
    files are executable and the keys typed are parameters; running a child
    and its exit code are left out, since they never change what happens
    next. */
module MainOrchestrator {
  import opened Wrappers
  import opened Text
  import opened ExpandVars

  /** The fields of `orchestrator_config_t`. */
  datatype Config = Config(repoPath: string, configDir: string, cacheDir: string,
                           sessionTimeout: int, maxCommits: int, animationFps: int,
                           uiRefreshRate: int, terminalWidth: int, terminalHeight: int)

  const RepoVar := "REPO_WATCH_REPO_PATH"
  const ConfigVar := "XDG_CONFIG_HOME"
  const CacheVar := "XDG_CACHE_HOME"
  const Subdir := "/repowatch"

  /** "${REPO_WATCH_REPO_PATH:-.}" */
  const RepoTemplate := "${" + RepoVar + ":-" + "." + "}"
  /** "${XDG_CONFIG_HOME:-~/.config}/repowatch" */
  const ConfigTemplate := "${" + ConfigVar + ":-" + "~/.config" + "}" + Subdir
  /** "${XDG_CACHE_HOME:-~/.cache}/repowatch" */
  const CacheTemplate := "${" + CacheVar + ":-" + "~/.cache" + "}" + Subdir

  /** `load_config`: nothing (-1) when the index file cannot be opened;
      otherwise the three expanded paths and fixed numbers, whatever the
      file holds. */
  function LoadConfig(indexOpens: bool, env: map<string, string>): (r: Option<Config>)
    ensures r.None? <==> !indexOpens
    ensures r.Some? ==> r.value.sessionTimeout == 3600 && r.value.maxCommits == 20
                        && r.value.animationFps == 10 && r.value.uiRefreshRate == 2
                        && r.value.terminalWidth == 120 && r.value.terminalHeight == 30
  {
    if !indexOpens then None
    else Some(Config(CExpand(RepoTemplate, env), CExpand(ConfigTemplate, env), CExpand(CacheTemplate, env),
                     3600, 20, 10, 2, 120, 30))
  }

  /** The repository is `$REPO_WATCH_REPO_PATH` when set (even to the empty
      string), else "."; the directories sit under the XDG variables or a
      literal "~/.config" and "~/.cache". */
  lemma ConfigPaths(env: map<string, string>)
    ensures var c := LoadConfig(true, env).value;
            c.repoPath == (if RepoVar in env then env[RepoVar] else ".")
            && c.configDir == (if ConfigVar in env then env[ConfigVar] else "~/.config") + Subdir
            && c.cacheDir == (if CacheVar in env then env[CacheVar] else "~/.cache") + Subdir
  {
    RepoPath(env);
    ConfigDir(env);
    CacheDir(env);
  }

  lemma RepoPath(env: map<string, string>)
    ensures CExpand(RepoTemplate, env) == (if RepoVar in env then env[RepoVar] else ".")
  {
    RepoVarPlain();
    CDefaultForm(RepoVar, ".", env);
  }

  lemma RepoVarPlain()
    ensures !Contains(RepoVar, ":-") && '}' !in RepoVar && |RepoVar| + 3 < 256
  {
    MissingChar(RepoVar, ":-", ':');
  }

  lemma ConfigDir(env: map<string, string>)
    ensures CExpand(ConfigTemplate, env) == (if ConfigVar in env then env[ConfigVar] else "~/.config") + Subdir
  {
    CPathTemplate(ConfigVar, "~/.config", Subdir, env);
  }

  lemma CacheDir(env: map<string, string>)
    ensures CExpand(CacheTemplate, env) == (if CacheVar in env then env[CacheVar] else "~/.cache") + Subdir
  {
    CPathTemplate(CacheVar, "~/.cache", Subdir, env);
  }

  /** The children `execute_children` runs, in order. */
  const Children := ["hello", "git", "fs", "tui", "animation"]

  /** The command run for one child: "<module>/<child>/<child>" when that is
      executable, else "<module>/<child>/index" when that is, else none (the
      child is reported missing). */
  function ChildCommand(modulePath: string, child: string, executable: string -> bool): (r: Option<string>)
    ensures var own := modulePath + "/" + child + "/" + child;
            var index := modulePath + "/" + child + "/index";
            (executable(own) ==> r == Some(own))
            && (!executable(own) && executable(index) ==> r == Some(index))
            && (r.None? <==> !executable(own) && !executable(index))
  {
    var own := modulePath + "/" + child + "/" + child;
    var index := modulePath + "/" + child + "/index";
    if executable(own) then Some(own) else if executable(index) then Some(index) else None
  }

  /** `execute_children`: the command (or none) of every child, in order; a
      failing child does not stop the loop. */
  function ExecuteChildren(modulePath: string, executable: string -> bool): (r: seq<Option<string>>)
    ensures |r| == |Children|
    ensures forall i :: 0 <= i < |r| ==> r[i] == ChildCommand(modulePath, Children[i], executable)
  {
    seq(|Children|, i requires 0 <= i < |Children| => ChildCommand(modulePath, Children[i], executable))
  }

  /** Whatever is executable, every command run lies inside its child's
      directory. */
  lemma CommandsInsideChild(modulePath: string, executable: string -> bool, i: nat)
    requires i < |Children|
    ensures var r := ExecuteChildren(modulePath, executable)[i];
            r.Some? ==> IsPrefixOf(modulePath + "/" + Children[i] + "/", r.value)
  {
    var dir := modulePath + "/" + Children[i] + "/";
    assert modulePath + "/" + Children[i] + "/" + Children[i] == dir + Children[i];
    assert modulePath + "/" + Children[i] + "/index" == dir + "index";
  }

  predicate IsPrefixOf(p: string, s: string) {
    |p| <= |s| && s[..|p|] == p
  }

  /** The keys that end `run_main_loop`: q, Q, ESC and Ctrl-C. */
  predicate QuitKey(c: int) {
    c == 'q' as int || c == 'Q' as int || c == 27 || c == 3
  }

  /** How many keys `run_main_loop` reads: up to and including the first
      quit key, None when none of `keys` quits. */
  function KeysRead(keys: seq<int>): (r: Option<nat>)
    ensures r.None? <==> forall i :: 0 <= i < |keys| ==> !QuitKey(keys[i])
    ensures r.Some? ==> 0 < r.value <= |keys| && QuitKey(keys[r.value - 1])
                        && forall i :: 0 <= i < r.value - 1 ==> !QuitKey(keys[i])
    decreases |keys|
  {
    if |keys| == 0 then None
    else if QuitKey(keys[0]) then Some(1)
    else match KeysRead(keys[1..])
      case None => None
      case Some(n) => Some(n + 1)
  }
}

=== FILE: old_app.dfy ===
/** old/reference/core/app.py, the older Textual app: the same event and
    refresh rules as repo_watch.py, except that a failing refresh is
    swallowed silently. The app also defines `check_inactivity_timeout`, a
    loop that would quit after five minutes without a help or settings
    action, but nothing starts it: `on_idle` starts only the session timer
    and the git check. The timer section below states what that loop does
    once started; the app as written never quits on its own. Times are
    integer milliseconds. */
module OldApp {
  import opened Wrappers
  import opened Text
  import opened GitTracker
  import RepoWatch

  /** What the panes and the status bar currently show. */
  datatype Panes = Panes(uncommitted: Option<seq<string>>, committed: Option<set<string>>, status: string)

  /** `update_git_status`: nothing changes until the tracker, both panes and
      the status bar exist; an exception (an `Err`) stops the update where it
      is raised and is dropped, so the panes already updated keep their new
      content and the rest keep the old. */
  function UpdateGitStatus(ready: bool, status: Result<seq<FileStatus>, string>,
                           commits: Result<seq<Commit>, string>, shown: Panes): (r: Panes)
    ensures !ready || status.Err? ==> r == shown
    ensures ready && status.Ok? ==> r.uncommitted == Some(RepoWatch.StatusPaths(status.value))
    ensures ready && status.Ok? && commits.Err? ==> r.committed == shown.committed && r.status == shown.status
    ensures ready && status.Ok? && commits.Ok? ==>
              r.committed == Some(RepoWatch.CommittedPaths(commits.value))
              && r.status == RepoWatch.StatusText(|status.value|, |RepoWatch.CommittedPaths(commits.value)|)
  {
    if !ready then shown
    else
      match status
      case Err(_) => shown
      case Ok(fs) =>
        var uncommitted := RepoWatch.StatusPaths(fs);
        match commits
        case Err(_) => shown.(uncommitted := Some(uncommitted))
        case Ok(cs) =>
          var committed := RepoWatch.CommittedPaths(cs);
          Panes(Some(uncommitted), Some(committed), RepoWatch.StatusText(|uncommitted|, |committed|))
  }

  /** When both queries succeed the old app shows exactly what repo_watch.py
      shows. */
  lemma SameRefreshAsRepoWatch(status: seq<FileStatus>, commits: seq<Commit>, shown: Panes)
    ensures var r := UpdateGitStatus(true, Ok(status), Ok(commits), shown);
            RepoWatch.UpdateGitStatus(true, Ok(status), Ok(commits)) == RepoWatch.Refreshed(r.uncommitted, r.committed, r.status)
  {
  }

  /** Unlike repo_watch.py, an error never reaches the status bar: if it
      did not show an error before, it does not show one after. */
  lemma ErrorsStaySilent(ready: bool, status: Result<seq<FileStatus>, string>,
                         commits: Result<seq<Commit>, string>, shown: Panes)
    requires !IsPrefix("Error: ", shown.status)
    ensures !IsPrefix("Error: ", UpdateGitStatus(ready, status, commits, shown).status)
  {
    if ready && status.Ok? && commits.Ok? {
      StatusNotError(|status.value|, |RepoWatch.CommittedPaths(commits.value)|);
    }
  }

  lemma StatusNotError(u: nat, c: nat)
    ensures !IsPrefix("Error: ", RepoWatch.StatusText(u, c))
  {
    var text := RepoWatch.StatusText(u, c);
    if u + c > 0 {
      assert '0' <= text[0] <= '9';
    } else {
      assert text[0] == 'R';
    }
  }

  /** `auto_quit_timeout`: five minutes. */
  const AutoQuitTimeoutMs: int := 300000

  /** How often `check_inactivity_timeout` looks. */
  const CheckIntervalMs: int := 60000

  /** The key actions of the app. */
  datatype Action = FocusNext | FocusPrevious | ShowHelp | ShowSettings | QuitApp

  /** The last user activity after an action at `now`: only the help and
      settings actions call `record_user_activity`. */
  function AfterAction(a: Action, last: int, now: int): (r: int)
    ensures r == now <==> a.ShowHelp? || a.ShowSettings? || last == now
    ensures r != now ==> r == last
  {
    if a.ShowHelp? || a.ShowSettings? then now else last
  }

  /** The check quits only when strictly more than the timeout has passed. */
  predicate ShouldQuit(now: int, last: int) {
    now - last > AutoQuitTimeoutMs
  }

  /** After a help or settings action, no check within five minutes quits,
      and one just after does (unless another such action intervenes). */
  lemma ActivityPostponesQuit(a: Action, last: int, now: int, later: int)
    requires a.ShowHelp? || a.ShowSettings?
    ensures later <= now + AutoQuitTimeoutMs ==> !ShouldQuit(later, AfterAction(a, last, now))
    ensures later > now + AutoQuitTimeoutMs ==> ShouldQuit(later, AfterAction(a, last, now))
  {
  }

  /** Focus changes do not count as activity: the deadline stays where the
      last help or settings action put it. */
  lemma FocusIsNotActivity(last: int, now: int)
    ensures AfterAction(FocusNext, last, now) == last && AfterAction(FocusPrevious, last, now) == last
  {
  }

  /** When the checking loop, if it were started at `start` and looked
      every minute, would quit while the user stays inactive since `last`. */
  function QuitTime(start: int, last: int): (t: int)
    ensures ShouldQuit(t, last)
    ensures t >= start && (t - start) % CheckIntervalMs == 0
    ensures t > start ==> !ShouldQuit(t - CheckIntervalMs, last)
  {
    if ShouldQuit(start, last) then start
    else
      var k := (last + AutoQuitTimeoutMs - start) / CheckIntervalMs + 1;
      assert k * CheckIntervalMs > last + AutoQuitTimeoutMs - start;
      assert (k - 1) * CheckIntervalMs <= last + AutoQuitTimeoutMs - start;
      start + k * CheckIntervalMs
  }

  /** Once started, the loop quits at most a minute after the timeout runs
      out. */
  lemma QuitWithinAMinute(start: int, last: int)
    requires start <= last + AutoQuitTimeoutMs
    ensures last + AutoQuitTimeoutMs < QuitTime(start, last) <= last + AutoQuitTimeoutMs + CheckIntervalMs
  {
  }
}

=== FILE: old_orchestrator.dfy ===
/** old/reference/index.py: the older Python orchestrator. It resolves the
    configured paths with `_expandvars` (the same two passes as the newer
    orchestrators, `ExpandVars.PyExpand`) and runs its child modules in
    order. Whether a child directory or its `index.py` exists, and what
    importing and calling the child does, are parameters; the dependency
    check is a boolean. */
module OldOrchestrator {
  import opened Wrappers
  import opened PyDict
  import opened ExpandVars

  /** `_resolve_paths`: every entry under "paths", in order, with its value
      (already turned into text by `str`) expanded. */
  function ResolvePaths(paths: Dict<string, string>, env: map<string, string>): (r: Dict<string, string>)
    ensures |r| == |paths|
    ensures forall i :: 0 <= i < |r| ==> r[i] == (paths[i].0, PyExpand(paths[i].1, env))
  {
    if |paths| == 0 then [] else [(paths[0].0, PyExpand(paths[0].1, env))] + ResolvePaths(paths[1..], env)
  }

  /** The resolved paths have exactly the configured keys, so a lookup
      finds a key there iff it was configured, with its expanded value. */
  lemma {:induction false} ResolvedLookup(paths: Dict<string, string>, env: map<string, string>, k: string)
    ensures Get(ResolvePaths(paths, env), k).Some? <==> Get(paths, k).Some?
    ensures Get(paths, k).Some? ==> Get(ResolvePaths(paths, env), k) == Some(PyExpand(Get(paths, k).value, env))
    decreases |paths|
  {
    if |paths| > 0 {
      ResolvedLookup(paths[1..], env, k);
    }
  }

  /** How running one child module can go. */
  datatype ChildOutcome =
    | NoIndex                     // the child's `index.py` does not exist
    | MainReturned(isFalse: bool) // `main` returned, `False` or anything else
    | NoMain                      // the module has no `main`
    | Raised                      // importing or calling it raised

  /** `execution.continue_on_error`, true when it is not configured. */
  function ContinueOnError(setting: Option<bool>): bool {
    setting.GetOr(true)
  }

  /** `_execute_child`: a missing `index.py` or a `main` returning `False`
      fails; an exception fails only when errors do not continue; anything
      else succeeds. */
  function ExecuteChild(o: ChildOutcome, continueOnError: bool): (ok: bool)
    ensures !ok <==> o == NoIndex || o == MainReturned(true) || (o == Raised && !continueOnError)
  {
    match o
    case NoIndex => false
    case MainReturned(isFalse) => !isFalse
    case NoMain => true
    case Raised => continueOnError
  }

  /** The result of `execute`: whether it succeeded and which children were
      run, in order. */
  datatype Run = Run(success: bool, ran: seq<string>)

  /** The loop of `execute` over `children`: a missing directory is skipped
      and a failed child ignored, unless errors do not continue, in which
      case either stops the loop with failure. */
  function Visit(children: seq<string>, present: string -> bool, outcome: string -> ChildOutcome,
                 continueOnError: bool): (r: Run)
    ensures |r.ran| <= |children|
    decreases |children|
  {
    if |children| == 0 then Run(true, [])
    else
      var c := children[0];
      if !present(c) then
        if !continueOnError then Run(false, []) else Visit(children[1..], present, outcome, continueOnError)
      else if !ExecuteChild(outcome(c), continueOnError) && !continueOnError then Run(false, [c])
      else
        var rest := Visit(children[1..], present, outcome, continueOnError);
        Run(rest.success, [c] + rest.ran)
  }

  /** `execute`: a failed dependency check fails before any child runs. */
  function Execute(depsOk: bool, children: seq<string>, present: string -> bool,
                   outcome: string -> ChildOutcome, continueOnError: bool): (r: Run)
    ensures !depsOk ==> r == Run(false, [])
  {
    if !depsOk then Run(false, []) else Visit(children, present, outcome, continueOnError)
  }

  /** The children whose directory exists, in order. */
  function Existing(children: seq<string>, present: string -> bool): seq<string> {
    if |children| == 0 then []
    else (if present(children[0]) then [children[0]] else []) + Existing(children[1..], present)
  }

  /** With errors continuing, `execute` succeeds and runs every child whose
      directory exists. */
  lemma {:induction false} ContinuingRunsAll(children: seq<string>, present: string -> bool,
                                             outcome: string -> ChildOutcome)
    ensures Visit(children, present, outcome, true) == Run(true, Existing(children, present))
    decreases |children|
  {
    if |children| > 0 {
      ContinuingRunsAll(children[1..], present, outcome);
    }
  }

  /** With errors stopping, `execute` succeeds iff every child's directory
      exists and every child succeeds. */
  lemma {:induction false} StoppingNeedsAll(children: seq<string>, present: string -> bool,
                                            outcome: string -> ChildOutcome)
    ensures Visit(children, present, outcome, false).success
            <==> forall i :: 0 <= i < |children| ==> present(children[i]) && ExecuteChild(outcome(children[i]), false)
    decreases |children|
  {
    if |children| > 0 {
      StoppingNeedsAll(children[1..], present, outcome);
      assert forall i :: 1 <= i < |children| ==> children[1..][i - 1] == children[i];
    }
  }

  /** With errors stopping, the children run are a prefix of the list: the
      loop never skips one and comes back. */
  lemma {:induction false} StoppingRunsPrefix(children: seq<string>, present: string -> bool,
                                              outcome: string -> ChildOutcome)
    ensures var ran := Visit(children, present, outcome, false).ran;
            ran == children[..|ran|]
    decreases |children|
  {
    if |children| > 0 {
      StoppingRunsPrefix(children[1..], present, outcome);
    }
  }
}

=== FILE: old_watcher.dfy ===
/** old/reference/file_watcher.py: an event reaches the callback unless its
    basename is one of the fixed names, a custom pattern occurs in its path, or
    the same path (whatever the event type) passed less than 100 ms ago.
    Times are integer milliseconds; whether watchdog is importable and whether
    its observer starts are parameters. */
module OldWatcher {
  import opened Wrappers
  import opened Text
  import opened PyPath
  import opened WatchEvents

  const FixedBasenames: set<string> := {".git", "__pycache__", ".DS_Store", "Thumbs.db", ".swp", ".swo", "~", ".tmp", ".bak"}

  /** `_should_ignore`. */
  function ShouldIgnore(custom: seq<string>, path: string): bool {
    AfterLast(path, '/') in FixedBasenames || AnyContains(custom, path)
  }

  lemma ShouldIgnoreIff(custom: seq<string>, path: string)
    ensures ShouldIgnore(custom, path) <==>
              AfterLast(path, '/') in FixedBasenames || exists i :: 0 <= i < |custom| && Contains(path, custom[i])
  {
    AnyContainsIff(custom, path);
  }

  /** `_is_duplicate_event(path, t)`: a duplicate when less than 100 ms passed
      since the path was last accepted (0 when never); only an accepted event
      records its time. */
  function IsDuplicate(last: map<string, int>, path: string, t: int): (r: (bool, map<string, int>))
    ensures r.0 <==> t - (if path in last then last[path] else 0) < 100
    ensures r.0 ==> r.1 == last
    ensures !r.0 ==> r.1 == last[path := t]
  {
    var prev := if path in last then last[path] else 0;
    if t - prev < 100 then (true, last) else (false, last[path := t])
  }

  /** `_handle_event(event, event_type)` at time `now`: the new `last_events`
      and the one event handed to the callback, if any. */
  function HandleEvent(custom: seq<string>, last: map<string, int>, e: FsEvent, eventType: string, now: int)
    : (r: (map<string, int>, Option<ChangeEvent>))
    ensures r.1.Some? <==> !ShouldIgnore(custom, e.srcPath) && !IsDuplicate(last, e.srcPath, now).0
    ensures r.1.Some? ==> r.1.value == ChangeEvent(eventType, e.srcPath, e.isDirectory, now)
    ensures r.1.None? ==> r.0 == last
  {
    if ShouldIgnore(custom, e.srcPath) then (last, None)
    else
      var (dup, last') := IsDuplicate(last, e.srcPath, now);
      if dup then (last, None) else (last', Some(ChangeEvent(eventType, e.srcPath, e.isDirectory, now)))
  }

  /** Which `on_*` method watchdog called. */
  datatype Kind = Created | Modified | Deleted | Moved

  function TypeName(k: Kind): string {
    match k
    case Created => "created"
    case Modified => "modified"
    case Deleted => "deleted"
    case Moved => "moved"
  }

  /** The `on_*` dispatch: a directory modification is dropped before any
      check; directories that are created, deleted or moved go through. */
  function OnEvent(custom: seq<string>, last: map<string, int>, k: Kind, e: FsEvent, now: int)
    : (r: (map<string, int>, Option<ChangeEvent>))
    ensures k == Modified && e.isDirectory ==> r == (last, None)
    ensures !(k == Modified && e.isDirectory) ==> r == HandleEvent(custom, last, e, TypeName(k), now)
  {
    if k == Modified && e.isDirectory then (last, None) else HandleEvent(custom, last, e, TypeName(k), now)
  }

  /** The duplicate filter is keyed by path alone: a creation reported 50 ms
      after a modification of the same path is dropped. */
  lemma DuplicateAcrossTypes(path: string, t: int)
    requires !ShouldIgnore([], path) && t >= 100
    ensures var first := OnEvent([], map[], Modified, FsEvent("modified", path, "", false), t);
            first.1.Some? && OnEvent([], first.0, Created, FsEvent("created", path, "", false), t + 50).1.None?
  {
  }

  /** `FileWatcher.start`: the result and the new `is_watching`. */
  function Start(available: bool, watching: bool, observerStarts: bool): (r: (bool, bool))
    ensures !available ==> r == (false, watching)
    ensures available && watching ==> r == (true, true)
    ensures available && !watching ==> r == (observerStarts, observerStarts)
  {
    if !available then (false, watching)
    else if watching then (true, true)
    else (observerStarts, observerStarts)
  }

  /** `MockFileWatcher.simulate_file_change(file_path, event_type)`: one
      non-directory event for `watch_path / file_path`. */
  function SimulateFileChange(watchPath: Path, filePath: string, eventType: Option<string>, now: int): (r: ChangeEvent)
    ensures !r.isDirectory && r.eventType == eventType.GetOr("modified")
    ensures r.filePath == Str(JoinPath(watchPath, Parse(filePath)))
  {
    ChangeEvent(eventType.GetOr("modified"), Str(JoinPath(watchPath, Parse(filePath))), false, now)
  }

  datatype WatcherKind = Real | Mock

  /** `create_file_watcher`: the mock only when watchdog is missing. */
  function CreateFileWatcher(available: bool): (r: WatcherKind)
    ensures r == Real <==> available
  {
    if available then Real else Mock
  }
}

=== FILE: old_widgets.dfy ===
/** old/reference/core/widgets.py: the file pane turns the paths it is given
    into repository-relative ones before listing them and names the first
    three in its title; the status bar shows the branch and the session
    time. The session time is the same code as repo_watch.py's
    (`RepoWatch.SessionInfo`). */
module OldWidgets {
  import opened Wrappers
  import opened Text
  import opened PyPath

  /** What `update_files` does with one path: an absolute path becomes
      `str(path.relative_to(repo_root))`, or is skipped when it lies outside
      the root; a relative path is kept exactly as given. */
  function Normalize(file: string, root: Path): (r: Option<string>)
    ensures !IsAbsolute(Parse(file)) ==> r == Some(file)
    ensures IsAbsolute(Parse(file)) ==> (r.Some? <==> RelativeTo(Parse(file), root).Some?)
  {
    var p := Parse(file);
    if IsAbsolute(p) then
      match RelativeTo(p, root)
      case None => None
      case Some(rel) => Some(Str(rel))
    else Some(file)
  }

  /** `relative_files`, in the order of the input. */
  function RelativeFiles(files: seq<string>, root: Path): (r: seq<string>)
    ensures |r| <= |files|
    ensures (forall i :: 0 <= i < |files| ==> !IsAbsolute(Parse(files[i]))) ==> r == files
  {
    if |files| == 0 then []
    else
      match Normalize(files[0], root)
      case None => RelativeFiles(files[1..], root)
      case Some(f) => [f] + RelativeFiles(files[1..], root)
  }

  /** A path is listed exactly when some input normalises to it. */
  lemma {:induction false} RelativeFilesMembers(files: seq<string>, root: Path, x: string)
    ensures x in RelativeFiles(files, root) <==> exists i :: 0 <= i < |files| && Normalize(files[i], root) == Some(x)
  {
    if |files| > 0 {
      var tail := files[1..];
      RelativeFilesMembers(tail, root, x);
      var n0 := Normalize(files[0], root);
      assert RelativeFiles(files, root) == (if n0.Some? then [n0.value] else []) + RelativeFiles(tail, root);
      assert forall i :: 0 < i < |files| ==> files[i] == tail[i - 1];
      if x in RelativeFiles(tail, root) {
        var i :| 0 <= i < |tail| && Normalize(tail[i], root) == Some(x);
        assert files[i + 1] == tail[i];
      }
    }
  }

  /** A file named by its absolute path under the root is listed by its path
      relative to the root. */
  lemma InsideRootBecomesRelative(root: Path, rel: Path)
    requires Valid(root) && IsAbsolute(root) && Valid(rel) && !IsAbsolute(rel)
    ensures Normalize(Str(JoinPath(root, rel)), root) == Some(Str(rel))
  {
    var p := JoinPath(root, rel);
    ParseStr(p);
    assert p.parts[..|root.parts|] == root.parts;
    assert RelativeTo(p, root) == Some(Path("", rel.parts));
  }

  /** How many names the title spells out. */
  const TitleNames: nat := 3

  /** The names part of the title: the first three joined by ", ", then
      " (+N more)" when there are more. */
  function FileNames(files: seq<string>): (r: string)
    ensures |files| <= TitleNames ==> r == Join(files, ", ")
    ensures |files| > TitleNames ==> IsPrefix(Join(files[..TitleNames], ", "), r)
  {
    if |files| <= TitleNames then Join(files, ", ")
    else
      var head := Join(files[..TitleNames], ", ");
      var r := head + " (+" + NatToString(|files| - TitleNames) + " more)";
      assert r[..|head|] == head;
      r
  }

  /** The count a " (+N more)" ending announces. */
  function MoreCount(names: string): Option<nat> {
    if |names| >= 6 && names[|names| - 6..] == " more)" then ParseNat(AfterLast(names[..|names| - 6], '+'))
    else None
  }

  /** The title accounts for every file: the names shown plus the announced
      rest make up the whole list. */
  lemma TitleCountsEveryFile(files: seq<string>)
    requires |files| > TitleNames
    ensures MoreCount(FileNames(files)) == Some(|files| - TitleNames)
  {
    var n := NatToString(|files| - TitleNames);
    var head := Join(files[..TitleNames], ", ") + " (+";
    assert FileNames(files) == head + n + " more)";
    MoreSuffix(head, n);
    NatToStringRoundTrip(|files| - TitleNames);
  }

  lemma MoreSuffix(head: string, n: string)
    requires |head| > 0 && head[|head| - 1] == '+' && '+' !in n
    ensures MoreCount(head + n + " more)") == ParseNat(n)
  {
    var r := head + n + " more)";
    assert r[..|r| - 6] == head + n;
    var s := head + n;
    assert s[|head| - 1] == '+' && s[|head|..] == n;
    LastAfter(s, '+', |head| - 1);
  }

  /** The text after the last `c` is everything after an occurrence of `c`
      followed by no other. */
  lemma LastAfter(s: string, c: char, k: nat)
    requires k < |s| && s[k] == c && c !in s[k + 1..]
    ensures AfterLast(s, c) == s[k + 1..]
  {
  }

  /** The pane title `update_files` sets, or None for an empty list, which
      only shows "No files" and leaves the title alone. */
  function PaneTitle(title: string, files: seq<string>, root: Path): (r: Option<string>)
    ensures r.None? <==> |files| == 0
    ensures r.Some? ==>
              IsPrefix("[bold]" + title + " (" + NatToString(|RelativeFiles(files, root)|) + " files): ", r.value)
  {
    if |files| == 0 then None
    else
      var rel := RelativeFiles(files, root);
      var head := "[bold]" + title + " (" + NatToString(|rel|) + " files): ";
      var r := head + FileNames(rel) + "[/bold]";
      assert r[..|head|] == head;
      Some(r)
  }

  /** `update_repo_info` shows the branch only. */
  function RepoInfo(branch: string): (r: string)
    ensures |r| == |branch| + 2 && r[1..|r| - 1] == branch
  {
    "[" + branch + "]"
  }
}

=== FILE: ordering.dfy ===
/** Orders and sorting as the Python prototypes use them: `str` comparison,
    `PurePath` comparison (part by part), and the stable `list.sort`, with and
    without `reverse=True`. Sorting is insertion sort, which is stable like
    Python's Timsort, so for a total preorder it yields the same list. */
module Ordering {

  /** Python `a <= b` on `str`: code point by code point, a proper prefix first. */
  predicate StrLe(a: string, b: string) {
    if |a| == 0 then true
    else if |b| == 0 then false
    else if a[0] != b[0] then a[0] < b[0]
    else StrLe(a[1..], b[1..])
  }

  lemma {:induction false} StrLeTotal(a: string, b: string)
    ensures StrLe(a, b) || StrLe(b, a)
  {
    if |a| > 0 && |b| > 0 && a[0] == b[0] {
      StrLeTotal(a[1..], b[1..]);
    }
  }

  lemma {:induction false} StrLeAntisymmetric(a: string, b: string)
    requires StrLe(a, b) && StrLe(b, a)
    ensures a == b
  {
    if |a| > 0 && |b| > 0 {
      StrLeAntisymmetric(a[1..], b[1..]);
      assert a == [a[0]] + a[1..];
      assert b == [b[0]] + b[1..];
    }
  }

  lemma {:induction false} StrLeTransitive(a: string, b: string, c: string)
    requires StrLe(a, b) && StrLe(b, c)
    ensures StrLe(a, c)
  {
    if |a| > 0 && |b| > 0 && |c| > 0 && a[0] == b[0] && b[0] == c[0] {
      StrLeTransitive(a[1..], b[1..], c[1..]);
    }
  }

  /** Lexicographic order on sequences of path parts, each part compared as a `str`. */
  predicate PartsLe(a: seq<string>, b: seq<string>) {
    if |a| == 0 then true
    else if |b| == 0 then false
    else if a[0] != b[0] then StrLe(a[0], b[0])
    else PartsLe(a[1..], b[1..])
  }

  lemma {:induction false} PartsLeTotal(a: seq<string>, b: seq<string>)
    ensures PartsLe(a, b) || PartsLe(b, a)
  {
    if |a| > 0 && |b| > 0 {
      if a[0] == b[0] {
        PartsLeTotal(a[1..], b[1..]);
      } else {
        StrLeTotal(a[0], b[0]);
      }
    }
  }

  /** `le` relates every pair one way or the other. */
  ghost predicate Total<T(!new)>(le: (T, T) -> bool) {
    forall a, b :: le(a, b) || le(b, a)
  }

  /** Every element is `le` its successor. */
  predicate Sorted<T(!new)>(s: seq<T>, le: (T, T) -> bool) {
    forall i :: 0 < i < |s| ==> le(s[i - 1], s[i])
  }

  /** Inserts `x` before the first element it is `le` to. */
  function Insert<T(!new)>(x: T, s: seq<T>, le: (T, T) -> bool): (r: seq<T>)
    requires Total(le)
    ensures |r| == |s| + 1
    ensures multiset(r) == multiset(s) + multiset{x}
    ensures r[0] == x || (|s| > 0 && r[0] == s[0])
    ensures Sorted(s, le) ==> Sorted(r, le)
  {
    if |s| == 0 || le(x, s[0]) then [x] + s
    else
      var rest := Insert(x, s[1..], le);
      assert s == [s[0]] + s[1..];
      [s[0]] + rest
  }

  /** Python `sorted(s)` for a total order `le`: a sorted permutation, stable. */
  function Sort<T(!new)>(s: seq<T>, le: (T, T) -> bool): (r: seq<T>)
    requires Total(le)
    ensures Sorted(r, le)
    ensures multiset(r) == multiset(s)
    ensures |r| == |s|
  {
    if |s| == 0 then []
    else
      assert s == [s[0]] + s[1..];
      Insert(s[0], Sort(s[1..], le), le)
  }

  /** Python `str` order as a function value. */
  function StrOrder(): (le: (string, string) -> bool)
    ensures Total(le)
    ensures forall a, b :: le(a, b) == StrLe(a, b)
  {
    forall a, b ensures StrLe(a, b) || StrLe(b, a) {
      StrLeTotal(a, b);
    }
    (a, b) => StrLe(a, b)
  }

  /** Python `list.sort()` on strings. */
  function SortStrings(s: seq<string>): (r: seq<string>)
    ensures Sorted(r, StrOrder())
    ensures multiset(r) == multiset(s)
  {
    Sort(s, StrOrder())
  }

  /** The order `sort(key=key, reverse=True)` uses: larger keys first. */
  function KeyDesc<T(!new)>(key: T -> int): (le: (T, T) -> bool)
    ensures Total(le)
    ensures forall a, b :: le(a, b) == (key(a) >= key(b))
  {
    (a, b) => key(a) >= key(b)
  }

  /** The elements of `s` whose key is `k`, in order. */
  function WithKey<T(!new)>(s: seq<T>, key: T -> int, k: int): seq<T> {
    if |s| == 0 then []
    else (if key(s[0]) == k then [s[0]] else []) + WithKey(s[1..], key, k)
  }

  lemma {:induction false} InsertKeepsKeyOrder<T(!new)>(x: T, s: seq<T>, key: T -> int, k: int)
    ensures WithKey(Insert(x, s, KeyDesc(key)), key, k)
            == (if key(x) == k then [x] else []) + WithKey(s, key, k)
  {
    var le := KeyDesc(key);
    if |s| == 0 || le(x, s[0]) {
      InsertInFront(x, s, le);
      WithKeyCons(x, s, key, k);
    } else {
      var t := Insert(x, s[1..], le);
      InsertBehind(x, s, le);
      WithKeyCons(s[0], t, key, k);
      InsertKeepsKeyOrder(x, s[1..], key, k);
      WithKeyCons(s[0], s[1..], key, k);
      assert [s[0]] + s[1..] == s;
      SwapKeyed(x, s[0], WithKey(s[1..], key, k), key, k);
    }
  }

  /** Two elements of different keys commute under the `WithKey` filter. */
  lemma SwapKeyed<T(!new)>(x: T, y: T, w: seq<T>, key: T -> int, k: int)
    requires key(x) != key(y)
    ensures (if key(y) == k then [y] else []) + ((if key(x) == k then [x] else []) + w)
            == (if key(x) == k then [x] else []) + ((if key(y) == k then [y] else []) + w)
  {
  }

  /** `WithKey` takes the head of a sequence, then the rest. */
  lemma WithKeyCons<T(!new)>(y: T, t: seq<T>, key: T -> int, k: int)
    ensures WithKey([y] + t, key, k) == (if key(y) == k then [y] else []) + WithKey(t, key, k)
  {
    assert ([y] + t)[0] == y && ([y] + t)[1..] == t;
  }

  lemma InsertInFront<T(!new)>(x: T, s: seq<T>, le: (T, T) -> bool)
    requires Total(le) && (|s| == 0 || le(x, s[0]))
    ensures Insert(x, s, le) == [x] + s
  {
  }

  lemma InsertBehind<T(!new)>(x: T, s: seq<T>, le: (T, T) -> bool)
    requires Total(le) && |s| > 0 && !le(x, s[0])
    ensures Insert(x, s, le) == [s[0]] + Insert(x, s[1..], le)
  {
  }

  /** Python `s.sort(key=key, reverse=True)`: larger keys first, ties kept in input order. */
  function SortByKeyDesc<T(!new)>(s: seq<T>, key: T -> int): (r: seq<T>)
    ensures Sorted(r, KeyDesc(key))
    ensures multiset(r) == multiset(s)
    ensures |r| == |s|
  {
    Sort(s, KeyDesc(key))
  }

  /** Stability: among elements with equal keys the input order survives. */
  lemma {:induction false} SortByKeyDescStable<T(!new)>(s: seq<T>, key: T -> int, k: int)
    ensures WithKey(SortByKeyDesc(s, key), key, k) == WithKey(s, key, k)
  {
    if |s| > 0 {
      var le := KeyDesc(key);
      assert Sort(s, le) == Insert(s[0], Sort(s[1..], le), le);
      InsertKeepsKeyOrder(s[0], Sort(s[1..], le), key, k);
      SortByKeyDescStable(s[1..], key, k);
    }
  }

  /** A sorted sequence is ordered between any two positions, given transitivity. */
  lemma {:induction false} SortedPairs(s: seq<string>, i: nat, j: nat)
    requires Sorted(s, StrOrder())
    requires i <= j < |s|
    ensures StrLe(s[i], s[j])
    decreases j - i
  {
    if i == j {
      StrLeTotal(s[i], s[i]);
    } else {
      SortedPairs(s, i, j - 1);
      StrLeTransitive(s[i], s[j - 1], s[j]);
    }
  }
}

=== FILE: pane_data.dfy ===
/** three-pane-tui/data/data.c: the lines the three-pane TUI shows, built
    from the analyzers' parsed JSON reports. A missing or unparsable report
    is `None`; an array slot `calloc` leaves empty is `None` too. */
module PaneData {
  import opened Wrappers
  import opened Text
  import opened Json
  import opened JsonPath
  import opened Glyphs

  /** `is_submodule`: false when either argument is NULL, else exact
      membership. */
  function IsSubmodule(filename: Option<string>, submodules: Option<seq<string>>): (r: bool)
    ensures r <==> filename.Some? && submodules.Some?
                   && exists i :: 0 <= i < |submodules.value| && submodules.value[i] == filename.value
  {
    match (filename, submodules)
    case (Some(f), Some(subs)) => f in subs
    case _ => false
  }

  /** The array under `key`, if the value has one. */
  function ArrayMember(v: Value, key: string): Option<seq<Value>> {
    match Member(v, key)
    case Some(JArray(items)) => Some(items)
    case _ => None
  }

  /** The string under `key`, if the value has one. */
  function StringMember(v: Value, key: string): Option<string> {
    match Member(v, key)
    case Some(JString(s)) => Some(s)
    case _ => None
  }

  /** A left-pane line for one entry of the git-submodules report; `None`
      for a non-object entry, whose slot stays empty. */
  function RepoSummary(repo: Value): (r: Option<string>)
    ensures r.None? <==> !repo.JObject?
    ensures repo.JObject? && (StringMember(repo, "name").None? || StringMember(repo, "status").None?) ==>
              r == Some("Unknown repo")
    ensures repo.JObject? && StringMember(repo, "name").Some? && StringMember(repo, "status").Some? ==>
              IsPrefix(StringMember(repo, "name").value + " [" + StringMember(repo, "status").value + "]", r.value)
  {
    if !repo.JObject? then None
    else
      match (StringMember(repo, "name"), StringMember(repo, "status"))
      case (Some(name), Some(status)) =>
        var head := name + " [" + status + "]";
        (match StringMember(repo, "changes")
         case Some(changes) =>
           if |changes| > 0 then Some(head + ": " + UpTo(changes, '\n')) else Some(head)
         case None => Some(head))
      case _ => Some("Unknown repo")
  }

  /** A repository entry as the git-submodules report writes it. */
  function StatusEntry(name: string, status: string, changes: string): Value {
    JObject([("name", JString(name)), ("status", JString(status)), ("changes", JString(changes))])
  }

  lemma StatusEntryFields(name: string, status: string, changes: string)
    ensures StringMember(StatusEntry(name, status, changes), "name") == Some(name)
    ensures StringMember(StatusEntry(name, status, changes), "status") == Some(status)
    ensures StringMember(StatusEntry(name, status, changes), "changes") == Some(changes)
  {
    var v := StatusEntry(name, status, changes);
    PyDict.GetFirst(v.entries, 0, "name");
    PyDict.GetFirst(v.entries, 1, "status");
    PyDict.GetFirst(v.entries, 2, "changes");
  }

  lemma SummaryOf(v: Value, name: string, status: string, changes: string)
    requires v.JObject?
    requires StringMember(v, "name") == Some(name) && StringMember(v, "status") == Some(status)
    requires StringMember(v, "changes") == Some(changes)
    ensures RepoSummary(v) == if |changes| > 0 then Some(name + " [" + status + "]" + ": " + UpTo(changes, '\n'))
                              else Some(name + " [" + status + "]")
  {
  }

  /** Only the first line of the changes reaches the left pane. */
  lemma SummaryShowsFirstLine(name: string, status: string, first: string, rest: string)
    requires '\n' !in first
    ensures RepoSummary(StatusEntry(name, status, first + "\n" + rest))
            == Some(name + " [" + status + "]" + ": " + first)
  {
    var changes := first + "\n" + rest;
    StatusEntryFields(name, status, changes);
    UpToFirst(first, '\n', rest);
    SummaryOf(StatusEntry(name, status, changes), name, status, changes);
  }

  /** A clean repository's empty changes add nothing. */
  lemma SummaryOfClean(name: string, status: string)
    ensures RepoSummary(StatusEntry(name, status, "")) == Some(name + " [" + status + "]")
  {
    StatusEntryFields(name, status, "");
    SummaryOf(StatusEntry(name, status, ""), name, status, "");
  }

  function Summaries(entries: seq<Value>): (r: seq<Option<string>>)
    ensures |r| == |entries| && forall i :: 0 <= i < |r| ==> r[i] == RepoSummary(entries[i])
  {
    if |entries| == 0 then [] else [RepoSummary(entries[0])] + Summaries(entries[1..])
  }

  /** `load_git_submodules_data`: one slot per entry of "repositories", or
      failure when the report is not an object with that array. */
  function LoadGitSubmodulesData(report: Option<Value>): (r: Option<seq<Option<string>>>)
    ensures r.Some? <==> report.Some? && ArrayMember(report.value, "repositories").Some?
    ensures r.Some? ==> |r.value| == |ArrayMember(report.value, "repositories").value|
    ensures r.Some? ==> forall i :: 0 <= i < |r.value| ==>
              (r.value[i].Some? <==> ArrayMember(report.value, "repositories").value[i].JObject?)
  {
    var v :- report;
    var entries :- ArrayMember(v, "repositories");
    Some(Summaries(entries))
  }

  /** The names of the report's repositories other than "root", in order:
      the submodules whose own entries the middle pane hides
      (`NonRootNamesSpec`). */
  function NonRootNames(entries: seq<Value>): seq<string>
  {
    if |entries| == 0 then []
    else
      var rest := NonRootNames(entries[1..]);
      match StringMember(entries[0], "name")
      case Some(n) => if n != "root" then [n] + rest else rest
      case None => rest
  }

  /** Some entry of `entries` carries the string name `s`. */
  predicate NamedIn(entries: seq<Value>, s: string) {
    exists i :: 0 <= i < |entries| && StringMember(entries[i], "name") == Some(s)
  }

  /** A name is listed exactly when some entry carries it and it is not
      "root". */
  lemma {:induction false} NonRootNamesSpec(entries: seq<Value>)
    ensures forall s :: s in NonRootNames(entries) <==> s != "root" && NamedIn(entries, s)
  {
    if |entries| > 0 {
      NonRootNamesSpec(entries[1..]);
      forall s
        ensures NamedIn(entries, s) <==> StringMember(entries[0], "name") == Some(s) || NamedIn(entries[1..], s)
      {
        NamedInCons(entries, s);
      }
    }
  }

  lemma NamedInCons(entries: seq<Value>, s: string)
    requires |entries| > 0
    ensures NamedIn(entries, s) <==> StringMember(entries[0], "name") == Some(s) || NamedIn(entries[1..], s)
  {
    if NamedIn(entries, s) {
      var i :| 0 <= i < |entries| && StringMember(entries[i], "name") == Some(s);
      if i > 0 { assert entries[1..][i - 1] == entries[i]; }
    }
    if NamedIn(entries[1..], s) {
      var i :| 0 <= i < |entries[1..]| && StringMember(entries[1..][i], "name") == Some(s);
      assert entries[i + 1] == entries[1..][i];
    }
  }

  /** The submodule list of `load_committed_not_pushed_data`: NULL unless
      the git-submodules report is an object with a "repositories"
      array. */
  function SubmoduleNames(report: Option<Value>): (r: Option<seq<string>>)
    ensures r.Some? <==> report.Some? && ArrayMember(report.value, "repositories").Some?
    ensures r.Some? ==> "root" !in r.value
  {
    var v :- report;
    var entries :- ArrayMember(v, "repositories");
    NonRootNamesSpec(entries);
    Some(NonRootNames(entries))
  }

  /** "    ├── " */
  function FilePrefix(): string {
    "    " + Branch
  }

  /** Whether a file of a commit gets a line: a string that is not a
      submodule name. */
  predicate ShowsFile(file: Value, subs: Option<seq<string>>) {
    file.JString? && !IsSubmodule(Some(file.s), subs)
  }

  /** First pass: the files that will get a line. */
  function FileCount(files: seq<Value>, subs: Option<seq<string>>): nat {
    if |files| == 0 then 0 else (if ShowsFile(files[0], subs) then 1 else 0) + FileCount(files[1..], subs)
  }

  /** Second pass: the file lines, in order. */
  function FileLines(files: seq<Value>, subs: Option<seq<string>>): (r: seq<string>)
    ensures |r| == FileCount(files, subs)
    ensures forall i :: 0 <= i < |r| ==>
              IsPrefix(FilePrefix(), r[i]) && ShowsFile(JString(r[i][|FilePrefix()|..]), subs)
              && JString(r[i][|FilePrefix()|..]) in files
  {
    if |files| == 0 then []
    else
      var rest := FileLines(files[1..], subs);
      assert forall v :: v in files[1..] ==> v in files;
      if ShowsFile(files[0], subs) then
        var line := FilePrefix() + files[0].s;
        assert line[|FilePrefix()|..] == files[0].s;
        [line] + rest
      else rest
  }

  /** A commit line: "└── " and the info, cut to 60 bytes and "..." when
      longer. */
  function CommitLine(info: string): (r: string)
    ensures IsPrefix(LastBranch, r)
    ensures |info| <= 60 ==> r == LastBranch + info
    ensures |info| > 60 ==> |r| == |LastBranch| + 63 && IsSuffix("...", r)
                            && IsPrefix(r[|LastBranch|..|r| - 3], info)
  {
    if |info| > 60 then LastBranch + info[..60] + "..." else LastBranch + info
  }

  function FilesOf(commit: Value): seq<Value> {
    ArrayMember(commit, "files_changed").GetOr([])
  }

  /** First pass over a repository's commits: one slot per object commit
      and one per shown file. */
  function CommitCount(commits: seq<Value>, subs: Option<seq<string>>): nat {
    if |commits| == 0 then 0
    else
      (if commits[0].JObject? then 1 + FileCount(FilesOf(commits[0]), subs) else 0)
      + CommitCount(commits[1..], subs)
  }

  /** Second pass: the commit line when "commit_info" is a string, then the
      file lines. */
  function CommitItems(commits: seq<Value>, subs: Option<seq<string>>): seq<string> {
    if |commits| == 0 then []
    else
      var c := commits[0];
      var here :=
        if !c.JObject? then []
        else
          (match StringMember(c, "commit_info")
           case Some(info) => [CommitLine(info)]
           case None => [])
          + FileLines(FilesOf(c), subs);
      here + CommitItems(commits[1..], subs)
  }

  /** Every object commit of the list carries a string "commit_info". */
  predicate InfoEverywhere(commits: seq<Value>) {
    forall i :: 0 <= i < |commits| && commits[i].JObject? ==> StringMember(commits[i], "commit_info").Some?
  }

  lemma {:induction false} CommitItemsWithinCount(commits: seq<Value>, subs: Option<seq<string>>)
    ensures |CommitItems(commits, subs)| <= CommitCount(commits, subs)
    ensures |CommitItems(commits, subs)| == CommitCount(commits, subs) <==> InfoEverywhere(commits)
  {
    if |commits| > 0 {
      CommitItemsWithinCount(commits[1..], subs);
      if !InfoEverywhere(commits) {
        var i :| 0 <= i < |commits| && commits[i].JObject? && StringMember(commits[i], "commit_info").None?;
        if i > 0 {
          assert commits[1..][i - 1] == commits[i];
        }
      }
      if InfoEverywhere(commits) {
        forall i | 0 <= i < |commits[1..]| && commits[1..][i].JObject?
          ensures StringMember(commits[1..][i], "commit_info").Some?
        {
          assert commits[1..][i] == commits[i + 1];
        }
      }
    }
  }

  /** The middle-pane header of a repository: "Repository: " and the text
      after the last '/' of a string "path", else the name. */
  function Header(name: string, path: Option<string>): (r: string)
    ensures IsPrefix("Repository: ", r)
    ensures path.Some? && '/' in path.value ==> r == "Repository: " + AfterLast(path.value, '/')
    ensures path.None? || '/' !in path.value ==> r == "Repository: " + name
  {
    match path
    case Some(p) => if '/' in p then "Repository: " + AfterLast(p, '/') else "Repository: " + name
    case None => "Repository: " + name
  }

  /** First pass over one repository: the header slot and its commits' slots,
      counted for any object with an "unpushed_commits" array, named or not. */
  function RepoCount(repo: Value, subs: Option<seq<string>>): nat {
    if !repo.JObject? then 0
    else
      match ArrayMember(repo, "unpushed_commits")
      case Some(commits) => 1 + CommitCount(commits, subs)
      case None => 0
  }

  /** Second pass over one repository: nothing unless it has a string name
      and an "unpushed_commits" array. */
  function RepoItems(repo: Value, subs: Option<seq<string>>): seq<string> {
    if !repo.JObject? then []
    else
      match (StringMember(repo, "name"), ArrayMember(repo, "unpushed_commits"))
      case (Some(name), Some(commits)) =>
        [Header(name, StringMember(repo, "path"))] + CommitItems(commits, subs)
      case _ => []
  }

  function Pane2Count(repos: seq<Value>, subs: Option<seq<string>>): nat {
    if |repos| == 0 then 0 else RepoCount(repos[0], subs) + Pane2Count(repos[1..], subs)
  }

  function Pane2Items(repos: seq<Value>, subs: Option<seq<string>>): seq<string> {
    if |repos| == 0 then [] else RepoItems(repos[0], subs) + Pane2Items(repos[1..], subs)
  }

  /** Every counted repository is named and every counted commit carries
      its info. */
  predicate Complete(repos: seq<Value>) {
    forall i :: 0 <= i < |repos| && repos[i].JObject? && ArrayMember(repos[i], "unpushed_commits").Some? ==>
      StringMember(repos[i], "name").Some? && InfoEverywhere(ArrayMember(repos[i], "unpushed_commits").value)
  }

  /** The counting pass bounds the filling pass, so the fill never writes
      past the allocated slots; the two agree exactly when every counted
      repository is named and every counted commit has its info. */
  lemma {:induction false} FillWithinCount(repos: seq<Value>, subs: Option<seq<string>>)
    ensures |Pane2Items(repos, subs)| <= Pane2Count(repos, subs)
    ensures |Pane2Items(repos, subs)| == Pane2Count(repos, subs) <==> Complete(repos)
  {
    if |repos| > 0 {
      FillWithinCount(repos[1..], subs);
      var r := repos[0];
      if r.JObject? && ArrayMember(r, "unpushed_commits").Some? {
        CommitItemsWithinCount(ArrayMember(r, "unpushed_commits").value, subs);
      }
      if Complete(repos) {
        forall i | 0 <= i < |repos[1..]| && repos[1..][i].JObject? && ArrayMember(repos[1..][i], "unpushed_commits").Some?
          ensures StringMember(repos[1..][i], "name").Some?
                  && InfoEverywhere(ArrayMember(repos[1..][i], "unpushed_commits").value)
        {
          assert repos[1..][i] == repos[i + 1];
        }
      } else {
        var i :| 0 <= i < |repos| && repos[i].JObject? && ArrayMember(repos[i], "unpushed_commits").Some?
                 && !(StringMember(repos[i], "name").Some? && InfoEverywhere(ArrayMember(repos[i], "unpushed_commits").value));
        if i > 0 {
          assert repos[1..][i - 1] == repos[i];
        }
      }
    }
  }

  /** `calloc`'d slots: the filled lines first, the rest left NULL. */
  function Slots(lines: seq<string>, total: nat): (r: seq<Option<string>>)
    requires |lines| <= total
    ensures |r| == total
    ensures forall i :: 0 <= i < |lines| ==> r[i] == Some(lines[i])
    ensures forall i :: |lines| <= i < total ==> r[i].None?
  {
    if |lines| == total then
      if |lines| == 0 then [] else [Some(lines[0])] + Slots(lines[1..], total - 1)
    else Slots(lines, total - 1) + [None]
  }

  /** `load_committed_not_pushed_data`: the submodule names come from the
      git-submodules report, the slots from the committed-not-pushed
      report, which must be an object with a "repositories" array. */
  function LoadCommittedNotPushedData(submodulesReport: Option<Value>, report: Option<Value>)
    : (r: Option<seq<Option<string>>>)
    ensures r.Some? <==> report.Some? && ArrayMember(report.value, "repositories").Some?
    ensures r.Some? ==>
              var repos := ArrayMember(report.value, "repositories").value;
              var subs := SubmoduleNames(submodulesReport);
              |r.value| == Pane2Count(repos, subs) && |Pane2Items(repos, subs)| <= |r.value|
              && (forall i :: 0 <= i < |Pane2Items(repos, subs)| ==> r.value[i] == Some(Pane2Items(repos, subs)[i]))
  {
    var v :- report;
    var repos :- ArrayMember(v, "repositories");
    var subs := SubmoduleNames(submodulesReport);
    FillWithinCount(repos, subs);
    Some(Slots(Pane2Items(repos, subs), Pane2Count(repos, subs)))
  }

  /** A dirty-pane line: "<repo>: <file>", or the file alone when the
      repository has no string name. */
  function DirtyLine(name: Option<string>, file: string): (r: string)
    ensures IsSuffix(file, r)
    ensures name.Some? ==> r == name.value + ": " + file
    ensures name.None? ==> r == file
  {
    match name
    case Some(n) => n + ": " + file
    case None => file
  }

  function DirtyFilesOf(repo: Value): seq<Value> {
    ArrayMember(repo, "dirty_files").GetOr([])
  }

  /** The lines of one repository's string files, in order. */
  function RepoDirtyLines(name: Option<string>, files: seq<Value>): (r: seq<string>)
    ensures |r| <= |files|
    decreases |files|
  {
    if |files| == 0 then []
    else
      var last := files[|files| - 1];
      RepoDirtyLines(name, files[..|files| - 1]) + (if last.JString? then [DirtyLine(name, last.s)] else [])
  }

  /** First pass of `load_dirty_files_data`: every item of every
      "dirty_files" array, strings or not. */
  function DirtyCount(repos: seq<Value>): nat
    decreases |repos|
  {
    if |repos| == 0 then 0 else DirtyCount(repos[..|repos| - 1]) + |DirtyFilesOf(repos[|repos| - 1])|
  }

  /** What the second pass fills, without its index guard. */
  function DirtyItems(repos: seq<Value>): (r: seq<string>)
    ensures |r| <= DirtyCount(repos)
    decreases |repos|
  {
    if |repos| == 0 then []
    else
      var repo := repos[|repos| - 1];
      DirtyItems(repos[..|repos| - 1]) + RepoDirtyLines(StringMember(repo, "name"), DirtyFilesOf(repo))
  }

  lemma {:induction false} DirtyCountGrows(repos: seq<Value>, i: nat)
    requires i <= |repos|
    ensures DirtyCount(repos[..i]) <= DirtyCount(repos)
    decreases |repos|
  {
    if i < |repos| {
      assert repos[..|repos| - 1][..i] == repos[..i];
      DirtyCountGrows(repos[..|repos| - 1], i);
    } else {
      assert repos[..i] == repos;
    }
  }

  /** The inner loop of `load_dirty_files_data`'s filling pass, with its
      guard `file_index < total_files`: given room for every item, the
      guard never stops it early. */
  method FillRepo(items0: seq<string>, name: Option<string>, files: seq<Value>, total: nat)
    returns (items: seq<string>)
    requires |items0| + |files| <= total
    ensures items == items0 + RepoDirtyLines(name, files)
  {
    items := items0;
    var j := 0;
    while j < |files| && |items| < total
      invariant 0 <= j <= |files|
      invariant items == items0 + RepoDirtyLines(name, files[..j])
      invariant |items| <= |items0| + j
    {
      assert files[..j + 1][..j] == files[..j];
      if files[j].JString? {
        items := items + [DirtyLine(name, files[j].s)];
      }
      j := j + 1;
    }
    assert files[..j] == files;
  }

  /** `load_dirty_files_data`'s filling pass: the counted total bounds it,
      so the filled lines are all string files of all repositories in
      order. */
  method FillDirty(repos: seq<Value>) returns (items: seq<string>)
    ensures items == DirtyItems(repos)
    ensures |items| <= DirtyCount(repos)
  {
    var total := DirtyCount(repos);
    items := [];
    var i := 0;
    while i < |repos|
      invariant 0 <= i <= |repos|
      invariant items == DirtyItems(repos[..i])
    {
      var repo := repos[i];
      assert repos[..i + 1][..i] == repos[..i] && repos[..i + 1][i] == repo;
      if repo.JObject? && ArrayMember(repo, "dirty_files").Some? {
        DirtyCountGrows(repos, i + 1);
        assert DirtyCount(repos[..i + 1]) == DirtyCount(repos[..i]) + |DirtyFilesOf(repo)|;
        items := FillRepo(items, StringMember(repo, "name"), ArrayMember(repo, "dirty_files").value, total);
      } else {
        assert DirtyFilesOf(repo) == [];
      }
      i := i + 1;
    }
    assert repos[..i] == repos;
  }

  /** `load_dirty_files_data`: failure unless the report is an object with
      a "repositories" array; otherwise one slot per listed item, the
      string files' lines first. */
  function LoadDirtyFilesData(report: Option<Value>): (r: Option<seq<Option<string>>>)
    ensures r.Some? <==> report.Some? && ArrayMember(report.value, "repositories").Some?
    ensures r.Some? ==>
              var repos := ArrayMember(report.value, "repositories").value;
              |r.value| == DirtyCount(repos) && |DirtyItems(repos)| <= |r.value|
              && forall i :: 0 <= i < |DirtyItems(repos)| ==> r.value[i] == Some(DirtyItems(repos)[i])
  {
    var v :- report;
    var repos :- ArrayMember(v, "repositories");
    Some(Slots(DirtyItems(repos), DirtyCount(repos)))
  }

  /** `load_hardcoded_data`: the right pane's fixed lines. */
  const Pane3Items: seq<string> := ["Right 1", "Right 2", "Right 3", "Right 4", "Right 5", "Right 6"]
}

=== FILE: pydict.dfy ===
/** A Python `dict` as the prototypes use it: insertion-ordered entries with
    distinct keys, where assigning to an existing key keeps its position. */
module PyDict {
  import opened Wrappers

  /** The entries of a dictionary in insertion order. */
  type Dict<K, V> = seq<(K, V)>

  function Keys<K, V>(d: Dict<K, V>): (r: seq<K>)
    ensures |r| == |d| && forall i :: 0 <= i < |d| ==> r[i] == d[i].0
  {
    if |d| == 0 then [] else [d[0].0] + Keys(d[1..])
  }

  /** No key occurs twice. */
  predicate UniqueKeys<K(==), V>(d: Dict<K, V>) {
    forall i, j :: 0 <= i < j < |d| ==> d[i].0 != d[j].0
  }

  /** `d.get(k)`: the value of the first entry with key `k`. */
  function Get<K(==,!new), V>(d: Dict<K, V>, k: K): (r: Option<V>)
    ensures r.None? <==> k !in Keys(d)
    ensures r.Some? ==> exists i :: 0 <= i < |d| && d[i] == (k, r.value)
  {
    if |d| == 0 then None
    else if d[0].0 == k then Some(d[0].1)
    else
      var r := Get(d[1..], k);
      assert r.Some? ==> exists i :: 1 <= i < |d| && d[i] == (k, r.value) by {
        if r.Some? {
          var i :| 0 <= i < |d[1..]| && d[1..][i] == (k, r.value);
          assert d[i + 1] == (k, r.value);
        }
      }
      r
  }

  /** In a dictionary with distinct keys, an entry is what `Get` finds. */
  lemma {:induction false} GetEntry<K(!new), V>(d: Dict<K, V>, i: nat)
    requires UniqueKeys(d) && i < |d|
    ensures Get(d, d[i].0) == Some(d[i].1)
  {
    if i > 0 {
      GetEntry(d[1..], i - 1);
    }
  }

  /** `Get` finds the first entry with the key, wherever it stands. */
  lemma {:induction false} GetFirst<K(!new), V>(d: Dict<K, V>, i: nat, k: K)
    requires i < |d| && d[i].0 == k
    requires forall j :: 0 <= j < i ==> d[j].0 != k
    ensures Get(d, k) == Some(d[i].1)
  {
    if i > 0 {
      GetFirst(d[1..], i - 1, k);
    }
  }

  /** `d[k] = v`: an existing key is updated where it stands, a new one is
      appended (`PutGet`, `PutOther` and `PutKeys` say so). */
  function Put<K(==,!new), V>(d: Dict<K, V>, k: K, v: V): (r: Dict<K, V>)
    ensures |r| == |d| || |r| == |d| + 1
  {
    if |d| == 0 then [(k, v)]
    else if d[0].0 == k then [(k, v)] + d[1..]
    else [d[0]] + Put(d[1..], k, v)
  }

  /** After `d[k] = v`, looking up `k` finds `v`. */
  lemma {:induction false} PutGet<K(!new), V>(d: Dict<K, V>, k: K, v: V)
    ensures Get(Put(d, k, v), k) == Some(v)
  {
    if |d| > 0 && d[0].0 != k {
      PutGet(d[1..], k, v);
      assert Put(d, k, v)[1..] == Put(d[1..], k, v);
    }
  }

  /** `d[k] = v` changes the lookup of no other key. */
  lemma {:induction false} PutOther<K(!new), V>(d: Dict<K, V>, k: K, v: V)
    ensures forall k' :: k' != k ==> Get(Put(d, k, v), k') == Get(d, k')
  {
    if |d| > 0 {
      var r := Put(d, k, v);
      if d[0].0 == k {
        assert r[1..] == d[1..];
      } else {
        PutOther(d[1..], k, v);
        assert r[1..] == Put(d[1..], k, v);
      }
    }
  }

  /** The keys after `d[k] = v`: the same ones in the same order, `k`
      appended when it was new. */
  lemma {:induction false} PutKeys<K(!new), V>(d: Dict<K, V>, k: K, v: V)
    ensures Keys(Put(d, k, v)) == if k in Keys(d) then Keys(d) else Keys(d) + [k]
  {
    if |d| > 0 {
      var r := Put(d, k, v);
      if d[0].0 == k {
        assert Keys(r) == Keys(d);
      } else {
        PutKeys(d[1..], k, v);
        assert r[1..] == Put(d[1..], k, v);
        assert Keys(r) == [d[0].0] + Keys(Put(d[1..], k, v));
        assert Keys(d) == [d[0].0] + Keys(d[1..]);
      }
    }
  }

  /** `Put` keeps the keys distinct. */
  lemma PutUnique<K(!new), V>(d: Dict<K, V>, k: K, v: V)
    requires UniqueKeys(d)
    ensures UniqueKeys(Put(d, k, v))
  {
    var r := Put(d, k, v);
    PutKeys(d, k, v);
    forall i, j | 0 <= i < j < |r|
      ensures r[i].0 != r[j].0
    {
      assert Keys(r)[i] == r[i].0 && Keys(r)[j] == r[j].0;
      if k in Keys(d) {
        assert Keys(d)[i] == d[i].0 && Keys(d)[j] == d[j].0;
      } else if j < |d| {
        assert Keys(d)[i] == d[i].0 && Keys(d)[j] == d[j].0;
      } else {
        assert Keys(d)[i] == d[i].0;
      }
    }
  }

  /** The entries whose value passes `keep`, in their order (a dict rebuilt
      by a comprehension, or entries deleted in a loop). */
  function Filter<K, V>(d: Dict<K, V>, keep: V -> bool): (r: Dict<K, V>)
    ensures |r| <= |d|
    ensures forall i :: 0 <= i < |r| ==> r[i] in d && keep(r[i].1)
    ensures forall e :: e in d && keep(e.1) ==> e in r
    ensures (forall i :: 0 <= i < |d| ==> !keep(d[i].1)) ==> r == []
  {
    if |d| == 0 then []
    else (if keep(d[0].1) then [d[0]] else []) + Filter(d[1..], keep)
  }

  /** Filtering keeps the keys distinct. */
  lemma {:induction false} FilterUnique<K, V>(d: Dict<K, V>, keep: V -> bool)
    requires UniqueKeys(d)
    ensures UniqueKeys(Filter(d, keep))
  {
    if |d| > 0 {
      FilterUnique(d[1..], keep);
      var rest := Filter(d[1..], keep);
      forall i | 0 <= i < |rest|
        ensures rest[i].0 != d[0].0
      {
        var j :| 0 <= j < |d[1..]| && d[1..][j] == rest[i];
        assert d[j + 1] == rest[i];
      }
    }
  }
}

=== FILE: pypath.dfy ===
/** Python `pathlib.PurePosixPath`, as far as the prototypes use it: parsing a
    string into an anchor and parts, `str()`, `.name`, `.parent`, `.parents[d]`,
    `/` joining and `relative_to`. Filesystem queries (`resolve`, `exists`,
    `is_file`) are not pure and are passed to the callers as predicates. */
module PyPath {
  import opened Wrappers
  import opened Text

  /** A parsed path: `anchor` is "", "/" or "//" and `parts` are the
      components after it, none empty, none ".", none holding a '/'. */
  datatype Path = Path(anchor: string, parts: seq<string>)

  predicate ValidPart(part: string) {
    part != "" && part != "." && '/' !in part
  }

  predicate Valid(p: Path) {
    (p.anchor == "" || p.anchor == "/" || p.anchor == "//")
    && forall i :: 0 <= i < |p.parts| ==> ValidPart(p.parts[i])
  }

  /** The split segments that name components: empty and "." segments vanish. */
  function KeepParts(segments: seq<string>): (r: seq<string>)
    requires forall i :: 0 <= i < |segments| ==> '/' !in segments[i]
    ensures forall i :: 0 <= i < |r| ==> ValidPart(r[i])
    ensures |r| <= |segments|
  {
    if |segments| == 0 then []
    else
      var rest := KeepParts(segments[1..]);
      if segments[0] == "" || segments[0] == "." then rest else [segments[0]] + rest
  }

  /** The anchor POSIX path parsing keeps: exactly two leading slashes stay
      "//", one or three or more collapse to "/". */
  function AnchorOf(s: string): string {
    if |s| >= 2 && s[0] == '/' && s[1] == '/' && !(|s| >= 3 && s[2] == '/') then "//"
    else if |s| >= 1 && s[0] == '/' then "/"
    else ""
  }

  /** `PurePosixPath(s)`. */
  function Parse(s: string): (p: Path)
    ensures Valid(p)
  {
    Path(AnchorOf(s), KeepParts(Split(s, '/')))
  }

  /** `str(path)`: "." for the empty relative path. */
  function Str(p: Path): string {
    if p.anchor == "" && |p.parts| == 0 then "."
    else p.anchor + Join(p.parts, "/")
  }

  /** `str(p)` of every path. */
  function Strs(ps: seq<Path>): (r: seq<string>)
    ensures |r| == |ps| && forall i :: 0 <= i < |ps| ==> r[i] == Str(ps[i])
  {
    if |ps| == 0 then [] else [Str(ps[0])] + Strs(ps[1..])
  }

  /** `path.name`: the last component, or "" when there is none. */
  function Name(p: Path): string {
    if |p.parts| == 0 then "" else p.parts[|p.parts| - 1]
  }

  /** `path.parent`: a path without components is its own parent. */
  function Parent(p: Path): (r: Path)
    ensures Valid(p) ==> Valid(r)
  {
    if |p.parts| == 0 then p else Path(p.anchor, p.parts[..|p.parts| - 1])
  }

  /** `len(path.parents)`. */
  function ParentCount(p: Path): nat {
    |p.parts|
  }

  /** `path.parents[d]`: `IndexError` (None) once `d` reaches `len(path.parents)`. */
  function Parents(p: Path, d: nat): (r: Option<Path>)
    ensures r.Some? <==> d < ParentCount(p)
    ensures r.Some? ==> r.value.anchor == p.anchor && r.value.parts == p.parts[..|p.parts| - 1 - d]
  {
    if d < |p.parts| then Some(Path(p.anchor, p.parts[..|p.parts| - 1 - d])) else None
  }

  /** `path.is_absolute()`. */
  predicate IsAbsolute(p: Path) {
    p.anchor != ""
  }

  /** `a / b`: an anchored right-hand side replaces the left. */
  function JoinPath(a: Path, b: Path): (r: Path)
    ensures Valid(a) && Valid(b) ==> Valid(r)
  {
    if b.anchor != "" then b else Path(a.anchor, a.parts + b.parts)
  }

  /** `path.relative_to(root)`: None where Python raises `ValueError`. */
  function RelativeTo(p: Path, root: Path): (r: Option<Path>)
    ensures r.Some? <==> p.anchor == root.anchor && |root.parts| <= |p.parts|
                         && p.parts[..|root.parts|] == root.parts
    ensures r.Some? ==> r.value.anchor == "" && root.parts + r.value.parts == p.parts
  {
    if p.anchor == root.anchor && |root.parts| <= |p.parts| && p.parts[..|root.parts|] == root.parts
    then
      assert root.parts + p.parts[|root.parts|..] == p.parts;
      Some(Path("", p.parts[|root.parts|..]))
    else None
  }

  /** Joining `root` with the relative path `relative_to` found gives the path back. */
  lemma RelativeToJoin(p: Path, root: Path)
    requires RelativeTo(p, root).Some?
    ensures JoinPath(root, RelativeTo(p, root).value) == p
  {
  }

  lemma {:induction false} KeepValidParts(parts: seq<string>)
    requires forall i :: 0 <= i < |parts| ==> '/' !in parts[i]
    requires forall i :: 0 <= i < |parts| ==> ValidPart(parts[i])
    ensures KeepParts(parts) == parts
  {
    if |parts| > 0 {
      var tail := parts[1..];
      assert forall i :: 0 <= i < |tail| ==> tail[i] == parts[i + 1];
      KeepValidParts(tail);
      KeepCons(parts[0], tail);
      assert parts == [parts[0]] + tail;
    }
  }

  /** A component that names something is kept in front of the rest. */
  lemma KeepCons(part: string, tail: seq<string>)
    requires ValidPart(part)
    requires forall i :: 0 <= i < |tail| ==> '/' !in tail[i]
    ensures KeepParts([part] + tail) == [part] + KeepParts(tail)
  {
    assert ([part] + tail)[1..] == tail;
  }

  lemma SplitLeadingSeparator(s: string, sep: char)
    ensures Split([sep] + s, sep) == [""] + Split(s, sep)
  {
    assert ([sep] + s)[1..] == s;
    assert ([sep] + s)[..0] == "";
  }

  /** The components of a printed relative path come back from splitting it. */
  lemma PartsOfJoin(parts: seq<string>)
    requires |parts| > 0
    requires forall i :: 0 <= i < |parts| ==> ValidPart(parts[i])
    ensures KeepParts(Split(Join(parts, "/"), '/')) == parts
    ensures |Join(parts, "/")| > 0 && Join(parts, "/")[0] != '/'
  {
    assert forall i :: 0 <= i < |parts| ==> '/' !in parts[i];
    SplitJoin(parts, '/');
    KeepValidParts(parts);
    JoinHead(parts, "/");
    assert Join(parts, "/")[0] == parts[0][0];
  }

  lemma ParseRelative(parts: seq<string>)
    requires |parts| > 0
    requires forall i :: 0 <= i < |parts| ==> ValidPart(parts[i])
    ensures Parse(Join(parts, "/")) == Path("", parts)
  {
    PartsOfJoin(parts);
  }

  lemma ParseRooted(parts: seq<string>)
    requires |parts| > 0
    requires forall i :: 0 <= i < |parts| ==> ValidPart(parts[i])
    ensures Parse("/" + Join(parts, "/")) == Path("/", parts)
  {
    var j := Join(parts, "/");
    PartsOfJoin(parts);
    SplitLeadingSeparator(j, '/');
    assert ("/" + j)[1] == j[0];
  }

  /** An empty segment names no component. */
  lemma KeepPartsSkipsEmpty(segments: seq<string>)
    requires forall i :: 0 <= i < |segments| ==> '/' !in segments[i]
    ensures KeepParts([""] + segments) == KeepParts(segments)
  {
    assert ([""] + segments)[1..] == segments;
  }

  lemma SplitDoubleSeparator(j: string)
    ensures Split("//" + j, '/') == ["", ""] + Split(j, '/')
  {
    SplitLeadingSeparator(['/'] + j, '/');
    SplitLeadingSeparator(j, '/');
    assert "//" + j == ['/'] + (['/'] + j);
  }

  lemma ParseDoubleRooted(parts: seq<string>)
    requires |parts| > 0
    requires forall i :: 0 <= i < |parts| ==> ValidPart(parts[i])
    ensures Parse("//" + Join(parts, "/")) == Path("//", parts)
  {
    var j := Join(parts, "/");
    PartsOfJoin(parts);
    KeepDoubleSeparator(j);
    AnchorDouble(j);
  }

  /** The two empty segments in front of a path with two leading slashes
      name nothing. */
  lemma KeepDoubleSeparator(j: string)
    ensures KeepParts(Split("//" + j, '/')) == KeepParts(Split(j, '/'))
  {
    var segs := Split(j, '/');
    SplitDoubleSeparator(j);
    KeepPartsSkipsEmpty(segs);
    KeepPartsSkipsEmpty([""] + segs);
    assert ["", ""] + segs == [""] + ([""] + segs);
  }

  lemma AnchorDouble(j: string)
    requires |j| > 0 && j[0] != '/'
    ensures AnchorOf("//" + j) == "//"
  {
    assert ("//" + j)[2] == j[0];
  }

  lemma ParseDoubleRootOnly()
    ensures Parse("//") == Path("//", [])
  {
    SplitDoubleSeparator("");
    assert "//" + "" == "//";
    assert KeepParts(["", "", ""]) == [];
  }

  lemma ParseRootOnly()
    ensures Parse("/") == Path("/", [])
  {
    SplitLeadingSeparator("", '/');
    assert "/" == ['/'] + "";
    assert Split("/", '/') == ["", ""];
    assert KeepParts(["", ""]) == [];
  }

  /** `PurePosixPath(str(p)) == p`: printing a path and parsing it again loses nothing. */
  lemma {:induction false} ParseStr(p: Path)
    requires Valid(p)
    ensures Parse(Str(p)) == p
  {
    if |p.parts| == 0 {
      if p.anchor == "" {
        assert Split(".", '/') == ["."];
      } else if p.anchor == "/" {
        ParseRootOnly();
      } else {
        assert Str(p) == "//";
        ParseDoubleRootOnly();
      }
    } else if p.anchor == "" {
      assert Str(p) == Join(p.parts, "/");
      ParseRelative(p.parts);
    } else if p.anchor == "/" {
      assert Str(p) == "/" + Join(p.parts, "/");
      ParseRooted(p.parts);
    } else {
      assert Str(p) == "//" + Join(p.parts, "/");
      ParseDoubleRooted(p.parts);
    }
  }

  /** A join starts with its first piece. */
  lemma JoinHead(parts: seq<string>, sep: string)
    requires |parts| > 0
    ensures IsPrefix(parts[0], Join(parts, sep))
  {
  }
}

=== FILE: reference_animations.dfy ===
/** `AnimationEngine` of reference/animations.py: any known animation can be
    played at any time, a finished celebration is stopped and cleared, and
    starting idle interrupts whatever plays. */
module ReferenceAnimation {
  import opened Wrappers
  import opened Animation

  function Frames(heads: seq<string>, ms: nat): (r: seq<Frame>)
    ensures |r| == |heads|
    ensures forall i :: 0 <= i < |r| ==> r[i] == Frame(heads[i], ms)
  {
    seq(|heads|, i requires 0 <= i < |heads| => Frame(heads[i], ms))
  }

  /** The library `_load_animations` builds; only "idle" is given `loop=True`,
      every other sequence keeps the dataclass default `loop=False`. */
  function Library(): (lib: map<string, Sequence>)
    ensures WellFormed(lib)
  {
    var changed := "🎉 FILE CHANGED!\n   (∩｀-´)⊃━☆ﾟ.*･｡\n";
    var modified := changed + "\n   ✨ File modified!";
    var cheer := modified + "\n      \\(*^^)/*";
    var newFile := "✨ NEW FILE!\n   (ﾉ◕ヮ◕)ﾉ*:･ﾟ✧\n";
    var created := newFile + "\n   📄 File created!";
    var wave := created + "\n      \\(^o^)/";
    var commit := "🚀 COMMIT DETECTED!\n\n   [✓] Commit successful!";
    var commitCheer := commit + "\n      (ﾉ◕ヮ◕)ﾉ*:･ﾟ✧";
    var dir := "📁 DIRECTORY UPDATE\n   📂 Files changed!";
    var flip := dir + "\n      (╯°□°)╯︵ ┻━┻";
    var watching := "💤 Watching...\n   (￣o￣) . z Z";
    map[
      "file_modified" := Sequence("file_modified", Frames([changed, modified, cheer, cheer, cheer], 500), false),
      "file_created" := Sequence("file_created", Frames([newFile, created, wave, wave], 400), false),
      "commit" := Sequence("commit", Frames([commit, commitCheer, commitCheer + "\n\n   🎯 Keep coding!"], 600), false),
      "directory_change" := Sequence("directory_change", Frames([dir, flip, flip + "\n\n   🔥 Busy directory!"], 500), false),
      "idle" := Sequence("idle", Frames([watching, watching + "\n\n   👀 Monitoring for changes...",
                                         "💤 Watching...\n   (-.-) Zzz..."], 2000), true)
    ]
  }

  /** Only "idle" loops. */
  lemma OnlyIdleLoops()
    ensures forall k :: k in Library() ==> (Library()[k].loop <==> k == "idle")
    ensures Library().Keys == {"file_modified", "file_created", "commit", "directory_change", "idle"}
  {
  }

  /** `play_animation`: an unknown name is ignored; a known one restarts from frame 0. */
  function Play(lib: map<string, Sequence>, e: Engine, name: string, now: int): (r: Engine)
    requires WellFormed(lib)
    ensures Ready(e) ==> Ready(r)
    ensures name in lib ==> r.playing && r.current == Some(lib[name]) && r.index == 0 && r.last == now
    ensures name !in lib ==> r == e
  {
    if name in lib then Engine(Some(lib[name]), 0, now, true) else e
  }

  /** `stop_animation`. */
  function Stop(e: Engine): (r: Engine)
    ensures !r.playing && r.current.None? && r.index == 0 && r.last == e.last
  {
    Engine(None, 0, e.last, false)
  }

  /** `get_current_frame` at time `now`: the engine after the call and the frame shown. */
  function CurrentFrame(e: Engine, now: int): (r: (Engine, Option<string>))
    requires Ready(e)
    ensures Ready(r.0)
    ensures !e.playing || e.current.None? ==> r == (e, None)
    ensures r.0.index == e.index || r.0.index == e.index + 1 || r.0.index == 0
    ensures e.playing && e.current.Some? && now - e.last < e.current.value.frames[e.index].durationMs
            ==> r.0 == e && r.1 == Some(e.current.value.frames[e.index].content)
    ensures r.1.Some? ==> r.0.playing && r.0.current == e.current
                          && r.1.value == e.current.value.frames[r.0.index].content
    ensures e.playing && e.current.Some? && r.1.None? ==>
              !e.current.value.loop && e.index == |e.current.value.frames| - 1
              && r.0 == Engine(None, 0, now, false)
    ensures e.playing && e.current.Some? && now - e.last >= e.current.value.frames[e.index].durationMs ==>
              var frames := e.current.value.frames;
              r.0.last == now
              && (e.index + 1 < |frames| ==>
                    r.0.playing && r.0.index == e.index + 1 && r.1 == Some(frames[e.index + 1].content))
              && (e.index + 1 == |frames| && e.current.value.loop ==>
                    r.0.playing && r.0.index == 0 && r.1 == Some(frames[0].content))
              && (e.index + 1 == |frames| && !e.current.value.loop ==> r.1.None? && !r.0.playing)
  {
    if !e.playing || e.current.None? then (e, None)
    else
      var a := e.current.value;
      if now - e.last >= a.frames[e.index].durationMs then
        var i := e.index + 1;
        if i >= |a.frames| then
          if a.loop then (e.(index := 0, last := now), Some(a.frames[0].content))
          else (Stop(e.(index := i, last := now)), None)
        else (e.(index := i, last := now), Some(a.frames[i].content))
      else (e, Some(a.frames[e.index].content))
  }

  /** `trigger_file_change`: deletions reuse the "modified" celebration. */
  function AnimationFor(changeType: string): (r: Option<string>)
    ensures r.Some? <==> changeType in {"modified", "created", "deleted"}
    ensures r.Some? ==> r.value in Library()
  {
    if changeType == "modified" || changeType == "deleted" then Some("file_modified")
    else if changeType == "created" then Some("file_created")
    else None
  }

  function TriggerFileChange(e: Engine, changeType: string, now: int): (r: Engine)
    ensures Ready(e) ==> Ready(r)
    ensures changeType !in {"modified", "created", "deleted"} ==> r == e
    ensures changeType in {"modified", "deleted"} ==> r.current == Some(Library()["file_modified"]) && r.playing
    ensures changeType == "created" ==> r.current == Some(Library()["file_created"]) && r.playing
  {
    match AnimationFor(changeType)
    case None => e
    case Some(name) => Play(Library(), e, name, now)
  }

  /** `trigger_commit`. */
  function TriggerCommit(e: Engine, now: int): (r: Engine)
    ensures r.playing && r.current == Some(Library()["commit"]) && r.index == 0
  {
    Play(Library(), e, "commit", now)
  }

  /** `trigger_directory_change`. */
  function TriggerDirectoryChange(e: Engine, now: int): (r: Engine)
    ensures r.playing && r.current == Some(Library()["directory_change"]) && r.index == 0
  {
    Play(Library(), e, "directory_change", now)
  }

  /** `start_idle_animation` plays idle whatever is playing, interrupting a celebration. */
  function StartIdle(e: Engine, now: int): (r: Engine)
    ensures r.playing && r.current == Some(Library()["idle"]) && r.index == 0 && r.last == now
  {
    Play(Library(), e, "idle", now)
  }

  /** `get_current_frame` called at each of `times` in turn. */
  function Run(e: Engine, times: seq<int>): (r: Engine)
    requires Ready(e)
    ensures Ready(r)
    decreases |times|
  {
    if |times| == 0 then e else Run(CurrentFrame(e, times[0]).0, times[1..])
  }

  /** Where a non-looping animation `a` started at `t0` can be: still playing
      on schedule, or stopped by a call made once all its frames had their time. */
  ghost predicate Progress(e: Engine, a: Sequence, t0: int) {
    (e.playing && e.current == Some(a) && Ready(e) && OnSchedule(e, t0))
    || (!e.playing && e.current.None? && e.last >= t0 + TotalMs(a.frames))
  }

  /** One `get_current_frame` keeps `Progress`. */
  lemma {:induction false} ProgressStep(e: Engine, a: Sequence, t0: int, now: int)
    requires Ready(e) && !a.loop && Progress(e, a, t0)
    ensures Progress(CurrentFrame(e, now).0, a, t0)
  {
    if e.playing {
      var frames := a.frames;
      assert e.last >= t0 + TotalMs(frames[..e.index]);
      if now - e.last >= frames[e.index].durationMs {
        TotalMsStep(frames, e.index);
        if e.index + 1 >= |frames| {
          assert frames[..e.index + 1] == frames;
        }
      }
    }
  }

  /** A non-looping animation played at `t0` cannot finish before the sum of
      its frame durations has passed: whenever a run of `get_current_frame`
      calls has stopped it, the stopping call came at least that late. */
  lemma {:induction false} NeverFinishesEarly(e: Engine, a: Sequence, t0: int, times: seq<int>)
    requires Ready(e) && !a.loop && Progress(e, a, t0)
    ensures Progress(Run(e, times), a, t0)
    ensures !Run(e, times).playing ==> Run(e, times).last >= t0 + TotalMs(a.frames)
    decreases |times|
  {
    if |times| > 0 {
      ProgressStep(e, a, t0, times[0]);
      NeverFinishesEarly(CurrentFrame(e, times[0]).0, a, t0, times[1..]);
    }
  }

  /** A looping animation polled each time at least its longest frame
      duration after the previous poll moves on one frame per poll and wraps
      around: after `k` polls it shows frame `(index + k) mod n`. */
  lemma {:induction false} LoopCycles(e: Engine, times: seq<int>)
    requires Ready(e) && e.playing && e.current.Some? && e.current.value.loop
    requires |times| > 0 ==> e.last + MaxMs(e.current.value.frames) <= times[0]
    requires forall j :: 0 < j < |times| ==> times[j - 1] + MaxMs(e.current.value.frames) <= times[j]
    ensures Run(e, times).playing && Run(e, times).current == e.current
    ensures Run(e, times).index == (e.index + |times|) % |e.current.value.frames|
    decreases |times|
  {
    var n := |e.current.value.frames|;
    if |times| == 0 {
      assert e.index % n == e.index;
    } else {
      var next := CurrentFrame(e, times[0]).0;
      LoopStep(e, times[0]);
      var rest := times[1..];
      assert forall j :: 0 < j < |rest| ==> rest[j - 1] == times[j] && rest[j] == times[j + 1];
      LoopCycles(next, rest);
      assert Run(e, times) == Run(next, rest);
      ModStep(e.index, |rest|, n);
    }
  }

  /** One poll of a looping animation, at least its longest frame after the
      previous one, moves on one frame. */
  lemma LoopStep(e: Engine, now: int)
    requires Ready(e) && e.playing && e.current.Some? && e.current.value.loop
    requires e.last + MaxMs(e.current.value.frames) <= now
    ensures var next := CurrentFrame(e, now).0;
            next.playing && next.current == e.current && next.last == now
            && next.index == (e.index + 1) % |e.current.value.frames|
  {
    var frames := e.current.value.frames;
    assert frames[e.index].durationMs <= MaxMs(frames);
    if e.index + 1 == |frames| {
      ModUnique(e.index + 1, |frames|, 1, 0);
    } else {
      ModUnique(e.index + 1, |frames|, 0, e.index + 1);
    }
  }

  /** Moving on one frame and then `k` more is moving on `k + 1`. */
  lemma ModStep(i: nat, k: nat, n: nat)
    requires i < n
    ensures ((i + 1) % n + k) % n == (i + k + 1) % n
  {
    if i + 1 == n {
      ModUnique(i + 1, n, 1, 0);
      ModAddN(k, n);
    } else {
      ModUnique(i + 1, n, 0, i + 1);
    }
  }

  lemma MulAtLeast(a: int, n: int)
    requires a >= 1 && n > 0
    ensures a * n >= n
  {
  }

  /** Euclidean division has one quotient and one remainder. */
  lemma ModUnique(x: int, n: int, q: int, r: int)
    requires n > 0 && 0 <= r < n && x == q * n + r
    ensures x % n == r
  {
    var q', r' := x / n, x % n;
    assert x == q' * n + r';
    var d := q - q';
    assert d * n == q * n - q' * n;
    assert d * n == r' - r;
    if d >= 1 { MulAtLeast(d, n); assert false; }
    if d <= -1 { MulAtLeast(-d, n); assert false; }
  }

  lemma ModAddN(k: int, n: int)
    requires n > 0
    ensures (k + n) % n == k % n
  {
    assert k == (k / n) * n + k % n;
    assert k + n == (k / n + 1) * n + k % n;
    ModUnique(k + n, n, k / n + 1, k % n);
  }

  /** Playing a known animation starts it on schedule. */
  lemma PlayStartsProgress(lib: map<string, Sequence>, e: Engine, name: string, now: int)
    requires WellFormed(lib) && name in lib && !lib[name].loop
    ensures Progress(Play(lib, e, name, now), lib[name], now)
  {
    assert lib[name].frames[..0] == [];
  }
}

=== FILE: reference_git_tracker.dfy ===
/** reference/git_tracker/index.py: the configurable `GitTracker`. Porcelain
    lines are read by fixed columns (`line[0]`, `line[1]`, `line[3:]`), the
    subprocess commit log is `git log --oneline --name-only` read line by
    line, and every git run goes through `_run_git_command`, whose failures
    read as exit code -1. Command outcomes, GitPython's answers and date
    parsing are parameters; times are integers. */
module ReferenceGitTracker {
  import opened Wrappers
  import opened Text

  datatype FileStatus = FileStatus(path: string, status: string, staged: bool)

  datatype Commit = Commit(sha: string, message: string, author: string, timestamp: int, files: seq<string>)

  /** What running a git command can come to. */
  datatype RunOutcome = Completed(stdout: string, stderr: string, code: int) | TimedOut | NotFound

  /** `_run_git_command`: (stdout, stderr, returncode); a timeout or a
      missing binary reads as an empty output with code -1. */
  function RunGitCommand(o: RunOutcome): (r: (string, string, int))
    ensures o.Completed? ==> r == (o.stdout, o.stderr, o.code)
    ensures o.TimedOut? ==> r == ("", "Command timed out", -1)
    ensures o.NotFound? ==> r == ("", "Git command not found", -1)
  {
    match o
    case Completed(out, err, code) => (out, err, code)
    case TimedOut => ("", "Command timed out", -1)
    case NotFound => ("", "Git command not found", -1)
  }

  /** The porcelain characters `_porcelain_to_status` knows. */
  const PorcelainNames: map<char, string> :=
    map['M' := "modified", 'A' := "added", 'D' := "deleted", 'R' := "renamed",
        'C' := "copied", 'U' := "updated", '?' := "untracked", '!' := "ignored"]

  /** `_porcelain_to_status`. */
  function PorcelainToStatus(c: char): (r: string)
    ensures c in PorcelainNames ==> r == PorcelainNames[c]
    ensures c !in PorcelainNames ==> r == "unknown"
  {
    if c in PorcelainNames then PorcelainNames[c] else "unknown"
  }

  /** No known character is called "unknown", so the name tells a known
      character from any other. */
  lemma UnknownOnlyForUnknown(c: char)
    ensures PorcelainToStatus(c) == "unknown" <==> c !in PorcelainNames
  {
  }

  /** What one non-blank porcelain line becomes. */
  datatype LineVerdict = Raises | Skipped | Entry(file: FileStatus)

  /** One non-blank line: `line[0]` and `line[1]` raise on a one-character
      line; a non-blank worktree column wins, else the index column, else
      the line is skipped. The path is `line[3:]`, unstripped. */
  function StatusLine(line: string): (r: LineVerdict)
    ensures r.Raises? <==> |line| < 2
    ensures |line| >= 2 && line[1] != ' ' ==> r == Entry(FileStatus(Drop(line, 3), PorcelainToStatus(line[1]), false))
    ensures |line| >= 2 && line[1] == ' ' && line[0] != ' ' ==> r == Entry(FileStatus(Drop(line, 3), PorcelainToStatus(line[0]), true))
    ensures |line| >= 2 && line[0] == ' ' && line[1] == ' ' ==> r.Skipped?
  {
    if |line| < 2 then Raises
    else if line[1] != ' ' then Entry(FileStatus(Drop(line, 3), PorcelainToStatus(line[1]), false))
    else if line[0] != ' ' then Entry(FileStatus(Drop(line, 3), PorcelainToStatus(line[0]), true))
    else Skipped
  }

  /** The loop over the non-blank lines of a porcelain output; None when a
      line raises. */
  function StatusLines(lines: seq<string>): (r: Option<seq<FileStatus>>)
    ensures r.Some? ==> |r.value| <= |lines|
    ensures |lines| == 1 ==> r == LineEntries(StatusLine(lines[0]))
    ensures |lines| > 0 && StatusLine(lines[0]).Raises? ==> r.None?
  {
    if |lines| == 0 then Some([])
    else
      match StatusLine(lines[0])
      case Raises => None
      case Skipped => StatusLines(lines[1..])
      case Entry(f) =>
        match StatusLines(lines[1..])
        case None => None
        case Some(rest) =>
          assert |lines| == 1 ==> rest == [] && [f] + rest == [f];
          Some([f] + rest)
  }

  /** What one line adds to the parse: nothing for a blank status, its entry,
      or a failure. */
  function LineEntries(v: LineVerdict): Option<seq<FileStatus>> {
    match v
    case Raises => None
    case Skipped => Some([])
    case Entry(f) => Some([f])
  }

  /** The parse of two runs of lines is the parse of the first followed by
      the parse of the second, and fails when either fails: with the
      one-line case, the entries come one per line, in line order. */
  lemma {:induction false} StatusLinesAppend(a: seq<string>, b: seq<string>)
    ensures StatusLines(a + b)
            == if StatusLines(a).Some? && StatusLines(b).Some? then Some(StatusLines(a).value + StatusLines(b).value)
               else None
    decreases |a|
  {
    if |a| == 0 {
      assert a + b == b;
      assert StatusLines(a) == Some([]);
      if StatusLines(b).Some? {
        assert [] + StatusLines(b).value == StatusLines(b).value;
      }
    } else {
      var e := LineEntries(StatusLine(a[0]));
      assert (a + b)[0] == a[0] && (a + b)[1..] == a[1..] + b;
      StatusLinesStep(a + b);
      StatusLinesStep(a);
      StatusLinesAppend(a[1..], b);
      CombineAssoc(e, StatusLines(a[1..]), StatusLines(b));
    }
  }

  /** Two parses in a row: both must succeed. */
  function Combine(x: Option<seq<FileStatus>>, y: Option<seq<FileStatus>>): Option<seq<FileStatus>> {
    if x.Some? && y.Some? then Some(x.value + y.value) else None
  }

  lemma CombineAssoc(x: Option<seq<FileStatus>>, y: Option<seq<FileStatus>>, z: Option<seq<FileStatus>>)
    ensures Combine(x, Combine(y, z)) == Combine(Combine(x, y), z)
  {
    if x.Some? && y.Some? && z.Some? {
      assert x.value + (y.value + z.value) == x.value + y.value + z.value;
    }
  }

  /** The first line's entries, then the rest's. */
  lemma StatusLinesStep(lines: seq<string>)
    requires |lines| > 0
    ensures StatusLines(lines) == Combine(LineEntries(StatusLine(lines[0])), StatusLines(lines[1..]))
  {
    match StatusLine(lines[0])
    case Raises =>
    case Skipped =>
      if StatusLines(lines[1..]).Some? {
        assert [] + StatusLines(lines[1..]).value == StatusLines(lines[1..]).value;
      }
    case Entry(f) =>
  }


  /** The parse fails exactly when some line is too short to index, and
      then lists one entry per line that has a non-blank status column. */
  lemma {:induction false} StatusLinesSpec(lines: seq<string>)
    ensures StatusLines(lines).None? <==> exists i :: 0 <= i < |lines| && |lines[i]| < 2
    ensures StatusLines(lines).Some? ==>
              forall f :: f in StatusLines(lines).value <==> exists i :: 0 <= i < |lines| && StatusLine(lines[i]) == Entry(f)
  {
    if |lines| > 0 {
      StatusLinesSpec(lines[1..]);
      assert forall i :: 1 <= i < |lines| ==> lines[i] == lines[1..][i - 1];
      if StatusLines(lines).Some? {
        forall f | exists i :: 0 <= i < |lines| && StatusLine(lines[i]) == Entry(f)
          ensures f in StatusLines(lines).value
        {
          var i :| 0 <= i < |lines| && StatusLine(lines[i]) == Entry(f);
          if i > 0 {
            assert StatusLine(lines[1..][i - 1]) == Entry(f);
          }
        }
      }
      if exists i :: 0 <= i < |lines| && |lines[i]| < 2 {
        var i :| 0 <= i < |lines| && |lines[i]| < 2;
        if i > 0 {
          assert |lines[1..][i - 1]| < 2;
        }
      }
    }
  }

  /** `_get_status_subprocess`: nothing when the run failed; None when the
      parse raises. */
  function SubprocessStatus(o: RunOutcome): (r: Option<seq<FileStatus>>)
    ensures RunGitCommand(o).2 != 0 ==> r == Some([])
    ensures RunGitCommand(o).2 == 0 ==> r == StatusLines(NonBlank(Split(RunGitCommand(o).0, '\n')))
  {
    var (out, _, code) := RunGitCommand(o);
    if code != 0 then Some([]) else StatusLines(NonBlank(Split(out, '\n')))
  }

  /** A timeout or a missing git reads as a clean status. */
  lemma FailedRunsGiveNothing()
    ensures SubprocessStatus(TimedOut) == Some([]) && SubprocessStatus(NotFound) == Some([])
  {
  }

  /** `get_status`: GitPython's porcelain text when it is used and does not
      raise, falling back to the subprocess when either raises. */
  function GetStatus(useGitPython: bool, porcelain: Option<string>, o: RunOutcome): (r: Option<seq<FileStatus>>)
    ensures !useGitPython || porcelain.None? ==> r == SubprocessStatus(o)
    ensures useGitPython && porcelain.Some? && StatusLines(NonBlank(Split(porcelain.value, '\n'))).Some?
            ==> r == StatusLines(NonBlank(Split(porcelain.value, '\n')))
    ensures useGitPython && porcelain.Some? && StatusLines(NonBlank(Split(porcelain.value, '\n'))).None?
            ==> r == SubprocessStatus(o)
  {
    if useGitPython && porcelain.Some? then
      match StatusLines(NonBlank(Split(porcelain.value, '\n')))
      case Some(st) => Some(st)
      case None => SubprocessStatus(o)
    else SubprocessStatus(o)
  }

  /** `get_branch_name`: GitPython's branch when it is used and answers,
      else the subprocess's stripped output, else "unknown". */
  function BranchName(useGitPython: bool, active: Option<string>, o: RunOutcome): (r: string)
    ensures useGitPython && active.Some? ==> r == active.value
    ensures !(useGitPython && active.Some?) && RunGitCommand(o).2 != 0 ==> r == "unknown"
    ensures !(useGitPython && active.Some?) && RunGitCommand(o).2 == 0 ==> r == PyStrip(o.stdout)
  {
    if useGitPython && active.Some? then active.value
    else
      var (out, _, code) := RunGitCommand(o);
      if code == 0 then PyStrip(out) else "unknown"
  }

  /** `limit or git_settings.get("max_commits_history", 100)`: a missing or
      zero limit falls back to the configuration, then to 100. */
  function MaxCommits(limit: Option<int>, configured: Option<int>): (r: int)
    ensures limit.Some? && limit.value != 0 ==> r == limit.value
    ensures (limit.None? || limit.value == 0) && configured.None? ==> r == 100
    ensures (limit.None? || limit.value == 0) && configured.Some? ==> r == configured.value
  {
    if limit.Some? && limit.value != 0 then limit.value else configured.GetOr(100)
  }

  // ---------------------------------------------------------------------
  // Commits through GitPython

  /** What GitPython reports of one commit of `iter_commits(max_count=limit)`;
      `files` is the post-processed diff or tree listing. */
  datatype RawCommit = RawCommit(hexsha: string, message: string, author: string, committed: int, files: seq<string>)

  /** Whether a commit made at `committed` passes the `since` filter: a
      commit made at the `since` instant itself is kept. */
  predicate Keeps(since: Option<int>, c: RawCommit) {
    since.None? || c.committed >= since.value
  }

  /** `_get_recent_commits_gitpython` from the listed commits: those strictly
      earlier than `since` are dropped; the hash is cut to 7 characters and
      the message to the first line of its stripped text. */
  function GitPythonCommits(raw: seq<RawCommit>, since: Option<int>): (r: seq<Commit>)
    ensures |r| <= |raw|
    ensures forall c :: c in r ==> |c.sha| <= 7 && '\n' !in c.message
    ensures |raw| == 1 ==> r == if Keeps(since, raw[0]) then [Convert(raw[0])] else []
  {
    if |raw| == 0 then []
    else
      var rest := GitPythonCommits(raw[1..], since);
      if since.Some? && raw[0].committed < since.value then rest
      else [Convert(raw[0])] + rest
  }

  /** The commits of two runs of the listing are those of the first followed
      by those of the second: with the one-commit case, every kept commit
      appears once, converted, in listing order. */
  lemma {:induction false} GitPythonCommitsAppend(a: seq<RawCommit>, b: seq<RawCommit>, since: Option<int>)
    ensures GitPythonCommits(a + b, since) == GitPythonCommits(a, since) + GitPythonCommits(b, since)
    decreases |a|
  {
    if |a| == 0 {
      assert a + b == b;
    } else {
      assert (a + b)[0] == a[0] && (a + b)[1..] == a[1..] + b;
      GitPythonCommitsAppend(a[1..], b, since);
    }
  }

  /** A commit is returned exactly when it is the conversion of a listed
      commit made no earlier than `since`. */
  lemma GitPythonCommitsMembers(raw: seq<RawCommit>, since: Option<int>, c: Commit)
    ensures c in GitPythonCommits(raw, since) <==>
              exists j :: 0 <= j < |raw| && Keeps(since, raw[j]) && c == Convert(raw[j])
  {
    if c in GitPythonCommits(raw, since) {
      CommitFromListing(raw, since, c);
    }
    if exists j :: 0 <= j < |raw| && Keeps(since, raw[j]) && c == Convert(raw[j]) {
      var j :| 0 <= j < |raw| && Keeps(since, raw[j]) && c == Convert(raw[j]);
      KeptCommitReturned(raw, since, j);
    }
  }

  lemma {:induction false} CommitFromListing(raw: seq<RawCommit>, since: Option<int>, c: Commit)
    requires c in GitPythonCommits(raw, since)
    ensures exists j :: 0 <= j < |raw| && Keeps(since, raw[j]) && c == Convert(raw[j])
    decreases |raw|
  {
    var rest := GitPythonCommits(raw[1..], since);
    if Keeps(since, raw[0]) && c == Convert(raw[0]) {
    } else {
      assert c in rest;
      CommitFromListing(raw[1..], since, c);
      var j :| 0 <= j < |raw[1..]| && Keeps(since, raw[1..][j]) && c == Convert(raw[1..][j]);
      assert raw[1..][j] == raw[j + 1];
    }
  }

  lemma KeptCommitReturned(raw: seq<RawCommit>, since: Option<int>, j: nat)
    requires j < |raw| && Keeps(since, raw[j])
    ensures Convert(raw[j]) in GitPythonCommits(raw, since)
  {
    assert raw == raw[..j] + ([raw[j]] + raw[j + 1..]);
    GitPythonCommitsAppend(raw[..j], [raw[j]] + raw[j + 1..], since);
    GitPythonCommitsAppend([raw[j]], raw[j + 1..], since);
  }

  /** One commit as `_get_recent_commits_gitpython` records it: the first
      seven characters of the hash, the first line of the stripped message,
      and the author, time and files unchanged. */
  function Convert(c: RawCommit): (r: Commit)
    ensures IsPrefix(r.sha, c.hexsha) && |r.sha| == (if |c.hexsha| < 7 then |c.hexsha| else 7)
    ensures IsPrefix(r.message, PyStrip(c.message)) && '\n' !in r.message
    ensures |r.message| < |PyStrip(c.message)| ==> PyStrip(c.message)[|r.message|] == '\n'
    ensures r.author == c.author && r.timestamp == c.committed && r.files == c.files
  {
    SplitFirst(PyStrip(c.message), '\n');
    Commit(Take(c.hexsha, 7), Split(PyStrip(c.message), '\n')[0], c.author, c.committed, c.files)
  }

  // ---------------------------------------------------------------------
  // Commits through `git log --oneline --name-only`

  /** `_get_commit_info_subprocess`: the author and parsed date of
      `git show --format=%an|%ad`, None when the run fails, the output has no
      '|' or the date does not parse. The date text has " +" and " -"
      closed up before `fromisoformat` (`parseIso`). */
  function CommitInfo(o: RunOutcome, parseIso: string -> Option<int>): (r: Option<(string, int)>)
    ensures RunGitCommand(o).2 != 0 ==> r.None?
    ensures '|' !in PyStrip(RunGitCommand(o).0) ==> r.None?
    ensures r.Some? ==> '|' !in r.value.0
    ensures RunGitCommand(o).2 == 0 && '|' in PyStrip(RunGitCommand(o).0) ==>
              var line := PyStrip(RunGitCommand(o).0);
              var author := UpTo(line, '|');
              |author| < |line|
              && match parseIso(IsoText(line[|author| + 1..]))
                 case None => r.None?
                 case Some(t) => r == Some((author, t))
  {
    var (out, _, code) := RunGitCommand(o);
    if code != 0 then None
    else
      var line := PyStrip(out);
      var parts := SplitMax(line, '|', 1);
      SplitOnce(line, '|');
      if |parts| < 2 then None
      else
        match parseIso(IsoText(parts[1]))
        case None => None
        case Some(t) => Some((parts[0], t))
  }

  /** The date text with " +" and " -" closed up. */
  function IsoText(date: string): string {
    Replace(Replace(date, " +", "+"), " -", "-")
  }

  /** How many lines from the start hold file names: the inner loop stops
      at the end, at a blank line, or at a line starting with a space. */
  function FileRun(lines: seq<string>): (n: nat)
    ensures n <= |lines|
  {
    if |lines| == 0 || !IsFileLine(lines[0]) then 0
    else FileRun(lines[1..]) + 1
  }

  /** Every line before the end of the run holds a file name, and the run
      stops at the first line that does not. */
  lemma {:induction false} FileRunLines(lines: seq<string>)
    ensures forall k :: 0 <= k < FileRun(lines) ==> IsFileLine(lines[k])
    ensures FileRun(lines) < |lines| ==> !IsFileLine(lines[FileRun(lines)])
    decreases |lines|
  {
    if |lines| > 0 && IsFileLine(lines[0]) {
      var n := FileRun(lines[1..]);
      FileRunLines(lines[1..]);
      assert n < |lines| - 1 ==> lines[n + 1] == lines[1..][n];
      forall k | 1 <= k < FileRun(lines)
        ensures IsFileLine(lines[k])
      {
        assert lines[k] == lines[1..][k - 1];
      }
    }
  }

  /** A line the inner loop takes as a file name. */
  predicate IsFileLine(line: string) {
    PyStrip(line) != "" && !IsPrefix(" ", line)
  }

  function StripAll(lines: seq<string>): (r: seq<string>)
    ensures |r| == |lines|
  {
    if |lines| == 0 then [] else [PyStrip(lines[0])] + StripAll(lines[1..])
  }

  /** Each line is stripped in place. */
  lemma {:induction false} StripAllAt(lines: seq<string>)
    ensures forall k :: 0 <= k < |lines| ==> StripAll(lines)[k] == PyStrip(lines[k])
    decreases |lines|
  {
    if |lines| > 0 {
      StripAllAt(lines[1..]);
    }
  }

  /** The commit a header yields: the looked-up author and date, or
      "unknown" and `now` when the lookup fails. */
  function MakeCommit(sha: string, message: string, files: seq<string>,
                      info: string -> Option<(string, int)>, now: int): (c: Commit)
    ensures c.sha == sha && c.message == message && c.files == files
    ensures info(sha).None? ==> c.author == "unknown" && c.timestamp == now
    ensures info(sha).Some? ==> c.author == info(sha).value.0 && c.timestamp == info(sha).value.1
  {
    match info(sha)
    case Some((author, t)) => Commit(sha, message, author, t, files)
    case None => Commit(sha, message, "unknown", now, files)
  }

  /** The commits read from a run of log lines: a blank line is skipped, a
      header "sha message" (split at its first space, after stripping)
      takes the file lines after it, and a header without a space is
      skipped. */
  function ParseLines(lines: seq<string>, info: string -> Option<(string, int)>, now: int): seq<Commit>
    decreases |lines|
  {
    if |lines| == 0 then []
    else
      var line := PyStrip(lines[0]);
      if line == "" then ParseLines(lines[1..], info, now)
      else
        var parts := SplitMax(line, ' ', 1);
        if |parts| >= 2 then
          var after := lines[1..];
          var n := FileRun(after);
          [MakeCommit(parts[0], parts[1], StripAll(after[..n]), info, now)] + ParseLines(after[n..], info, now)
        else ParseLines(lines[1..], info, now)
  }

  /** The inner loop: the stripped file lines from `start` on. */
  method CollectFiles(lines: seq<string>, start: nat) returns (files: seq<string>, i: nat)
    requires start <= |lines|
    ensures i == start + FileRun(lines[start..]) && files == StripAll(lines[start..i])
  {
    ghost var run := lines[start..];
    ghost var n := FileRun(run);
    files := [];
    var k := 0;
    while start + k < |lines| && IsFileLine(lines[start + k])
      invariant k <= |run| && k + FileRun(run[k..]) == n
      invariant files == StripAll(run[..k])
      decreases |lines| - k
    {
      assert run[k] == lines[start + k] == run[k..][0];
      assert run[k..][1..] == run[k + 1..];
      StripAllSnoc(run, k);
      files := files + [PyStrip(lines[start + k])];
      k := k + 1;
    }
    i := start + k;
    assert run[..k] == lines[start..i];
  }

  lemma StripAllSnoc(run: seq<string>, k: nat)
    requires k < |run|
    ensures StripAll(run[..k + 1]) == StripAll(run[..k]) + [PyStrip(run[k])]
  {
    var a, b := StripAll(run[..k + 1]), StripAll(run[..k]) + [PyStrip(run[k])];
    StripAllAt(run[..k + 1]);
    StripAllAt(run[..k]);
    assert |a| == |b|;
    forall m | 0 <= m < |a|
      ensures a[m] == b[m]
    {
      assert run[..k + 1][m] == run[m];
      if m < k {
        assert run[..k][m] == run[m];
      }
    }
  }

  /** A header line yields its commit and parsing resumes after its files. */
  lemma HeaderStep(lines: seq<string>, head: string, after: seq<string>, n: nat,
                   info: string -> Option<(string, int)>, now: int)
    requires |lines| > 0 && lines[0] == head && lines[1..] == after && n == FileRun(after)
    requires PyStrip(head) != "" && |SplitMax(PyStrip(head), ' ', 1)| >= 2
    ensures var parts := SplitMax(PyStrip(head), ' ', 1);
            ParseLines(lines, info, now)
            == [MakeCommit(parts[0], parts[1], StripAll(after[..n]), info, now)] + ParseLines(after[n..], info, now)
  {
  }

  /** A blank line, or a header without a space, yields nothing. */
  lemma SkipStep(lines: seq<string>, info: string -> Option<(string, int)>, now: int)
    requires |lines| > 0 && (PyStrip(lines[0]) == "" || |SplitMax(PyStrip(lines[0]), ' ', 1)| < 2)
    ensures ParseLines(lines, info, now) == ParseLines(lines[1..], info, now)
  {
  }

  /** The parsing loop of `_get_recent_commits_subprocess`, over the lines of
      the log output. */
  method ParseLog(lines: seq<string>, info: string -> Option<(string, int)>, now: int) returns (commits: seq<Commit>)
    ensures commits == ParseLines(lines, info, now)
  {
    commits := [];
    var i := 0;
    while i < |lines|
      invariant 0 <= i <= |lines|
      invariant commits + ParseLines(lines[i..], info, now) == ParseLines(lines, info, now)
      decreases |lines| - i
    {
      var found, j := ParseLine(lines, i, info, now);
      commits := commits + found;
      i := j;
    }
  }

  /** One turn of the outer loop: the commit (if any) read at line `i` and
      the line the loop resumes at. */
  method ParseLine(lines: seq<string>, i: nat, info: string -> Option<(string, int)>, now: int)
    returns (found: seq<Commit>, j: nat)
    requires i < |lines|
    ensures i < j <= |lines| && |found| <= 1
    ensures found + ParseLines(lines[j..], info, now) == ParseLines(lines[i..], info, now)
  {
    ghost var here := lines[i..];
    assert here[0] == lines[i] && here[1..] == lines[i + 1..];
    var line := PyStrip(lines[i]);
    if line == "" {
      SkipStep(here, info, now);
      return [], i + 1;
    }
    if |SplitMax(line, ' ', 1)| >= 2 {
      found, j := ReadCommit(lines, i, info, now);
    } else {
      SkipStep(here, info, now);
      found, j := [], i + 1;
    }
  }

  /** The header branch of the loop: the commit and the file lines after it. */
  method ReadCommit(lines: seq<string>, i: nat, info: string -> Option<(string, int)>, now: int)
    returns (found: seq<Commit>, j: nat)
    requires i < |lines| && PyStrip(lines[i]) != ""
    requires |SplitMax(PyStrip(lines[i]), ' ', 1)| >= 2
    ensures i < j <= |lines| && |found| == 1
    ensures found + ParseLines(lines[j..], info, now) == ParseLines(lines[i..], info, now)
  {
    var parts := SplitMax(PyStrip(lines[i]), ' ', 1);
    var files;
    files, j := CollectFiles(lines, i + 1);
    HeaderAt(lines, i, files, j, info, now);
    found := [MakeCommit(parts[0], parts[1], files, info, now)];
  }

  /** `HeaderStep` at position `i` of the whole listing, with the file lines
      running up to `j`. */
  lemma HeaderAt(lines: seq<string>, i: nat, files: seq<string>, j: nat,
                 info: string -> Option<(string, int)>, now: int)
    requires i < |lines| && PyStrip(lines[i]) != ""
    requires |SplitMax(PyStrip(lines[i]), ' ', 1)| >= 2
    requires j == i + 1 + FileRun(lines[i + 1..]) && files == StripAll(lines[i + 1..j])
    ensures var parts := SplitMax(PyStrip(lines[i]), ' ', 1);
            ParseLines(lines[i..], info, now)
            == [MakeCommit(parts[0], parts[1], files, info, now)] + ParseLines(lines[j..], info, now)
  {
    SliceAt(lines, i, j);
    HeaderStep(lines[i..], lines[i], lines[i + 1..], j - (i + 1), info, now);
  }

  /** The slices `HeaderAt` moves between. */
  lemma SliceAt<T>(lines: seq<T>, i: nat, j: nat)
    requires i < j <= |lines|
    ensures lines[i..][0] == lines[i] && lines[i..][1..] == lines[i + 1..]
    ensures lines[i + 1..][..j - (i + 1)] == lines[i + 1..j]
    ensures lines[i + 1..][j - (i + 1)..] == lines[j..]
  {
  }

  /** `_get_recent_commits_subprocess` given the log run. */
  method SubprocessCommits(o: RunOutcome, info: string -> Option<(string, int)>, now: int) returns (commits: seq<Commit>)
    ensures RunGitCommand(o).2 != 0 ==> commits == []
    ensures RunGitCommand(o).2 == 0 ==> commits == ParseLines(Split(o.stdout, '\n'), info, now)
  {
    var (out, _, code) := RunGitCommand(o);
    if code != 0 {
      return [];
    }
    commits := ParseLog(Split(out, '\n'), info, now);
  }

  /** One entry of a log: its hash, subject and file names. */
  datatype LogEntry = LogEntry(sha: string, subject: string, files: seq<string>)

  /** The lines `git log --oneline --name-only` prints: the header, the file
      names, then a blank line before the next commit. */
  function LogLines(es: seq<LogEntry>): seq<string> {
    if |es| == 0 then [] else [es[0].sha + " " + es[0].subject] + (es[0].files + ([""] + LogLines(es[1..])))
  }

  /** Text that stripping leaves alone and that is not empty. */
  predicate Clean(s: string) {
    |s| > 0 && !IsPySpace(s[0]) && !IsPySpace(s[|s| - 1])
  }

  /** An entry the parser can read back: a hash without spaces, a subject and
      file names that are non-empty, already stripped and on one line. */
  predicate Readable(e: LogEntry) {
    Clean(e.sha) && ' ' !in e.sha && Clean(e.subject)
    && forall k :: 0 <= k < |e.files| ==> Clean(e.files[k])
  }

  function Expected(es: seq<LogEntry>, info: string -> Option<(string, int)>, now: int): (r: seq<Commit>)
    ensures |r| == |es|
  {
    if |es| == 0 then [] else [MakeCommit(es[0].sha, es[0].subject, es[0].files, info, now)] + Expected(es[1..], info, now)
  }

  /** Reading the log printed for readable entries gives back every commit
      with its hash, subject and files, in order. */
  lemma {:induction false} LogRoundTrip(es: seq<LogEntry>, info: string -> Option<(string, int)>, now: int)
    requires forall n :: 0 <= n < |es| ==> Readable(es[n])
    ensures ParseLines(LogLines(es), info, now) == Expected(es, info, now)
  {
    if |es| > 0 {
      LogStep(es, info, now);
      LogRoundTrip(es[1..], info, now);
    }
  }

  /** The first entry's lines parse to its commit, and parsing resumes at the
      next entry's header. */
  lemma LogStep(es: seq<LogEntry>, info: string -> Option<(string, int)>, now: int)
    requires |es| > 0 && Readable(es[0])
    ensures ParseLines(LogLines(es), info, now)
            == [MakeCommit(es[0].sha, es[0].subject, es[0].files, info, now)] + ParseLines(LogLines(es[1..]), info, now)
  {
    var e := es[0];
    var rest := LogLines(es[1..]);
    var lines := LogLines(es);
    var header := e.sha + " " + e.subject;
    var tail := e.files + ([""] + rest);
    assert lines[0] == header && lines[1..] == tail;
    HeaderParts(e.sha, e.subject);
    var n := |e.files|;
    FilesStopAtBlank(e.files, rest);
    assert tail[..n] == e.files && tail[n..] == [""] + rest;
    StripAllClean(e.files);
    HeaderStep(lines, header, tail, n, info, now);
    SkipStep([""] + rest, info, now);
    assert ([""] + rest)[1..] == rest;
  }

  /** A clean hash without spaces, a space and a clean subject strip to
      themselves and split back at the space. */
  lemma HeaderParts(sha: string, subject: string)
    requires Clean(sha) && ' ' !in sha && Clean(subject)
    ensures PyStrip(sha + " " + subject) == sha + " " + subject
    ensures SplitMax(sha + " " + subject, ' ', 1) == [sha, subject]
  {
    var h := sha + " " + subject;
    StripClean(h);
    SplitMaxHead(sha, subject, ' ', 1);
    assert h == sha + [' '] + subject;
  }

  /** The file lines after a header run up to the blank line. */
  lemma FilesStopAtBlank(files: seq<string>, rest: seq<string>)
    requires forall k :: 0 <= k < |files| ==> Clean(files[k])
    ensures FileRun(files + ([""] + rest)) == |files|
  {
    var lines := files + ([""] + rest);
    var n := FileRun(lines);
    FileRunLines(lines);
    forall k | 0 <= k < |files|
      ensures IsFileLine(lines[k])
    {
      assert lines[k] == files[k];
      CleanIsFileLine(files[k]);
    }
    assert lines[|files|] == "";
    assert !IsFileLine("") by {
      assert PyStrip("") == "";
    }
  }

  lemma CleanIsFileLine(s: string)
    requires Clean(s)
    ensures IsFileLine(s)
  {
    StripClean(s);
    assert s[0] != ' ';
  }

  lemma StripAllClean(files: seq<string>)
    requires forall k :: 0 <= k < |files| ==> Clean(files[k])
    ensures StripAll(files) == files
  {
    forall k | 0 <= k < |files|
      ensures StripAll(files)[k] == files[k]
    {
      StripOneClean(files, k);
    }
  }

  lemma StripOneClean(files: seq<string>, k: nat)
    requires k < |files| && Clean(files[k])
    ensures StripAll(files)[k] == files[k]
  {
    StripAllAt(files);
    StripClean(files[k]);
  }
}

=== FILE: reference_watcher.dfy ===
/** reference/watcher/index.py: the watchdog handler admits an event only if
    its path is not ignored, the sliding one-second rate limit has room, and
    the per-key debounce has expired, in that order; the polling fallback diffs
    modification times between two scans. Times are integer milliseconds; the
    clock reading and the directory walk are parameters. */
module ReferenceWatcher {
  import opened Wrappers
  import opened Text
  import opened WatchEvents

  /** `config["config"]["ignore_patterns"]`. */
  datatype IgnoreConfig = IgnoreConfig(directories: seq<string>, files: seq<string>)

  /** The basenames ignored whatever the configuration says. */
  const FixedBasenames: set<string> := {".git", "__pycache__", ".DS_Store", "Thumbs.db", ".swp", ".swo", "~", ".tmp", ".bak"}

  /** `os.path.basename`: the text after the last '/'. */
  function BaseName(path: string): (r: string)
    ensures '/' !in r && IsSuffix(r, path)
  {
    AfterLast(path, '/')
  }

  /** `FileChangeHandler._should_ignore`. */
  function ShouldIgnore(cfg: IgnoreConfig, custom: seq<string>, path: string): bool {
    AnyContains(cfg.directories, path) || AnySuffix(cfg.files, path) || AnyContains(custom, path)
    || BaseName(path) in FixedBasenames
  }

  /** A path is ignored exactly when a directory fragment or a custom pattern
      occurs in it, a file pattern ends it, or its basename is one of the
      fixed names. */
  lemma ShouldIgnoreIff(cfg: IgnoreConfig, custom: seq<string>, path: string)
    ensures ShouldIgnore(cfg, custom, path) <==>
              (exists i :: 0 <= i < |cfg.directories| && Contains(path, cfg.directories[i]))
              || (exists i :: 0 <= i < |cfg.files| && IsSuffix(cfg.files[i], path))
              || (exists i :: 0 <= i < |custom| && Contains(path, custom[i]))
              || BaseName(path) in FixedBasenames
  {
    AnyContainsIff(cfg.directories, path);
    AnySuffixIff(cfg.files, path);
    AnyContainsIff(custom, path);
  }

  /** The fixed names are matched exactly: an editor backup "a.py~" is not
      caught by "~", but a file named "~" is. */
  lemma BasenamesMatchExactly()
    ensures !ShouldIgnore(IgnoreConfig([], []), [], "src/a.py~")
    ensures ShouldIgnore(IgnoreConfig([], []), [], "src/~")
  {
    assert BaseName("src/a.py~") == "a.py~" by {
      assert LastIndexOf("src/a.py~", '/') == Some(3);
    }
    assert BaseName("src/~") == "~" by {
      assert LastIndexOf("src/~", '/') == Some(3);
    }
  }

  // ---------------------------------------------------------------------
  // Rate limit and debounce

  /** The timestamps still inside the one-second window ending at `now`. */
  function Recent(times: seq<int>, now: int): (r: seq<int>)
    ensures |r| <= |times|
  {
    if |times| == 0 then []
    else if times[0] > now - 1000 then [times[0]] + Recent(times[1..], now)
    else Recent(times[1..], now)
  }

  /** Pruning keeps each time inside the window exactly as often as it was
      recorded, and nothing else. */
  lemma {:induction false} RecentSpec(times: seq<int>, now: int)
    ensures var r := Recent(times, now);
            forall t :: multiset(r)[t] == if t > now - 1000 then multiset(times)[t] else 0
    ensures forall i :: 0 <= i < |Recent(times, now)| ==> Recent(times, now)[i] > now - 1000
    ensures forall t :: t in times && t > now - 1000 <==> t in Recent(times, now)
    decreases |times|
  {
    if |times| > 0 {
      var rest := Recent(times[1..], now);
      RecentSpec(times[1..], now);
      assert multiset(times) == multiset([times[0]]) + multiset(times[1..]) by {
        assert times == [times[0]] + times[1..];
      }
      if times[0] > now - 1000 {
        assert multiset([times[0]] + rest) == multiset([times[0]]) + multiset(rest);
      }
      var r := Recent(times, now);
      forall t
        ensures t in times && t > now - 1000 <==> t in r
      {
        assert t in times <==> t in multiset(times);
        assert t in r <==> t in multiset(r);
      }
      forall i | 0 <= i < |r|
        ensures r[i] > now - 1000
      {
        assert r[i] in multiset(r);
      }
    }
  }

  /** `_check_rate_limit` at time `now`: whether the event may pass, and the
      new `event_times` (pruned even when the event is refused). */
  function CheckRateLimit(times: seq<int>, maxPerSecond: int, now: int): (r: (bool, seq<int>))
    ensures r.0 <==> |Recent(times, now)| < maxPerSecond
    ensures r.0 ==> r.1 == Recent(times, now) + [now]
    ensures !r.0 ==> r.1 == Recent(times, now)
    ensures |times| <= maxPerSecond ==> |r.1| <= maxPerSecond
  {
    var kept := Recent(times, now);
    if |kept| >= maxPerSecond then (false, kept) else (true, kept + [now])
  }

  /** The last admission time of `key`, 0 when it never was admitted. */
  function LastTime(last: map<string, int>, key: string): int {
    if key in last then last[key] else 0
  }

  /** `_debounce_event(key)` at time `now`: refused, with nothing recorded,
      while less than `delay` has passed since the key's last admission. */
  function Debounce(last: map<string, int>, key: string, delay: int, now: int): (r: (bool, map<string, int>))
    ensures r.0 <==> now - LastTime(last, key) >= delay
    ensures r.0 ==> r.1 == last[key := now]
    ensures !r.0 ==> r.1 == last
  {
    if now - LastTime(last, key) < delay then (false, last) else (true, last[key := now])
  }

  /** `_debounce_event` called for each (key, time) of `events` in turn. */
  function DebounceRun(last: map<string, int>, events: seq<(string, int)>, delay: int): (r: seq<bool>)
    ensures |r| == |events|
    decreases |events|
  {
    if |events| == 0 then []
    else
      var step := Debounce(last, events[0].0, delay, events[0].1);
      [step.0] + DebounceRun(step.1, events[1..], delay)
  }

  /** Every admitted event comes at least `delay` after the recorded time of its key. */
  lemma {:induction false} AdmittedAfterRecorded(last: map<string, int>, events: seq<(string, int)>, delay: int, j: nat)
    requires delay >= 0 && j < |events| && DebounceRun(last, events, delay)[j]
    ensures events[j].1 - LastTime(last, events[j].0) >= delay
    decreases |events|
  {
    var step := Debounce(last, events[0].0, delay, events[0].1);
    if j > 0 {
      assert DebounceRun(step.1, events[1..], delay)[j - 1];
      AdmittedAfterRecorded(step.1, events[1..], delay, j - 1);
    }
  }

  /** Two admitted events with the same key are at least `delay` apart. */
  lemma {:induction false} DebouncedApart(last: map<string, int>, events: seq<(string, int)>, delay: int, i: nat, j: nat)
    requires delay >= 0 && i < j < |events| && events[i].0 == events[j].0
    requires DebounceRun(last, events, delay)[i] && DebounceRun(last, events, delay)[j]
    ensures events[j].1 - events[i].1 >= delay
    decreases |events|
  {
    var step := Debounce(last, events[0].0, delay, events[0].1);
    assert DebounceRun(step.1, events[1..], delay)[j - 1];
    if i > 0 {
      assert DebounceRun(step.1, events[1..], delay)[i - 1];
      DebouncedApart(step.1, events[1..], delay, i - 1, j - 1);
    } else {
      AdmittedAfterRecorded(step.1, events[1..], delay, j - 1);
    }
  }

  // ---------------------------------------------------------------------
  // The handler

  /** The settings and the mutable state of a `FileChangeHandler`. */
  datatype Handler = Handler(ignore: IgnoreConfig, custom: seq<string>, debounceMs: int, maxPerSecond: int,
                             eventTimes: seq<int>, lastEvents: map<string, int>)

  /** A handler as `__init__` builds it from `watcher_settings` (defaults
      0.5 s debounce and 10 events per second). */
  function NewHandler(ignore: IgnoreConfig, custom: seq<string>, debounceMs: Option<int>, maxPerSecond: Option<int>)
    : (h: Handler)
    ensures h.debounceMs == debounceMs.GetOr(500) && h.maxPerSecond == maxPerSecond.GetOr(10)
    ensures h.eventTimes == [] && h.lastEvents == map[]
  {
    Handler(ignore, custom, debounceMs.GetOr(500), maxPerSecond.GetOr(10), [], map[])
  }

  /** `_create_event`: the type map sends every type to itself. */
  function CreateEvent(e: FsEvent, now: int): (r: ChangeEvent)
    ensures r.eventType == e.eventType && r.filePath == e.srcPath && r.isDirectory == e.isDirectory
    ensures r.timestamp == now
  {
    var mapped := map["created" := "created", "modified" := "modified", "deleted" := "deleted", "moved" := "moved"];
    ChangeEvent(if e.eventType in mapped then mapped[e.eventType] else e.eventType, e.srcPath, e.isDirectory, now)
  }

  /** `on_any_event` at time `now`: the handler afterwards and the event
      passed to the callback, if any. */
  function OnAnyEvent(h: Handler, e: FsEvent, now: int): (r: (Handler, Option<ChangeEvent>))
    ensures ShouldIgnore(h.ignore, h.custom, e.srcPath) ==> r == (h, None)
    ensures r.1.Some? <==>
              !ShouldIgnore(h.ignore, h.custom, e.srcPath)
              && CheckRateLimit(h.eventTimes, h.maxPerSecond, now).0
              && Debounce(h.lastEvents, e.eventType + ":" + e.srcPath, h.debounceMs, now).0
    ensures r.1.Some? ==> r.1.value == CreateEvent(e, now)
    ensures r.0.ignore == h.ignore && r.0.custom == h.custom
    ensures r.0.debounceMs == h.debounceMs && r.0.maxPerSecond == h.maxPerSecond
    ensures |h.eventTimes| <= h.maxPerSecond ==> |r.0.eventTimes| <= h.maxPerSecond
    ensures !ShouldIgnore(h.ignore, h.custom, e.srcPath) && CheckRateLimit(h.eventTimes, h.maxPerSecond, now).0
            ==> r.0.eventTimes == Recent(h.eventTimes, now) + [now]
  {
    if ShouldIgnore(h.ignore, h.custom, e.srcPath) then (h, None)
    else
      var (ok, times) := CheckRateLimit(h.eventTimes, h.maxPerSecond, now);
      if !ok then (h.(eventTimes := times), None)
      else
        var (admitted, last) := Debounce(h.lastEvents, e.eventType + ":" + e.srcPath, h.debounceMs, now);
        if !admitted then (h.(eventTimes := times), None)
        else (h.(eventTimes := times, lastEvents := last), Some(CreateEvent(e, now)))
  }

  /** A debounced event has still used up a rate-limit slot: the same event
      twice at the same instant records two timestamps and passes once. */
  lemma DebouncedEventUsesSlot(h: Handler, e: FsEvent, now: int)
    requires !ShouldIgnore(h.ignore, h.custom, e.srcPath)
    requires h.debounceMs > 0 && |Recent(h.eventTimes, now)| + 2 <= h.maxPerSecond
    ensures var first := OnAnyEvent(h, e, now).0;
            var second := OnAnyEvent(first, e, now);
            second.1.None? && |second.0.eventTimes| == |Recent(h.eventTimes, now)| + 2
  {
    var first := OnAnyEvent(h, e, now).0;
    WindowAfterEvent(h.eventTimes, now);
    SecondDebounced(h, e, now);
    RefusedByDebounce(first, e, now);
  }

  /** The timestamps kept after an event are all still in the window at the
      same instant. */
  lemma WindowAfterEvent(times: seq<int>, now: int)
    ensures Recent(Recent(times, now) + [now], now) == Recent(times, now) + [now]
  {
    var r := Recent(times, now) + [now];
    RecentSpec(times, now);
    assert forall i :: 0 <= i < |r| ==> r[i] > now - 1000;
    RecentKeepsWindow(r, now);
  }

  /** An event the rate limit lets through and the debounce refuses only
      records its timestamp. */
  lemma RefusedByDebounce(h: Handler, e: FsEvent, now: int)
    requires !ShouldIgnore(h.ignore, h.custom, e.srcPath) && CheckRateLimit(h.eventTimes, h.maxPerSecond, now).0
    requires !Debounce(h.lastEvents, e.eventType + ":" + e.srcPath, h.debounceMs, now).0
    ensures OnAnyEvent(h, e, now) == (h.(eventTimes := Recent(h.eventTimes, now) + [now]), None)
  {
  }

  /** Right after an event, the same event at the same instant is refused
      by the debounce, whether or not the first one passed. */
  lemma SecondDebounced(h: Handler, e: FsEvent, now: int)
    requires !ShouldIgnore(h.ignore, h.custom, e.srcPath)
    requires h.debounceMs > 0 && CheckRateLimit(h.eventTimes, h.maxPerSecond, now).0
    ensures var first := OnAnyEvent(h, e, now).0;
            !Debounce(first.lastEvents, e.eventType + ":" + e.srcPath, first.debounceMs, now).0
  {
    var key := e.eventType + ":" + e.srcPath;
    var step := Debounce(h.lastEvents, key, h.debounceMs, now);
    if step.0 {
      assert OnAnyEvent(h, e, now).0.lastEvents == h.lastEvents[key := now];
    } else {
      assert OnAnyEvent(h, e, now).0.lastEvents == h.lastEvents;
    }
  }

  /** Pruning twice at one instant prunes nothing more. */
  lemma {:induction false} RecentKeepsWindow(times: seq<int>, now: int)
    requires forall i :: 0 <= i < |times| ==> times[i] > now - 1000
    ensures Recent(times, now) == times
  {
    if |times| > 0 {
      RecentKeepsWindow(times[1..], now);
      assert times == [times[0]] + times[1..];
    }
  }

  // ---------------------------------------------------------------------
  // The polling watcher

  /** What `_should_ignore_dir` asks: only directory fragments. */
  function ShouldIgnoreDir(cfg: IgnoreConfig, path: string): bool {
    AnyContains(cfg.directories, path)
  }

  /** `_should_ignore_file`: the handler's test without the fixed basenames. */
  function ShouldIgnoreFile(cfg: IgnoreConfig, custom: seq<string>, path: string): (r: bool)
    ensures r ==> ShouldIgnore(cfg, custom, path)
    ensures ShouldIgnoreDir(cfg, path) ==> r
  {
    AnyContains(cfg.directories, path) || AnySuffix(cfg.files, path) || AnyContains(custom, path)
  }

  /** One walked file after `_should_ignore_file`: its path and `getmtime`
      (None where it raised `OSError`). */
  datatype Seen = Seen(path: string, mtime: Option<int>)

  /** `last_mtimes` and `known_files`. */
  datatype PollState = PollState(mtimes: map<string, int>, known: set<string>)

  function Paths(scan: seq<Seen>): (r: set<string>)
    ensures forall p :: p in r <==> exists i :: 0 <= i < |scan| && scan[i].path == p
  {
    if |scan| == 0 then {} else {scan[0].path} + Paths(scan[1..])
  }

  /** The modification times read, later entries winning. */
  function Times(scan: seq<Seen>): (r: map<string, int>)
    ensures r.Keys <= Paths(scan)
    ensures forall i :: 0 <= i < |scan| && scan[i].mtime.Some? ==> scan[i].path in r
  {
    if |scan| == 0 then map[]
    else
      var rest := Times(scan[..|scan| - 1]);
      var last := scan[|scan| - 1];
      assert forall i :: 0 <= i < |scan| - 1 ==> scan[..|scan| - 1][i] == scan[i];
      assert Paths(scan) == Paths(scan[..|scan| - 1]) + {last.path} by { PathsSnoc(scan); }
      match last.mtime
      case None => rest
      case Some(t) => rest[last.path := t]
  }

  /** The times hold exactly the walked paths whose time was read, each
      with a time read for it. */
  lemma {:induction false} TimesSpec(scan: seq<Seen>)
    ensures forall p :: p in Times(scan) <==> exists i :: 0 <= i < |scan| && scan[i].path == p && scan[i].mtime.Some?
    ensures forall p :: p in Times(scan) ==> exists i :: 0 <= i < |scan| && scan[i].path == p && scan[i].mtime == Some(Times(scan)[p])
    decreases |scan|
  {
    if |scan| > 0 {
      var init := scan[..|scan| - 1];
      var last := scan[|scan| - 1];
      TimesSpec(init);
      assert forall i :: 0 <= i < |init| ==> init[i] == scan[i];
    }
  }

  lemma {:induction false} PathsSnoc(scan: seq<Seen>)
    requires |scan| > 0
    ensures Paths(scan) == Paths(scan[..|scan| - 1]) + {scan[|scan| - 1].path}
  {
  }

  /** `_scan_initial_state`: the baseline, counting only files whose time was read. */
  function InitialState(scan: seq<Seen>): (r: PollState)
    ensures r.known == r.mtimes.Keys
    ensures forall p :: p in r.known <==> exists i :: 0 <= i < |scan| && scan[i].path == p && scan[i].mtime.Some?
  {
    TimesSpec(scan);
    PollState(Times(scan), Times(scan).Keys)
  }

  /** Whether one pass of `_check_for_changes` reports the walked file `s`:
      its time was read, and it is new or its time grew. */
  predicate Reported(last: map<string, int>, s: Seen) {
    s.mtime.Some? && (s.path !in last || s.mtime.value > last[s.path])
  }

  /** The event reported for one walked file, if any. */
  function FileEvent(last: map<string, int>, s: Seen, now: int): (r: seq<ChangeEvent>)
    ensures |r| <= 1 && (|r| == 1 <==> Reported(last, s))
    ensures |r| == 1 ==> r[0] == ChangeEvent(if s.path in last then "modified" else "created", s.path, false, now)
  {
    match s.mtime
    case None => []
    case Some(t) =>
      if s.path in last then (if t > last[s.path] then [ChangeEvent("modified", s.path, false, now)] else [])
      else [ChangeEvent("created", s.path, false, now)]
  }

  /** The events one pass of `_check_for_changes` reports in walk order. */
  function Changes(last: map<string, int>, scan: seq<Seen>, now: int): (r: seq<ChangeEvent>)
    ensures |r| <= |scan|
    ensures forall i :: 0 <= i < |r| ==> !r[i].isDirectory && r[i].timestamp == now
    ensures forall i :: 0 <= i < |r| ==> r[i].eventType in {"created", "modified"}
  {
    if |scan| == 0 then [] else FileEvent(last, scan[0], now) + Changes(last, scan[1..], now)
  }

  /** Every reported event names a walked file that is reported, as "created"
      exactly when that file had no time before. */
  lemma {:induction false} ChangeSound(last: map<string, int>, scan: seq<Seen>, now: int, k: nat)
    requires k < |Changes(last, scan, now)|
    ensures exists i :: 0 <= i < |scan| && scan[i].path == Changes(last, scan, now)[k].filePath
                        && Reported(last, scan[i])
                        && (Changes(last, scan, now)[k].eventType == "created" <==> scan[i].path !in last)
    decreases |scan|
  {
    var head := FileEvent(last, scan[0], now);
    var c := Changes(last, scan, now);
    if k < |head| {
      assert c[k] == head[0];
      assert scan[0].path == c[k].filePath;
    } else {
      var rest := scan[1..];
      ChangeSound(last, rest, now, k - |head|);
      var j :| 0 <= j < |rest| && rest[j].path == Changes(last, rest, now)[k - |head|].filePath
               && Reported(last, rest[j])
               && (Changes(last, rest, now)[k - |head|].eventType == "created" <==> rest[j].path !in last);
      assert c[k] == Changes(last, rest, now)[k - |head|];
      assert scan[j + 1] == rest[j];
    }
  }

  /** Every reported walked file has its event, "created" exactly when it had
      no time before. */
  lemma {:induction false} ChangeComplete(last: map<string, int>, scan: seq<Seen>, now: int, i: nat)
    requires i < |scan| && Reported(last, scan[i])
    ensures exists k :: 0 <= k < |Changes(last, scan, now)| && Changes(last, scan, now)[k].filePath == scan[i].path
                        && (Changes(last, scan, now)[k].eventType == "created" <==> scan[i].path !in last)
    decreases |scan|
  {
    var head := FileEvent(last, scan[0], now);
    var c := Changes(last, scan, now);
    if i == 0 {
      assert c[0] == head[0];
    } else {
      var rest := scan[1..];
      assert rest[i - 1] == scan[i];
      ChangeComplete(last, rest, now, i - 1);
      var j :| 0 <= j < |Changes(last, rest, now)| && Changes(last, rest, now)[j].filePath == rest[i - 1].path
               && (Changes(last, rest, now)[j].eventType == "created" <==> rest[i - 1].path !in last);
      assert c[|head| + j] == Changes(last, rest, now)[j];
    }
  }

  /** With the walk visiting each file once, a walked file is reported exactly
      when its time was read and it is new or its time grew, and its event is
      "created" exactly when it is new. */
  lemma ChangeReportedIff(last: map<string, int>, scan: seq<Seen>, now: int, i: nat)
    requires DistinctPaths(scan) && i < |scan|
    ensures (exists k :: 0 <= k < |Changes(last, scan, now)| && Changes(last, scan, now)[k].filePath == scan[i].path)
            <==> Reported(last, scan[i])
    ensures forall k :: 0 <= k < |Changes(last, scan, now)| && Changes(last, scan, now)[k].filePath == scan[i].path ==>
              (Changes(last, scan, now)[k].eventType == "created" <==> scan[i].path !in last)
  {
    var c := Changes(last, scan, now);
    forall k | 0 <= k < |c| && c[k].filePath == scan[i].path
      ensures Reported(last, scan[i]) && (c[k].eventType == "created" <==> scan[i].path !in last)
    {
      ChangeSound(last, scan, now, k);
      var j :| 0 <= j < |scan| && scan[j].path == c[k].filePath && Reported(last, scan[j])
               && (c[k].eventType == "created" <==> scan[j].path !in last);
      assert j == i;
    }
    if Reported(last, scan[i]) {
      ChangeComplete(last, scan, now, i);
    }
  }

  /** The events come in walk order: an earlier event names a file walked
      before the file of a later one. */
  lemma {:induction false} ChangesInWalkOrder(last: map<string, int>, scan: seq<Seen>, now: int, k1: nat, k2: nat)
    requires k1 < k2 < |Changes(last, scan, now)|
    ensures exists i1, i2 :: 0 <= i1 < i2 < |scan| && scan[i1].path == Changes(last, scan, now)[k1].filePath
                             && scan[i2].path == Changes(last, scan, now)[k2].filePath
    decreases |scan|
  {
    var head := FileEvent(last, scan[0], now);
    var c := Changes(last, scan, now);
    var rest := scan[1..];
    var cr := Changes(last, rest, now);
    assert c[k2] == cr[k2 - |head|];
    ChangeSound(last, rest, now, k2 - |head|);
    var j2 :| 0 <= j2 < |rest| && rest[j2].path == cr[k2 - |head|].filePath;
    assert scan[j2 + 1] == rest[j2];
    if k1 < |head| {
      assert c[k1] == head[0];
      assert 0 <= 0 < j2 + 1 < |scan| && scan[0].path == c[k1].filePath && scan[j2 + 1].path == c[k2].filePath;
    } else {
      assert c[k1] == cr[k1 - |head|];
      ChangesInWalkOrder(last, rest, now, k1 - |head|, k2 - |head|);
      var i1, i2 :| 0 <= i1 < i2 < |rest| && rest[i1].path == cr[k1 - |head|].filePath
                    && rest[i2].path == cr[k2 - |head|].filePath;
      assert scan[i1 + 1] == rest[i1] && scan[i2 + 1] == rest[i2];
      assert 0 <= i1 + 1 < i2 + 1 < |scan| && scan[i1 + 1].path == c[k1].filePath && scan[i2 + 1].path == c[k2].filePath;
    }
  }

  /** `_check_for_changes`: the walk-order events, the deleted paths (a set,
      iterated in no fixed order), and the new state. */
  function CheckForChanges(st: PollState, scan: seq<Seen>, now: int): (r: (seq<ChangeEvent>, set<string>, PollState))
    ensures forall p :: p in r.1 <==> p in st.known && p !in Paths(scan)
    ensures r.2.mtimes == Times(scan) && r.2.known == Paths(scan)
  {
    (Changes(st.mtimes, scan, now), st.known - Paths(scan), PollState(Times(scan), Paths(scan)))
  }

  predicate DistinctPaths(scan: seq<Seen>) {
    forall i, j :: 0 <= i < j < |scan| ==> scan[i].path != scan[j].path
  }

  lemma {:induction false} TimesOfDistinct(scan: seq<Seen>, i: nat)
    requires DistinctPaths(scan) && i < |scan| && scan[i].mtime.Some?
    ensures Times(scan)[scan[i].path] == scan[i].mtime.value
  {
    if i < |scan| - 1 {
      TimesOfDistinct(scan[..|scan| - 1], i);
    }
  }

  lemma {:induction false} NoChangesAgainstItself(last: map<string, int>, scan: seq<Seen>, whole: seq<Seen>, now: int)
    requires DistinctPaths(whole) && last == Times(whole)
    requires forall i :: 0 <= i < |scan| ==> scan[i] in whole
    ensures Changes(last, scan, now) == []
  {
    if |scan| > 0 {
      NoChangesAgainstItself(last, scan[1..], whole, now);
      var s := scan[0];
      if s.mtime.Some? {
        var i :| 0 <= i < |whole| && whole[i] == s;
        TimesOfDistinct(whole, i);
      }
    }
  }

  /** The initial scan is only a baseline: polling the unchanged tree at once
      reports nothing, neither changes nor deletions. */
  lemma UnchangedTreeIsQuiet(scan: seq<Seen>, now: int)
    requires DistinctPaths(scan)
    ensures CheckForChanges(InitialState(scan), scan, now).0 == []
    ensures CheckForChanges(InitialState(scan), scan, now).1 == {}
  {
    NoChangesAgainstItself(Times(scan), scan, scan, now);
  }

  /** `PollingFileWatcher.start` only raises the flag; it never polls. */
  function StartPolling(active: bool, st: PollState): (r: (bool, PollState))
    ensures r.0 && r.1 == st
  {
    (true, st)
  }

  /** The watcher `create_file_watcher` returns. */
  datatype WatcherKind = Watchdog | Polling

  /** `WatchdogFileWatcher.start`: False without watchdog, else whether
      building and starting the observer raised nothing. */
  function StartWatchdog(available: bool, observerStarts: bool): (r: bool)
    ensures r <==> available && observerStarts
  {
    if !available then false else observerStarts
  }

  /** `create_file_watcher`: watchdog unless polling is asked for, with a
      fall back to polling when watchdog is missing or will not start. */
  function CreateFileWatcher(available: bool, usePolling: bool, observerStarts: bool): (r: WatcherKind)
    ensures r == Watchdog <==> available && !usePolling && observerStarts
  {
    if available && !usePolling && StartWatchdog(available, observerStarts) then Watchdog else Polling
  }
}

=== FILE: repo_watch.dfy ===
/** repo_watch.py, the Textual app with three panes: a file event may start
    an animation and always schedules a refresh; a refresh lists the status
    paths as uncommitted, the files of the session's first ten commits as
    committed, and summarises both counts in the status bar. Times are
    integer milliseconds. */
module RepoWatch {
  import opened Wrappers
  import opened Text
  import opened PyPath
  import opened GitTracker
  import IndexApp

  /** What `on_file_change` does with an event: the change type handed to
      the animation engine, if any, and whether a status refresh is
      scheduled. */
  datatype Reaction = Reaction(animate: Option<string>, refresh: bool)

  /** Only modifications and creations animate; every event refreshes. */
  function OnFileChange(eventType: string): (r: Reaction)
    ensures r.refresh
    ensures r.animate.Some? <==> eventType == "modified" || eventType == "created"
    ensures r.animate.Some? ==> r.animate.value == eventType
  {
    if eventType == "modified" || eventType == "created" then Reaction(Some(eventType), true)
    else Reaction(None, true)
  }

  /** How many commits' files the committed pane takes. */
  const CommitsShown: nat := 10

  /** `[f.path for f in status_files]`: in order, a path listed twice kept twice. */
  function StatusPaths(fs: seq<FileStatus>): (r: seq<string>)
    ensures |r| == |fs| && forall i :: 0 <= i < |fs| ==> r[i] == fs[i].path
  {
    if |fs| == 0 then [] else [fs[0].path] + StatusPaths(fs[1..])
  }

  function CommitFiles(cs: seq<Commit>): (r: seq<seq<string>>)
    ensures |r| == |cs| && forall i :: 0 <= i < |cs| ==> r[i] == cs[i].files
  {
    if |cs| == 0 then [] else [cs[0].files] + CommitFiles(cs[1..])
  }

  /** The committed pane's files: those of the first ten commits, without
      duplicates (`list(set(...))`, whose order Python leaves open). */
  function CommittedPaths(cs: seq<Commit>): (r: set<string>)
    ensures forall f :: f in r <==> exists i :: 0 <= i < CommitsShown && i < |cs| && f in cs[i].files
  {
    IndexApp.FilesOf(CommitFiles(cs), CommitsShown)
  }

  /** The status bar text after a refresh. */
  function StatusText(uncommitted: nat, committed: nat): (r: string)
    ensures r == "Repository clean" <==> uncommitted + committed == 0
    ensures uncommitted + committed > 0 ==>
              IsPrefix(NatToString(uncommitted) + " uncommitted, ", r)
  {
    if uncommitted + committed == 0 then "Repository clean"
    else
      var head := NatToString(uncommitted) + " uncommitted, ";
      var r := head + NatToString(committed) + " committed";
      assert r[..|head|] == head;
      assert '0' <= r[0] <= '9';
      r
  }

  /** Reads the two counts back from a status text. */
  function ReadStatus(text: string): (r: Option<(nat, nat)>)
  {
    var words := SplitMax(text, ' ', 3);
    if |words| == 4 && words[1] == "uncommitted," && words[3] == "committed" then
      match (ParseNat(words[0]), ParseNat(words[2]))
      case (Some(u), Some(c)) => Some((u, c))
      case _ => None
    else None
  }

  /** The status text keeps both counts: they read back exactly, and the
      clean message reads as no counts at all. */
  lemma StatusTextRoundTrip(uncommitted: nat, committed: nat)
    ensures ReadStatus(StatusText(uncommitted, committed))
            == if uncommitted + committed == 0 then None else Some((uncommitted, committed))
  {
    if uncommitted + committed == 0 {
      CleanWords();
    } else {
      var u := NatToString(uncommitted);
      var c := NatToString(committed);
      StatusWords(u, c);
      assert StatusText(uncommitted, committed) == u + " uncommitted, " + c + " committed";
      NatToStringRoundTrip(uncommitted);
      NatToStringRoundTrip(committed);
    }
  }

  /** A status text splits back into its four words. */
  lemma StatusWords(u: string, c: string)
    requires ' ' !in u && ' ' !in c
    ensures SplitMax(u + " uncommitted, " + c + " committed", ' ', 3) == [u, "uncommitted,", c, "committed"]
  {
    StatusSpelling(u, c);
    SplitMaxHead(u, "uncommitted," + [' '] + (c + [' '] + "committed"), ' ', 3);
    MiddleWords(c);
  }

  lemma MiddleWords(c: string)
    requires ' ' !in c
    ensures SplitMax("uncommitted," + [' '] + (c + [' '] + "committed"), ' ', 2) == ["uncommitted,", c, "committed"]
  {
    SingleWord();
    SplitMaxHead("uncommitted,", c + [' '] + "committed", ' ', 2);
    LastWords(c);
  }

  lemma LastWords(c: string)
    requires ' ' !in c
    ensures SplitMax(c + [' '] + "committed", ' ', 1) == [c, "committed"]
  {
    SplitMaxHead(c, "committed", ' ', 1);
    assert SplitMax("committed", ' ', 0) == ["committed"];
  }

  lemma CleanWords()
    ensures SplitMax("Repository clean", ' ', 3) == ["Repository", "clean"]
  {
    var a, b := "Repository", "clean";
    assert "Repository clean" == a + [' '] + b;
    assert ' ' !in a && ' ' !in b;
    SplitMaxHead(a, b, ' ', 3);
    SplitMaxNone(b, ' ', 2);
  }

  lemma StatusSpelling(u: string, c: string)
    ensures u + " uncommitted, " + c + " committed"
            == u + [' '] + ("uncommitted," + [' '] + (c + [' '] + "committed"))
  {
    assert " uncommitted, " == [' '] + "uncommitted," + [' '];
    assert " committed" == [' '] + "committed";
  }

  lemma SingleWord()
    ensures ' ' !in "uncommitted,"
  {
  }

  /** What `update_git_status` shows: nothing before the tracker and both
      panes exist; otherwise the panes it managed to fill and the status
      text. A failing query (an `Err` carrying the exception text) leaves the
      panes it did not reach alone and puts the error in the status bar. */
  datatype Refresh = Skipped | Refreshed(uncommitted: Option<seq<string>>, committed: Option<set<string>>, status: string)

  function UpdateGitStatus(ready: bool, status: Result<seq<FileStatus>, string>,
                           commits: Result<seq<Commit>, string>): (r: Refresh)
    ensures r.Skipped? <==> !ready
    ensures ready && status.Err? ==> r == Refreshed(None, None, "Error: " + status.error)
    ensures ready && status.Ok? ==> r.Refreshed? && r.uncommitted == Some(StatusPaths(status.value))
    ensures ready && status.Ok? && commits.Err? ==> r.committed.None? && r.status == "Error: " + commits.error
    ensures ready && status.Ok? && commits.Ok? ==>
              r.committed == Some(CommittedPaths(commits.value))
              && r.status == StatusText(|status.value|, |CommittedPaths(commits.value)|)
  {
    if !ready then Skipped
    else
      match status
      case Err(e) => Refreshed(None, None, "Error: " + e)
      case Ok(fs) =>
        var uncommitted := StatusPaths(fs);
        match commits
        case Err(e) => Refreshed(Some(uncommitted), None, "Error: " + e)
        case Ok(cs) =>
          var committed := CommittedPaths(cs);
          Refreshed(Some(uncommitted), Some(committed), StatusText(|uncommitted|, |committed|))
  }

  /** After successful queries the bar says "Repository clean" exactly when
      git reports no changed file and the first ten commits touch none. */
  lemma CleanIffNothingChanged(status: seq<FileStatus>, commits: seq<Commit>)
    ensures UpdateGitStatus(true, Ok(status), Ok(commits)).status == "Repository clean"
            <==> |status| == 0
                 && forall i, f :: 0 <= i < CommitsShown && i < |commits| ==> f !in commits[i].files
  {
    var committed := CommittedPaths(commits);
    if |committed| == 0 {
      forall i, f | 0 <= i < CommitsShown && i < |commits|
        ensures f !in commits[i].files
      {
        assert f in commits[i].files ==> f in committed;
      }
    } else {
      var f :| f in committed;
    }
  }

  /** `divmod` of whole seconds into hours, minutes and seconds. */
  function Clock(seconds: int): (r: (int, int, int))
    ensures r.0 * 3600 + r.1 * 60 + r.2 == seconds
    ensures 0 <= r.1 < 60 && 0 <= r.2 < 60
    ensures seconds >= 0 ==> r.0 >= 0
  {
    (seconds / 3600, seconds % 3600 / 60, seconds % 3600 % 60)
  }

  /** `update_session_info`: hours and minutes once an hour has passed,
      minutes and seconds before that; the duration is cut to whole seconds. */
  function SessionInfo(elapsedMs: int): (r: string)
    ensures |r| > 0 && (r[|r| - 1] == 'm' <==> elapsedMs >= 3600000)
    ensures 0 <= elapsedMs < 3600000 ==>
              r == "⏱️ " + NatToString(elapsedMs / 60000) + "m " + NatToString(elapsedMs / 1000 % 60) + "s"
    ensures elapsedMs >= 3600000 ==>
              var c := Clock(elapsedMs / 1000);
              r == "⏱️ " + NatToString(c.0) + "h " + NatToString(c.1) + "m"
  {
    var (h, m, s) := Clock(TruncDiv(elapsedMs, 1000));
    assert elapsedMs >= 0 ==> TruncDiv(elapsedMs, 1000) == elapsedMs / 1000;
    ClockOfMs(elapsedMs);
    if h > 0 then "⏱️ " + IntToString(h) + "h " + IntToString(m) + "m"
    else "⏱️ " + IntToString(m) + "m " + IntToString(s) + "s"
  }

  /** The clock fields of a duration in milliseconds: an hour field from
      exactly one hour on, and below that the whole minutes and the seconds
      left over. */
  lemma ClockOfMs(elapsedMs: int)
    ensures var c := Clock(TruncDiv(elapsedMs, 1000));
            (c.0 > 0 <==> elapsedMs >= 3600000)
            && (0 <= elapsedMs < 3600000 ==> c.1 == elapsedMs / 60000 && c.2 == elapsedMs / 1000 % 60)
  {
    var secs := TruncDiv(elapsedMs, 1000);
    var c := Clock(secs);
    if elapsedMs >= 0 {
      assert secs == elapsedMs / 1000;
      if elapsedMs < 3600000 {
        assert secs < 3600;
        assert c.0 == 0;
        assert secs / 60 == elapsedMs / 60000;
      } else {
        assert secs >= 3600;
      }
    } else {
      assert secs <= 0;
    }
  }

  /** The first hour reads in minutes and seconds, and the clock shows the
      hour from exactly 3600 s on. */
  lemma SessionInfoHour()
    ensures SessionInfo(3599999) == "⏱️ 59m 59s"
    ensures SessionInfo(3600000) == "⏱️ 1h 0m"
  {
    assert TruncDiv(3599999, 1000) == 3599;
    assert Clock(3599) == (0, 59, 59);
    assert TruncDiv(3600000, 1000) == 3600;
    assert Clock(3600) == (1, 0, 0);
  }

  /** `update_repo_info`: the repository's last component and the branch. */
  function RepoInfo(repo: Path, branch: string): (r: string)
    ensures r == "📁 " + Name(repo) + " [" + branch + "]"
    ensures IsSuffix(" [" + branch + "]", r)
  {
    var tail := " [" + branch + "]";
    var r := "📁 " + Name(repo) + tail;
    assert r[|r| - |tail|..] == tail;
    r
  }

  /** The label `FilePane.update_files` puts on its tree: "No files" for an
      empty list, otherwise the title and how many entries were passed. */
  function PaneLabel(title: string, files: seq<string>): (r: string)
    ensures r == "No files" <==> |files| == 0
    ensures |files| > 0 ==> r == title + " (" + NatToString(|files|) + " files)"
  {
    if |files| == 0 then "No files"
    else
      var head := title + " (" + NatToString(|files|);
      var r := head + " files)";
      assert r[..|head|] == head && r[|r| - 1] == ')';
      r
  }
}

=== FILE: report_handoffs.dfy ===
/** What the readers of the git-submodules monitor's output make of it. The
    three-pane TUI's left pane and the committed-not-pushed analyzer read its
    JSON report, git-submodules.report. The dirty-files analyzer's `main`
    reads the same file, but with a parser for a text format, and collects
    nothing from it (see the last section). Its reader of the monitor's
    standard output, `run_git_submodules_analysis`, is never called; it is
    modelled on the lines the monitor prints. */
module ReportHandoffs {
  import opened Wrappers
  import opened Text
  import opened PyDict
  import opened Json
  import opened JsonPath
  import opened GitSubmodules
  import PaneData
  import DirtyFiles
  import CommittedNotPushed

  // ---------------------------------------------------------------------
  // The left pane

  /** A report entry shows in the left pane as its name and status word,
      and for a dirty repository the first line of its `git status`
      output. */
  lemma LeftPaneLine(r: RepoStatus)
    requires r.isClean <==> r.status == ""
    ensures PaneData.RepoSummary(RepoObject(r))
            == if r.isClean then Some(r.name + " [" + StatusWord(r) + "]")
               else Some(r.name + " [" + StatusWord(r) + "]" + ": " + UpTo(r.status, '\n'))
  {
    RepoObjectFields(r);
    PaneData.SummaryOf(RepoObject(r), r.name, StatusWord(r), ChangesText(r));
  }

  // ---------------------------------------------------------------------
  // The committed-not-pushed collection

  /** The (path, name) pairs of a collection. */
  function Pairs(rs: seq<RepoStatus>): (r: seq<(string, string)>)
    ensures |r| == |rs| && forall i :: 0 <= i < |rs| ==> r[i] == (rs[i].path, rs[i].name)
  {
    if |rs| == 0 then [] else [(rs[0].path, rs[0].name)] + Pairs(rs[1..])
  }

  lemma EntryKept(c: CommittedNotPushed.Collection, r: RepoStatus)
    requires c.submodules == []
    ensures CommittedNotPushed.AddEntry(c, RepoObject(r))
            == CommittedNotPushed.Collection(c.repos + [(r.path, r.name)], [])
  {
    RepoObjectFields(r);
    assert CommittedNotPushed.SubmodulesOf(RepoObject(r)) == [];
    assert !CommittedNotPushed.IsSubmodulePath([], r.path);
  }

  lemma {:induction false} EntriesKept(c: CommittedNotPushed.Collection, rs: seq<RepoStatus>)
    requires c.submodules == []
    ensures CommittedNotPushed.AddEntries(c, RepoObjects(rs))
            == CommittedNotPushed.Collection(c.repos + Pairs(rs), [])
    decreases |rs|
  {
    if |rs| == 0 {
      assert c.repos + Pairs(rs) == c.repos;
    } else {
      ObjectsStep(rs);
      AddStep(c, RepoObject(rs[0]), RepoObjects(rs[1..]));
      EntryKept(c, rs[0]);
      var c1 := CommittedNotPushed.Collection(c.repos + [(rs[0].path, rs[0].name)], []);
      EntriesKept(c1, rs[1..]);
      PairsStep(c.repos, rs);
    }
  }

  lemma ObjectsStep(rs: seq<RepoStatus>)
    requires |rs| > 0
    ensures RepoObjects(rs) == [RepoObject(rs[0])] + RepoObjects(rs[1..])
  {
  }

  lemma AddStep(c: CommittedNotPushed.Collection, e: Value, es: seq<Value>)
    ensures CommittedNotPushed.AddEntries(c, [e] + es)
            == CommittedNotPushed.AddEntries(CommittedNotPushed.AddEntry(c, e), es)
  {
    assert ([e] + es)[0] == e && ([e] + es)[1..] == es;
  }

  lemma PairsStep(repos: seq<(string, string)>, rs: seq<RepoStatus>)
    requires |rs| > 0
    ensures repos + [(rs[0].path, rs[0].name)] + Pairs(rs[1..]) == repos + Pairs(rs)
  {
    var x := [(rs[0].path, rs[0].name)];
    assert Pairs(rs) == x + Pairs(rs[1..]);
    assert repos + x + Pairs(rs[1..]) == repos + (x + Pairs(rs[1..]));
  }

  /** The report never carries a "submodules" array, so the analyzer's
      submodule filter never fires on it: every collected repository,
      submodules included, is checked on its own. */
  lemma CollectsEveryRepository(rs: seq<RepoStatus>, repoPath: string, now: int)
    ensures CommittedNotPushed.ParseReport(Some(Report(rs, repoPath, now)))
            == CommittedNotPushed.Collection(Pairs(rs), [])
  {
    ReportEntries(rs, repoPath, now);
    EntriesKept(CommittedNotPushed.Collection([], []), rs);
    assert [] + Pairs(rs) == Pairs(rs);
  }

  // ---------------------------------------------------------------------
  // The dirty-files listing

  const Header := "Dirty repositories:"

  /** What the dirty-files analyzer makes of the listing: each dirty
      repository with the blank before its parenthesis kept in the name. */
  function ListedBack(rs: seq<RepoStatus>): (r: seq<DirtyFiles.DirtyRepo>)
    ensures |r| == DirtyCount(rs)
  {
    if |rs| == 0 then []
    else
      (if rs[0].isClean then [] else [DirtyFiles.DirtyRepo(rs[0].path, rs[0].name + " ", [])])
      + ListedBack(rs[1..])
  }

  /** Names and paths the listing can carry through: no parentheses where
      the reader cuts, and no ':' (so no listing line looks like the
      header). */
  predicate Listable(r: RepoStatus) {
    '(' !in r.name && ')' !in r.name && ')' !in r.path && ':' !in r.name && ':' !in r.path
  }

  /** Lines that neither hold the header nor are read before it. */
  lemma {:induction false} SilentPrefix(pre: seq<string>, rest: seq<string>)
    requires forall i :: 0 <= i < |pre| ==> !Contains(pre[i], Header)
    ensures DirtyFiles.ListingFrom(false, pre + rest) == DirtyFiles.ListingFrom(false, rest)
    decreases |pre|
  {
    if |pre| > 0 {
      assert (pre + rest)[0] == pre[0];
      assert (pre + rest)[1..] == pre[1..] + rest;
      SilentPrefix(pre[1..], rest);
    } else {
      assert pre + rest == rest;
    }
  }

  /** A line missing one of the header's characters around a number
      does not hold the header. */
  lemma NumberLine(a: string, digits: string, b: string, c: char)
    requires c in Header && c !in a && c !in digits && c !in b
    ensures !Contains(a + digits + b, Header)
  {
    MissingChar(a + digits + b, Header, c);
  }

  /** Seven lines none of which holds the header are skipped. */
  lemma SkipSeven(l0: string, l1: string, l2: string, l3: string, l4: string, l5: string, l6: string,
                  rest: seq<string>)
    requires !Contains(l0, Header) && !Contains(l1, Header) && !Contains(l2, Header) && !Contains(l3, Header)
    requires !Contains(l4, Header) && !Contains(l5, Header) && !Contains(l6, Header)
    ensures DirtyFiles.ListingFrom(false, [l0, l1, l2, l3, l4, l5, l6] + rest) == DirtyFiles.ListingFrom(false, rest)
  {
    SilentPrefix([l0, l1, l2, l3, l4, l5, l6], rest);
  }

  lemma StartingSilent()
    ensures !Contains("Git Submodules Monitor starting...\n", Header)
  {
    MissingChar("Git Submodules Monitor starting...\n", Header, 'D');
  }

  lemma GeneratedSilent()
    ensures !Contains("Report generated\n", Header)
  {
    MissingChar("Report generated\n", Header, 'D');
  }

  lemma SummarySilent()
    ensures !Contains("Repository status summary:\n", Header)
  {
    MissingChar("Repository status summary:\n", Header, 'D');
  }

  lemma DepthLine(c: Config)
    requires 'D' !in c.repoPath
    ensures !Contains("Monitoring repository: " + c.repoPath + " (max depth: " + IntToString(c.maxDepth) + ")\n", Header)
  {
    NumberLine("Monitoring repository: " + c.repoPath + " (max depth: ", IntToString(c.maxDepth), ")\n", 'D');
  }

  lemma CheckedLine(n: nat)
    ensures !Contains("Checked " + NatToString(n) + " repositories\n", Header)
  {
    NumberLine("Checked ", NatToString(n), " repositories\n", 'D');
  }

  lemma CleanLine(n: nat)
    ensures !Contains("  Clean: " + NatToString(n) + "\n", Header)
  {
    NumberLine("  Clean: ", NatToString(n), "\n", 'D');
  }

  lemma DirtyLine(n: nat)
    ensures !Contains("  Dirty: " + NatToString(n) + "\n", Header)
  {
    NumberLine("  Dirty: ", NatToString(n), "\n", 'p');
  }

  /** The dirty-files analyzer, reading the monitor's standard output,
      skips the seven lines before the heading. */
  lemma OutputSkipsPreamble(c: Config, rs: seq<RepoStatus>)
    requires 'D' !in c.repoPath
    ensures DirtyFiles.ParseDirtyListing(MonitorOutput(c, rs)) == DirtyFiles.ListingFrom(false, Closing(rs))
  {
    StartingSilent();
    DepthLine(c);
    CheckedLine(|rs|);
    GeneratedSilent();
    SummarySilent();
    CleanLine(CleanCount(rs));
    DirtyLine(DirtyCount(rs));
    SkipSeven("Git Submodules Monitor starting...\n",
              "Monitoring repository: " + c.repoPath + " (max depth: " + IntToString(c.maxDepth) + ")\n",
              "Checked " + NatToString(|rs|) + " repositories\n",
              "Report generated\n",
              "Repository status summary:\n",
              "  Clean: " + NatToString(CleanCount(rs)) + "\n",
              "  Dirty: " + NatToString(DirtyCount(rs)) + "\n",
              Closing(rs));
  }

  lemma ListingLineBack(r: RepoStatus)
    requires Listable(r)
    ensures !Contains(ListingLine(r), Header)
    ensures DirtyFiles.ListedRepo(ListingLine(r)) == Some(DirtyFiles.DirtyRepo(r.path, r.name + " ", []))
  {
    MissingChar(ListingLine(r), Header, ':');
    DirtyFiles.ListingLineRoundTrip(r.name, r.path);
  }

  /** After the header, a line other than the header adds what it lists. */
  lemma ListingStep(line: string, rest: seq<string>)
    requires !Contains(line, Header)
    ensures DirtyFiles.ListingFrom(true, [line] + rest)
            == (match DirtyFiles.ListedRepo(line) case Some(x) => [x] case None => [])
               + DirtyFiles.ListingFrom(true, rest)
  {
    assert ([line] + rest)[0] == line && ([line] + rest)[1..] == rest;
  }

  lemma CompletedSilent()
    ensures !Contains(Completed, Header)
  {
    MissingChar(Completed, Header, 'D');
  }

  lemma CompletedUnlisted()
    ensures DirtyFiles.ListedRepo(Completed) == None
  {
    MissingChar(Completed, "  - ", '-');
  }

  /** A last line that neither holds the header nor lists a repository
      adds nothing, before or after the header. */
  lemma QuietLast(seen: bool, line: string)
    requires !Contains(line, Header) && DirtyFiles.ListedRepo(line) == None
    ensures DirtyFiles.ListingFrom(seen, [line]) == []
  {
    assert [line][1..] == [];
  }

  /** After the header, each listing line reads back as its repository and
      the closing line adds nothing. */
  lemma {:induction false} ListingBack(rs: seq<RepoStatus>)
    requires forall i :: 0 <= i < |rs| ==> Listable(rs[i])
    ensures DirtyFiles.ListingFrom(true, DirtyLines(rs) + [Completed]) == ListedBack(rs)
    decreases |rs|
  {
    if |rs| == 0 {
      ListingBackEmpty();
    } else {
      assert forall i :: 0 <= i < |rs[1..]| ==> rs[1..][i] == rs[i + 1];
      ListingBack(rs[1..]);
      if rs[0].isClean {
        ListingBackClean(rs);
      } else {
        ListingBackDirty(rs);
      }
    }
  }

  lemma ListingBackEmpty()
    ensures DirtyFiles.ListingFrom(true, DirtyLines([]) + [Completed]) == ListedBack([])
  {
    CompletedSilent();
    CompletedUnlisted();
    QuietLast(true, Completed);
    assert DirtyLines([]) + [Completed] == [Completed];
  }

  lemma ListingBackClean(rs: seq<RepoStatus>)
    requires |rs| > 0 && rs[0].isClean
    requires DirtyFiles.ListingFrom(true, DirtyLines(rs[1..]) + [Completed]) == ListedBack(rs[1..])
    ensures DirtyFiles.ListingFrom(true, DirtyLines(rs) + [Completed]) == ListedBack(rs)
  {
    assert DirtyLines(rs) == DirtyLines(rs[1..]);
  }

  lemma ListingBackDirty(rs: seq<RepoStatus>)
    requires |rs| > 0 && !rs[0].isClean && Listable(rs[0])
    requires DirtyFiles.ListingFrom(true, DirtyLines(rs[1..]) + [Completed]) == ListedBack(rs[1..])
    ensures DirtyFiles.ListingFrom(true, DirtyLines(rs) + [Completed]) == ListedBack(rs)
  {
    var tail := DirtyLines(rs[1..]) + [Completed];
    ListingLineBack(rs[0]);
    assert DirtyLines(rs) + [Completed] == [ListingLine(rs[0])] + tail;
    ListingStep(ListingLine(rs[0]), tail);
  }

  /** With no dirty repository nothing is listed. */
  lemma {:induction false} NothingDirty(rs: seq<RepoStatus>)
    requires DirtyCount(rs) == 0
    ensures ListedBack(rs) == []
  {
    if |rs| > 0 {
      NothingDirty(rs[1..]);
    }
  }

  /** With every repository clean, the analyzer finds none. */
  lemma CleanListingEmpty(c: Config, rs: seq<RepoStatus>)
    requires 'D' !in c.repoPath && DirtyCount(rs) == 0
    ensures DirtyFiles.ParseDirtyListing(MonitorOutput(c, rs)) == []
  {
    OutputSkipsPreamble(c, rs);
    CleanClosing(rs);
  }

  /** Past the preamble, the lines of a collection with a dirty
      repository read back as exactly its dirty repositories, in
      collection order. */
  lemma DirtyClosing(rs: seq<RepoStatus>)
    requires DirtyCount(rs) > 0
    requires forall i :: 0 <= i < |rs| ==> Listable(rs[i])
    ensures DirtyFiles.ListingFrom(false, Closing(rs)) == ListedBack(rs)
  {
    HeadingStarts(DirtyLines(rs) + [Completed]);
    ListingBack(rs);
  }

  lemma CleanClosing(rs: seq<RepoStatus>)
    requires DirtyCount(rs) == 0
    ensures DirtyFiles.ListingFrom(false, Closing(rs)) == ListedBack(rs)
  {
    CompletedSilent();
    CompletedUnlisted();
    QuietLast(false, Completed);
    NothingDirty(rs);
  }

  /** The heading switches the reader to the listing. */
  lemma HeadingStarts(rest: seq<string>)
    ensures DirtyFiles.ListingFrom(false, [DirtyHeading] + rest) == DirtyFiles.ListingFrom(true, rest)
  {
    assert DirtyHeading[..|Header|] == Header;
    OccursContains(DirtyHeading, Header, 0);
    assert ([DirtyHeading] + rest)[0] == DirtyHeading && ([DirtyHeading] + rest)[1..] == rest;
  }

  // ---------------------------------------------------------------------
  // The dirty-files analyzer on git-submodules.report

  /** The dirty repositories of a collection, in collection order, with the
      names and paths the report gives them. */
  function DirtyOf(rs: seq<RepoStatus>): (r: seq<DirtyFiles.DirtyRepo>)
    ensures |r| == DirtyCount(rs)
  {
    if |rs| == 0 then []
    else
      (if rs[0].isClean then [] else [DirtyFiles.DirtyRepo(rs[0].path, rs[0].name, [])])
      + DirtyOf(rs[1..])
  }

  lemma RepoObjectLineKeys(r: RepoStatus)
    ensures LineKeys(RepoObject(r))
  {
    var es := RepoObject(r).entries;
    assert forall j :: 0 <= j < |es| ==> '\n' !in es[j].0 && LineKeys(es[j].1);
  }

  lemma {:induction false} ObjectsLineKeys(rs: seq<RepoStatus>)
    ensures forall x :: x in RepoObjects(rs) ==> LineKeys(x)
    decreases |rs|
  {
    if |rs| > 0 {
      ObjectsStep(rs);
      RepoObjectLineKeys(rs[0]);
      ObjectsLineKeys(rs[1..]);
    }
  }

  lemma SummaryLineKeys(rs: seq<RepoStatus>)
    ensures LineKeys(SummaryObject(rs))
  {
    var ss := SummaryObject(rs).entries;
    assert forall j :: 0 <= j < |ss| ==> '\n' !in ss[j].0 && LineKeys(ss[j].1);
  }

  /** Every key of the report, at every depth, fits on one line. */
  lemma ReportLineKeys(rs: seq<RepoStatus>, repoPath: string, now: int)
    ensures LineKeys(Report(rs, repoPath, now))
  {
    ReportValuesLineKeys(rs, repoPath, now);
    ReportKeysNoNewline(rs, repoPath, now);
    ObjectLineKeys(Report(rs, repoPath, now));
  }

  lemma ReportValuesLineKeys(rs: seq<RepoStatus>, repoPath: string, now: int)
    ensures forall j :: 0 <= j < |Report(rs, repoPath, now).entries| ==> LineKeys(Report(rs, repoPath, now).entries[j].1)
  {
    var es := Report(rs, repoPath, now).entries;
    ObjectsLineKeys(rs);
    SummaryLineKeys(rs);
    forall j | 0 <= j < |es|
      ensures LineKeys(es[j].1)
    {
      if j == 4 {
        assert es[j].1 == JArray(RepoObjects(rs));
      } else if j == 5 {
        assert es[j].1 == SummaryObject(rs);
      } else {
        assert !es[j].1.JArray? && !es[j].1.JObject?;
      }
    }
  }

  lemma ReportKeysNoNewline(rs: seq<RepoStatus>, repoPath: string, now: int)
    ensures forall j :: 0 <= j < |Report(rs, repoPath, now).entries| ==> '\n' !in Report(rs, repoPath, now).entries[j].0
  {
    var es := Report(rs, repoPath, now).entries;
    ReportKeysOneLine();
    forall j | 0 <= j < |es|
      ensures '\n' !in es[j].0
    {
      if j == 0 { assert es[j].0 == "report_type"; }
      else if j == 1 { assert es[j].0 == "root_repository"; }
      else if j == 2 { assert es[j].0 == "timestamp"; }
      else if j == 3 { assert es[j].0 == "total_repositories_checked"; }
      else if j == 4 { assert es[j].0 == "repositories"; }
      else { assert es[j].0 == "summary"; }
    }
  }

  lemma ReportKeysOneLine()
    ensures '\n' !in "report_type" && '\n' !in "root_repository" && '\n' !in "timestamp"
    ensures '\n' !in "total_repositories_checked" && '\n' !in "repositories" && '\n' !in "summary"
  {
    assert '\n' !in "report_type";
    assert '\n' !in "root_repository";
    assert '\n' !in "timestamp";
    assert '\n' !in "total_repositories_checked";
    assert '\n' !in "repositories";
  }

  lemma ObjectLineKeys(v: Value)
    requires v.JObject?
    requires forall j :: 0 <= j < |v.entries| ==> '\n' !in v.entries[j].0 && LineKeys(v.entries[j].1)
    ensures LineKeys(v)
  {
    var es := v.entries;
    forall e | e in es
      ensures '\n' !in e.0 && LineKeys(e.1)
    {
      var j :| 0 <= j < |es| && es[j] == e;
    }
  }

  /** As written, dirty-files `main` reads git-submodules.report with the
      parser for "Repository:/Path:/Status:" sections. The monitor writes that
      file as one line of JSON, which never closes a section, so nothing is
      collected, however many repositories are dirty. */
  lemma JsonReportCollectsNothing(rs: seq<RepoStatus>, repoPath: string, now: int,
                                  num: string -> string, status: string -> seq<string>)
    requires forall t :: '\n' !in num(t)
    ensures var text := Stringify(Report(rs, repoPath, now), num);
            '\n' !in text && DirtyFiles.Analyze([text + "\n"], status) == []
  {
    var v := Report(rs, repoPath, now);
    ReportLineKeys(rs, repoPath, now);
    StringifyOneLine(v, num);
    StringifyDelimited(v, num);
    LongLineDropped(Stringify(v, num), status);
  }

  /** A single line longer than one byte closes no section. */
  lemma LongLineDropped(text: string, status: string -> seq<string>)
    requires |text| >= 1
    ensures DirtyFiles.Analyze([text + "\n"], status) == []
  {
    var lines := [text + "\n"];
    assert |lines[0]| > 1;
    DirtyFiles.UnclosedSectionDropped(DirtyFiles.NoSection, lines);
    assert DirtyFiles.ParseSubmodulesReport(lines) == [];
  }

  /** A report entry adds its repository to the JSON reader's list exactly
      when it is dirty. */
  lemma EntryOfObject(r: RepoStatus)
    ensures DirtyFiles.EntryRepos(RepoObject(r))
            == if r.isClean then [] else [DirtyFiles.DirtyRepo(r.path, r.name, [])]
  {
    RepoObjectFields(r);
    DirtyFiles.EntryReposOf(RepoObject(r), r.name, r.path, StatusWord(r));
    assert StatusWord(r) == "DIRTY" <==> !r.isClean;
  }

  lemma {:induction false} DirtyEntriesOf(rs: seq<RepoStatus>)
    ensures DirtyFiles.DirtyEntries(RepoObjects(rs)) == DirtyOf(rs)
    decreases |rs|
  {
    if |rs| > 0 {
      ObjectsStep(rs);
      DirtyFiles.DirtyEntriesCons(RepoObject(rs[0]), RepoObjects(rs[1..]));
      EntryOfObject(rs[0]);
      DirtyEntriesOf(rs[1..]);
    }
  }

  /** Corrected: a reader of the JSON report collects exactly the dirty
      repositories, in collection order, with their names and paths. */
  lemma JsonReaderFindsDirty(rs: seq<RepoStatus>, repoPath: string, now: int)
    ensures DirtyFiles.DirtyFromReport(Some(Report(rs, repoPath, now))) == DirtyOf(rs)
  {
    ReportEntries(rs, repoPath, now);
    DirtyEntriesOf(rs);
  }
}

=== FILE: styles.dfy ===
/** three-pane-tui/styles/styles.c: the colour of a file in the tree, the
    colour a repository's name hashes to, and the pass that keeps two
    neighbouring repositories from sharing a colour. Strings stand for the
    bytes before the terminator; a NULL name is None. */
module Styles {
  import opened Wrappers
  import opened Text

  /** The file part of `style_config_t`: the configured special file
      names and extensions, each with its colour, in configuration order. */
  datatype FileStyles = FileStyles(directoryColor: int, defaultColor: int,
                                   specials: seq<(string, int)>, extensions: seq<(string, int)>)

  /** The colour of the first entry whose name is `key` (the loops that
      return on the first `strcmp` hit). */
  function FirstMatch(entries: seq<(string, int)>, key: string): (r: Option<int>)
    ensures r.None? <==> forall i :: 0 <= i < |entries| ==> entries[i].0 != key
    ensures r.Some? ==> exists i :: 0 <= i < |entries| && entries[i] == (key, r.value)
                                    && forall j :: 0 <= j < i ==> entries[j].0 != key
  {
    if |entries| == 0 then None
    else if entries[0].0 == key then Some(entries[0].1)
    else
      var r := FirstMatch(entries[1..], key);
      assert forall j :: 1 <= j < |entries| ==> entries[j] == entries[1..][j - 1];
      r
  }

  /** The extension of a file name: from its last '.' on, dot included
      (`strrchr(filename, '.')`), or None without a dot. */
  function Extension(name: string): (r: Option<string>)
    ensures r.None? <==> '.' !in name
    ensures r.Some? ==> IsSuffix(r.value, name) && |r.value| > 0 && r.value[0] == '.' && '.' !in r.value[1..]
  {
    match LastIndexOf(name, '.')
    case None => None
    case Some(k) => Some(name[k..])
  }

  /** `get_file_color`. The source reads the last byte of the path, so a
      path must not be empty. A trailing '/' marks a directory; otherwise
      the name after the last '/' is looked up among the special files
      first and its extension among the extensions second. */
  function FileColor(path: string, st: FileStyles): (r: int)
    requires |path| > 0
    ensures path[|path| - 1] == '/' ==> r == st.directoryColor
    ensures path[|path| - 1] != '/' ==>
              var name := AfterLast(path, '/');
              if exists i :: 0 <= i < |st.specials| && st.specials[i].0 == name then
                exists i :: 0 <= i < |st.specials| && st.specials[i] == (name, r)
                            && forall j :: 0 <= j < i ==> st.specials[j].0 != name
              else if '.' in name && exists i :: 0 <= i < |st.extensions| && st.extensions[i].0 == Extension(name).value then
                exists i :: 0 <= i < |st.extensions| && st.extensions[i] == (Extension(name).value, r)
                            && forall j :: 0 <= j < i ==> st.extensions[j].0 != Extension(name).value
              else r == st.defaultColor
  {
    if path[|path| - 1] == '/' then st.directoryColor
    else
      var name := AfterLast(path, '/');
      match FirstMatch(st.specials, name)
      case Some(c) => c
      case None =>
        match Extension(name)
        case None => st.defaultColor
        case Some(ext) => FirstMatch(st.extensions, ext).GetOr(st.defaultColor)
  }

  /** A file named in the special list gets the colour of its first entry
      there, whatever its extension and whatever the extension list says. */
  lemma SpecialBeforeExtension(dir: string, name: string, color: int, st: FileStyles, i: nat)
    requires '/' !in name && |name| > 0
    requires i < |st.specials| && st.specials[i] == (name, color)
    requires forall j :: 0 <= j < i ==> st.specials[j].0 != name
    ensures FileColor(dir + "/" + name, st) == color
  {
    var path := dir + "/" + name;
    assert path[|path| - 1] == name[|name| - 1];
    AfterLastJoined(dir, name);
  }

  /** A file that is no special file, with a configured extension, gets the
      first colour configured for that extension. */
  lemma ExtensionColor(dir: string, stem: string, ext: string, color: int, st: FileStyles)
    requires '/' !in stem && '/' !in ext && '.' !in ext
    requires forall i :: 0 <= i < |st.specials| ==> st.specials[i].0 != stem + "." + ext
    requires FirstMatch(st.extensions, "." + ext) == Some(color)
    ensures FileColor(dir + "/" + (stem + "." + ext), st) == color
  {
    var name := stem + "." + ext;
    var path := dir + "/" + name;
    assert path[|path| - 1] == name[|name| - 1];
    assert name[|name| - 1] != '/';
    AfterLastJoined(dir, name);
    LastDotExtension(stem, ext);
  }

  /** A file that is no special file and whose extension is not configured
      (or that has no extension) gets the default colour. */
  lemma DefaultFileColor(dir: string, name: string, st: FileStyles)
    requires '/' !in name && |name| > 0
    requires forall i :: 0 <= i < |st.specials| ==> st.specials[i].0 != name
    requires '.' in name ==> forall i :: 0 <= i < |st.extensions| ==> st.extensions[i].0 != Extension(name).value
    ensures FileColor(dir + "/" + name, st) == st.defaultColor
  {
    var path := dir + "/" + name;
    assert path[|path| - 1] == name[|name| - 1];
    AfterLastJoined(dir, name);
  }

  /** The name after a directory and a slash is what follows the last '/'. */
  lemma AfterLastJoined(dir: string, name: string)
    requires '/' !in name
    ensures AfterLast(dir + "/" + name, '/') == name
  {
    var path := dir + "/" + name;
    var r := AfterLast(path, '/');
    assert path[|dir|] == '/';
    assert path[|path| - |r|..] == name;
  }

  /** The extension of "stem.ext" is ".ext" when `ext` has no dot. */
  lemma LastDotExtension(stem: string, ext: string)
    requires '.' !in ext
    ensures Extension(stem + "." + ext) == Some("." + ext)
  {
    var name := stem + "." + ext;
    var k := LastIndexOf(name, '.');
    assert name[|stem|] == '.';
    assert name[|stem|..] == "." + ext;
  }

  /** 2^64: `unsigned long` arithmetic wraps modulo this. */
  const ULongMod: int := 0x1_0000_0000_0000_0000

  /** The value `*p` adds: the byte read as a signed `char`, as on the
      platforms the tool targets. */
  function CharValue(c: char): (v: int)
    ensures -128 <= v < 128
  {
    var b := c as int % 256;
    if b >= 128 then b - 256 else b
  }

  /** The djb2 hash of `get_repo_color_index`, one byte at a time from the
      left: `hash = hash * 33 + c`, wrapping as `unsigned long`. */
  function Djb2(s: string): (h: int)
    ensures 0 <= h < ULongMod
  {
    if |s| == 0 then 5381
    else (Djb2(s[..|s| - 1]) * 33 + CharValue(s[|s| - 1])) % ULongMod
  }

  /** The sum of the byte values of a name. */
  function ByteSum(s: string): int {
    if |s| == 0 then 0 else ByteSum(s[..|s| - 1]) + CharValue(s[|s| - 1])
  }

  /** `get_repo_color_index`: 7 for a NULL name, else the hash modulo 8,
      plus 1. */
  function RepoColorIndex(name: Option<string>): (r: int)
    ensures 1 <= r <= 8
    ensures name.None? ==> r == 7
  {
    match name
    case None => 7
    case Some(s) => Djb2(s) % 8 + 1
  }

  /** The colour index depends only on the sum of the bytes: 2^64 and 32
      are multiples of 8, so modulo 8 each step of the hash just adds the
      byte. Anagrams therefore share a colour. */
  lemma {:induction false} Djb2Mod8(s: string)
    ensures Djb2(s) % 8 == (5 + ByteSum(s)) % 8
    decreases |s|
  {
    if |s| > 0 {
      var p := s[..|s| - 1];
      Djb2Mod8(p);
      var h, v, sum := Djb2(p), CharValue(s[|s| - 1]), ByteSum(p);
      var x := h * 33 + v;
      WrapMod8(x);
      ModUnique(x, (h + v) / 8 + 4 * h, (h + v) % 8);
      AddMod8(h, v);
      AddMod8(5 + sum, v);
    }
  }

  /** Wrapping modulo 2^64 keeps the remainder modulo 8. */
  lemma WrapMod8(x: int)
    ensures x % ULongMod % 8 == x % 8
  {
    var q := x / ULongMod;
    assert x == ULongMod * q + x % ULongMod;
    ModUnique(x % ULongMod, x / 8 - 0x2000_0000_0000_0000 * q, x % 8);
  }

  /** Euclidean division by 8 has one remainder. */
  lemma ModUnique(y: int, q: int, r: int)
    requires y == 8 * q + r && 0 <= r < 8
    ensures y % 8 == r
  {
  }

  lemma AddMod8(a: int, b: int)
    ensures (a + b) % 8 == (a % 8 + b) % 8
  {
    ModUnique(a + b, a / 8 + (a % 8 + b) / 8, (a % 8 + b) % 8);
  }

  /** The colour of a name, from the sum of its bytes. */
  lemma RepoColorBySum(s: string)
    ensures RepoColorIndex(Some(s)) == (5 + ByteSum(s)) % 8 + 1
  {
    Djb2Mod8(s);
  }

  /** The hashing loop of `get_repo_color_index`, over the bytes of a
      non-NULL name. */
  method RepoColorIndexLoop(s: string) returns (r: int)
    ensures r == RepoColorIndex(Some(s))
  {
    var hash := 5381;
    var i := 0;
    while i < |s|
      invariant 0 <= i <= |s|
      invariant hash == Djb2(s[..i])
    {
      assert s[..i + 1][..i] == s[..i];
      hash := (hash * 33 + CharValue(s[i])) % ULongMod;
      i := i + 1;
    }
    assert s[..|s|] == s;
    r := hash % 8 + 1;
  }

  /** The palette of `color_index_to_ansi`. */
  const Palette: seq<int> := [31, 32, 33, 34, 35, 36, 37, 92]

  /** `color_index_to_ansi`: indices 1 to 8 pick from the palette, any
      other index gives white (37). */
  function ColorIndexToAnsi(index: int): (r: int)
    ensures 1 <= index <= 8 ==> r == Palette[index - 1]
    ensures !(1 <= index <= 8) ==> r == 37
  {
    if 1 <= index <= 8 then Palette[index - 1] else 37
  }

  /** Different indices in range give different colours, so the palette
      really has eight colours. */
  lemma PaletteDistinct(i: int, j: int)
    requires 1 <= i <= 8 && 1 <= j <= 8 && i != j
    ensures ColorIndexToAnsi(i) != ColorIndexToAnsi(j)
  {
  }

  /** `get_repo_color`: the ANSI code of the name's index. */
  function RepoColor(name: Option<string>): (r: int)
    ensures r in Palette
    ensures r == 37 <==> RepoColorIndex(name) == 7
  {
    ColorIndexToAnsi(RepoColorIndex(name))
  }

  /** C's `%` on a possibly negative `int`: the remainder takes the sign of
      the dividend. */
  function CRem(a: int, b: int): (r: int)
    requires b > 0
    ensures a >= 0 ==> 0 <= r < b
    ensures a < 0 ==> -b < r <= 0
  {
    a - TruncDiv(a, b) * b
  }

  /** The bump `adjust_colors_no_touching` gives a colour: `(c % 8) + 1`. */
  function Bump(c: int): (r: int)
    ensures r != c
    ensures 1 <= c <= 8 ==> 1 <= r <= 8
  {
    CRem(c, 8) + 1
  }

  /** `adjust_colors_no_touching` after position 0: each colour equal to its
      (already adjusted) left neighbour `prev` is bumped. */
  function AdjustFrom(prev: int, cs: seq<int>): (r: seq<int>)
    decreases |cs|
    ensures |r| == |cs|
    ensures |cs| > 0 ==> r[0] != prev
    ensures forall i :: 1 <= i < |cs| ==> r[i] != r[i - 1]
    ensures forall i :: 0 <= i < |cs| ==> r[i] == cs[i] || r[i] == Bump(cs[i])
  {
    if |cs| == 0 then []
    else
      var c := if cs[0] == prev then Bump(cs[0]) else cs[0];
      var rest := AdjustFrom(c, cs[1..]);
      var r := [c] + rest;
      assert forall i :: 1 <= i < |cs| ==> r[i] == rest[i - 1] && cs[i] == cs[1..][i - 1];
      r
  }

  /** `adjust_colors_no_touching` on the whole array: the first colour
      stays, and arrays of at most one colour are left alone. */
  function AdjustColors(cs: seq<int>): (r: seq<int>)
    ensures |r| == |cs|
    ensures |cs| > 0 ==> r[0] == cs[0]
    ensures forall i :: 1 <= i < |r| ==> r[i] != r[i - 1]
    ensures forall i :: 0 <= i < |cs| ==> r[i] == cs[i] || r[i] == Bump(cs[i])
  {
    if |cs| <= 1 then cs else [cs[0]] + AdjustFrom(cs[0], cs[1..])
  }

  /** Colours in 1..8 stay in 1..8. */
  lemma AdjustInRange(cs: seq<int>)
    requires forall i :: 0 <= i < |cs| ==> 1 <= cs[i] <= 8
    ensures forall i :: 0 <= i < |cs| ==> 1 <= AdjustColors(cs)[i] <= 8
  {
    var r := AdjustColors(cs);
    forall i | 0 <= i < |cs|
      ensures 1 <= r[i] <= 8
    {
      assert r[i] == cs[i] || r[i] == Bump(cs[i]);
    }
  }

  /** Colours that already alternate come back unchanged. */
  lemma {:induction false} AdjustNoTouchingIdentity(prev: int, cs: seq<int>)
    requires |cs| > 0 ==> cs[0] != prev
    requires forall i :: 1 <= i < |cs| ==> cs[i] != cs[i - 1]
    ensures AdjustFrom(prev, cs) == cs
    decreases |cs|
  {
    if |cs| > 0 {
      assert forall i :: 1 <= i < |cs| - 1 ==> cs[1..][i] == cs[i + 1] && cs[1..][i - 1] == cs[i];
      AdjustNoTouchingIdentity(cs[0], cs[1..]);
      assert cs == [cs[0]] + cs[1..];
    }
  }

  /** One step of the adjustment: the first colour, bumped when it equals
      its left neighbour, then the rest against it. */
  lemma AdjustStep(prev: int, cs: seq<int>)
    requires |cs| > 0
    ensures var c := if cs[0] == prev then Bump(cs[0]) else cs[0];
            AdjustFrom(prev, cs) == [c] + AdjustFrom(c, cs[1..])
  {
  }

  /** The loop of `adjust_colors_no_touching`, left to right, each colour
      compared with its already adjusted left neighbour. */
  method AdjustColorsLoop(cs: seq<int>) returns (r: seq<int>)
    ensures r == AdjustColors(cs)
  {
    if |cs| <= 1 {
      return cs;
    }
    r := [cs[0]];
    var i := 1;
    while i < |cs|
      invariant 1 <= i <= |cs| && |r| == i
      invariant r + AdjustFrom(r[i - 1], cs[i..]) == AdjustColors(cs)
    {
      var c := if cs[i] == r[i - 1] then Bump(cs[i]) else cs[i];
      AdjustStep(r[i - 1], cs[i..]);
      assert cs[i..][1..] == cs[i + 1..];
      assert r + ([c] + AdjustFrom(c, cs[i + 1..])) == (r + [c]) + AdjustFrom(c, cs[i + 1..]);
      r := r + [c];
      i := i + 1;
    }
    assert cs[i..] == [];
    assert r + [] == r;
  }
}

=== FILE: text.dfy ===
/** String helpers shared by the Python and C models. A Python `str` is a
    sequence of code points; a C string is the sequence of its bytes before the
    terminating NUL, each byte written as a `char` below 256. */
module Text {
  import opened Wrappers

  /** `p` is a prefix of `s` (Python `s.startswith(p)`, C `strncmp(s, p, strlen(p)) == 0`). */
  predicate IsPrefix(p: string, s: string) {
    |p| <= |s| && s[..|p|] == p
  }

  /** `p` is a suffix of `s` (Python `s.endswith(p)`). */
  predicate IsSuffix(p: string, s: string) {
    |p| <= |s| && s[|s| - |p|..] == p
  }

  /** `pat` occurs in `s` starting at index `i`. */
  predicate OccursAt(s: string, pat: string, i: nat) {
    i + |pat| <= |s| && s[i..i + |pat|] == pat
  }

  /** The first index at or after `from` where `pat` occurs. */
  function FindFrom(s: string, pat: string, from: nat): (r: Option<nat>)
    ensures r.Some? ==> from <= r.value && OccursAt(s, pat, r.value)
    ensures r.Some? ==> forall j :: from <= j < r.value ==> !OccursAt(s, pat, j)
    ensures r.None? ==> forall j :: from <= j ==> !OccursAt(s, pat, j)
    decreases |s| - from
  {
    if from + |pat| > |s| then None
    else if s[from..from + |pat|] == pat then Some(from)
    else FindFrom(s, pat, from + 1)
  }

  /** Python `s.find(pat)` / C `strstr(s, pat)`: the first occurrence, if any. */
  function Find(s: string, pat: string): Option<nat> {
    FindFrom(s, pat, 0)
  }

  /** Python `pat in s`, C `strstr(s, pat) != NULL`. */
  predicate Contains(s: string, pat: string) {
    Find(s, pat).Some?
  }

  /** A witness index turns into containment. */
  lemma OccursContains(s: string, pat: string, i: nat)
    requires OccursAt(s, pat, i)
    ensures Contains(s, pat)
  {
  }

  /** A position where a pattern's character is missed is not where it
      is first found. */
  lemma SkipMismatch(s: string, pat: string, from: nat, k: nat)
    requires from + |pat| <= |s| && k < |pat| && s[from + k] != pat[k]
    ensures FindFrom(s, pat, from) == FindFrom(s, pat, from + 1)
  {
    assert s[from..from + |pat|][k] == s[from + k];
  }

  /** A pattern holding a character the text lacks does not occur in it. */
  lemma MissingChar(s: string, pat: string, c: char)
    requires c in pat && c !in s
    ensures !Contains(s, pat)
  {
  }

  /** Some pattern of `pats` occurs in `s` (a Python `any(p in s for p in pats)` loop). */
  function AnyContains(pats: seq<string>, s: string): bool {
    if |pats| == 0 then false else Contains(s, pats[0]) || AnyContains(pats[1..], s)
  }

  lemma {:induction false} AnyContainsIff(pats: seq<string>, s: string)
    ensures AnyContains(pats, s) <==> exists i :: 0 <= i < |pats| && Contains(s, pats[i])
  {
    if |pats| > 0 {
      AnyContainsIff(pats[1..], s);
      assert forall i :: 1 <= i < |pats| ==> pats[i] == pats[1..][i - 1];
      if !Contains(s, pats[0]) && exists i :: 0 <= i < |pats| && Contains(s, pats[i]) {
        var i :| 0 <= i < |pats| && Contains(s, pats[i]);
        assert Contains(s, pats[1..][i - 1]);
      }
    }
  }

  /** Some pattern of `pats` ends `s` (a loop of `s.endswith(p)` tests). */
  function AnySuffix(pats: seq<string>, s: string): bool {
    if |pats| == 0 then false else IsSuffix(pats[0], s) || AnySuffix(pats[1..], s)
  }

  lemma {:induction false} AnySuffixIff(pats: seq<string>, s: string)
    ensures AnySuffix(pats, s) <==> exists i :: 0 <= i < |pats| && IsSuffix(pats[i], s)
  {
    if |pats| > 0 {
      AnySuffixIff(pats[1..], s);
      assert forall i :: 1 <= i < |pats| ==> pats[i] == pats[1..][i - 1];
      if !IsSuffix(pats[0], s) && exists i :: 0 <= i < |pats| && IsSuffix(pats[i], s) {
        var i :| 0 <= i < |pats| && IsSuffix(pats[i], s);
        assert IsSuffix(pats[1..][i - 1], s);
      }
    }
  }

  /** The first index of character `c` (C `strchr`). */
  function IndexOf(s: string, c: char): (r: Option<nat>)
    ensures r.Some? ==> r.value < |s| && s[r.value] == c && c !in s[..r.value]
    ensures r.None? ==> c !in s
  {
    if |s| == 0 then None
    else if s[0] == c then Some(0)
    else
      match IndexOf(s[1..], c)
      case None => None
      case Some(k) => assert s[1..][..k] == s[1..k + 1]; Some(k + 1)
  }

  /** The text before the first `c`, or all of `s` (`strchr` and cut). */
  function UpTo(s: string, c: char): (r: string)
    ensures IsPrefix(r, s) && c !in r
    ensures |r| < |s| ==> s[|r|] == c
  {
    match IndexOf(s, c)
    case None => s
    case Some(k) => s[..k]
  }

  /** Text without `c` followed by `c` is cut right there. */
  lemma UpToFirst(a: string, c: char, rest: string)
    requires c !in a
    ensures UpTo(a + [c] + rest, c) == a
  {
    var s := a + [c] + rest;
    assert s[|a|] == c && s[..|a|] == a;
    IndexOfFirst(s, c, |a|);
  }

  /** The last index of character `c` (C `strrchr`, Python `rfind`). */
  function LastIndexOf(s: string, c: char): (r: Option<nat>)
    ensures r.Some? ==> r.value < |s| && s[r.value] == c && c !in s[r.value + 1..]
    ensures r.None? ==> c !in s
  {
    if |s| == 0 then None
    else if s[|s| - 1] == c then Some(|s| - 1)
    else
      match LastIndexOf(s[..|s| - 1], c)
      case None => None
      case Some(k) => assert s[k + 1..] == s[..|s| - 1][k + 1..] + [s[|s| - 1]]; Some(k)
  }

  /** The text after the last `c`, or all of `s` when `c` does not occur:
      `strrchr(s, c) ? strrchr(s, c) + 1 : s`. */
  function AfterLast(s: string, c: char): (r: string)
    ensures c !in r
    ensures IsSuffix(r, s)
    ensures |r| < |s| ==> s[|s| - |r| - 1] == c
  {
    match LastIndexOf(s, c)
    case None => s
    case Some(k) => s[k + 1..]
  }

  /** Python `s.split(sep)` for a one-character separator. */
  function Split(s: string, sep: char): (r: seq<string>)
    ensures |r| >= 1
    ensures forall i :: 0 <= i < |r| ==> sep !in r[i]
    decreases |s|
  {
    match IndexOf(s, sep)
    case None => [s]
    case Some(k) => [s[..k]] + Split(s[k + 1..], sep)
  }

  /** Python `s.split(sep, n)`: at most `n` splits, the rest left whole in
      the last piece. */
  function SplitMax(s: string, sep: char, n: nat): (r: seq<string>)
    ensures 1 <= |r| <= n + 1
    ensures forall i :: 0 <= i < |r| - 1 ==> sep !in r[i]
    ensures |r| <= n ==> sep !in r[|r| - 1]
    ensures Join(r, [sep]) == s
    decreases n
  {
    if n == 0 then [s]
    else
      match IndexOf(s, sep)
      case None => [s]
      case Some(k) =>
        var rest := SplitMax(s[k + 1..], sep, n - 1);
        assert s == s[..k] + [sep] + s[k + 1..];
        [s[..k]] + rest
  }

  /** Python `s.replace(pat, rep)`: every non-overlapping occurrence, left
      to right. */
  function Replace(s: string, pat: string, rep: string): (r: string)
    requires |pat| > 0
    ensures !Contains(s, pat) ==> r == s
    decreases |s|
  {
    if |s| < |pat| then s
    else if s[..|pat|] == pat then
      rep + Replace(s[|pat|..], pat, rep)
    else
      var rest := Replace(s[1..], pat, rep);
      ContainsTail(s, pat);
      assert s == [s[0]] + s[1..];
      [s[0]] + rest
  }

  /** Regrouping a concatenation, stated once for every element type. */
  lemma ConcatAssoc<T>(a: seq<T>, b: seq<T>, c: seq<T>)
    ensures a + b + c == a + (b + c)
  {
  }

  /** An occurrence after the first character is an occurrence. */
  lemma ContainsTail(s: string, pat: string)
    requires |s| > 0
    ensures Contains(s[1..], pat) ==> Contains(s, pat)
  {
    if Contains(s[1..], pat) {
      var k := Find(s[1..], pat).value;
      assert s[k + 1..k + 1 + |pat|] == s[1..][k..k + |pat|];
      OccursContains(s, pat, k + 1);
    }
  }

  /** Python `sep.join(parts)`. */
  function Join(parts: seq<string>, sep: string): string {
    if |parts| == 0 then ""
    else if |parts| == 1 then parts[0]
    else parts[0] + sep + Join(parts[1..], sep)
  }

  /** Joining the pieces of a split puts the separators back. */
  lemma {:induction false} JoinSplit(s: string, sep: char)
    ensures Join(Split(s, sep), [sep]) == s
    decreases |s|
  {
    match IndexOf(s, sep)
    case None =>
    case Some(k) =>
      JoinSplit(s[k + 1..], sep);
      JoinCons(s[..k], Split(s[k + 1..], sep), [sep]);
      assert s == s[..k] + [sep] + s[k + 1..];
  }

  lemma JoinCons(a: string, xs: seq<string>, sep: string)
    requires |xs| >= 1
    ensures Join([a] + xs, sep) == a + sep + Join(xs, sep)
  {
    assert ([a] + xs)[1..] == xs;
  }

  /** `IndexOf` finds the first occurrence. */
  lemma IndexOfFirst(s: string, c: char, k: nat)
    requires k < |s| && s[k] == c && c !in s[..k]
    ensures IndexOf(s, c) == Some(k)
  {
  }

  /** Splitting a join of separator-free pieces gives the pieces back. */
  lemma {:induction false} SplitJoin(parts: seq<string>, sep: char)
    requires |parts| >= 1
    requires forall i :: 0 <= i < |parts| ==> sep !in parts[i]
    ensures Split(Join(parts, [sep]), sep) == parts
    decreases |parts|
  {
    if |parts| > 1 {
      var s := Join(parts, [sep]);
      assert s == parts[0] + [sep] + Join(parts[1..], [sep]);
      assert s[..|parts[0]|] == parts[0];
      assert s[|parts[0]|] == sep;
      IndexOfFirst(s, sep, |parts[0]|);
      assert s[|parts[0]| + 1..] == Join(parts[1..], [sep]);
      SplitJoin(parts[1..], sep);
    }
  }

  /** C `isspace` in the "C" locale. */
  predicate IsCSpace(c: char) {
    c == ' ' || c == '\t' || c == '\n' || c == '\U{0B}' || c == '\U{0C}' || c == '\r'
  }

  /** Python `str.isspace` for one code point: the characters `str.strip()` removes. */
  predicate IsPySpace(c: char) {
    ('\t' <= c <= '\r') || ('\U{1C}' <= c <= '\U{1F}') || c == ' ' || c == '\U{85}' || c == '\U{A0}'
    || c == '\U{1680}' || ('\U{2000}' <= c <= '\U{200A}') || c == '\U{2028}' || c == '\U{2029}'
    || c == '\U{202F}' || c == '\U{205F}' || c == '\U{3000}'
  }

  /** Python `s.lstrip()`. */
  function PyLStrip(s: string): (r: string)
    ensures IsSuffix(r, s)
    ensures |r| > 0 ==> !IsPySpace(r[0])
    ensures forall i :: 0 <= i < |s| - |r| ==> IsPySpace(s[i])
  {
    if |s| > 0 && IsPySpace(s[0]) then PyLStrip(s[1..]) else s
  }

  /** Python `s.rstrip()`. */
  function PyRStrip(s: string): (r: string)
    ensures IsPrefix(r, s)
    ensures |r| > 0 ==> !IsPySpace(r[|r| - 1])
    ensures forall i :: |r| <= i < |s| ==> IsPySpace(s[i])
  {
    if |s| > 0 && IsPySpace(s[|s| - 1]) then PyRStrip(s[..|s| - 1]) else s
  }

  /** Python `s.strip()`. */
  function PyStrip(s: string): string {
    PyRStrip(PyLStrip(s))
  }

  /** A string made only of `str.isspace` characters strips to nothing. */
  lemma StripBlank(s: string)
    requires forall i :: 0 <= i < |s| ==> IsPySpace(s[i])
    ensures PyStrip(s) == ""
  {
  }

  /** Stripping leaves a string alone when it neither starts nor ends with
      whitespace. */
  lemma StripClean(s: string)
    requires |s| > 0 ==> !IsPySpace(s[0]) && !IsPySpace(s[|s| - 1])
    ensures PyStrip(s) == s
  {
  }

  /** A string with a non-whitespace character does not strip to nothing. */
  lemma StripKeeps(s: string, i: nat)
    requires i < |s| && !IsPySpace(s[i])
    ensures PyStrip(s) != ""
  {
    var l := PyLStrip(s);
    assert l[i - (|s| - |l|)] == s[i];
  }

  /** A non-blank string without a newline is one non-blank line. */
  lemma OneLine(s: string, i: nat)
    requires i < |s| && !IsPySpace(s[i]) && '\n' !in s
    ensures NonBlank(Split(s, '\n')) == [s]
  {
    StripKeeps(s, i);
    assert Split(s, '\n') == [s];
  }

  /** Splitting at most `n > 0` times at a separator-free head splits off the head. */
  lemma SplitMaxHead(a: string, rest: string, sep: char, n: nat)
    requires sep !in a && n > 0
    ensures SplitMax(a + [sep] + rest, sep, n) == [a] + SplitMax(rest, sep, n - 1)
  {
    var s := a + [sep] + rest;
    IndexOfFirst(s, sep, |a|);
    assert s[..|a|] == a && s[|a| + 1..] == rest;
  }

  /** The first piece of a split is the text before the first separator. */
  lemma SplitFirst(s: string, sep: char)
    ensures Split(s, sep)[0] == UpTo(s, sep)
  {
  }

  /** `s.split(sep, 1)`: the whole text when the separator is missing, else
      the text before its first occurrence and the text after it. */
  lemma SplitOnce(s: string, sep: char)
    ensures sep !in s ==> SplitMax(s, sep, 1) == [s]
    ensures sep in s ==> |UpTo(s, sep)| < |s| && SplitMax(s, sep, 1) == [UpTo(s, sep), s[|UpTo(s, sep)| + 1..]]
  {
  }

  /** Without a separator there is nothing to split. */
  lemma SplitMaxNone(s: string, sep: char, n: nat)
    requires sep !in s
    ensures SplitMax(s, sep, n) == [s]
  {
  }

  /** The lines `[l for l in lines if l.strip()]`. */
  function NonBlank(lines: seq<string>): (r: seq<string>)
    ensures |r| <= |lines|
    ensures forall i :: 0 <= i < |r| ==> PyStrip(r[i]) != "" && r[i] in lines
    ensures forall l :: l in lines && PyStrip(l) != "" ==> l in r
  {
    if |lines| == 0 then []
    else (if PyStrip(lines[0]) != "" then [lines[0]] else []) + NonBlank(lines[1..])
  }

  /** Lines that are all non-blank are kept as they are. */
  lemma {:induction false} NonBlankAll(lines: seq<string>)
    requires forall i :: 0 <= i < |lines| ==> PyStrip(lines[i]) != ""
    ensures NonBlank(lines) == lines
  {
    if |lines| > 0 {
      var rest := lines[1..];
      assert forall i :: 0 <= i < |rest| ==> rest[i] == lines[i + 1];
      NonBlankAll(rest);
      assert NonBlank(lines) == [lines[0]] + NonBlank(rest);
      assert lines == [lines[0]] + rest;
    }
  }

  /** The strings that are not empty, in order (what `strtok` keeps of a
      split, or a loop skipping empty lines). */
  function NonEmpty(ps: seq<string>): (r: seq<string>)
    ensures forall i :: 0 <= i < |r| ==> r[i] != "" && r[i] in ps
    ensures forall l :: l in ps && l != "" ==> l in r
  {
    if |ps| == 0 then []
    else if ps[0] == "" then NonEmpty(ps[1..])
    else [ps[0]] + NonEmpty(ps[1..])
  }

  /** Nothing is dropped when no part is empty. */
  lemma {:induction false} NonEmptyAll(ps: seq<string>)
    requires forall i :: 0 <= i < |ps| ==> ps[i] != ""
    ensures NonEmpty(ps) == ps
  {
    if |ps| > 0 {
      var rest := ps[1..];
      assert forall i :: 0 <= i < |rest| ==> rest[i] == ps[i + 1];
      NonEmptyAll(rest);
      assert ps == [ps[0]] + rest;
    }
  }

  lemma {:induction false} NonEmptyAppend(a: seq<string>, b: seq<string>)
    ensures NonEmpty(a + b) == NonEmpty(a) + NonEmpty(b)
  {
    if |a| > 0 {
      assert (a + b)[0] == a[0] && (a + b)[1..] == a[1..] + b;
      NonEmptyAppend(a[1..], b);
    } else {
      assert a + b == b;
    }
  }

  /** ASCII-only `str.lower()` for one character. */
  function AsciiLower(c: char): char {
    if 'A' <= c <= 'Z' then (c as int + 32) as char else c
  }

  /** ASCII-only `str.upper()` for one character. */
  function AsciiUpper(c: char): char {
    if 'a' <= c <= 'z' then (c as int - 32) as char else c
  }

  /** ASCII-only `str.lower()`. */
  function Lower(s: string): (r: string)
    ensures |r| == |s|
    ensures forall i :: 0 <= i < |s| ==> r[i] == AsciiLower(s[i])
  {
    if |s| == 0 then "" else [AsciiLower(s[0])] + Lower(s[1..])
  }

  /** Decimal digits of a natural number, as `str(n)` or `%d`/`%zu` print it. */
  function NatToString(n: nat): (r: string)
    ensures |r| >= 1
    ensures forall i :: 0 <= i < |r| ==> '0' <= r[i] <= '9'
  {
    if n < 10 then [('0' as int + n) as char]
    else NatToString(n / 10) + [('0' as int + n % 10) as char]
  }

  predicate IsDigit(c: char) {
    '0' <= c <= '9'
  }

  /** The value of a run of decimal digits. */
  function DigitsValue(s: string): nat
    requires forall i :: 0 <= i < |s| ==> IsDigit(s[i])
  {
    if |s| == 0 then 0
    else
      assert IsDigit(s[|s| - 1]);
      DigitsValue(s[..|s| - 1]) * 10 + (s[|s| - 1] as int - '0' as int)
  }

  /** A count read back from its decimal text: one or more digits and
      nothing else. */
  function ParseNat(s: string): (r: Option<nat>)
    ensures r.Some? <==> |s| > 0 && forall i :: 0 <= i < |s| ==> IsDigit(s[i])
  {
    if |s| > 0 && forall i :: 0 <= i < |s| ==> IsDigit(s[i]) then Some(DigitsValue(s)) else None
  }

  /** Printed counts read back to themselves. */
  lemma {:induction false} NatToStringRoundTrip(n: nat)
    ensures ParseNat(NatToString(n)) == Some(n)
  {
    var s := NatToString(n);
    if n < 10 {
      assert s[..0] == "";
    } else {
      NatToStringRoundTrip(n / 10);
      assert s[..|s| - 1] == NatToString(n / 10);
      assert DigitsValue(s) == DigitsValue(NatToString(n / 10)) * 10 + n % 10;
    }
  }

  /** Python `int(a / b)` or C integer division: the quotient truncated
      toward zero. */
  function TruncDiv(a: int, b: int): (q: int)
    requires b > 0
    ensures a >= 0 ==> q * b <= a < (q + 1) * b
    ensures a < 0 ==> (q - 1) * b < a <= q * b
  {
    if a >= 0 then a / b else -((-a) / b)
  }

  /** `str(i)` or `%d` for any integer. */
  function IntToString(i: int): string {
    if i < 0 then "-" + NatToString(-i) else NatToString(i)
  }

  /** Python slicing `s[:n]` for `n >= 0`: at most the first `n` characters. */
  function Take(s: string, n: nat): (r: string)
    ensures IsPrefix(r, s)
    ensures |r| == if n < |s| then n else |s|
  {
    if n < |s| then s[..n] else s
  }

  /** Python slicing `s[n:]` for `n >= 0`: everything after the first `n` characters. */
  function Drop(s: string, n: nat): (r: string)
    ensures IsSuffix(r, s)
    ensures |r| == if n < |s| then |s| - n else 0
  {
    if n < |s| then s[n..] else ""
  }

  /** `n` copies of `c`. */
  function Repeat(c: char, n: nat): (r: string)
    ensures |r| == n
    ensures forall i :: 0 <= i < n ==> r[i] == c
  {
    if n == 0 then "" else [c] + Repeat(c, n - 1)
  }
}

=== FILE: tree_build.dfy ===
/** interactive-dirty-files-tui/interactive-dirty-files-tui.c: `build_file_tree`
    grows a tree under a "/" root from the report's flat paths, one `strtok`
    segment at a time, reusing the first child with the segment's name.
    When it creates a directory it reads one segment ahead to decide whether
    the node is a file, and its attempt to "put the token back" never does:
    with exactly one segment left, that segment is consumed and dropped;
    with more, `strtok` is left pointing into a buffer that was just freed.
    `AddPathAsWritten` is the code as written, with the undefined case as
    `None`; `AddPath` is the walk the comments describe. */
module TreeBuild {
  import opened Wrappers
  import opened Text
  import opened FileTree

  /** The segments `strtok(path, "/")` hands out (a leading '/' included
      in the skipped separators). */
  function PathTokens(path: string): (r: seq<string>)
    ensures forall i :: 0 <= i < |r| ==> r[i] != "" && '/' !in r[i]
  {
    NonEmpty(Split(path, '/'))
  }

  /** Segments joined with '/' cut back into the same segments. */
  lemma TokensOfJoin(segs: seq<string>)
    requires |segs| >= 1
    requires forall i :: 0 <= i < |segs| ==> segs[i] != "" && '/' !in segs[i]
    ensures PathTokens(Join(segs, "/")) == segs
  {
    SplitJoin(segs, '/');
    NonEmptyAll(segs);
  }

  /** The first child with the given name, as the `strcmp` loop finds it. */
  function FindChild(kids: seq<TreeNode>, name: string): (r: Option<nat>)
    ensures r.Some? ==> r.value < |kids| && kids[r.value].name == name
    ensures r.Some? ==> forall i :: 0 <= i < r.value ==> kids[i].name != name
    ensures r.None? ==> forall i :: 0 <= i < |kids| ==> kids[i].name != name
  {
    if |kids| == 0 then None
    else if kids[0].name == name then Some(0)
    else
      match FindChild(kids[1..], name)
      case None => None
      case Some(k) => Some(k + 1)
  }

  /** The empty root `build_file_tree` starts from. */
  const Root := TreeNode("/", [], false)

  /** One path's segments added under `node` as the comments intend: an
      existing directory is entered, an existing file ends the walk, and a
      missing segment becomes a new last child, a file when it is the last
      segment. */
  function AddPath(node: TreeNode, toks: seq<string>): (r: TreeNode)
    ensures r.name == node.name && r.isFile == node.isFile
    ensures |node.children| <= |r.children| <= |node.children| + 1
    decreases |toks|
  {
    if |toks| == 0 then node
    else
      match FindChild(node.children, toks[0])
      case Some(j) =>
        var c := node.children[j];
        if c.isFile then node
        else node.(children := node.children[j := AddPath(c, toks[1..])])
      case None =>
        var c := AddPath(TreeNode(toks[0], [], |toks| == 1), toks[1..]);
        node.(children := node.children + [c])
  }

  /** The loop of `build_file_tree` as written: the same walk, except that
      a new directory swallows the next segment. With one segment after it
      the tree simply lacks that segment; with two or more the next
      `strtok(NULL, "/")` reads a freed buffer, which is `None` here. */
  function AddPathAsWritten(node: TreeNode, toks: seq<string>): (r: Option<TreeNode>)
    ensures r.Some? ==> r.value.name == node.name && r.value.isFile == node.isFile
    decreases |toks|
  {
    if |toks| == 0 then Some(node)
    else
      match FindChild(node.children, toks[0])
      case Some(j) =>
        var c := node.children[j];
        if c.isFile then Some(node)
        else
          var c' :- AddPathAsWritten(c, toks[1..]);
          Some(node.(children := node.children[j := c']))
      case None =>
        if |toks| >= 3 then None
        else Some(node.(children := node.children + [TreeNode(toks[0], [], |toks| == 1)]))
  }

  /** `build_file_tree` over the report's files, with the intended walk. */
  function BuildTree(files: seq<string>): (r: TreeNode)
    ensures r.name == "/" && !r.isFile
  {
    AddAll(Root, files)
  }

  function AddAll(node: TreeNode, files: seq<string>): (r: TreeNode)
    ensures r.name == node.name && r.isFile == node.isFile
    decreases |files|
  {
    if |files| == 0 then node else AddAll(AddPath(node, PathTokens(files[0])), files[1..])
  }

  /** `build_file_tree` as written; `None` once a path has reached the
      undefined case. */
  function BuildTreeAsWritten(files: seq<string>): (r: Option<TreeNode>)
    ensures r.Some? ==> r.value.name == "/" && !r.value.isFile
  {
    AddAllAsWritten(Root, files)
  }

  function AddAllAsWritten(node: TreeNode, files: seq<string>): (r: Option<TreeNode>)
    ensures r.Some? ==> r.value.name == node.name && r.value.isFile == node.isFile
    decreases |files|
  {
    if |files| == 0 then Some(node)
    else
      match AddPathAsWritten(node, PathTokens(files[0]))
      case None => None
      case Some(n) => AddAllAsWritten(n, files[1..])
  }

  /** The node reached by following `toks` from `node`, first match at each
      level. */
  predicate Reaches(node: TreeNode, toks: seq<string>)
    decreases |toks|
  {
    |toks| == 0
    || match FindChild(node.children, toks[0])
       case None => false
       case Some(j) => Reaches(node.children[j], toks[1..])
  }

  /** No file stands where the walk would have to enter a directory. */
  predicate NoFileOnWay(node: TreeNode, toks: seq<string>)
    decreases |toks|
  {
    |toks| <= 1
    || match FindChild(node.children, toks[0])
       case None => true
       case Some(j) => !node.children[j].isFile && NoFileOnWay(node.children[j], toks[1..])
  }

  lemma FindAppended(kids: seq<TreeNode>, c: TreeNode)
    requires FindChild(kids, c.name).None?
    ensures FindChild(kids + [c], c.name) == Some(|kids|)
  {
    FindPlace(kids + [c], c.name, |kids|);
  }

  /** The first index with the name is what `FindChild` returns. */
  lemma {:induction false} FindPlace(kids: seq<TreeNode>, name: string, j: nat)
    requires j < |kids| && kids[j].name == name
    requires forall i :: 0 <= i < j ==> kids[i].name != name
    ensures FindChild(kids, name) == Some(j)
  {
    if j > 0 {
      assert kids[1..][j - 1].name == name;
      FindPlace(kids[1..], name, j - 1);
    }
  }

  lemma FindKept(kids: seq<TreeNode>, name: string, c: TreeNode)
    requires FindChild(kids, name).Some?
    ensures FindChild(kids + [c], name) == FindChild(kids, name)
  {
    FindPlace(kids + [c], name, FindChild(kids, name).value);
  }

  lemma FindUpdated(kids: seq<TreeNode>, name: string, j: nat, c: TreeNode)
    requires FindChild(kids, name).Some? && j < |kids| && c.name == kids[j].name
    ensures FindChild(kids[j := c], name) == FindChild(kids, name)
  {
    FindPlace(kids[j := c], name, FindChild(kids, name).value);
  }

  /** After adding a path its segments can be followed, unless a file
      stood in the way. */
  lemma {:induction false} AddPathReaches(node: TreeNode, toks: seq<string>)
    requires NoFileOnWay(node, toks)
    ensures Reaches(AddPath(node, toks), toks)
    decreases |toks|
  {
    if |toks| > 0 {
      var r := AddPath(node, toks);
      match FindChild(node.children, toks[0])
      case Some(j) =>
        var c := node.children[j];
        if !c.isFile {
          AddPathReaches(c, toks[1..]);
          FindUpdated(node.children, toks[0], j, AddPath(c, toks[1..]));
        }
      case None =>
        var leaf := TreeNode(toks[0], [], |toks| == 1);
        LeafHasNoFile(leaf, toks[1..]);
        AddPathReaches(leaf, toks[1..]);
        FindAppended(node.children, AddPath(leaf, toks[1..]));
    }
  }

  lemma LeafHasNoFile(leaf: TreeNode, toks: seq<string>)
    requires leaf.children == []
    ensures NoFileOnWay(leaf, toks)
  {
  }

  /** Adding a path keeps every path the tree already had. */
  lemma {:induction false} AddPathKeeps(node: TreeNode, toks: seq<string>, old_: seq<string>)
    requires Reaches(node, old_)
    ensures Reaches(AddPath(node, toks), old_)
    decreases |toks|
  {
    if |toks| > 0 && |old_| > 0 {
      var i := FindChild(node.children, old_[0]).value;
      match FindChild(node.children, toks[0])
      case Some(j) =>
        var c := node.children[j];
        if !c.isFile {
          var c' := AddPath(c, toks[1..]);
          FindUpdated(node.children, old_[0], j, c');
          if i == j {
            AddPathKeeps(c, toks[1..], old_[1..]);
          }
        }
      case None =>
        FindKept(node.children, old_[0], AddPath(TreeNode(toks[0], [], |toks| == 1), toks[1..]));
    }
  }

  /** Adding more paths keeps every path the tree already had. */
  lemma {:induction false} AddAllKeeps(node: TreeNode, files: seq<string>, old_: seq<string>)
    requires Reaches(node, old_)
    ensures Reaches(AddAll(node, files), old_)
    decreases |files|
  {
    if |files| > 0 {
      AddPathKeeps(node, PathTokens(files[0]), old_);
      AddAllKeeps(AddPath(node, PathTokens(files[0])), files[1..], old_);
    }
  }

  lemma {:induction false} AddAllSplit(node: TreeNode, files: seq<string>, i: nat)
    requires i <= |files|
    ensures AddAll(node, files) == AddAll(AddAll(node, files[..i]), files[i..])
    decreases i
  {
    if i > 0 {
      assert files[..i][0] == files[0];
      assert files[..i][1..] == files[1..][..i - 1];
      assert files[i..] == files[1..][i - 1..];
      AddAllSplit(AddPath(node, PathTokens(files[0])), files[1..], i - 1);
    }
  }

  /** Every file of the report can be followed in the finished tree, unless
      a file stood on its way when it was added. */
  lemma BuildTreeReaches(files: seq<string>, i: nat)
    requires i < |files| && NoFileOnWay(BuildTree(files[..i]), PathTokens(files[i]))
    ensures Reaches(BuildTree(files), PathTokens(files[i]))
  {
    var t := AddAll(Root, files[..i]);
    var toks := PathTokens(files[i]);
    AddAllSplit(Root, files, i);
    AddPathReaches(t, toks);
    assert files[i..][0] == files[i] && files[i..][1..] == files[i + 1..];
    AddAllKeeps(AddPath(t, toks), files[i + 1..], toks);
  }

  /** Where every directory of the path already exists, the code as
      written does what was intended. */
  lemma {:induction false} AsWrittenOnKnownDirs(node: TreeNode, toks: seq<string>)
    requires |toks| >= 1 && Reaches(node, toks[..|toks| - 1]) && NoFileOnWay(node, toks)
    ensures AddPathAsWritten(node, toks) == Some(AddPath(node, toks))
    decreases |toks|
  {
    match FindChild(node.children, toks[0])
    case Some(j) =>
      var c := node.children[j];
      if !c.isFile {
        if |toks| == 1 {
          assert node.children[j := c] == node.children;
        } else {
          assert toks[..|toks| - 1][1..] == toks[1..][..|toks[1..]| - 1];
          AsWrittenOnKnownDirs(c, toks[1..]);
        }
      }
    case None =>
  }

  /** A path "d/f" under a directory that is not there yet. */
  predicate TwoSegments(d: string, f: string) {
    d != "" && f != "" && '/' !in d && '/' !in f
  }

  lemma TwoTokens(d: string, f: string)
    requires TwoSegments(d, f)
    ensures PathTokens(d + "/" + f) == [d, f]
  {
    TokensOfJoin([d, f]);
    assert Join([d, f], "/") == d + "/" + f;
  }

  lemma ThreeTokens(d: string, e: string, f: string)
    requires TwoSegments(d, e) && TwoSegments(e, f)
    ensures PathTokens(d + "/" + e + "/" + f) == [d, e, f]
  {
    var segs := [d, e, f];
    TokensOfJoin(segs);
    assert segs[1..] == [e, f];
    assert [e, f][1..] == [f];
    assert Join([f], "/") == f;
    var tail := Join([e, f], "/");
    assert tail == e + "/" + f;
    assert Join(segs, "/") == d + "/" + tail;
    assert d + "/" + tail == d + "/" + e + "/" + f;
  }

  /** As written, the first file under a new directory is lost: the
      directory is created empty and "d/f" cannot be followed. */
  lemma AsWrittenDropsFile(d: string, f: string)
    requires TwoSegments(d, f)
    ensures BuildTreeAsWritten([d + "/" + f]) == Some(TreeNode("/", [TreeNode(d, [], false)], false))
    ensures !Reaches(BuildTreeAsWritten([d + "/" + f]).value, [d, f])
  {
    var x := d + "/" + f;
    TwoTokens(d, f);
    var t := TreeNode("/", [TreeNode(d, [], false)], false);
    assert Root.children + [TreeNode(d, [], false)] == t.children;
    assert AddPathAsWritten(Root, PathTokens(x)) == Some(t);
    assert [x][1..] == [];
    assert AddAllAsWritten(Root, [x]) == AddAllAsWritten(t, []);
    assert FindChild(t.children, d) == Some(0);
    assert [d, f][1..] == [f];
    assert !Reaches(t.children[0], [f]);
  }

  /** A third segment after a new directory leaves `strtok` on freed
      memory. */
  lemma AsWrittenUndefined(d: string, e: string, f: string)
    requires TwoSegments(d, e) && TwoSegments(e, f)
    ensures BuildTreeAsWritten([d + "/" + e + "/" + f]).None?
  {
    ThreeTokens(d, e, f);
    assert FindChild(Root.children, d).None?;
    assert AddPathAsWritten(Root, [d, e, f]).None?;
  }

  /** The intended walk keeps the file. */
  lemma BuildKeepsFile(d: string, f: string)
    requires TwoSegments(d, f)
    ensures Reaches(BuildTree([d + "/" + f]), [d, f])
  {
    var x := d + "/" + f;
    TwoTokens(d, f);
    assert [x][1..] == [];
    assert AddAll(Root, [x]) == AddAll(AddPath(Root, PathTokens(x)), []);
    LeafHasNoFile(Root, [d, f]);
    AddPathReaches(Root, [d, f]);
  }
}

=== FILE: tui_animations.dfy ===
/** three-pane-tui/animations/animations.c: the state of a file-name
    animation in the three-pane TUI and the row its scrolling variant draws.
    The clock (`time(NULL)`) is a parameter. The display width of the file
    name comes from `get_string_display_width`, which is not part of this
    model: it is a parameter too. A NULL pointer is None. */
module TuiAnimations {
  import opened Wrappers

  /** `animation_type_t`: only the scrolling kind is told apart. */
  datatype AnimKind = ScrollLeftRight | OtherKind

  /** The fields of `animation_state_t` the functions read and write. The
      scroll position only ever grows from 0, so it is a `nat` (wrap-around
      at `INT_MAX` is not modelled). */
  datatype AnimState = AnimState(kind: AnimKind, filepath: string, startTime: int, endTime: int,
                                 scroll: nat, paneWidth: int)

  /** How long an animation lives, in seconds. */
  const Duration := 30

  /** `create_animation_state`: nothing for a NULL path; otherwise the
      animation starts now, ends `Duration` seconds later and has not
      scrolled. */
  function CreateAnimationState(path: Option<string>, kind: AnimKind, paneWidth: int, now: int)
    : (r: Option<AnimState>)
    ensures r.None? <==> path.None?
    ensures r.Some? ==> r.value.filepath == path.value && r.value.kind == kind
                        && r.value.startTime == now && r.value.endTime == now + Duration
                        && r.value.scroll == 0 && r.value.paneWidth == paneWidth
  {
    match path
    case None => None
    case Some(p) => Some(AnimState(kind, p, now, now + Duration, 0, paneWidth))
  }

  /** `update_animation_state`: records the pane width and moves a
      scrolling animation one column; nothing else changes. */
  function UpdateAnimationState(a: Option<AnimState>, paneWidth: int): (r: Option<AnimState>)
    ensures r.None? <==> a.None?
    ensures r.Some? ==> r.value.paneWidth == paneWidth
    ensures r.Some? ==> r.value.scroll == if a.value.kind == ScrollLeftRight then a.value.scroll + 1 else a.value.scroll
    ensures r.Some? ==> r.value.(paneWidth := a.value.paneWidth, scroll := a.value.scroll) == a.value
  {
    match a
    case None => None
    case Some(s) =>
      Some(s.(paneWidth := paneWidth, scroll := if s.kind == ScrollLeftRight then s.scroll + 1 else s.scroll))
  }

  /** `is_animation_expired`: a missing animation is expired; otherwise once
      the clock reaches its end time. */
  function IsExpired(a: Option<AnimState>, now: int): (r: bool)
    ensures a.None? ==> r
    ensures a.Some? ==> (r <==> now >= a.value.endTime)
  {
    match a
    case None => true
    case Some(s) => now >= s.endTime
  }

  /** An animation created at `t0` and updated any number of times expires
      exactly from `t0 + Duration` on. */
  lemma {:induction false} ExpiresAfterDuration(path: string, kind: AnimKind, width: int, t0: int,
                                                widths: seq<int>, now: int)
    ensures IsExpired(Updated(CreateAnimationState(Some(path), kind, width, t0), widths), now)
            <==> now >= t0 + Duration
    decreases |widths|
  {
    if |widths| > 0 {
      UpdatesKeepEnd(CreateAnimationState(Some(path), kind, width, t0), widths);
    }
  }

  /** The animation after one update per entry of `widths`, in order. */
  function Updated(a: Option<AnimState>, widths: seq<int>): Option<AnimState>
    decreases |widths|
  {
    if |widths| == 0 then a else Updated(UpdateAnimationState(a, widths[0]), widths[1..])
  }

  lemma {:induction false} UpdatesKeepEnd(a: Option<AnimState>, widths: seq<int>)
    ensures Updated(a, widths).None? <==> a.None?
    ensures a.Some? ==> Updated(a, widths).value.endTime == a.value.endTime
    decreases |widths|
  {
    if |widths| > 0 {
      UpdatesKeepEnd(UpdateAnimationState(a, widths[0]), widths[1..]);
    }
  }

  /** What column `col` of the row shows when the text starts at column
      `start`: the text's byte there, a space outside the text, and nothing
      where the display width runs past the bytes. */
  function Cell(path: string, textWidth: int, start: int, col: int): string {
    var pos := col - start;
    if 0 <= pos < textWidth then (if pos < |path| then [path[pos]] else "") else " "
  }

  /** The cells of columns `0 .. n-1`, left to right. */
  function Cells(path: string, textWidth: int, start: int, n: nat): string {
    if n == 0 then "" else Cells(path, textWidth, start, n - 1) + Cell(path, textWidth, start, n - 1)
  }

  /** When the display width is the byte length, every column draws exactly
      one character: the text's byte inside the text, a space outside. */
  lemma {:induction false} CellsExact(path: string, start: int, n: nat)
    ensures |Cells(path, |path|, start, n)| == n
    ensures forall c :: 0 <= c < n ==>
              Cells(path, |path|, start, n)[c] == if 0 <= c - start < |path| then path[c - start] else ' '
  {
    if n > 0 {
      CellsExact(path, start, n - 1);
    }
  }

  /** Where the text starts in the pane: it enters at the right, moves one
      column per step and leaves at the left. */
  function DisplayStart(scroll: nat, textWidth: nat, available: int): int
    requires available > 0
  {
    scroll % (available + textWidth) - textWidth
  }

  /** The start column always lies in `[-textWidth, available)`, so the
      off-screen check of `render_scroll_left_right` never fires. */
  lemma DisplayStartInRange(scroll: nat, textWidth: nat, available: int)
    requires available > 0
    ensures 0 <= DisplayStart(scroll, textWidth, available) + textWidth
    ensures DisplayStart(scroll, textWidth, available) < available
  {
  }

  /** `render_scroll_left_right` as the row it draws after the padding
      column, None when it draws nothing. The display width is not
      negative. */
  function RenderScroll(a: AnimState, textWidth: nat, width: int): (r: Option<string>)
    ensures r.None? <==> width - 2 <= 0
  {
    var available := width - 2;
    if available <= 0 then None
    else
      var start := DisplayStart(a.scroll, textWidth, available);
      DisplayStartInRange(a.scroll, textWidth, available);
      if start + textWidth < 0 || start >= available then None
      else Some(Cells(a.filepath, textWidth, start, available))
  }

  /** With the display width equal to the byte length the row has exactly
      the pane's inner width. */
  lemma RenderFillsPane(a: AnimState, width: int)
    requires width > 2
    ensures |RenderScroll(a, |a.filepath|, width).value| == width - 2
  {
    CellsExact(a.filepath, DisplayStart(a.scroll, |a.filepath|, width - 2), width - 2);
  }

  /** The scroll loops: one whole cycle later the row is the same again. */
  lemma ScrollLoops(a: AnimState, textWidth: nat, width: int)
    requires width > 2
    ensures RenderScroll(a.(scroll := a.scroll + (width - 2 + textWidth)), textWidth, width)
            == RenderScroll(a, textWidth, width)
  {
    ModPlusDivisor(a.scroll, width - 2 + textWidth);
  }

  lemma ModPlusDivisor(x: nat, m: int)
    requires m > 0
    ensures (x + m) % m == x % m
  {
    var a, b := (x + m) / m, x / m;
    assert x + m == a * m + (x + m) % m;
    assert x == b * m + x % m;
    assert (a - b - 1) * m == x % m - (x + m) % m;
    var k := a - b - 1;
    if k >= 1 {
      MulAtLeast(k, m);
    } else if k <= -1 {
      MulAtLeast(-k, m);
    }
  }

  lemma MulAtLeast(k: int, m: int)
    requires k >= 1 && m > 0
    ensures k * m >= m
  {
  }
}

=== FILE: tui_ui.dfy ===
/** three-pane-tui/ui/ui.c: how the three-pane TUI splits the terminal into
    panes and how `draw_pane` fits an item into its pane. Drawing is left
    out; what is modelled is the column arithmetic and the text each item is
    printed as. Strings are byte strings: each `char` stands for one byte of
    the UTF-8 text, so the tree marker "├── " is ten of them. */
module TuiUi {
  import opened Wrappers
  import opened Text

  /** One pane: its first column and its width. */
  datatype Pane = Pane(startCol: int, width: int)

  /** The panes `draw_tui_overlay` draws for a terminal `width` columns
      wide: a third each, the remainder going to the right pane, one column
      before each border. */
  function Layout(width: nat): (r: seq<Pane>)
    ensures |r| == 3
    ensures r[0].startCol == 1 && r[1].startCol == width / 3 + 1 && r[2].startCol == 2 * (width / 3) + 1
    ensures r[0].width == width / 3 - 1 && r[1].width == width / 3 - 1
    ensures r[2].width == width / 3 + width % 3 - 1
  {
    var pw := width / 3;
    [Pane(1, pw - 1), Pane(pw + 1, pw - 1), Pane(2 * pw + 1, pw + width % 3 - 1)]
  }

  /** The panes tile the screen: each pane is followed by one border
      column and the next pane, and the right pane ends at the last
      column. */
  lemma LayoutTiles(width: nat)
    ensures var r := Layout(width);
            r[0].startCol + r[0].width + 1 == r[1].startCol
            && r[1].startCol + r[1].width + 1 == r[2].startCol
            && r[2].startCol + r[2].width == width
  {
  }

  /** The items `draw_pane` gets to: rows 4 to `3 + height`, one item each,
      so a prefix of at most `height` items. */
  function VisibleItems(items: seq<string>, height: int): (r: seq<string>)
    ensures IsPrefixSeq(r, items)
    ensures |r| == if height <= 0 then 0 else if height < |items| then height else |items|
  {
    if height <= 0 then [] else if height < |items| then items[..height] else items
  }

  predicate IsPrefixSeq(a: seq<string>, b: seq<string>) {
    |a| <= |b| && a == b[..|a|]
  }

  /** "├── " as its UTF-8 bytes: a three-byte box character, two three-byte
      line characters and a space. */
  const Marker: string := ['\U{E2}', '\U{94}', '\U{9C}', '\U{E2}', '\U{94}', '\U{80}',
                           '\U{E2}', '\U{94}', '\U{80}', ' ']

  /** `snprintf("%.*s", n, s)`: a negative precision counts as none. */
  function Precision(s: string, n: int): (r: string)
    ensures n < 0 ==> r == s
    ensures n >= 0 ==> r == Take(s, n)
  {
    if n < 0 then s else Take(s, n)
  }

  /** `snprintf` into `char buf[size]`: at most `size - 1` bytes. */
  function Bounded(s: string, size: nat): (r: string)
    requires size > 0
    ensures r == Take(s, size - 1)
  {
    Take(s, size - 1)
  }

  /** The fallback "%.*s..." of `draw_pane`. */
  function CutEnd(text: string, maxWidth: int): string {
    Precision(text, maxWidth - 3) + "..."
  }

  /** Whether `draw_pane` truncates: `strlen(text) > max_text_width`
      compares as unsigned, so a negative width never truncates. */
  predicate TooLong(text: string, maxWidth: int) {
    maxWidth >= 0 && |text| > maxWidth
  }

  /** The text `draw_pane` prints for `text` in a pane `width` wide, None
      where it reads past the end of the text (a text without the marker,
      too long for a margin narrower than three bytes). As written, a tree
      entry keeps only four bytes of the marker, counting "├── " as four
      bytes where UTF-8 spends ten. */
  function FitText(text: string, width: int): (r: Option<string>)
    ensures !TooLong(text, width - 2) ==> r == Some(text)
  {
    FitTextSkipping(text, width, 4)
  }

  /** `draw_pane` as evidently intended: a tree entry keeps the whole
      marker before the name. */
  function FitTextFixed(text: string, width: int): (r: Option<string>)
    ensures !TooLong(text, width - 2) ==> r == Some(text)
  {
    FitTextSkipping(text, width, |Marker|)
  }

  /** `draw_pane` with `skip` bytes of the marker kept before the name. */
  function FitTextSkipping(text: string, width: int, skip: nat): (r: Option<string>)
    requires skip <= |Marker|
  {
    var maxWidth := width - 2;
    if !TooLong(text, maxWidth) then Some(text)
    else
      match Find(text, Marker)
      case Some(m) => Some(Bounded(FitTree(text, m + skip, maxWidth), 1024))
      case None =>
        // `start_pos` exceeds 3 here, so the C fallback for `start_pos <= 0`
        // cannot be reached.
        var startPos := |text| - (maxWidth - 3);
        if startPos > |text| then None
        else Some(Bounded("..." + text[startPos..], 1024))
  }

  /** The tree-entry branch: `prefixLen` bytes are kept (at most 31 fit the
      `preserved_prefix` buffer), then the name after them whole when it
      fits, else "..." and the name's tail. */
  function FitTree(text: string, prefixLen: nat, maxWidth: int): string
    requires prefixLen <= |text|
  {
    var preserved := Bounded(Precision(text, prefixLen), 32);
    var available := maxWidth - prefixLen - 3;
    if available > 0 then
      var nameLen := |text| - prefixLen;
      // A name too long for `available` leaves `show_from > 0`, so the C
      // fallback for `show_from <= 0` cannot be reached.
      if nameLen <= available then preserved + text[prefixLen..]
      else preserved + "..." + text[prefixLen + (nameLen - available)..]
    else CutEnd(text, maxWidth)
  }

  /** A long entry without the marker becomes "..." and its last
      `maxWidth - 3` bytes: exactly `maxWidth` bytes. */
  lemma PlainFits(text: string, width: int)
    requires TooLong(text, width - 2) && Find(text, Marker).None?
    requires 3 <= width - 2 <= 1023
    ensures var r := FitText(text, width).value;
            |r| == width - 2 && r == "..." + text[|text| - (width - 5)..]
  {
  }

  /** A long tree entry with room for the kept prefix and "..." keeps its
      prefix up to four bytes into the marker (when that fits the 32-byte
      buffer) and never exceeds the pane's text width. */
  lemma TreeFits(text: string, width: int)
    requires TooLong(text, width - 2) && Find(text, Marker).Some?
    requires Find(text, Marker).value + 4 <= 31
    requires Find(text, Marker).value + 4 + 3 < width - 2 <= 1023
    ensures var m := Find(text, Marker).value;
            var r := FitText(text, width).value;
            |r| <= width - 2 && IsPrefix(text[..m + 4], r)
  {
    var m := Find(text, Marker).value;
    assert Bounded(Precision(text, m + 4), 32) == text[..m + 4];
  }

  /** Without room for the kept prefix and "...", a tree entry is cut at
      the end like any other text: its first `maxWidth - 3` bytes and
      "...". */
  lemma TreeNarrow(text: string, width: int)
    requires TooLong(text, width - 2) && Find(text, Marker).Some?
    requires 3 <= width - 2 <= Find(text, Marker).value + 4 + 3 && width - 2 <= 1023
    ensures var r := FitText(text, width).value;
            |r| == width - 2 && r == text[..width - 5] + "..."
  {
    var maxWidth := width - 2;
    assert FitTree(text, Find(text, Marker).value + 4, maxWidth) == CutEnd(text, maxWidth);
    assert CutEnd(text, maxWidth) == text[..width - 5] + "...";
  }

  /** As written, a tree entry whose name is cut keeps four bytes of the
      marker and then "...": the lead byte of the first line character is
      followed by '.', not by the continuation bytes UTF-8 requires. */
  lemma TreeCutSplitsCharacter(text: string, width: int)
    requires TooLong(text, width - 2) && Find(text, Marker).Some?
    requires Find(text, Marker).value + 4 <= 31
    requires Find(text, Marker).value + 4 + 3 < width - 2 <= 1023
    ensures var m := Find(text, Marker).value;
            var r := FitText(text, width).value;
            m + 4 < |r| && r[m + 3] == '\U{E2}' && r[m + 4] == '.'
  {
    var m := Find(text, Marker).value;
    assert text[m + 3] == text[m..m + |Marker|][3];
    assert Bounded(Precision(text, m + 4), 32) == text[..m + 4];
  }

  /** As evidently intended: a long tree entry with room for the marker and
      "..." keeps everything up to and including the whole marker (when that
      fits the 32-byte buffer), then "..." and the tail of the name, filling
      the pane's text width exactly. (A name that fits whole would have
      made the text fit, so a truncated entry always shows "...".) */
  lemma FixedTreeKeepsMarker(text: string, width: int)
    requires TooLong(text, width - 2) && Find(text, Marker).Some?
    requires Find(text, Marker).value + |Marker| <= 31
    requires Find(text, Marker).value + |Marker| + 3 < width - 2 <= 1023
    ensures var p := Find(text, Marker).value + |Marker|;
            var r := FitTextFixed(text, width).value;
            |r| == width - 2 && IsSuffix(Marker, r[..p]) && IsPrefix(text[..p], r)
            && IsPrefix("...", r[p..]) && IsSuffix(r[p + 3..], text)
  {
    var m := Find(text, Marker).value;
    var p := m + |Marker|;
    var maxWidth := width - 2;
    var available := maxWidth - p - 3;
    assert Bounded(Precision(text, p), 32) == text[..p];
    var t := FitTree(text, p, maxWidth);
    assert FitTextFixed(text, width).value == Take(t, 1023);
    var tail := text[p + (|text| - p - available)..];
    assert t == text[..p] + "..." + tail;
    assert t[..p] == text[..p] && t[p..][..3] == "..." && t[p + 3..] == tail;
    assert text[..p][m..] == text[m..m + |Marker|];
  }
}

=== FILE: watch_events.dfy ===
/** The event records the Python watchers exchange: watchdog's
    `FileSystemEvent` as the handlers receive it, and the `FileChangeEvent`
    dataclass the two watcher modules each declare with the same fields. */
module WatchEvents {

  /** `event_type`, `src_path`, `dest_path` (moves only) and `is_directory`. */
  datatype FsEvent = FsEvent(eventType: string, srcPath: string, destPath: string, isDirectory: bool)

  /** `FileChangeEvent(event_type, file_path, is_directory, timestamp)`. */
  datatype ChangeEvent = ChangeEvent(eventType: string, filePath: string, isDirectory: bool, timestamp: int)
}

=== FILE: wrappers.dfy ===
/** Failure-compatible wrappers used across the model: `Option` stands for a
    C NULL or a Python None, `Result` for a Python exception or a C error code. */
module Wrappers {

  /** A value that may be missing. */
  datatype Option<+T> = None | Some(value: T) {

    predicate IsFailure() {
      None?
    }

    function PropagateFailure<U>(): Option<U>
      requires None?
    {
      None
    }

    function Extract(): T
      requires Some?
    {
      value
    }

    /** The carried value, or `fallback` when there is none. */
    function GetOr(fallback: T): T {
      match this
      case Some(v) => v
      case None => fallback
    }
  }

  /** A computation that either produced a value or raised an error. */
  datatype Result<+R, +E> = Ok(value: R) | Err(error: E) {

    predicate IsFailure() {
      Err?
    }

    function PropagateFailure<U>(): Result<U, E>
      requires Err?
    {
      Err(error)
    }

    function Extract(): R
      requires Ok?
    {
      value
    }
  }

  /** `f` applied to every element, in order; None as soon as one
      application fails (a loop whose first exception escapes). */
  function AllSome<A, B>(f: A -> Option<B>, xs: seq<A>): Option<seq<B>>
    decreases |xs|
  {
    if |xs| == 0 then Some([])
    else
      match f(xs[0])
      case None => None
      case Some(y) =>
        match AllSome(f, xs[1..])
        case None => None
        case Some(ys) => Some([y] + ys)
  }

  /** The whole run succeeds exactly when every application does. */
  lemma {:induction false} AllSomeSucceeds<A, B>(f: A -> Option<B>, xs: seq<A>)
    ensures AllSome(f, xs).Some? <==> forall i :: 0 <= i < |xs| ==> f(xs[i]).Some?
    decreases |xs|
  {
    if |xs| > 0 {
      AllSomeSucceeds(f, xs[1..]);
      assert forall i :: 1 <= i < |xs| ==> xs[i] == xs[1..][i - 1];
    }
  }

  /** A successful run has one result per element, in order. */
  lemma {:induction false} AllSomeValues<A, B>(f: A -> Option<B>, xs: seq<A>)
    requires AllSome(f, xs).Some?
    ensures |AllSome(f, xs).value| == |xs|
    ensures forall i :: 0 <= i < |xs| ==> Some(AllSome(f, xs).value[i]) == f(xs[i])
    decreases |xs|
  {
    if |xs| > 0 {
      var t := AllSome(f, xs[1..]);
      AllSomeValues(f, xs[1..]);
      var r := [f(xs[0]).value] + t.value;
      assert AllSome(f, xs).value == r;
      forall i | 1 <= i < |xs|
        ensures Some(r[i]) == f(xs[i])
      {
        assert r[i] == t.value[i - 1] && xs[i] == xs[1..][i - 1];
      }
    }
  }

  /** A single element maps to its own result. */
  lemma AllSomeOne<A, B>(f: A -> Option<B>, x: A)
    requires f(x).Some?
    ensures AllSome(f, [x]) == Some([f(x).value])
  {
    assert [x][1..] == [];
    assert [f(x).value] + [] == [f(x).value];
  }
}
